=== FILE: README.md ===
# structz in Dafny

A model of the container templates of the structz C++ library, with
proofs about the model. It covers:

- the singly linked lists: `LinkedList` in include/linked_list.h, and the
  two earlier `LinkedList`s in src/linked_list.h and src/linked_list.hpp;
- `Stack`, `DoublyLinkedList` and `CircularList`;
- the growable arrays `Vec` (include/vec.h) and `Vector` (src/vector.hpp);
- the ring-buffer `Queue` and the `BinaryHeap`;
- the separate-chaining `HashMap` and the lowercase `Trie`;
- the search trees: `BSTree`, `AvlTree`, `RedBlackTree` and the order-`M`
  `BTree`.

Every container is an immutable Dafny value, and every mutating member
function is a Dafny function from the old value to the new one. Its result
is wrapped in `Result` where the C++ code throws or has undefined
behaviour. The `Error` values are:

- `OutOfRange` for `std::out_of_range`;
- `RuntimeError` for `std::runtime_error`;
- `Thrown` for a thrown string literal;
- `Undefined` where the C++ code reads through a null or dangling pointer
  or writes past an allocation.

Each container is given a meaning:

- a list, stack or vector means the sequence of its elements;
- a queue means the sequence between `head` and `tail` of its ring;
- a heap means the multiset of its array;
- a map-like container means a Dafny `map` from keys to values.

Every operation is specified against that meaning. Trees are generic in
the key type. Their comparator `cmp` is required to be a strict total
order, so that the code's `==` on keys is the equivalence the order
induces. The heap's comparator is required to be a strict weak order.

The B-tree node is `Node(entries, children)`. A leaf holds
`|entries| + 1` `Nil` children, matching the source's null child slots.
Its in-order reading (`Flat`) is the entry sequence. The tree's
invariants are these:

- the order `m` is at least 3;
- all leaves lie at one depth;
- the root holds 1 to `m - 1` entries, and every other node holds
  `ceil(m/2) - 1` to `m - 1`;
- `Flat` ascends strictly by key;
- `size` equals the number of entries.

Insertion and removal are proved against reference functions on the
sorted entry sequence (`InsertSorted`, `RemoveKey`).

Two B-tree remove defects are modelled as written in module
`BTreeRemoveAsWritten`, beside the corrected `BTreeRemove`. The other
defects found (see "Findings") follow the same pattern inside their own
modules.

## Model

| member | source | states |
|---|---|---|
| Stack.EmptyHolds | include/stack.h:24 | a new stack holds nothing |
| Stack.IsEmpty | include/stack.h:79-81 | true exactly when the stack holds nothing |
| Stack.Push | include/stack.h:52-54 | the new element sits on top of the old contents |
| Stack.Pop | include/stack.h:56-63 | fails with a runtime error exactly on an empty stack; otherwise returns the top and leaves the rest |
| Stack.Top | include/stack.h:65-77 | fails with a runtime error exactly on an empty stack; otherwise the first element |
| Stack.PopPush | include/stack.h:52-63 | pop undoes push and returns the pushed value; top after push is that value |
| Stack.PushAllReverses | include/stack.h:52-54 | pushing a sequence one by one leaves it reversed on top (last in, first out) |
| Stack.Move | include/stack.h:38-40 | the moved-to stack holds the old contents, the moved-from one is empty |
| LinkedList.EmptyHolds | include/linked_list.h:99 | a new list is consistent and empty |
| LinkedList.Size | include/linked_list.h:240-242 | the stored size is the number of reachable nodes |
| LinkedList.IsEmpty | include/linked_list.h:236-238 | true exactly when no element is held |
| LinkedList.Front | include/linked_list.h:126-138 | runtime error exactly when empty, else the first element |
| LinkedList.Back | include/linked_list.h:140-162 | runtime error exactly when empty, else the last element |
| LinkedList.PushFront | include/linked_list.h:164-167 | the element is prepended and size stays consistent |
| LinkedList.PushBack | include/linked_list.h:169-177 | the element is appended and size stays consistent |
| LinkedList.PopFront | include/linked_list.h:179-191 | runtime error exactly when empty; otherwise first element plus the rest give back the old contents |
| LinkedList.PopBack | include/linked_list.h:193-210 | runtime error exactly when empty; otherwise the rest plus the last element give back the old contents |
| LinkedList.At | include/linked_list.h:212-234 | out_of_range exactly for indices at or past the size, else the element at that index |
| LinkedList.Clear | include/linked_list.h:244-255 | the list becomes consistent and empty |
| LinkedList.Copy | include/linked_list.h:101-111 | the copy loop yields a consistent list with the same elements and size (loop invariant: copied prefix plus the rest of the walk is the original) |
| LinkedList.Move | include/linked_list.h:113-116 | the moved-to list holds the contents, the moved-from one is empty |
| LinkedList.Reverse | include/linked_list.h:261-278 | the contents come out in reverse order |
| LinkedList.PushPopBack | include/linked_list.h:169-210 | pop_back undoes push_back and returns the pushed value |
| LinkedList.PushPopFront | include/linked_list.h:164-191 | pop_front undoes push_front |
| LinkedList.AtAfterPushFront | include/linked_list.h:164-234 | after push_front, index 0 is the new element and index i+1 is the old index i |
| LinkedList.EndsAreIndices | include/linked_list.h:126-234 | front and back agree with indexing at 0 and size-1 |
| Chains.Reverse | include/linked_list.h:261-278 | relinking the chain in place yields the reversed item sequence |
| SrcLinkedList.EmptyHolds | src/linked_list.h:27 | a new list is consistent and empty |
| SrcLinkedList.Size | src/linked_list.h:70-72 | the stored size is the element count |
| SrcLinkedList.IsEmpty | src/linked_list.h:74-76 | true exactly when no element is held |
| SrcLinkedList.Front | src/linked_list.h:56-68 | runtime error exactly when empty, else the first element |
| SrcLinkedList.PushFront | src/linked_list.h:78-81 | the element is prepended and size stays consistent |
| SrcLinkedList.At | src/linked_list.h:89-111 | out_of_range exactly past the end, else the indexed element |
| SrcLinkedList.AtAfterPushFront | src/linked_list.h:78-111 | indexing after push_front shifts by one and index 0 is the front |
| SrcLinkedList.Copy | src/linked_list.h:29-39 | the copy is consistent and holds the same elements |
| SrcLinkedList.Move | src/linked_list.h:41-44 | the moved-to list holds the contents, the moved-from one is empty |
| SrcLinkedListHpp.EmptyHolds | src/linked_list.hpp:42 | a new list is consistent and empty |
| SrcLinkedListHpp.SizeCounts | src/linked_list.hpp:76-92 | size is the element count and grows by one on prepend; the copy as written keeps the size with no elements |
| SrcLinkedListHpp.IsEmpty | src/linked_list.hpp:81-83 | true exactly when no element is held |
| SrcLinkedListHpp.Prepend | src/linked_list.hpp:87-92 | the element is prepended and size stays consistent |
| SrcLinkedListHpp.GetAt | src/linked_list.hpp:95-122 | throws exactly when the index reaches the stored size; below it, the indexed element if the chain is that long, else a null dereference |
| SrcLinkedListHpp.GetAtValid | src/linked_list.hpp:95-122 | on a consistent list get_at succeeds exactly for indices below the length and returns the element there |
| SrcLinkedListHpp.CopyAsWritten | src/linked_list.hpp:45-55 | the copy constructor as written keeps the size but no nodes |
| SrcLinkedListHpp.CopyAsWrittenLosesElements | src/linked_list.hpp:45-55 | copying a one-element list and reading index 0 dereferences null |
| SrcLinkedListHpp.Copy | src/linked_list.hpp:45-55 | the intended copy is consistent with the same elements |
| SrcLinkedListHpp.CopyGetAt | src/linked_list.hpp:45-122 | the intended copy answers every get_at as the original does |
| SrcLinkedListHpp.Move | src/linked_list.hpp:58-62 | the moved-to list holds the contents, the moved-from one is empty |
| DoublyLinkedList.EmptyHolds | include/doubly_linked_list.h:212 | a new list is empty with a null tail |
| DoublyLinkedList.Front | include/doubly_linked_list.h:221-233 | runtime error exactly when empty, else the first element |
| DoublyLinkedList.Back | include/doubly_linked_list.h:235-247 | runtime error exactly for a null tail, undefined exactly for a dangling tail, else the last element |
| DoublyLinkedList.PushFront | include/doubly_linked_list.h:249-262 | the element is prepended and a healthy tail stays healthy |
| DoublyLinkedList.PushBack | include/doubly_linked_list.h:264-277 | undefined exactly through a dangling tail; otherwise appends and leaves the tail healthy |
| DoublyLinkedList.PopFront | include/doubly_linked_list.h:279-295 | runtime error exactly when empty; otherwise first element plus the rest give back the contents |
| DoublyLinkedList.PopBack | include/doubly_linked_list.h:297-313 | runtime error for a null tail, undefined for a dangling one; otherwise the rest plus the last element give back the contents |
| DoublyLinkedList.RemoveAsWritten | include/doubly_linked_list.h:315-333 | out_of_range exactly past the end; otherwise the element is unlinked, and removing the last element leaves the tail dangling |
| DoublyLinkedList.RemoveLastThenBack | include/doubly_linked_list.h:235-333 | on a two-element list, back after removing index 1 is undefined as written and the first element when corrected |
| DoublyLinkedList.Remove | include/doubly_linked_list.h:315-333 | the intended remove: same contents as written, and a healthy list stays healthy |
| DoublyLinkedList.RemoveAgreesOnItems | include/doubly_linked_list.h:315-333 | the written and intended removes always agree on the contents, and agree entirely unless the last element is removed |
| DoublyLinkedList.At | include/doubly_linked_list.h:335-357 | out_of_range exactly past the end, else the indexed element |
| DoublyLinkedList.Clear | include/doubly_linked_list.h:367-379 | the list becomes empty with a null tail |
| DoublyLinkedList.Reverse | include/doubly_linked_list.h:381-403 | the contents are reversed; undefined only when a non-empty list has a dangling tail |
| DoublyLinkedList.ReverseTwice | include/doubly_linked_list.h:381-403 | reversing a healthy list twice gives it back |
| DoublyLinkedList.HealthyBack | include/doubly_linked_list.h:235-357 | on a healthy list back succeeds exactly when non-empty and agrees with the last index |
| DoublyLinkedList.PushPopBack | include/doubly_linked_list.h:264-313 | on a healthy list pop_back undoes push_back |
| DoublyLinkedList.FrontIsFirst | include/doubly_linked_list.h:221-357 | front succeeds exactly when index 0 does and returns the same element |
| DoublyLinkedList.PushPopFront | include/doubly_linked_list.h:249-295 | on a healthy list pop_front undoes push_front, tail included |
| CircularList.EmptyHolds | include/circular_list.h:146-149 | the sentinel ring holds nothing |
| CircularList.Front | include/circular_list.h:183-195 | runtime error exactly when empty, else the first element |
| CircularList.Back | include/circular_list.h:197-209 | runtime error exactly when empty, else the last element |
| CircularList.PushFront | include/circular_list.h:211-217 | the element is prepended |
| CircularList.PushBack | include/circular_list.h:219-225 | the element is appended |
| CircularList.PopFront | include/circular_list.h:227-238 | runtime error exactly when empty; otherwise first element plus rest give the contents |
| CircularList.PopBack | include/circular_list.h:240-251 | runtime error exactly when empty; otherwise rest plus last element give the contents |
| CircularList.Remove | include/circular_list.h:253-267 | out_of_range exactly past the end, else that one element is removed |
| CircularList.At | include/circular_list.h:269-291 | out_of_range exactly past the end, else the indexed element |
| CircularList.Clear | include/circular_list.h:293-302 | the ring becomes empty |
| CircularList.Copy | include/circular_list.h:151-155 | pushing back every element in order onto a fresh ring rebuilds the same list |
| CircularList.Reverse | include/circular_list.h:304-320 | the cursor walk yields the reversed contents |
| CircularList.RemoveEnds | include/circular_list.h:227-267 | removing index 0 or the last index is the matching pop |
| CircularList.PushPopFront | include/circular_list.h:211-238 | pop_front undoes push_front |
| CircularList.PushPopBack | include/circular_list.h:219-251 | pop_back undoes push_back |
| CircularList.ReverseSwapsEnds | include/circular_list.h:183-320 | after reversal front and back trade places |
| CircularList.EndsAreIndices | include/circular_list.h:183-291 | front and back succeed exactly when index 0 does, and return the elements at the first and last indices |
| CircularList.AtAfterPushFront | include/circular_list.h:211-291 | after push_front index 0 holds the new element and index i + 1 answers as index i did |
| CircularList.ClearIsEmpty | include/circular_list.h:146-302 | clear leaves exactly a freshly constructed ring, with nothing at the front |
| Vec.EmptyHolds | include/vec.h:22 | a default Vec holds nothing with capacity 0 |
| Vec.WithCapacityHolds | include/vec.h:40-45 | a vector built with room for n holds nothing and has exactly n slots |
| Vec.At | include/vec.h:65-77 | out_of_range exactly past the end, else the indexed element |
| Vec.First | include/vec.h:79-91 | out_of_range exactly when empty, else index 0 |
| Vec.Last | include/vec.h:93-105 | out_of_range exactly when empty, else the last index |
| Vec.PushAsWritten | include/vec.h:107-123 | defined exactly when the capacity is non-zero; then appends and keeps size within capacity |
| Vec.PushOntoDefaultIsUndefined | include/vec.h:107-123 | the first push onto a default Vec writes past an empty allocation |
| Vec.Push | include/vec.h:107-123 | appends; capacity is kept when there is room, else doubled (0 grows to 1) |
| Vec.PushAgreesWhereDefined | include/vec.h:107-123 | wherever the written push is defined it equals the corrected one |
| Vec.Pop | include/vec.h:125-132 | out_of_range exactly when empty; otherwise rest plus last element give the contents, capacity unchanged |
| Vec.PushPop | include/vec.h:107-132 | pop undoes push and returns the pushed value |
| Vec.AtAfterPush | include/vec.h:65-123 | push leaves earlier indices alone, puts the value at the old size, and nothing beyond |
| Vec.SizeCounts | include/vec.h:57-132 | size grows by one on push and shrinks by one on pop; is_empty holds exactly when pop and first throw |
| Vec.Move | include/vec.h:32-34 | the moved-to Vec is the old value, the moved-from one is default |
| Vector.EmptyHolds | src/vector.hpp:44-45 | a default Vector holds nothing with capacity 0 |
| Vector.WithCapacityHolds | src/vector.hpp:202-211 | a vector built with room for n holds nothing and has exactly n slots |
| Vector.Reserve | src/vector.hpp:95-109 | contents unchanged; capacity becomes the larger of old and requested |
| Vector.PushAsWritten | src/vector.hpp:112-120 | defined exactly when the capacity is non-zero; then appends |
| Vector.PushOntoDefaultIsUndefined | src/vector.hpp:95-120 | reserve(2*0) leaves no storage, so the first push onto a default Vector writes through null |
| Vector.Push | src/vector.hpp:112-120 | appends; capacity kept when there is room, else doubled (0 grows to 1) |
| Vector.PushAgreesWhereDefined | src/vector.hpp:112-120 | wherever the written push is defined it equals the corrected one |
| Vector.FromList | src/vector.hpp:47-54 | the initializer-list constructor holds exactly the listed elements with capacity equal to their count |
| Vector.Pop | src/vector.hpp:122-130 | throws exactly when empty; otherwise rest plus last element give the contents |
| Vector.At | src/vector.hpp:163-179 | throws exactly past the end, else the indexed element |
| Vector.PushPop | src/vector.hpp:112-130 | pop undoes push and returns the pushed value |
| Vector.AtAfterPush | src/vector.hpp:112-179 | push leaves earlier indices alone, puts the value at the old size, and nothing beyond |
| Vector.SizeCounts | src/vector.hpp:79-130 | size grows by one on push and shrinks by one on pop; is_empty holds exactly when pop and index 0 throw |
| Vector.Concat | src/vector.hpp:132-148 | the other Vector's elements are appended after this one's; concatenating an empty one changes nothing |
| Vector.Equal | src/vector.hpp:181-199 | two Vectors compare equal exactly when they hold the same elements |
| Vector.Move | src/vector.hpp:66-72 | the moved-to Vector is the old value, the moved-from one is empty with capacity 0 |
| Queue.Create | include/queue.h:17-18 | a fresh ring of the requested capacity with head and tail at 0 |
| Queue.Size | include/queue.h:65-67 | the wrapped distance from head to tail, below the capacity |
| Queue.SizeUnwrapped | include/queue.h:65-67 | the modular size is tail-head or tail+capacity-head |
| Queue.IsEmptyIffNoContents | include/queue.h:65-71 | is_empty (head == tail) holds exactly when the queue holds nothing, and size counts the held elements |
| Queue.EnqueueAsWritten | include/queue.h:20-39 | undefined on capacity 0; a failed store into the old ring leaves the queue as it was, a failed store after growing leaves the replacement ring (no slots, head and tail 0); head and tail stay inside the ring |
| Queue.SmallCapacities | include/queue.h:17-39 | capacity 0 divides by zero; capacity 1 swaps in a ring with no slots, throws out_of_range on `data[0]` and leaves that ring, so the next enqueue divides by zero; capacity 2 throws on the third enqueue and leaves the queue unchanged |
| Queue.Enqueue | include/queue.h:20-39 | the value joins the back of the contents at every capacity, growing the ring when it is full (a ring without slots to two) |
| Queue.EnqueueInPlaceContents | include/queue.h:37-38 | writing at tail and advancing it appends the value |
| Queue.EnqueueGrownContents | include/queue.h:24-38 | copying into a ring of twice the size keeps the order, and then appends |
| Queue.EnqueueAsWrittenFromThree | include/queue.h:20-39 | from capacity 3 up the written enqueue always succeeds and appends |
| Queue.Dequeue | include/queue.h:41-49 | out_of_range exactly when empty; otherwise the front plus the rest give the contents |
| Queue.DequeueContents | include/queue.h:45-46 | advancing head drops exactly the front element |
| Queue.Peek | include/queue.h:51-63 | out_of_range exactly when empty, else the front element |
| Queue.ZeroCapacityIsEmpty | include/queue.h:17-53 | a queue of capacity 0 holds nothing, dequeue and peek throw out_of_range on it, and the corrected enqueue makes it hold the value |
| Queue.EnqueueThenDequeue | include/queue.h:20-49 | on an empty queue, dequeue after enqueue returns the value and leaves the queue empty |
| BinaryHeap.Swap | include/binary_heap.h:35 | exchanges two slots, keeping every other slot and the multiset |
| BinaryHeap.BubbleUp | include/binary_heap.h:28-38 | restores the heap order after one out-of-place leaf, keeping the multiset |
| BinaryHeap.BubbleDown | include/binary_heap.h:40-52 | restores the heap order after one out-of-place root, keeping the multiset |
| BinaryHeap.RootIsLeast | include/binary_heap.h:16-26 | no element of a heap-ordered array is less than the root |
| BinaryHeap.ChildrenOfParent | include/binary_heap.h:16-26 | parent inverts left and right, and every non-root index is a child of its parent |
| BinaryHeap.Push | include/binary_heap.h:65-68 | the result is heap-ordered and holds the old multiset plus the new value |
| BinaryHeap.Pop | include/binary_heap.h:70-79 | out_of_range exactly when empty; otherwise a least element is removed and the rest stays heap-ordered |
| BinaryHeap.Peek | include/binary_heap.h:81-93 | out_of_range exactly when empty; otherwise an element that nothing is less than |
| BinaryHeap.PeekIsPopped | include/binary_heap.h:70-93 | peek returns what pop would remove |
| BinaryHeap.Drain | include/binary_heap.h:70-79 | popping until empty yields exactly the heap's multiset |
| BinaryHeap.DrainIsSorted | include/binary_heap.h:70-79 | popping until empty yields the elements in comparator order |
| BinaryHeap.EmptyIsValid | include/binary_heap.h:55 | the default heap is ordered and drains to nothing |
| BinaryHeap.SizeCounts | include/binary_heap.h:57-93 | size grows by one on push and shrinks by one on pop; is_empty holds exactly when pop and peek throw |
| HashMap.CreateEmpty | include/hash_map.h:55-57 | a fresh map of non-zero capacity is well formed and finds no key |
| HashMap.FindIn | include/hash_map.h:95-98 | the bucket scan finds a value exactly when the bucket holds that key |
| HashMap.LookupEntries | include/hash_map.h:91-101 | a lookup finds value v for k exactly when the map holds an entry k to v |
| HashMap.InsertOk | include/hash_map.h:43-47 | re-inserting an entry by its stored hash keeps every bucket well formed |
| HashMap.DistributeOk | include/hash_map.h:43-47 | redistributing entries keeps buckets well formed and the entry multiset grows by exactly those entries |
| HashMap.Rehash | include/hash_map.h:39-52 | doubles the bucket count, leaving size and used_buckets as they were |
| HashMap.RehashCorrect | include/hash_map.h:39-52 | a rehashed map is well formed, holds the same entries and answers every lookup as before |
| HashMap.Set | include/hash_map.h:68-89 | afterwards k maps to v and every other key is unchanged; size grows exactly for a new key; used_buckets grows exactly when a new key lands in an empty bucket; the buckets double exactly when the key is new and its bucket then holds more than MAX_COLLISIONS entries or the fill factor exceeds 0.8, else stay |
| HashMap.SetExisting | include/hash_map.h:72-77 | an existing key has its value replaced in place |
| HashMap.SetNew | include/hash_map.h:79-88 | a new key adds exactly one entry |
| HashMap.Get | include/hash_map.h:91-113 | out_of_range exactly for an absent key, else its value |
| HashMap.Contains | include/hash_map.h:130-140 | true exactly when the key is present |
| HashMap.Remove | include/hash_map.h:115-128 | reports whether k was present; afterwards k is absent and other keys are unchanged; the counters are not touched |
| HashMap.RemoveFound | include/hash_map.h:120-124 | unlinking the found entry removes exactly that key |
| HashMap.BucketSize | include/hash_map.h:146-148 | the length of an in-range bucket; reading past the array is undefined |
| HashMap.Bucket | include/hash_map.h:150-162 | an in-range bucket's entries, else out_of_range |
| HashMap.BucketContents | include/hash_map.h:142-162 | bucket_count buckets can be walked; bucket_size is the walk's length; each walked entry hashes to that bucket and is what get finds for its key |
| HashMap.SetThenRemove | include/hash_map.h:68-128 | get after set returns the value; remove after set reports success and the key is gone |
| Trie.Index | src/trie.cpp:8-10 | a lowercase letter selects one of the 26 child slots |
| Trie.NewNode | include/trie.h:9-14 | a fresh node has 26 empty slots and no end mark |
| Trie.Walk | src/trie.cpp:35-44 | walking succeeds on lowercase words with the word or prefix answer; a failure means a non-lowercase character was reached |
| Trie.Contains | src/trie.cpp:31-45 | on lowercase words, true exactly when the word was inserted; only non-lowercase words can throw; an empty trie answers false to every word |
| Trie.HasPrefix | src/trie.cpp:47-61 | on lowercase words, true exactly when some path spells the prefix; only non-lowercase words can throw; an empty trie answers false to every prefix |
| Trie.InsertSlot | src/trie.cpp:12-29 | succeeds exactly on lowercase words and then leaves a node at the word's end |
| Trie.InsertAsWritten | src/trie.cpp:12-29 | the insert as written throws a runtime error exactly on a non-lowercase word, keeping any nodes already created |
| Trie.FailedInsertLeavesPrefix | src/trie.cpp:15-20 | inserting "ab1" throws yet leaves "a" as a prefix (not "ab", whose node was never made) though no word was added |
| Trie.Insert | src/trie.cpp:12-29 | the intended insert: a rejected word leaves the trie unchanged, an accepted one behaves as written |
| Trie.InsertSlotFind | src/trie.cpp:12-29 | after insert, the paths are the old ones plus the word's prefixes, and the words are the old ones plus the word |
| Trie.InsertSlotPresent | src/trie.cpp:12-29 | inserting a word already in the trie changes no node and succeeds |
| Trie.InsertThenContains | src/trie.cpp:12-61 | after inserting w, contains(w) holds, contains answers as before for other words, and every prefix of w is a prefix |
| Trie.HasPrefixMeansWord | src/trie.cpp:47-61 | in a trie built by inserts, has_prefix(p) holds exactly when some inserted word starts with p |
| Trie.InsertKeepsLean | src/trie.cpp:12-29 | the intended insert keeps every node on the way to some word |
| BinaryTree.Size | include/bs_tree.h:90-92 | the node count is the length of the in-order key list |
| BinaryTree.Height | include/bs_tree.h:27-32 | -1 for the empty tree, else one more than the taller subtree |
| BinaryTree.Find | include/bs_tree.h:102-116 | the search finds a value exactly when the key is in the tree's map |
| BinaryTree.Get | include/bs_tree.h:118-148 | out_of_range exactly for an absent key, else its value (AvlTree's `get`, include/avl_tree.h:157-187, is the same walk) |
| BinaryTree.Contains | include/bs_tree.h:102-116 | true exactly when the key is present |
| BinaryTree.MapOfRotation | include/avl_tree.h:47-67 | a rotation keeps the in-order keys and the map |
| BinaryTree.KeyCount | include/bs_tree.h:90-92 | in a search tree the node count is the number of distinct keys |
| BSTree.EmptyValid | include/bs_tree.h:39 | a new tree maps nothing and is a valid search tree under any order |
| BSTree.Count | include/bs_tree.h:90-92 | size is the number of keys |
| BSTree.IsEmpty | include/bs_tree.h:94-96 | true exactly when no key is present |
| BSTree.TreeHeight | include/bs_tree.h:98-100 | -1 exactly for the empty tree, and below the size |
| BSTree.HeightBelowSize | include/bs_tree.h:27-32 | a tree's height is below its node count |
| BSTree.InsertNode | include/bs_tree.h:150-172 | the recursive insert keeps the search order, maps k to v, and reports whether k was new |
| BSTree.Insert | include/bs_tree.h:150-172 | the tree stays valid, k maps to v, and the result is true exactly for a new key |
| BSTree.RemoveMin | include/bs_tree.h:191-200 | detaching the leftmost node removes exactly the least key |
| BSTree.RemoveNode | include/bs_tree.h:174-205 | the recursive remove keeps the search order, removes k, and reports whether it was there |
| BSTree.Remove | include/bs_tree.h:174-205 | the tree stays valid, k is gone, and the result is true exactly if k was present |
| BSTree.InsertThenRemove | include/bs_tree.h:150-205 | inserting a new key and then removing it gives back the original map |
| BSTree.InsertThenGet | include/bs_tree.h:118-172 | get after insert returns the inserted value |
| AvlTree.UpdateHeight | include/avl_tree.h:43-45 | the cached height is recomputed from the children |
| AvlTree.CachedHeight | include/avl_tree.h:36-41 | in a valid tree the cached height is the real height |
| AvlTree.SizeAtLeastMinNodes | include/avl_tree.h:69-88 | a balanced tree of height h has at least the minimal AVL node count for h |
| AvlTree.MinNodesDoubling | include/avl_tree.h:69-88 | the minimal AVL count at least doubles every two levels |
| AvlTree.MinNodesPow2 | include/avl_tree.h:69-88 | a tree of height h has at least 2^(h/2 + 1) - 1 nodes |
| AvlTree.RotateLeft | include/avl_tree.h:47-56 | a left rotation keeps the key order and the map |
| AvlTree.RotateRight | include/avl_tree.h:58-67 | a right rotation keeps the key order and the map |
| AvlTree.Rebalance | include/avl_tree.h:69-88 | rebalancing keeps the key order and the map |
| AvlTree.FixOk | include/avl_tree.h:69-88 | rebalancing a node whose subtrees are AVL and whose balance factor lies in -2..2 yields an AVL node of the recomputed height or one less, one less exactly when a leaning child was straightened |
| AvlTree.InsertNode | include/avl_tree.h:189-222 | the recursive insert keeps the AVL shape, maps k to v, reports newness, and grows the height by at most one; an overwrite changes only the value |
| AvlTree.Insert | include/avl_tree.h:189-222 | the tree stays valid, k maps to v, and the result is true exactly for a new key; overwriting a key leaves shape, keys, heights and size unchanged |
| AvlTree.RemoveMin | include/avl_tree.h:246-267 | detaching the successor keeps the AVL shape and removes exactly the least key |
| AvlTree.RemoveNode | include/avl_tree.h:224-271 | the recursive remove keeps the AVL shape, removes k, and shrinks the height by at most one |
| AvlTree.Remove | include/avl_tree.h:224-271 | the tree stays valid, k is gone, and the result is true exactly if k was present |
| AvlTree.EmptyValid | include/avl_tree.h:95 | a new tree maps nothing and is a valid AVL tree under any order |
| AvlTree.Count | include/avl_tree.h:145-147 | size is the number of keys |
| AvlTree.IsEmpty | include/avl_tree.h:149-151 | true exactly when no key is present |
| AvlTree.TreeHeight | include/avl_tree.h:153-155 | the cached root height is the height; the size is at least the minimal AVL count for it and at least 2^(h/2 + 1) - 1, so the height is at most about twice log2 of the size |
| RedBlackTree.Recolor | include/red_black_tree.h:148-157 | the red-uncle recolouring keeps keys and map |
| RedBlackTree.Straighten | include/red_black_tree.h:159-171 | the inner-grandchild rotation keeps keys and map and turns the path into an outer one |
| RedBlackTree.Rotate | include/red_black_tree.h:173-187 | the outer rotation at the grandparent keeps keys and map |
| RedBlackTree.Fixup | include/red_black_tree.h:125-194 | the fix-up loop keeps keys and map |
| RedBlackTree.RecolorOk | include/red_black_tree.h:148-157 | after recolouring, the fix-up invariant holds two levels up |
| RedBlackTree.RotateOk | include/red_black_tree.h:173-187 | the final rotation yields a red-black tree |
| RedBlackTree.FixupOk | include/red_black_tree.h:125-194 | from the invariant at the new red leaf, the fix-up and root blackening yield a red-black tree |
| RedBlackTree.Descend | include/red_black_tree.h:307-322 | the descent stops at k's node or the empty slot where k belongs, keeping the whole tree |
| RedBlackTree.NewLeafOk | include/red_black_tree.h:306-331 | linking a new red leaf and fixing up gives a red-black search tree mapping k to v |
| RedBlackTree.Insert | include/red_black_tree.h:306-331 | the tree stays valid, k maps to v, and the result is true exactly for a new key |
| RedBlackTree.EmptyValid | include/red_black_tree.h:196 | a new tree maps nothing and is a valid red-black tree under any order |
| RedBlackTree.Count | include/red_black_tree.h:246-248 | size is the number of keys |
| RedBlackTree.IsEmpty | include/red_black_tree.h:250-252 | true exactly when no key is present |
| RedBlackTree.Lookup | include/red_black_tree.h:258-304 | out_of_range exactly for an absent key, else its value |
| RedBlackTree.HeightByBlack | include/red_black_tree.h:43-48 | the height is at most twice the black height |
| RedBlackTree.SizeByBlack | include/red_black_tree.h:43-48 | a tree of black height b has at least 2^b - 1 nodes |
| RedBlackTree.TreeHeight | include/red_black_tree.h:254-256 | height() is the real height and is logarithmic in the size |
| RbConcrete.SkewedThree | tests/test_red_black_tree.cpp:150-155 | inserting 1, 2, 3 in order gives a balanced tree of height 1 |
| RbConcrete.TwoNodes | tests/test_red_black_tree.cpp:137-141 | inserting 1 then 2 leaves a red leaf under a black root, height 1 |
| RbConcrete.PerfectSeven | tests/test_red_black_tree.cpp:157-166 | inserting 4, 2, 6, 1, 3, 5, 7 (one recolour pushed to the root, then black parents) gives height 2 |
| RbConcrete.SevenRecolor | include/red_black_tree.h:148-157 | inserting 1 under the red 2 with the red uncle 6 recolours 2 and 6 black and leaves the root black at height 2 |
| BTree.MinKeys | include/btree.h:291 | the minimum fill ceil(m/2) - 1 is at least one and at most half of m - 1 |
| BTree.Find | include/btree.h:44-63 | the descent finds a value exactly when the key occurs in the node's reading, else a runtime error |
| BTree.Get | include/btree.h:528-534 | runtime error exactly for an absent key, else its value |
| BTree.ContainsKey | include/btree.h:507-526 | true exactly when the key is present |
| BTree.FirstEntry | include/btree.h:65-72 | the leftmost descent reaches the first entry of the reading |
| BTree.MinKey | include/btree.h:74-81 | runtime error exactly on an empty tree; otherwise a present key below every other key |
| BTree.MaxKey | include/btree.h:83-90 | runtime error exactly on an empty tree; otherwise a present key above every other key |
| BTree.ToString | include/btree.h:92-112 | the printed keys are the tree's keys in strictly increasing order, as many as its size |
| BTree.RangeWithin | include/btree.h:114-134 | the pruned range walk yields exactly the entries of the reading with keys in range |
| BTree.RangeSearch | include/btree.h:540-551 | returns exactly the entries with keys in [begin, end], in ascending order |
| BTree.EmptyValid | include/btree.h:609-611 | an empty tree maps nothing and is valid for every order and comparison |
| BTree.Count | include/btree.h:491-493 | size is the number of keys |
| BTree.IsEmpty | include/btree.h:499-501 | true exactly when no key is present |
| BTree.TreeHeight | include/btree.h:351-361 | every leaf lies at the reported height, which is -1 exactly for the empty tree |
| BTreeCheck.CheckProperties | include/btree.h:363-421 | the check accepts a tree exactly when it is a valid B-tree of this order |
| BTreeCheck.CheckMeans | include/btree.h:363-421 | the node check accepts exactly the nodes that satisfy the invariants |
| BTreeInsert.Split | include/btree.h:176-219 | an overfull node splits into a left half of minimum fill, the lifted middle entry and a right half, in reading order |
| BTreeInsert.InsertRec | include/btree.h:141-220 | the recursive insert yields the sorted insertion into the reading, either in place or as a split |
| BTreeInsert.Insert | include/btree.h:567-592 | the tree stays valid, k maps to v, the result is true exactly for a new key, and the height grows by at most one (by a new root); overwriting a key leaves shape, keys, height and size unchanged |
| BTreeInsert.InsertThenGet | include/btree.h:528-592 | get after insert returns the inserted value |
| BTreeInsert.BuildFrom | include/btree.h:424-431 | inserting pairs into a valid tree keeps it valid, adds exactly their keys, gives each its last value and leaves other keys alone |
| BTreeInsert.BuildFromOrdered | include/btree.h:424-431 | inserting a list of pairs yields a valid tree holding exactly those keys, each with its last value |
| BTreeRemove.BorrowLeft | include/btree.h:300-319 | rotating an entry from the left sibling through the parent keeps the reading and the entry count |
| BTreeRemove.BorrowRight | include/btree.h:321-340 | rotating an entry from the right sibling through the parent keeps the reading and the entry count |
| BTreeRemove.MergeChildren | include/btree.h:222-248 | merging two children around their separator keeps the reading and removes one parent entry |
| BTreeRemove.Fix | include/btree.h:293-348 | repairing an underfull child keeps the reading and the shape and reports whether the parent lost an entry |
| BTreeRemove.RemoveRec | include/btree.h:256-349 | the recursive remove yields the reading without k, reports NotDeleted exactly when k was absent, and keeps the fill |
| BTreeRemove.Remove | include/btree.h:594-607 | the tree stays valid, k is gone, the result is true exactly if k was present, and the height drops by at most one |
| BTreeRemove.RemoveThenGet | include/btree.h:528-607 | after remove, get of that key fails and other keys are unchanged |
| BTreeRemove.InsertThenRemove | include/btree.h:567-607 | removing a freshly inserted key gives back the original map |
| BTreeRemoveAsWritten.FixAsWritten | include/btree.h:293-348 | the repair as written, undefined on a null child, a non-empty borrow-left target, or a merge-left at index 0 |
| BTreeRemoveAsWritten.RemoveRecAsWritten | include/btree.h:256-349 | the remove as written keeps the leaf depth and reports failure only as undefined behaviour |
| BTreeRemoveAsWritten.RemoveAsWritten | include/btree.h:594-607 | the public remove as written keeps the leaf depth |
| BTreeRemoveAsWritten.SuccessorRepairMissed | include/btree.h:277-296 | removing 30 from the order-5 tree [30] over [10,20],[40,50] leaves the underfull leaf [50] as written; the corrected remove stays valid |
| BTreeRemoveAsWritten.BorrowLeftRunsAway | include/btree.h:300-309 | removing 50 from the order-5 tree [30] over [10,20,25],[40,50] runs the ++k loop out of bounds |

## Left out

- Iterators, destructors, `swap`, the `operator=` overloads and `clear`
  via swap: the model has value semantics. Copy and move constructors
  are modelled only where they do something beyond copying a value.
- `Size`/`IsEmpty` of every container are read off the element sequence
  (or the stored count) with no contract of their own. The `SizeCounts`
  lemmas and `HashMap.BucketContents` state what they mean; DoublyLinkedList's
  and CircularList's are not stated further.
- Stack's copy constructor (include/stack.h:26-36) takes the address of a
  member of a `Node**`, which does not compile. It is not modelled.
- The `sort` stub of include/linked_list.h:257-259 has an empty body. It is
  not modelled.
- src/linked_list.hpp declares `append` and both `operator=` overloads but
  never defines them, so they are not modelled.
- src/linked_list.h `operator[]` has a const and a non-const copy with the
  same body. One function models both. The same holds for every
  const/non-const pair elsewhere.
- `Vec`'s copy constructor and `operator=` copy values, which the value
  model gives for free.
- Queue stores a `Vec<T>` built by `Vec(n)`, a constructor include/vec.h
  does not define. The model takes `n` slots filled with a given `blank`
  value.
- Queue.Size: at capacity 0 `size()` takes `% 0`. The model's `Size`
  requires a ring with slots, and `Queue.Contents` is `[]` for the ring
  without slots.
- HashMap's hash function (`std::hash<K>`) is the parameter `hash`. Its
  `size_t` results are unbounded naturals, so `capacity * 2` never wraps.
- HashMap's fill factor is computed in `double`. The model compares
  `used * 5 > capacity * 4` as integers.
- HashMap's `remove` calls a `LinkedList::remove(iterator)` that
  include/linked_list.h does not provide. The model unlinks the entry, and
  leaves `size` and `used_buckets` as the code leaves them.
- HashMap's rehash does not recount `used_buckets`. The model keeps the
  old count, as the code does.
- HashMap with capacity 0 divides by zero. `Valid` requires a non-zero
  bucket count, and `HashMap.CreateEmpty` requires it too.
- include/hash_set.h is context, not part of this model.
- BinaryHeap's `clear` calls a `Vec::clear` that include/vec.h does not
  define, so it is left out.
- `BinaryHeap.Push` builds on the corrected `Vec.Push`. As written, the
  first push into a default heap is undefined (see Findings).
- BTree.RangeSearch: collects into a default `Vec` (include/btree.h:540-551)
  and appends with `Vec::push` (include/btree.h:130). The model uses the
  corrected `Vec.Push`. As written, any call whose answer is non-empty is
  undefined at its first push (see Findings).
- RedBlackTree has no `remove` (red_black_tree.h:333 is a commented-out
  stub), so there is none in the model.
- `RedBlackTree.Fixup`: the code's `parent == nullptr` case (Case 3) and
  the final `throw "case not found"` cannot be reached on a valid tree,
  so the model has no branch for them.
- Keys are compared with a caller-supplied strict total order. The code's
  `==` on keys is taken to be the equivalence of that order.
- Trie characters are Dafny `char`s. The byte arithmetic `ch - 'a'`
  wrapping to a large `size_t` for characters below `'a'` is modelled as
  "not lowercase", which is what makes `children.at` throw.
- BTree's `M` is a template parameter. The model takes it as `m >= 3`.
  `MIN_KEYS = ceil(M / 2.0) - 1` is the integer `(m + 1) / 2 - 1`.
- BTree's per-node `is_leaf` flag is modelled as "the first child is
  `Nil`".
- `BTree.ToString` yields the key sequence rather than text with
  separators, because string formatting of keys is outside the model.
- The BTree copy constructor (include/btree.h:435-457) copies a value.
  `build_from_ordered_vector` is modelled as a fold of `insert`
  (`BTreeInsert.BuildFromOrdered`).
- BTreeRemoveAsWritten.RemoveRecAsWritten: its contract states only the
  shape it keeps and that failures are undefined behaviour, not what it
  computes. The concrete lemmas exhibit what it gets wrong.
- `RbConcrete.SkewedThree` proves the tree after inserting 1, 2, 3 has
  height 1. tests/test_red_black_tree.cpp:150-155 expects at least 2, so
  the model follows the code, not that test.

## Findings

| source | as written | input that shows it | evidently intended | confidence | as-written member | corrected member |
|---|---|---|---|---|---|---|
| include/btree.h:277-296 | after an inner key is replaced by its successor and the successor is deleted from `children[i+1]`, the underflow check inspects `children[i]` | order 5, root [30] over leaves [10,20] and [40,50]; remove(30) leaves the leaf [50], below the minimum of 2 keys | repair the child the deletion descended into, `children[i+1]` | high; not executed | BTreeRemoveAsWritten.SuccessorRepairMissed | BTreeRemove.Remove |
| include/btree.h:306 | the borrow-from-left shift loop counts `k` upward from `mid->size` while `k > 0` | order 5, root [30] over leaves [10,20,25] and [40,50]; remove(50) shifts the non-empty leaf [40] past its arrays | `--k`, shifting mid's entries one slot right | high; not executed | BTreeRemoveAsWritten.BorrowLeftRunsAway | BTreeRemove.BorrowLeft |
| include/doubly_linked_list.h:315-333 | `remove` never updates `m_tail`, so removing the last element leaves it pointing at a freed node | list [a, b]; remove(1); back() reads freed memory | move `m_tail` to the previous node when the last node is removed | high; not executed | DoublyLinkedList.RemoveLastThenBack | DoublyLinkedList.Remove |
| include/queue.h:20-39 | `enqueue` computes `(tail + 1) % data.size()` and grows to `2 * size()` | capacity 0 divides by zero; capacity 1 swaps in a ring of `2 * 0` slots and `data[0]` throws out_of_range, leaving that ring, on which the next enqueue or `size()` divides by zero; capacity 2 grows to a ring of size 2 that is full on arrival | a queue usable at every capacity (a ring without slots grows to two) | high; not executed | Queue.SmallCapacities | Queue.Enqueue |
| include/vec.h:107-123 | growing doubles the capacity, so a default Vec (capacity 0) stays at capacity 0 and the first push writes past an empty array (BinaryHeap's first push and range_search's first push hit this too) | a default Vec; push(x) | grow to at least one slot | high; not executed | Vec.PushOntoDefaultIsUndefined | Vec.Push |
| src/vector.hpp:112-120 | push calls `reserve(2 * capacity)`, a no-op at capacity 0, then writes through a null array | a default Vector; push(x) | grow to at least one slot | high; not executed | Vector.PushOntoDefaultIsUndefined | Vector.Push |
| src/linked_list.hpp:45-55 | the copy loop assigns each new node to a reference bound to `m_head` and then overwrites it with that node's null `next`, so the copy keeps `m_size` but no nodes | copy a one-element list, then get_at(0) | a node-for-node copy | high; not executed | SrcLinkedListHpp.CopyAsWrittenLosesElements | SrcLinkedListHpp.Copy |
| src/trie.cpp:15-20 | the character check runs inside the loop that creates nodes, so a rejected word leaves the nodes for its valid prefix | insert("ab1") throws, yet has_prefix("a") is true though no word was inserted | validate the whole word before creating nodes | medium; not executed | Trie.FailedInsertLeavesPrefix | Trie.Insert |

=== FILE: avl_tree.dfy ===
/** `AvlTree`: a binary search tree whose nodes cache their height and that
    rebalances by rotations after every insertion and removal.

    A node's tag is its cached height (`std::size_t`). The model follows the
    pointer code step by step: `insert` walks back up its path updating
    cached heights and stops after the first rebalance; `remove` updates and
    (where needed) rebalances every node on its path, including the path to
    the in-order successor. Besides the map semantics every tree shares, the
    AVL invariant is proved preserved: cached heights are the true heights
    and sibling heights differ by at most one. */
module AvlTree {
  import opened Wrappers
  import opened Ordering
  import opened BinaryTree

  type AvlNode<K, V> = Tree<K, V, nat>

  datatype AvlTree<K, V> = AvlTree(root: AvlNode<K, V>, size: nat)

  /** `height(node)`: the cached height, -1 for an empty subtree. */
  function H<K, V>(t: AvlNode<K, V>): (h: int)
    ensures h >= -1 && (h == -1 <==> t.Nil?)
  {
    if t.Nil? then -1 else t.tag
  }

  /** `bf`: the balance factor, right height minus left height. */
  function Bf<K, V>(t: AvlNode<K, V>): int
    requires t.Node?
  {
    H(t.right) - H(t.left)
  }

  /** `update_height`: recompute a node's cache from its children's. */
  function UpdateHeight<K, V>(t: AvlNode<K, V>): (r: AvlNode<K, V>)
    requires t.Node?
    ensures r.Node? && r.left == t.left && r.right == t.right && r.key == t.key && r.value == t.value
    ensures H(r) == 1 + Max(H(t.left), H(t.right))
  {
    Node(t.left, t.key, t.value, (1 + Max(H(t.left), H(t.right))) as nat, t.right)
  }

  /** Every cached height is the height computed from the children's. */
  ghost predicate HeightsOk<K, V>(t: AvlNode<K, V>) {
    match t
    case Nil => true
    case Node(l, _, _, h, r) => HeightsOk(l) && HeightsOk(r) && h == 1 + Max(H(l), H(r))
  }

  /** Every node's balance factor is -1, 0 or 1. */
  ghost predicate Balanced<K, V>(t: AvlNode<K, V>) {
    match t
    case Nil => true
    case Node(l, _, _, _, r) => Balanced(l) && Balanced(r) && -1 <= H(r) - H(l) <= 1
  }

  ghost predicate Avl<K, V>(cmp: (K, K) -> bool, t: AvlNode<K, V>) {
    SearchTree(cmp, t) && HeightsOk(t) && Balanced(t)
  }

  /** The class invariant. */
  ghost predicate Valid<K, V>(cmp: (K, K) -> bool, t: AvlTree<K, V>) {
    Avl(cmp, t.root) && t.size == Size(t.root)
  }

  /** Cached heights are true heights. */
  lemma {:induction false} CachedHeight<K, V>(t: AvlNode<K, V>)
    requires HeightsOk(t)
    ensures H(t) == Height(t)
  {
    match t
    case Nil =>
    case Node(l, _, _, _, r) =>
      CachedHeight(l);
      CachedHeight(r);
  }

  /** The fewest nodes an AVL tree of height `h` can have. */
  function MinNodes(h: int): nat
    decreases h
  {
    if h < 0 then 0 else if h == 0 then 1 else 1 + MinNodes(h - 1) + MinNodes(h - 2)
  }

  lemma {:induction false} MinNodesMonotone(a: int, b: int)
    requires a <= b
    ensures MinNodes(a) <= MinNodes(b)
    decreases b - a
  {
    if a < b {
      MinNodesMonotone(a, b - 1);
      assert MinNodes(b - 1) <= MinNodes(b);
    }
  }

  /** The AVL height bound: a balanced tree of height `h` has at least
      `MinNodes(h)` nodes, so its height is logarithmic in its size. */
  lemma {:induction false} SizeAtLeastMinNodes<K, V>(t: AvlNode<K, V>)
    requires HeightsOk(t) && Balanced(t)
    ensures Size(t) >= MinNodes(H(t))
  {
    match t
    case Nil =>
    case Node(l, _, _, _, r) =>
      SizeAtLeastMinNodes(l);
      SizeAtLeastMinNodes(r);
      if H(l) >= H(r) {
        MinNodesMonotone(H(t) - 2, H(r));
      } else {
        MinNodesMonotone(H(t) - 2, H(l));
      }
  }

  /** `MinNodes` grows at least like a power of two every two levels. */
  lemma {:induction false} MinNodesDoubling(h: int)
    requires h >= 1
    ensures MinNodes(h) >= 2 * MinNodes(h - 2) + 1
  {
    MinNodesMonotone(h - 2, h - 1);
  }

  /** Doubling every two levels: a tree of height `h` has at least
      2^(h/2 + 1) - 1 nodes, so `h` is at most about twice log2 of the size. */
  lemma {:induction false} MinNodesPow2(h: int)
    requires h >= 0
    ensures MinNodes(h) + 1 >= Pow2(h / 2 + 1)
    decreases h
  {
    if h >= 2 {
      MinNodesPow2(h - 2);
      MinNodesDoubling(h);
      assert (h - 2) / 2 + 1 == h / 2;
    }
  }

  /** `rotate_left`: the right child `z` becomes the subtree root. */
  function RotateLeft<K, V>(x: AvlNode<K, V>): (r: AvlNode<K, V>)
    requires x.Node? && x.right.Node?
    ensures Keys(r) == Keys(x) && ToMap(r) == ToMap(x)
  {
    var z := x.right;
    var x' := UpdateHeight(Node(x.left, x.key, x.value, x.tag, z.left));
    MapOfRotation(x.left, x.key, x.value, z.key, z.value, z.right, z.left, x'.tag, z.tag, x.tag, z.tag);
    UpdateHeight(Node(x', z.key, z.value, z.tag, z.right))
  }

  /** `rotate_right`: the left child `z` becomes the subtree root. */
  function RotateRight<K, V>(x: AvlNode<K, V>): (r: AvlNode<K, V>)
    requires x.Node? && x.left.Node?
    ensures Keys(r) == Keys(x) && ToMap(r) == ToMap(x)
  {
    var z := x.left;
    var x' := UpdateHeight(Node(z.right, x.key, x.value, x.tag, x.right));
    MapOfRotation(z.left, z.key, z.value, x.key, x.value, x.right, z.right, z.tag, x.tag, z.tag, x'.tag);
    UpdateHeight(Node(z.left, z.key, z.value, z.tag, x'))
  }

  /** `rebalance`: `z` is the taller child (the left one only when strictly
      taller); a child leaning the other way takes a double rotation. */
  function Rebalance<K, V>(x: AvlNode<K, V>): (r: AvlNode<K, V>)
    requires x.Node? && (Bf(x) > 1 || Bf(x) < -1)
    ensures Keys(r) == Keys(x) && ToMap(r) == ToMap(x)
  {
    if !(H(x.left) > H(x.right)) then
      if Bf(x.right) >= 0 then
        RotateLeft(x)
      else
        var x' := Node(x.left, x.key, x.value, x.tag, RotateRight(x.right));
        assert Keys(x') == Keys(x) && ToMap(x') == ToMap(x);
        RotateLeft(x')
    else
      if Bf(x.left) <= 0 then
        RotateRight(x)
      else
        var x' := Node(RotateLeft(x.left), x.key, x.value, x.tag, x.right);
        assert Keys(x') == Keys(x) && ToMap(x') == ToMap(x);
        RotateRight(x')
  }

  /** Children that are AVL trees. */
  ghost predicate ChildrenOk<K, V>(x: AvlNode<K, V>)
    requires x.Node?
  {
    HeightsOk(x.left) && Balanced(x.left) && HeightsOk(x.right) && Balanced(x.right)
  }

  /** A rebalanced node of balance factor 2 is an AVL tree, at most one
      level lower than before; exactly one level lower when the taller
      child was itself leaning. */
  lemma RebalanceRight<K, V>(x: AvlNode<K, V>)
    requires x.Node? && ChildrenOk(x) && Bf(x) == 2
    ensures var r := Rebalance(x);
            HeightsOk(r) && Balanced(r) &&
            (H(r) == H(x.right) || H(r) == H(x.right) + 1) &&
            (Bf(x.right) != 0 ==> H(r) == H(x.right))
  {
    var z := x.right;
    var a := x.left;
    if Bf(z) >= 0 {
      var x' := UpdateHeight(Node(a, x.key, x.value, x.tag, z.left));
      assert H(x') == 1 + Max(H(a), H(z.left));
    } else {
      var y := z.left;
      assert HeightsOk(y) && Balanced(y) && H(y) == 1 + Max(H(y.left), H(y.right));
      assert H(y) == H(a) + 1 && H(z.right) == H(a);
      var z' := UpdateHeight(Node(y.right, z.key, z.value, z.tag, z.right));
      var y' := UpdateHeight(Node(y.left, y.key, y.value, y.tag, z'));
      assert RotateRight(z) == y';
      var x' := UpdateHeight(Node(a, x.key, x.value, x.tag, y.left));
      assert HeightsOk(x') && Balanced(x') && H(x') == H(a) + 1;
      assert HeightsOk(z') && Balanced(z') && H(z') == H(a) + 1;
      assert Rebalance(x) == UpdateHeight(Node(x', y.key, y.value, y'.tag, z'));
    }
  }

  /** The mirror image of `RebalanceRight`. */
  lemma RebalanceLeft<K, V>(x: AvlNode<K, V>)
    requires x.Node? && ChildrenOk(x) && Bf(x) == -2
    ensures var r := Rebalance(x);
            HeightsOk(r) && Balanced(r) &&
            (H(r) == H(x.left) || H(r) == H(x.left) + 1) &&
            (Bf(x.left) != 0 ==> H(r) == H(x.left))
  {
    var z := x.left;
    var c := x.right;
    if Bf(z) <= 0 {
      var x' := UpdateHeight(Node(z.right, x.key, x.value, x.tag, c));
      assert H(x') == 1 + Max(H(z.right), H(c));
    } else {
      var y := z.right;
      assert HeightsOk(y) && Balanced(y) && H(y) == 1 + Max(H(y.left), H(y.right));
      assert H(y) == H(c) + 1 && H(z.left) == H(c);
      var z' := UpdateHeight(Node(z.left, z.key, z.value, z.tag, y.left));
      var y' := UpdateHeight(Node(z', y.key, y.value, y.tag, y.right));
      assert RotateLeft(z) == y';
      var x' := UpdateHeight(Node(y.right, x.key, x.value, x.tag, c));
      assert HeightsOk(x') && Balanced(x') && H(x') == H(c) + 1;
      assert HeightsOk(z') && Balanced(z') && H(z') == H(c) + 1;
      assert Rebalance(x) == UpdateHeight(Node(z', y.key, y.value, y'.tag, x'));
    }
  }

  /** One step of the walk back up: `update_height`, then `rebalance` when
      the balance factor left [-1, 1]. */
  function Fix<K, V>(u: AvlNode<K, V>): (r: AvlNode<K, V>)
    requires u.Node?
    ensures Keys(r) == Keys(u) && ToMap(r) == ToMap(u)
  {
    var u' := UpdateHeight(u);
    if Bf(u') > 1 || Bf(u') < -1 then Rebalance(u') else u'
  }

  /** Whether `Fix` rotates. */
  predicate Tilted<K, V>(u: AvlNode<K, V>)
    requires u.Node?
  {
    Bf(u) > 1 || Bf(u) < -1
  }

  /** A node whose subtrees are AVL trees and whose balance factor is within
      [-2, 2] is an AVL tree after `Fix`, of the height `update_height`
      computes or one less; one less exactly when the rotation straightened
      a leaning child. */
  lemma FixOk<K, V>(u: AvlNode<K, V>)
    requires u.Node? && ChildrenOk(u) && -2 <= Bf(u) <= 2
    ensures HeightsOk(Fix(u)) && Balanced(Fix(u))
    ensures var hu := 1 + Max(H(u.left), H(u.right));
            (H(Fix(u)) == hu || H(Fix(u)) == hu - 1) &&
            (!Tilted(u) ==> H(Fix(u)) == hu) &&
            (Bf(u) == 2 && Bf(u.right) != 0 ==> H(Fix(u)) == hu - 1) &&
            (Bf(u) == -2 && Bf(u.left) != 0 ==> H(Fix(u)) == hu - 1)
  {
    var u' := UpdateHeight(u);
    if Bf(u') == 2 {
      RebalanceRight(u');
    } else if Bf(u') == -2 {
      RebalanceLeft(u');
    }
  }

  /** The height facts an insertion hands to its parent: unchanged once
      the walk has stopped, otherwise unchanged or one higher, and a subtree
      that grew is a single new node or leans towards the side that grew. */
  ghost predicate Grown<K, V>(t: AvlNode<K, V>, r: AvlNode<K, V>, settled: bool) {
    r.Node? &&
    (settled ==> H(r) == H(t)) &&
    (!settled ==> H(r) == H(t) || (H(r) == H(t) + 1 && (H(r) == 0 || Bf(r) != 0)))
  }

  /** The walk back up from an insertion into the left subtree. */
  function InsertUpLeft<K, V>(t: AvlNode<K, V>, l': AvlNode<K, V>, settled: bool): (r: (AvlNode<K, V>, bool))
    requires t.Node?
  {
    var u := Node(l', t.key, t.value, t.tag, t.right);
    if settled then (u, true) else (Fix(u), Tilted(UpdateHeight(u)))
  }

  /** The walk back up from an insertion into the right subtree. */
  function InsertUpRight<K, V>(t: AvlNode<K, V>, r': AvlNode<K, V>, settled: bool): (r: (AvlNode<K, V>, bool))
    requires t.Node?
  {
    var u := Node(t.left, t.key, t.value, t.tag, r');
    if settled then (u, true) else (Fix(u), Tilted(UpdateHeight(u)))
  }

  lemma InsertUpLeftOk<K, V>(t: AvlNode<K, V>, l': AvlNode<K, V>, settled: bool)
    requires t.Node? && HeightsOk(t) && Balanced(t)
    requires HeightsOk(l') && Balanced(l') && Grown(t.left, l', settled)
    ensures var (r, s) := InsertUpLeft(t, l', settled);
            HeightsOk(r) && Balanced(r) && Grown(t, r, s)
  {
    var u := Node(l', t.key, t.value, t.tag, t.right);
    if !settled {
      FixOk(u);
      if Tilted(UpdateHeight(u)) {
        assert Bf(u) == -2;
      }
    }
  }

  lemma InsertUpRightOk<K, V>(t: AvlNode<K, V>, r': AvlNode<K, V>, settled: bool)
    requires t.Node? && HeightsOk(t) && Balanced(t)
    requires HeightsOk(r') && Balanced(r') && Grown(t.right, r', settled)
    ensures var (r, s) := InsertUpRight(t, r', settled);
            HeightsOk(r) && Balanced(r) && Grown(t, r, s)
  {
    var u := Node(t.left, t.key, t.value, t.tag, r');
    if !settled {
      FixOk(u);
      if Tilted(UpdateHeight(u)) {
        assert Bf(u) == 2;
      }
    }
  }

  /** The loop of `insert`: overwrite an equal key and return at once, or
      hang a new leaf (height 0) and walk back up, updating cached heights
      and stopping after the first rebalance. Returns the new subtree,
      whether the key was new, and whether the walk has stopped. */
  function InsertNode<K(==, !new), V>(cmp: (K, K) -> bool, t: AvlNode<K, V>, k: K, v: V): (r: (AvlNode<K, V>, bool, bool))
    requires StrictTotalOrder(cmp) && Avl(cmp, t)
    ensures Avl(cmp, r.0) && Grown(t, r.0, r.2)
    ensures ToMap(r.0) == ToMap(t)[k := v]
    ensures r.1 <==> k !in ToMap(t)
    ensures !r.1 ==> r.2 && Skeleton(r.0) == Skeleton(t)
  {
    match t
    case Nil => (Node(Nil, k, v, 0, Nil), true, false)
    case Node(l, key, val, h, rt) =>
      SearchTreeNode(cmp, l, key, val, h, rt);
      if key == k then
        OverwriteRootStep(cmp, t, v, h);
        (Node(l, key, v, h, rt), false, true)
      else if cmp(k, key) then
        var (l', added, settled) := InsertNode(cmp, l, k, v);
        InsertLeftStep(cmp, t, l', k, v, h);
        InsertUpLeftOk(t, l', settled);
        var (u, s) := InsertUpLeft(t, l', settled);
        (u, added, s)
      else
        var (r', added, settled) := InsertNode(cmp, rt, k, v);
        InsertRightStep(cmp, t, r', k, v, h);
        InsertUpRightOk(t, r', settled);
        var (u, s) := InsertUpRight(t, r', settled);
        (u, added, s)
  }

  /** `insert`: returns whether the key was new. */
  function Insert<K(==, !new), V>(cmp: (K, K) -> bool, t: AvlTree<K, V>, k: K, v: V): (r: (AvlTree<K, V>, bool))
    requires StrictTotalOrder(cmp) && Valid(cmp, t)
    ensures Valid(cmp, r.0)
    ensures ToMap(r.0.root) == ToMap(t.root)[k := v]
    ensures r.1 <==> k !in ToMap(t.root)
    ensures !r.1 ==> Skeleton(r.0.root) == Skeleton(t.root) && Height(r.0.root) == Height(t.root) && r.0.size == t.size
  {
    var (root, added, _) := InsertNode(cmp, t.root, k, v);
    KeyCount(cmp, t.root);
    KeyCount(cmp, root);
    assert ToMap(root).Keys == ToMap(t.root).Keys + {k};
    if added then (AvlTree(root, t.size + 1), added)
    else
      SkeletonHeight(root, t.root);
      (AvlTree(root, t.size), added)
  }

  /** A removal lowers a subtree by at most one level. */
  ghost predicate Shrunk<K, V>(t: AvlNode<K, V>, r: AvlNode<K, V>) {
    H(r) == H(t) || H(r) == H(t) - 1
  }

  /** Walking up past a node one of whose subtrees shrank keeps the AVL
      invariant and lowers the node by at most one level. */
  lemma FixShrunk<K, V>(t: AvlNode<K, V>, u: AvlNode<K, V>)
    requires t.Node? && HeightsOk(t) && Balanced(t)
    requires u.Node? && ChildrenOk(u)
    requires Shrunk(t.left, u.left) && Shrunk(t.right, u.right)
    ensures HeightsOk(Fix(u)) && Balanced(Fix(u)) && Shrunk(t, Fix(u))
  {
    FixOk(u);
  }

  /** Unlinking a childless-on-the-left node: it is replaced by its right
      subtree, at most a single node, one level lower. */
  lemma SpliceShrunk<K, V>(t: AvlNode<K, V>)
    requires t.Node? && HeightsOk(t) && Balanced(t) && (t.left.Nil? || t.right.Nil?)
    ensures var c := if t.left.Nil? then t.right else t.left;
            HeightsOk(c) && Balanced(c) && H(c) == H(t) - 1
  {
  }

  /** The successor walk of `remove`: unlink the leftmost node (replacing it
      by its right child), then fix every node passed on the way down. */
  function RemoveMin<K(!new), V>(cmp: (K, K) -> bool, t: AvlNode<K, V>): (r: (AvlNode<K, V>, K, V))
    requires StrictTotalOrder(cmp) && Avl(cmp, t) && t.Node?
    ensures HeightsOk(r.0) && Balanced(r.0) && Shrunk(t, r.0)
    ensures Keys(t) == [r.1] + Keys(r.0)
    ensures r.1 in ToMap(t) && ToMap(t)[r.1] == r.2
    ensures ToMap(r.0) == ToMap(t) - {r.1}
  {
    var Node(l, key, val, h, rt) := t;
    SearchTreeNode(cmp, l, key, val, h, rt);
    if l.Nil? then
      RemoveMinBase(cmp, t);
      SpliceShrunk(t);
      (rt, key, val)
    else
      var (l', mk, mv) := RemoveMin(cmp, l);
      var u := Node(l', key, val, h, rt);
      RemoveMinStep(cmp, t, l', mk, mv, h);
      FixShrunk(t, u);
      (Fix(u), mk, mv)
  }

  /** The loop of `remove`: find `k` (returning `false`, with nothing
      changed, when it is absent); unlink a node lacking a child, or move
      its in-order successor into it; then fix every node on the path, from
      the deepest up. */
  function RemoveNode<K(==, !new), V>(cmp: (K, K) -> bool, t: AvlNode<K, V>, k: K): (r: (AvlNode<K, V>, bool))
    requires StrictTotalOrder(cmp) && Avl(cmp, t)
    ensures Avl(cmp, r.0) && Shrunk(t, r.0)
    ensures ToMap(r.0) == ToMap(t) - {k}
    ensures r.1 <==> k in ToMap(t)
  {
    match t
    case Nil => (Nil, false)
    case Node(l, key, val, h, rt) =>
      SearchTreeNode(cmp, l, key, val, h, rt);
      if key == k then
        if l.Nil? || rt.Nil? then
          SpliceStep(cmp, t);
          SpliceShrunk(t);
          (if l.Nil? then rt else l, true)
        else
          var (r', sk, sv) := RemoveMin(cmp, rt);
          var u := Node(l, sk, sv, h, r');
          SuccessorStep(cmp, t, r', sk, sv, h);
          FixShrunk(t, u);
          (Fix(u), true)
      else if cmp(k, key) then
        var (l', removed) := RemoveNode(cmp, l, k);
        RemoveLeftStep(cmp, t, l', k, h);
        if !removed then
          assert ToMap(t) - {k} == ToMap(t);
          (t, false)
        else
          var u := Node(l', key, val, h, rt);
          FixShrunk(t, u);
          (Fix(u), true)
      else
        var (r', removed) := RemoveNode(cmp, rt, k);
        RemoveRightStep(cmp, t, r', k, h);
        if !removed then
          assert ToMap(t) - {k} == ToMap(t);
          (t, false)
        else
          var u := Node(l, key, val, h, r');
          FixShrunk(t, u);
          (Fix(u), true)
  }

  /** `remove`: returns whether the key was present. */
  function Remove<K(==, !new), V>(cmp: (K, K) -> bool, t: AvlTree<K, V>, k: K): (r: (AvlTree<K, V>, bool))
    requires StrictTotalOrder(cmp) && Valid(cmp, t)
    ensures Valid(cmp, r.0)
    ensures ToMap(r.0.root) == ToMap(t.root) - {k}
    ensures r.1 <==> k in ToMap(t.root)
  {
    var (root, removed) := RemoveNode(cmp, t.root, k);
    KeyCount(cmp, t.root);
    KeyCount(cmp, root);
    assert ToMap(root).Keys == ToMap(t.root).Keys - {k};
    (AvlTree(root, if removed then t.size - 1 else t.size), removed)
  }

  function Empty<K, V>(): AvlTree<K, V> {
    AvlTree(Nil, 0)
  }

  /** A new tree is valid under any order. */
  lemma EmptyValid<K, V>(cmp: (K, K) -> bool, t: AvlTree<K, V>)
    requires t == Empty()
    ensures Valid(cmp, t)
    ensures ToMap(t.root) == map[]
  {
  }

  /** `size`: the number of keys. */
  function Count<K(!new), V>(cmp: (K, K) -> bool, t: AvlTree<K, V>): (n: nat)
    requires StrictTotalOrder(cmp) && Valid(cmp, t)
    ensures n == |ToMap(t.root).Keys|
  {
    KeyCount(cmp, t.root);
    t.size
  }

  function IsEmpty<K(!new), V>(cmp: (K, K) -> bool, t: AvlTree<K, V>): (b: bool)
    requires StrictTotalOrder(cmp) && Valid(cmp, t)
    ensures b <==> ToMap(t.root) == map[]
  {
    assert t.root.Node? ==> t.root.key in ToMap(t.root) by {
      if t.root.Node? { LookupRoot(cmp, t.root); }
    }
    t.size == 0
  }

  /** `height`: read from the root's cache; it is the true height, and the
      tree holds at least `MinNodes(h)` keys. */
  function TreeHeight<K, V>(cmp: (K, K) -> bool, t: AvlTree<K, V>): (h: int)
    requires Valid(cmp, t)
    ensures h == Height(t.root)
    ensures t.size >= MinNodes(h)
    ensures h >= 0 ==> Pow2(h / 2 + 1) <= t.size + 1
  {
    CachedHeight(t.root);
    SizeAtLeastMinNodes(t.root);
    if H(t.root) >= 0 then MinNodesPow2(H(t.root)); H(t.root) else H(t.root)
  }
}

=== FILE: binary_heap.dfy ===
/** The array-backed `BinaryHeap<T, Compare>` of include/binary_heap.h: a
    min-heap under `cmp` (an element sits at the root when nothing is
    ordered before it). The backing `Vec` is read as its element sequence;
    `cmp` is passed to every operation, as the stateless `Compare` is. */
module BinaryHeap {
  import opened Wrappers
  import opened Ordering

  datatype Heap<T> = Heap(data: seq<T>)

  function Parent(i: nat): nat
    requires i > 0
  {
    (i - 1) / 2
  }

  function Left(i: nat): nat {
    2 * i + 1
  }

  function Right(i: nat): nat {
    2 * i + 2
  }

  /** No element is ordered before its parent. */
  ghost predicate IsHeap<T>(cmp: (T, T) -> bool, d: seq<T>) {
    forall i :: 0 < i < |d| ==> !cmp(d[i], d[Parent(i)])
  }

  ghost predicate Valid<T(!new)>(cmp: (T, T) -> bool, h: Heap<T>) {
    StrictWeakOrder(cmp) && IsHeap(cmp, h.data)
  }

  function Swap<T>(d: seq<T>, i: nat, j: nat): (r: seq<T>)
    requires i < |d| && j < |d|
    ensures |r| == |d| && multiset(r) == multiset(d)
    ensures r[i] == d[j] && r[j] == d[i]
    ensures forall k :: 0 <= k < |d| && k != i && k != j ==> r[k] == d[k]
  {
    d[i := d[j]][j := d[i]]
  }

  /** `bubble_up(k)`: the element at k moves towards the root while it is
      ordered before its parent. Everything but k is already in heap order,
      and k's children are not before k's parent. */
  function BubbleUp<T(!new)>(cmp: (T, T) -> bool, d: seq<T>, k: nat): (r: seq<T>)
    requires StrictWeakOrder(cmp) && k < |d|
    requires forall i :: 0 < i < |d| && i != k ==> !cmp(d[i], d[Parent(i)])
    requires k > 0 ==> forall i :: 0 < i < |d| && Parent(i) == k ==> !cmp(d[i], d[Parent(k)])
    ensures |r| == |d| && multiset(r) == multiset(d)
    ensures IsHeap(cmp, r)
    decreases k
  {
    if k == 0 then d
    else
      var p := Parent(k);
      if cmp(d[k], d[p]) then
        var d' := Swap(d, k, p);
        BubbleUpStep(cmp, d, k, d');
        BubbleUp(cmp, d', p)
      else d
  }

  lemma BubbleUpStep<T(!new)>(cmp: (T, T) -> bool, d: seq<T>, k: nat, d': seq<T>)
    requires StrictWeakOrder(cmp) && 0 < k < |d|
    requires forall i :: 0 < i < |d| && i != k ==> !cmp(d[i], d[Parent(i)])
    requires forall i :: 0 < i < |d| && Parent(i) == k ==> !cmp(d[i], d[Parent(k)])
    requires cmp(d[k], d[Parent(k)])
    requires d' == Swap(d, k, Parent(k))
    ensures forall i :: 0 < i < |d'| && i != Parent(k) ==> !cmp(d'[i], d'[Parent(i)])
    ensures Parent(k) > 0 ==> forall i :: 0 < i < |d'| && Parent(i) == Parent(k) ==> !cmp(d'[i], d'[Parent(Parent(k))])
  {
    var p := Parent(k);
    forall i | 0 < i < |d'| && i != p
      ensures !cmp(d'[i], d'[Parent(i)])
    {
      if i == k {
      } else if Parent(i) == k {
      } else if Parent(i) == p {
        assert !cmp(d[i], d[p]);
      }
    }
    if p > 0 {
      forall i | 0 < i < |d'| && Parent(i) == p
        ensures !cmp(d'[i], d'[Parent(p)])
      {
        assert !cmp(d[p], d[Parent(p)]);
        if i != k {
          assert !cmp(d[i], d[p]);
        }
      }
    }
  }

  /** `bubble_down(k)`: the element at k swaps with its left child when that
      child is before it and not after the right one, otherwise with its
      right child when that one is before it. Everything is in heap order
      except between k and its children, and k's children are not before
      k's parent. */
  function BubbleDown<T(!new)>(cmp: (T, T) -> bool, d: seq<T>, k: nat): (r: seq<T>)
    requires StrictWeakOrder(cmp)
    requires forall i :: 0 < i < |d| && Parent(i) != k ==> !cmp(d[i], d[Parent(i)])
    requires 0 < k < |d| ==> forall i :: 0 < i < |d| && Parent(i) == k ==> !cmp(d[i], d[Parent(k)])
    ensures |r| == |d| && multiset(r) == multiset(d)
    ensures IsHeap(cmp, r)
    decreases |d| - k
  {
    var le, ri := Left(k), Right(k);
    if le < |d| && cmp(d[le], d[k]) && (ri >= |d| || cmp(d[le], d[ri])) then
      var d' := Swap(d, le, k);
      PickLeft(cmp, d, k);
      BubbleDownStep(cmp, d, k, le, d');
      BubbleDown(cmp, d', le)
    else if ri < |d| && cmp(d[ri], d[k]) then
      var d' := Swap(d, ri, k);
      PickRight(cmp, d, k);
      BubbleDownStep(cmp, d, k, ri, d');
      BubbleDown(cmp, d', ri)
    else
      BubbleDownStop(cmp, d, k);
      d
  }

  /** When the left child is taken, its sibling is not before it. */
  lemma PickLeft<T(!new)>(cmp: (T, T) -> bool, d: seq<T>, k: nat)
    requires StrictWeakOrder(cmp) && Left(k) < |d|
    requires Right(k) >= |d| || cmp(d[Left(k)], d[Right(k)])
    ensures forall o :: 0 < o < |d| && Parent(o) == k && o != Left(k) ==> !cmp(d[o], d[Left(k)])
  {
    forall o | 0 < o < |d| && Parent(o) == k && o != Left(k)
      ensures !cmp(d[o], d[Left(k)])
    {
      assert o == Right(k);
      Asymmetric(cmp, d[Left(k)], d[Right(k)]);
    }
  }

  /** When the right child is taken, its sibling is not before it: else the
      left child would have been before k as well and been taken. */
  lemma PickRight<T(!new)>(cmp: (T, T) -> bool, d: seq<T>, k: nat)
    requires StrictWeakOrder(cmp) && Right(k) < |d| && cmp(d[Right(k)], d[k])
    requires !(cmp(d[Left(k)], d[k]) && cmp(d[Left(k)], d[Right(k)]))
    ensures forall o :: 0 < o < |d| && Parent(o) == k && o != Right(k) ==> !cmp(d[o], d[Right(k)])
  {
    forall o | 0 < o < |d| && Parent(o) == k && o != Right(k)
      ensures !cmp(d[o], d[Right(k)])
    {
      assert o == Left(k);
    }
  }

  lemma BubbleDownStep<T(!new)>(cmp: (T, T) -> bool, d: seq<T>, k: nat, c: nat, d': seq<T>)
    requires StrictWeakOrder(cmp)
    requires forall i :: 0 < i < |d| && Parent(i) != k ==> !cmp(d[i], d[Parent(i)])
    requires 0 < k < |d| ==> forall i :: 0 < i < |d| && Parent(i) == k ==> !cmp(d[i], d[Parent(k)])
    requires (c == Left(k) || c == Right(k)) && c < |d|
    requires cmp(d[c], d[k])
    requires forall o :: 0 < o < |d| && Parent(o) == k && o != c ==> !cmp(d[o], d[c])
    requires d' == Swap(d, c, k)
    ensures forall i :: 0 < i < |d'| && Parent(i) != c ==> !cmp(d'[i], d'[Parent(i)])
    ensures forall i :: 0 < i < |d'| && Parent(i) == c ==> !cmp(d'[i], d'[Parent(c)])
  {
    assert Parent(c) == k;
    forall i | 0 < i < |d'| && Parent(i) != c
      ensures !cmp(d'[i], d'[Parent(i)])
    {
      if i == c {
      } else if Parent(i) == k {
      } else if i == k {
      }
    }
    forall i | 0 < i < |d'| && Parent(i) == c
      ensures !cmp(d'[i], d'[Parent(c)])
    {
      assert !cmp(d[i], d[c]);
    }
  }

  lemma BubbleDownStop<T(!new)>(cmp: (T, T) -> bool, d: seq<T>, k: nat)
    requires StrictWeakOrder(cmp)
    requires forall i :: 0 < i < |d| && Parent(i) != k ==> !cmp(d[i], d[Parent(i)])
    requires !(Left(k) < |d| && cmp(d[Left(k)], d[k]) && (Right(k) >= |d| || cmp(d[Left(k)], d[Right(k)])))
    requires !(Right(k) < |d| && cmp(d[Right(k)], d[k]))
    ensures IsHeap(cmp, d)
  {
    forall i | 0 < i < |d|
      ensures !cmp(d[i], d[Parent(i)])
    {
      if Parent(i) == k {
        assert i == Left(k) || i == Right(k);
      }
    }
  }

  /** Following parents from any element never reaches something after
      it, so the root is a least element. */
  lemma {:induction false} RootIsLeast<T(!new)>(cmp: (T, T) -> bool, d: seq<T>, i: nat)
    requires StrictWeakOrder(cmp) && IsHeap(cmp, d) && i < |d|
    ensures !cmp(d[i], d[0])
    decreases i
  {
    if i > 0 {
      RootIsLeast(cmp, d, Parent(i));
      assert !cmp(d[i], d[Parent(i)]);
    }
  }

  function Empty<T>(): Heap<T> {
    Heap([])
  }

  function Size<T>(h: Heap<T>): nat {
    |h.data|
  }

  function IsEmpty<T>(h: Heap<T>): bool {
    |h.data| == 0
  }

  /** `push`: append, then bubble the new element up. */
  function Push<T(!new)>(cmp: (T, T) -> bool, h: Heap<T>, x: T): (r: Heap<T>)
    requires Valid(cmp, h)
    ensures Valid(cmp, r)
    ensures multiset(r.data) == multiset(h.data) + multiset{x}
  {
    var d := h.data + [x];
    Heap(BubbleUp(cmp, d, |h.data|))
  }

  /** `pop`: "Heap is empty" on an empty heap; otherwise the root swaps with
      the last element, is popped off, and the new root bubbles down. */
  function Pop<T(!new)>(cmp: (T, T) -> bool, h: Heap<T>): (r: Result<(Heap<T>, T)>)
    requires Valid(cmp, h)
    ensures r.Ok? <==> h.data != []
    ensures r.Err? ==> r.error == OutOfRange
    ensures r.Ok? ==> Valid(cmp, r.value.0)
    ensures r.Ok? ==> multiset(h.data) == multiset(r.value.0.data) + multiset{r.value.1}
    ensures r.Ok? ==> forall y | y in multiset(h.data) :: !cmp(y, r.value.1)
  {
    if |h.data| == 0 then Err(OutOfRange)
    else
      var n := |h.data|;
      var swapped := Swap(h.data, 0, n - 1);
      var rest := swapped[..n - 1];
      assert swapped == rest + [h.data[0]];
      forall y | y in multiset(h.data)
        ensures !cmp(y, h.data[0])
      {
        var i :| 0 <= i < n && h.data[i] == y;
        RootIsLeast(cmp, h.data, i);
      }
      Ok((Heap(BubbleDown(cmp, rest, 0)), h.data[0]))
  }

  function Peek<T(!new)>(cmp: (T, T) -> bool, h: Heap<T>): (r: Result<T>)
    requires Valid(cmp, h)
    ensures r.Ok? <==> h.data != []
    ensures r.Err? ==> r.error == OutOfRange
    ensures r.Ok? ==> r.value in multiset(h.data)
    ensures r.Ok? ==> forall y | y in multiset(h.data) :: !cmp(y, r.value)
  {
    if |h.data| == 0 then Err(OutOfRange)
    else
      forall y | y in multiset(h.data)
        ensures !cmp(y, h.data[0])
      {
        var i :| 0 <= i < |h.data| && h.data[i] == y;
        RootIsLeast(cmp, h.data, i);
      }
      Ok(h.data[0])
  }

  /** `peek` returns exactly what `pop` would remove. */
  lemma PeekIsPopped<T(!new)>(cmp: (T, T) -> bool, h: Heap<T>)
    requires Valid(cmp, h) && h.data != []
    ensures Peek(cmp, h).value == Pop(cmp, h).value.1
  {
  }

  /** Popping until empty: the elements come out in order. */
  function Drain<T(!new)>(cmp: (T, T) -> bool, h: Heap<T>): (r: seq<T>)
    requires Valid(cmp, h)
    ensures multiset(r) == multiset(h.data)
    decreases |h.data|
  {
    if |h.data| == 0 then []
    else
      var (h', x) := Pop(cmp, h).value;
      assert |h'.data| < |h.data| by {
        assert |multiset(h'.data)| < |multiset(h.data)|;
      }
      [x] + Drain(cmp, h')
  }

  /** No element is ordered before an earlier one. */
  ghost predicate Ordered<T>(cmp: (T, T) -> bool, s: seq<T>) {
    forall i, j :: 0 <= i < j < |s| ==> !cmp(s[j], s[i])
  }

  lemma ConsOrdered<T>(cmp: (T, T) -> bool, x: T, rest: seq<T>)
    requires Ordered(cmp, rest)
    requires forall y | y in multiset(rest) :: !cmp(y, x)
    ensures Ordered(cmp, [x] + rest)
  {
    var r := [x] + rest;
    forall i, j | 0 <= i < j < |r|
      ensures !cmp(r[j], r[i])
    {
      assert r[j] == rest[j - 1];
      if i == 0 {
        assert rest[j - 1] in multiset(rest);
      } else {
        assert r[i] == rest[i - 1];
      }
    }
  }

  /** Heap sort: draining a heap yields its elements with no element
      ordered before an earlier one. */
  lemma {:induction false} DrainIsSorted<T(!new)>(cmp: (T, T) -> bool, h: Heap<T>)
    requires Valid(cmp, h)
    ensures Ordered(cmp, Drain(cmp, h))
    decreases |h.data|
  {
    if |h.data| > 0 {
      var (h', x) := Pop(cmp, h).value;
      assert |h'.data| < |h.data| by {
        assert |multiset(h'.data)| < |multiset(h.data)|;
      }
      DrainIsSorted(cmp, h');
      var rest := Drain(cmp, h');
      assert Drain(cmp, h) == [x] + rest;
      assert multiset(rest) == multiset(h'.data);
      ConsOrdered(cmp, x, rest);
    }
  }

  /** The empty heap, which `clear` is meant to restore, is a heap under
      every admissible comparator. */
  lemma EmptyIsValid<T(!new)>(cmp: (T, T) -> bool)
    requires StrictWeakOrder(cmp)
    ensures Valid(cmp, Empty())
    ensures Drain(cmp, Empty()) == []
  {
  }

  /** The index arithmetic: both children of i have i as their parent, and
      every non-root index is one of its parent's two children. */
  lemma ChildrenOfParent(i: nat)
    ensures Parent(Left(i)) == i && Parent(Right(i)) == i
    ensures i < Left(i) && Left(i) + 1 == Right(i)
    ensures i > 0 ==> i == Left(Parent(i)) || i == Right(Parent(i))
  {
  }

  /** `size` counts the elements and `is_empty` tests for none: a push adds
      one, a pop removes one, and only an empty heap throws on pop. */
  lemma SizeCounts<T(!new)>(cmp: (T, T) -> bool, h: Heap<T>, x: T)
    requires Valid(cmp, h)
    ensures Size(Push(cmp, h, x)) == Size(h) + 1 && !IsEmpty(Push(cmp, h, x))
    ensures Pop(cmp, h).Ok? ==> Size(Pop(cmp, h).value.0) == Size(h) - 1
    ensures IsEmpty(h) <==> Pop(cmp, h).Err?
    ensures IsEmpty(h) <==> Peek(cmp, h).Err?
  {
    var r := Push(cmp, h, x);
    assert |multiset(r.data)| == |multiset(h.data)| + 1;
    if h.data != [] {
      var (h', y) := Pop(cmp, h).value;
      assert |multiset(h.data)| == |multiset(h'.data)| + 1;
    }
  }
}

=== FILE: binary_tree.dfy ===
/** The node shape shared by the three binary search trees.

    `BSTree`, `AvlTree` and `RedBlackTree` all keep a key, a value and two
    child pointers per node; they differ only in what else a node caches
    (nothing, a height, a colour and a height). Here a tree is an immutable
    value whose `tag` carries that per-tree extra. The meaning of a tree is
    the finite map from its keys to their values (`ToMap`), its order is the
    in-order key sequence (`Keys`), and a search tree is one whose in-order
    keys are strictly increasing under `cmp`. */
module BinaryTree {
  import opened Wrappers
  import opened Ordering

  datatype Tree<K, V, A> =
    | Nil
    | Node(left: Tree<K, V, A>, key: K, value: V, tag: A, right: Tree<K, V, A>)

  /** The keys in in-order (left subtree, node, right subtree). */
  ghost function Keys<K, V, A>(t: Tree<K, V, A>): seq<K> {
    match t
    case Nil => []
    case Node(l, k, _, _, r) => Keys(l) + [k] + Keys(r)
  }

  /** The map a tree stands for. */
  ghost function ToMap<K, V, A>(t: Tree<K, V, A>): map<K, V> {
    match t
    case Nil => map[]
    case Node(l, k, v, _, r) => ToMap(l) + map[k := v] + ToMap(r)
  }

  /** The binary-search-tree invariant: in-order keys strictly increase. */
  ghost predicate SearchTree<K, V, A>(cmp: (K, K) -> bool, t: Tree<K, V, A>) {
    StrictlySorted(cmp, Keys(t))
  }

  /** Every key of `t` is ordered before `k`. */
  ghost predicate AllBelow<K, V, A>(cmp: (K, K) -> bool, t: Tree<K, V, A>, k: K) {
    forall i :: 0 <= i < |Keys(t)| ==> cmp(Keys(t)[i], k)
  }

  /** Every key of `t` is ordered after `k`. */
  ghost predicate AllAbove<K, V, A>(cmp: (K, K) -> bool, t: Tree<K, V, A>, k: K) {
    forall i :: 0 <= i < |Keys(t)| ==> cmp(k, Keys(t)[i])
  }

  /** The number of nodes. */
  function Size<K, V, A>(t: Tree<K, V, A>): (n: nat)
    ensures n == |Keys(t)|
  {
    match t
    case Nil => 0
    case Node(l, _, _, _, r) => Size(l) + 1 + Size(r)
  }

  /** The tree with every value erased: its shape, keys and tags. */
  function Skeleton<K, V, A>(t: Tree<K, V, A>): Tree<K, (), A> {
    match t
    case Nil => Nil
    case Node(l, k, _, a, r) => Node(Skeleton(l), k, (), a, Skeleton(r))
  }

  /** Trees with the same skeleton have the same height. */
  lemma {:induction false} SkeletonHeight<K, V, A>(a: Tree<K, V, A>, b: Tree<K, V, A>)
    requires Skeleton(a) == Skeleton(b)
    ensures Height(a) == Height(b)
  {
    match a
    case Nil =>
    case Node(l, _, _, _, r) =>
      SkeletonHeight(l, b.left);
      SkeletonHeight(r, b.right);
  }

  function Max(a: int, b: int): int {
    if a >= b then a else b
  }

  function Pow2(n: nat): (p: nat)
    ensures p >= 1
  {
    if n == 0 then 1 else 2 * Pow2(n - 1)
  }

  /** The height by the library's convention: an empty tree has height -1
      and a single node height 0. */
  function Height<K, V, A>(t: Tree<K, V, A>): (h: int)
    ensures h >= -1
    ensures h == -1 <==> t.Nil?
    ensures t.Node? ==> h > Height(t.left) && h > Height(t.right)
  {
    match t
    case Nil => -1
    case Node(l, _, _, _, r) => 1 + if Height(l) >= Height(r) then Height(l) else Height(r)
  }

  /** The key set of the map is the set of in-order keys. */
  lemma {:induction false} KeysOfMap<K, V, A>(t: Tree<K, V, A>, k: K)
    ensures k in ToMap(t) <==> k in Keys(t)
  {
    match t
    case Nil =>
    case Node(l, _, _, _, r) =>
      KeysOfMap(l, k);
      KeysOfMap(r, k);
  }

  /** The search-tree invariant, unfolded at one node. */
  lemma SearchTreeNode<K(!new), V, A>(cmp: (K, K) -> bool, l: Tree<K, V, A>, k: K, v: V, a: A, r: Tree<K, V, A>)
    requires Transitive(cmp)
    ensures SearchTree(cmp, Node(l, k, v, a, r)) <==>
              SearchTree(cmp, l) && SearchTree(cmp, r) && AllBelow(cmp, l, k) && AllAbove(cmp, r, k)
  {
    var s := Keys(Node(l, k, v, a, r));
    var n := |Keys(l)|;
    assert s == Keys(l) + [k] + Keys(r);
    assert forall i :: 0 <= i < n ==> s[i] == Keys(l)[i];
    assert s[n] == k;
    assert forall i :: n < i < |s| ==> s[i] == Keys(r)[i - n - 1];
    if SearchTree(cmp, l) && SearchTree(cmp, r) && AllBelow(cmp, l, k) && AllAbove(cmp, r, k) {
      forall i, j | 0 <= i < j < |s|
        ensures cmp(s[i], s[j])
      {
        if j < n {
        } else if j == n {
        } else if i < n {
          assert cmp(s[i], k) && cmp(k, s[j]);
        } else if i == n {
        } else {
          assert cmp(Keys(r)[i - n - 1], Keys(r)[j - n - 1]);
        }
      }
    }
    if SearchTree(cmp, Node(l, k, v, a, r)) {
      forall i, j | 0 <= i < j < |Keys(l)|
        ensures cmp(Keys(l)[i], Keys(l)[j])
      {
        assert cmp(s[i], s[j]);
      }
      forall i, j | 0 <= i < j < |Keys(r)|
        ensures cmp(Keys(r)[i], Keys(r)[j])
      {
        assert cmp(s[i + n + 1], s[j + n + 1]);
      }
      forall i | 0 <= i < n
        ensures cmp(Keys(l)[i], k)
      {
        assert cmp(s[i], s[n]);
      }
      forall i | 0 <= i < |Keys(r)|
        ensures cmp(k, Keys(r)[i])
      {
        assert cmp(s[n], s[i + n + 1]);
      }
    }
  }

  /** In a search tree, a key ordered before the root can only be on the
      left, and there it has the same value. */
  lemma LookupLeft<K(!new), V, A>(cmp: (K, K) -> bool, t: Tree<K, V, A>, k: K)
    requires StrictTotalOrder(cmp) && SearchTree(cmp, t)
    requires t.Node? && cmp(k, t.key)
    ensures k in ToMap(t) <==> k in ToMap(t.left)
    ensures k in ToMap(t) ==> ToMap(t)[k] == ToMap(t.left)[k]
  {
    SearchTreeNode(cmp, t.left, t.key, t.value, t.tag, t.right);
    KeysOfMap(t.right, k);
  }

  /** In a search tree, a key ordered after the root can only be on the
      right, and there it has the same value. */
  lemma LookupRight<K(!new), V, A>(cmp: (K, K) -> bool, t: Tree<K, V, A>, k: K)
    requires StrictTotalOrder(cmp) && SearchTree(cmp, t)
    requires t.Node? && k != t.key && !cmp(k, t.key)
    ensures k in ToMap(t) <==> k in ToMap(t.right)
    ensures k in ToMap(t) ==> ToMap(t)[k] == ToMap(t.right)[k]
  {
    SearchTreeNode(cmp, t.left, t.key, t.value, t.tag, t.right);
    KeysOfMap(t.left, k);
  }

  /** The root's own entry is the map's entry for the root key. */
  lemma LookupRoot<K(!new), V, A>(cmp: (K, K) -> bool, t: Tree<K, V, A>)
    requires StrictTotalOrder(cmp) && SearchTree(cmp, t)
    requires t.Node?
    ensures t.key in ToMap(t) && ToMap(t)[t.key] == t.value
  {
    SearchTreeNode(cmp, t.left, t.key, t.value, t.tag, t.right);
    KeysOfMap(t.right, t.key);
  }

  /** The descent every tree's `get` and `contains` performs: stop at an
      equal key, go left when the key is ordered before the node's key,
      right otherwise. */
  function Find<K(==, !new), V, A>(cmp: (K, K) -> bool, t: Tree<K, V, A>, k: K): (r: Option<V>)
    requires StrictTotalOrder(cmp) && SearchTree(cmp, t)
    ensures r.Some? <==> k in ToMap(t)
    ensures r.Some? ==> r.value == ToMap(t)[k]
  {
    match t
    case Nil => None
    case Node(l, key, v, _, r) =>
      SearchTreeNode(cmp, l, key, v, t.tag, r);
      if key == k then
        LookupRoot(cmp, t);
        Some(v)
      else if cmp(k, key) then
        LookupLeft(cmp, t, k);
        Find(cmp, l, k)
      else
        LookupRight(cmp, t, k);
        Find(cmp, r, k)
  }

  /** `get`: the value under `k`, or `std::out_of_range`. */
  function Get<K(==, !new), V, A>(cmp: (K, K) -> bool, t: Tree<K, V, A>, k: K): (r: Result<V>)
    requires StrictTotalOrder(cmp) && SearchTree(cmp, t)
    ensures r.Ok? <==> k in ToMap(t)
    ensures r.Ok? ==> r.value == ToMap(t)[k]
    ensures r.Err? ==> r.error == OutOfRange
  {
    match Find(cmp, t, k)
    case Some(v) => Ok(v)
    case None => Err(OutOfRange)
  }

  /** `contains`. */
  function Contains<K(==, !new), V, A>(cmp: (K, K) -> bool, t: Tree<K, V, A>, k: K): (b: bool)
    requires StrictTotalOrder(cmp) && SearchTree(cmp, t)
    ensures b <==> k in ToMap(t)
  {
    Find(cmp, t, k).Some?
  }

  /** Trees with the same in-order entries stand for the same map; this is
      what makes rotations harmless. */
  lemma MapOfRotation<K, V, A>(a: Tree<K, V, A>, x: K, xv: V, y: K, yv: V, c: Tree<K, V, A>, b: Tree<K, V, A>, t1: A, t2: A, t3: A, t4: A)
    ensures ToMap(Node(Node(a, x, xv, t1, b), y, yv, t2, c)) == ToMap(Node(a, x, xv, t3, Node(b, y, yv, t4, c)))
    ensures Keys(Node(Node(a, x, xv, t1, b), y, yv, t2, c)) == Keys(Node(a, x, xv, t3, Node(b, y, yv, t4, c)))
  {
    var l := Node(Node(a, x, xv, t1, b), y, yv, t2, c);
    var r := Node(a, x, xv, t3, Node(b, y, yv, t4, c));
    assert ToMap(l) == (ToMap(a) + map[x := xv] + ToMap(b)) + map[y := yv] + ToMap(c);
    assert ToMap(r) == ToMap(a) + map[x := xv] + (ToMap(b) + map[y := yv] + ToMap(c));
    UnionRegroup(ToMap(a), map[x := xv], ToMap(b), map[y := yv], ToMap(c));
    assert Keys(l) == (Keys(a) + [x] + Keys(b)) + [y] + Keys(c);
    assert Keys(r) == Keys(a) + [x] + (Keys(b) + [y] + Keys(c));
  }

  /** Map union is associative, so regrouping five parts changes nothing. */
  lemma UnionRegroup<K, V>(a: map<K, V>, x: map<K, V>, b: map<K, V>, y: map<K, V>, c: map<K, V>)
    ensures (a + x + b) + y + c == a + x + (b + y + c)
  {
  }

  /** `AllBelow` in terms of the map's keys. */
  lemma AllBelowMap<K(!new), V, A>(cmp: (K, K) -> bool, t: Tree<K, V, A>, b: K)
    ensures AllBelow(cmp, t, b) <==> forall x :: x in ToMap(t) ==> cmp(x, b)
  {
    forall x
      ensures x in ToMap(t) <==> x in Keys(t)
    {
      KeysOfMap(t, x);
    }
  }

  /** `AllAbove` in terms of the map's keys. */
  lemma AllAboveMap<K(!new), V, A>(cmp: (K, K) -> bool, t: Tree<K, V, A>, b: K)
    ensures AllAbove(cmp, t, b) <==> forall x :: x in ToMap(t) ==> cmp(b, x)
  {
    forall x
      ensures x in ToMap(t) <==> x in Keys(t)
    {
      KeysOfMap(t, x);
    }
  }

  /** In a search tree the root key is in neither subtree. */
  lemma RootNotInSubtrees<K(!new), V, A>(cmp: (K, K) -> bool, t: Tree<K, V, A>)
    requires StrictTotalOrder(cmp) && SearchTree(cmp, t) && t.Node?
    ensures t.key !in ToMap(t.left) && t.key !in ToMap(t.right)
    ensures forall x :: x in ToMap(t.left) ==> cmp(x, t.key) && x !in ToMap(t.right)
    ensures forall x :: x in ToMap(t.right) ==> cmp(t.key, x)
  {
    SearchTreeNode(cmp, t.left, t.key, t.value, t.tag, t.right);
    AllBelowMap(cmp, t.left, t.key);
    AllAboveMap(cmp, t.right, t.key);
  }

  /** Updating the left part of a disjoint union. */
  lemma UpdateLeft<K, V>(a: map<K, V>, x: map<K, V>, b: map<K, V>, k: K, v: V)
    requires k !in x && k !in b
    ensures a[k := v] + x + b == (a + x + b)[k := v]
  {
  }

  /** Updating the right part of a disjoint union. */
  lemma UpdateRight<K, V>(a: map<K, V>, x: map<K, V>, b: map<K, V>, k: K, v: V)
    requires k !in a && k !in x
    ensures a + x + b[k := v] == (a + x + b)[k := v]
  {
  }

  /** Removing a key from the left part of a disjoint union. */
  lemma RemoveLeft<K, V>(a: map<K, V>, x: map<K, V>, b: map<K, V>, k: K)
    requires k !in x && k !in b
    ensures (a - {k}) + x + b == (a + x + b) - {k}
  {
  }

  /** Removing a key from the right part of a disjoint union. */
  lemma RemoveRight<K, V>(a: map<K, V>, x: map<K, V>, b: map<K, V>, k: K)
    requires k !in a && k !in x
    ensures a + x + (b - {k}) == (a + x + b) - {k}
  {
  }

  /** The step of an insertion that descended left: the rebuilt node is a
      search tree holding the updated map, whatever tag it carries. */
  lemma InsertLeftStep<K(!new), V, A>(cmp: (K, K) -> bool, t: Tree<K, V, A>, l': Tree<K, V, A>, k: K, v: V, a: A)
    requires StrictTotalOrder(cmp) && SearchTree(cmp, t) && t.Node? && cmp(k, t.key)
    requires SearchTree(cmp, l') && ToMap(l') == ToMap(t.left)[k := v]
    ensures SearchTree(cmp, Node(l', t.key, t.value, a, t.right))
    ensures ToMap(Node(l', t.key, t.value, a, t.right)) == ToMap(t)[k := v]
    ensures k in ToMap(t) <==> k in ToMap(t.left)
  {
    RootNotInSubtrees(cmp, t);
    SearchTreeNode(cmp, t.left, t.key, t.value, t.tag, t.right);
    LookupLeft(cmp, t, k);
    AllBelowMap(cmp, l', t.key);
    SearchTreeNode(cmp, l', t.key, t.value, a, t.right);
    UpdateLeft(ToMap(t.left), map[t.key := t.value], ToMap(t.right), k, v);
  }

  /** The step of an insertion that descended right. */
  lemma InsertRightStep<K(!new), V, A>(cmp: (K, K) -> bool, t: Tree<K, V, A>, r': Tree<K, V, A>, k: K, v: V, a: A)
    requires StrictTotalOrder(cmp) && SearchTree(cmp, t) && t.Node? && k != t.key && !cmp(k, t.key)
    requires SearchTree(cmp, r') && ToMap(r') == ToMap(t.right)[k := v]
    ensures SearchTree(cmp, Node(t.left, t.key, t.value, a, r'))
    ensures ToMap(Node(t.left, t.key, t.value, a, r')) == ToMap(t)[k := v]
    ensures k in ToMap(t) <==> k in ToMap(t.right)
  {
    RootNotInSubtrees(cmp, t);
    SearchTreeNode(cmp, t.left, t.key, t.value, t.tag, t.right);
    LookupRight(cmp, t, k);
    assert cmp(t.key, k);
    AllAboveMap(cmp, r', t.key);
    SearchTreeNode(cmp, t.left, t.key, t.value, a, r');
    UpdateRight(ToMap(t.left), map[t.key := t.value], ToMap(t.right), k, v);
  }

  /** Overwriting the value at the root keeps the shape and updates the map. */
  lemma OverwriteRootStep<K(!new), V, A>(cmp: (K, K) -> bool, t: Tree<K, V, A>, v: V, a: A)
    requires StrictTotalOrder(cmp) && SearchTree(cmp, t) && t.Node?
    ensures SearchTree(cmp, Node(t.left, t.key, v, a, t.right))
    ensures ToMap(Node(t.left, t.key, v, a, t.right)) == ToMap(t)[t.key := v]
    ensures t.key in ToMap(t)
  {
    RootNotInSubtrees(cmp, t);
    LookupRoot(cmp, t);
    SearchTreeNode(cmp, t.left, t.key, t.value, t.tag, t.right);
    SearchTreeNode(cmp, t.left, t.key, v, a, t.right);
  }

  /** The step of a removal that descended left. */
  lemma RemoveLeftStep<K(!new), V, A>(cmp: (K, K) -> bool, t: Tree<K, V, A>, l': Tree<K, V, A>, k: K, a: A)
    requires StrictTotalOrder(cmp) && SearchTree(cmp, t) && t.Node? && cmp(k, t.key)
    requires SearchTree(cmp, l') && ToMap(l') == ToMap(t.left) - {k}
    ensures SearchTree(cmp, Node(l', t.key, t.value, a, t.right))
    ensures ToMap(Node(l', t.key, t.value, a, t.right)) == ToMap(t) - {k}
    ensures k in ToMap(t) <==> k in ToMap(t.left)
  {
    RootNotInSubtrees(cmp, t);
    SearchTreeNode(cmp, t.left, t.key, t.value, t.tag, t.right);
    LookupLeft(cmp, t, k);
    AllBelowMap(cmp, l', t.key);
    SearchTreeNode(cmp, l', t.key, t.value, a, t.right);
    RemoveLeft(ToMap(t.left), map[t.key := t.value], ToMap(t.right), k);
  }

  /** The step of a removal that descended right. */
  lemma RemoveRightStep<K(!new), V, A>(cmp: (K, K) -> bool, t: Tree<K, V, A>, r': Tree<K, V, A>, k: K, a: A)
    requires StrictTotalOrder(cmp) && SearchTree(cmp, t) && t.Node? && k != t.key && !cmp(k, t.key)
    requires SearchTree(cmp, r') && ToMap(r') == ToMap(t.right) - {k}
    ensures SearchTree(cmp, Node(t.left, t.key, t.value, a, r'))
    ensures ToMap(Node(t.left, t.key, t.value, a, r')) == ToMap(t) - {k}
    ensures k in ToMap(t) <==> k in ToMap(t.right)
  {
    RootNotInSubtrees(cmp, t);
    SearchTreeNode(cmp, t.left, t.key, t.value, t.tag, t.right);
    LookupRight(cmp, t, k);
    AllAboveMap(cmp, r', t.key);
    SearchTreeNode(cmp, t.left, t.key, t.value, a, r');
    RemoveRight(ToMap(t.left), map[t.key := t.value], ToMap(t.right), k);
  }

  /** Replacing a node that lacks a child by its other child removes
      exactly the node's key. */
  lemma SpliceStep<K(!new), V, A>(cmp: (K, K) -> bool, t: Tree<K, V, A>)
    requires StrictTotalOrder(cmp) && SearchTree(cmp, t) && t.Node?
    requires t.left.Nil? || t.right.Nil?
    ensures var c := if t.left.Nil? then t.right else t.left;
            SearchTree(cmp, c) && ToMap(c) == ToMap(t) - {t.key}
    ensures t.key in ToMap(t)
  {
    RootNotInSubtrees(cmp, t);
    LookupRoot(cmp, t);
    SearchTreeNode(cmp, t.left, t.key, t.value, t.tag, t.right);
    if t.left.Nil? {
      assert ToMap(t) == map[t.key := t.value] + ToMap(t.right);
    } else {
      assert ToMap(t) == ToMap(t.left) + map[t.key := t.value];
    }
  }

  /** Unlinking the leftmost node of a left subtree, one level up: the
      unlinked key stays the first in-order key of the whole tree. */
  lemma RemoveMinStep<K(!new), V, A>(cmp: (K, K) -> bool, t: Tree<K, V, A>, l': Tree<K, V, A>, mk: K, mv: V, a: A)
    requires StrictTotalOrder(cmp) && SearchTree(cmp, t) && t.Node?
    requires Keys(t.left) == [mk] + Keys(l')
    requires mk in ToMap(t.left) && ToMap(t.left)[mk] == mv
    requires ToMap(l') == ToMap(t.left) - {mk}
    ensures Keys(t) == [mk] + Keys(Node(l', t.key, t.value, a, t.right))
    ensures mk in ToMap(t) && ToMap(t)[mk] == mv
    ensures ToMap(Node(l', t.key, t.value, a, t.right)) == ToMap(t) - {mk}
  {
    RootNotInSubtrees(cmp, t);
    RemoveLeft(ToMap(t.left), map[t.key := t.value], ToMap(t.right), mk);
  }

  /** Unlinking a leftmost node with no left child. */
  lemma RemoveMinBase<K(!new), V, A>(cmp: (K, K) -> bool, t: Tree<K, V, A>)
    requires StrictTotalOrder(cmp) && SearchTree(cmp, t) && t.Node? && t.left.Nil?
    ensures Keys(t) == [t.key] + Keys(t.right)
    ensures t.key in ToMap(t) && ToMap(t)[t.key] == t.value
    ensures ToMap(t.right) == ToMap(t) - {t.key}
  {
    SpliceStep(cmp, t);
    LookupRoot(cmp, t);
  }

  /** A suffix of a strictly sorted sequence is strictly sorted, and
      follows its first element. */
  lemma SortedTail<K>(cmp: (K, K) -> bool, x: K, s: seq<K>)
    requires StrictlySorted(cmp, [x] + s)
    ensures StrictlySorted(cmp, s)
    ensures forall i :: 0 <= i < |s| ==> cmp(x, s[i])
  {
    var xs := [x] + s;
    assert xs[0] == x;
    forall i, j | 0 <= i < j < |s|
      ensures cmp(s[i], s[j])
    {
      assert xs[i + 1] == s[i] && xs[j + 1] == s[j];
    }
    forall i | 0 <= i < |s|
      ensures cmp(x, s[i])
    {
      assert xs[i + 1] == s[i];
      assert cmp(xs[0], xs[i + 1]);
    }
  }

  /** Removing a node with two children by moving its in-order successor
      (the first key of the right subtree, now unlinked as `r'`) into it. */
  lemma SuccessorStep<K(!new), V, A>(cmp: (K, K) -> bool, t: Tree<K, V, A>, r': Tree<K, V, A>, sk: K, sv: V, a: A)
    requires StrictTotalOrder(cmp) && SearchTree(cmp, t) && t.Node?
    requires Keys(t.right) == [sk] + Keys(r')
    requires sk in ToMap(t.right) && ToMap(t.right)[sk] == sv
    requires ToMap(r') == ToMap(t.right) - {sk}
    ensures SearchTree(cmp, Node(t.left, sk, sv, a, r'))
    ensures ToMap(Node(t.left, sk, sv, a, r')) == ToMap(t) - {t.key}
    ensures t.key in ToMap(t)
  {
    SuccessorOrder(cmp, t, r', sk, sv, a);
    RootNotInSubtrees(cmp, t);
    LookupRoot(cmp, t);
    MoveUp(ToMap(t.left), ToMap(t.right), ToMap(r'), t.key, t.value, sk, sv);
  }

  /** The map identity behind `SuccessorStep`. */
  lemma MoveUp<K, V>(l: map<K, V>, r: map<K, V>, r': map<K, V>, k: K, v: V, sk: K, sv: V)
    requires k !in l && k !in r && sk in r && r[sk] == sv && r' == r - {sk}
    ensures l + map[sk := sv] + r' == (l + map[k := v] + r) - {k}
  {
    var lhs := l + map[sk := sv] + r';
    var rhs := (l + map[k := v] + r) - {k};
    assert forall x :: x in lhs <==> x in rhs;
    forall x | x in lhs
      ensures lhs[x] == rhs[x]
    {
      if x == sk {
      } else if x in r' {
      } else {
      }
    }
  }

  lemma SuccessorOrder<K(!new), V, A>(cmp: (K, K) -> bool, t: Tree<K, V, A>, r': Tree<K, V, A>, sk: K, sv: V, a: A)
    requires StrictTotalOrder(cmp) && SearchTree(cmp, t) && t.Node?
    requires Keys(t.right) == [sk] + Keys(r')
    ensures SearchTree(cmp, Node(t.left, sk, sv, a, r'))
  {
    SearchTreeNode(cmp, t.left, t.key, t.value, t.tag, t.right);
    SortedTail(cmp, sk, Keys(r'));
    assert Keys(t.right)[0] == sk;
    assert cmp(t.key, sk);
    forall i | 0 <= i < |Keys(t.left)|
      ensures cmp(Keys(t.left)[i], sk)
    {
      assert cmp(Keys(t.left)[i], t.key);
    }
    SearchTreeNode(cmp, t.left, sk, sv, a, r');
  }

  /** The number of keys of a search tree is its number of nodes. */
  lemma {:induction false} KeyCount<K(!new), V, A>(cmp: (K, K) -> bool, t: Tree<K, V, A>)
    requires StrictTotalOrder(cmp) && SearchTree(cmp, t)
    ensures |ToMap(t).Keys| == Size(t)
  {
    match t
    case Nil =>
    case Node(l, k, v, a, r) =>
      SearchTreeNode(cmp, l, k, v, a, r);
      RootNotInSubtrees(cmp, t);
      KeyCount(cmp, l);
      KeyCount(cmp, r);
      var L, R := ToMap(l).Keys, ToMap(r).Keys;
      assert L !! R;
      assert ToMap(t).Keys == L + {k} + R;
      assert |L + R| == |L| + |R|;
  }
}

=== FILE: bs_tree.dfy ===
/** `BSTree`: an unbalanced binary search tree with a node counter.

    The tree stands for the map `ToMap(root)`; `insert` overwrites the value
    of an existing key, `remove` unlinks a node with at most one child and
    otherwise moves its in-order successor up. Nodes cache nothing, so the
    tag of every node is `()`. */
module BSTree {
  import opened Wrappers
  import opened Ordering
  import opened BinaryTree

  type BsNode<K, V> = Tree<K, V, ()>

  datatype BSTree<K, V> = BSTree(root: BsNode<K, V>, size: nat)

  /** The class invariant: a search tree whose counter is its node count. */
  ghost predicate Valid<K, V>(cmp: (K, K) -> bool, t: BSTree<K, V>) {
    SearchTree(cmp, t.root) && t.size == Size(t.root)
  }

  function Empty<K, V>(): BSTree<K, V> {
    BSTree(Nil, 0)
  }

  /** A new tree is valid under any order. */
  lemma EmptyValid<K, V>(cmp: (K, K) -> bool, t: BSTree<K, V>)
    requires t == Empty()
    ensures Valid(cmp, t)
    ensures ToMap(t.root) == map[]
  {
  }

  /** `size`: the number of keys. */
  function Count<K(!new), V>(cmp: (K, K) -> bool, t: BSTree<K, V>): (n: nat)
    requires StrictTotalOrder(cmp) && Valid(cmp, t)
    ensures n == |ToMap(t.root).Keys|
  {
    KeyCount(cmp, t.root);
    t.size
  }

  function IsEmpty<K(!new), V>(cmp: (K, K) -> bool, t: BSTree<K, V>): (b: bool)
    requires StrictTotalOrder(cmp) && Valid(cmp, t)
    ensures b <==> ToMap(t.root) == map[]
  {
    assert t.root.Node? ==> t.root.key in ToMap(t.root) by {
      if t.root.Node? { LookupRoot(cmp, t.root); }
    }
    t.size == 0
  }

  /** `height`: -1 when empty, otherwise the longest root-to-leaf path. */
  function TreeHeight<K, V>(t: BSTree<K, V>): (h: int)
    ensures h == -1 <==> t.root.Nil?
    ensures h < Size(t.root)
  {
    HeightBelowSize(t.root);
    Height(t.root)
  }

  /** A tree is never taller than it has nodes. */
  lemma {:induction false} HeightBelowSize<K, V, A>(t: Tree<K, V, A>)
    ensures Height(t) < Size(t)
  {
    match t
    case Nil =>
    case Node(l, _, _, _, r) =>
      HeightBelowSize(l);
      HeightBelowSize(r);
  }

  /** The loop of `insert` on the node links: overwrite an equal key (and
      report `false`), otherwise hang a new leaf where the descent ends. */
  function InsertNode<K(==, !new), V>(cmp: (K, K) -> bool, t: BsNode<K, V>, k: K, v: V): (r: (BsNode<K, V>, bool))
    requires StrictTotalOrder(cmp) && SearchTree(cmp, t)
    ensures SearchTree(cmp, r.0)
    ensures ToMap(r.0) == ToMap(t)[k := v]
    ensures r.1 <==> k !in ToMap(t)
  {
    match t
    case Nil => (Node(Nil, k, v, (), Nil), true)
    case Node(l, key, val, _, rt) =>
      SearchTreeNode(cmp, l, key, val, (), rt);
      if key == k then
        OverwriteRootStep(cmp, t, v, ());
        (Node(l, key, v, (), rt), false)
      else if cmp(k, key) then
        var (l', added) := InsertNode(cmp, l, k, v);
        InsertLeftStep(cmp, t, l', k, v, ());
        (Node(l', key, val, (), rt), added)
      else
        var (r', added) := InsertNode(cmp, rt, k, v);
        InsertRightStep(cmp, t, r', k, v, ());
        (Node(l, key, val, (), r'), added)
  }

  /** `insert`: returns whether the key was new. */
  function Insert<K(==, !new), V>(cmp: (K, K) -> bool, t: BSTree<K, V>, k: K, v: V): (r: (BSTree<K, V>, bool))
    requires StrictTotalOrder(cmp) && Valid(cmp, t)
    ensures Valid(cmp, r.0)
    ensures ToMap(r.0.root) == ToMap(t.root)[k := v]
    ensures r.1 <==> k !in ToMap(t.root)
  {
    var (root, added) := InsertNode(cmp, t.root, k, v);
    KeyCount(cmp, t.root);
    KeyCount(cmp, root);
    assert ToMap(root).Keys == ToMap(t.root).Keys + {k};
    (BSTree(root, if added then t.size + 1 else t.size), added)
  }

  /** The successor search of `remove`: unlink the leftmost node, replacing
      it by its right child, and hand back its key and value. */
  function RemoveMin<K(!new), V>(cmp: (K, K) -> bool, t: BsNode<K, V>): (r: (BsNode<K, V>, K, V))
    requires StrictTotalOrder(cmp) && SearchTree(cmp, t) && t.Node?
    ensures Keys(t) == [r.1] + Keys(r.0)
    ensures r.1 in ToMap(t) && ToMap(t)[r.1] == r.2
    ensures ToMap(r.0) == ToMap(t) - {r.1}
  {
    var Node(l, key, val, _, rt) := t;
    if l.Nil? then
      RemoveMinBase(cmp, t);
      (rt, key, val)
    else
      SearchTreeNode(cmp, l, key, val, (), rt);
      var (l', mk, mv) := RemoveMin(cmp, l);
      RemoveMinStep(cmp, t, l', mk, mv, ());
      (Node(l', key, val, (), rt), mk, mv)
  }

  /** The loop of `remove` on the node links: find `k`; a node with no left
      child is replaced by its right child, one with no right child by its
      left child, and otherwise its in-order successor's key and value move
      into it. Reports whether `k` was present. */
  function RemoveNode<K(==, !new), V>(cmp: (K, K) -> bool, t: BsNode<K, V>, k: K): (r: (BsNode<K, V>, bool))
    requires StrictTotalOrder(cmp) && SearchTree(cmp, t)
    ensures SearchTree(cmp, r.0)
    ensures ToMap(r.0) == ToMap(t) - {k}
    ensures r.1 <==> k in ToMap(t)
  {
    match t
    case Nil => (Nil, false)
    case Node(l, key, val, _, rt) =>
      SearchTreeNode(cmp, l, key, val, (), rt);
      if key == k then
        if l.Nil? || rt.Nil? then
          SpliceStep(cmp, t);
          (if l.Nil? then rt else l, true)
        else
          var (r', sk, sv) := RemoveMin(cmp, rt);
          SuccessorStep(cmp, t, r', sk, sv, ());
          (Node(l, sk, sv, (), r'), true)
      else if cmp(k, key) then
        var (l', removed) := RemoveNode(cmp, l, k);
        RemoveLeftStep(cmp, t, l', k, ());
        (Node(l', key, val, (), rt), removed)
      else
        var (r', removed) := RemoveNode(cmp, rt, k);
        RemoveRightStep(cmp, t, r', k, ());
        (Node(l, key, val, (), r'), removed)
  }

  /** `remove`: returns whether the key was present. */
  function Remove<K(==, !new), V>(cmp: (K, K) -> bool, t: BSTree<K, V>, k: K): (r: (BSTree<K, V>, bool))
    requires StrictTotalOrder(cmp) && Valid(cmp, t)
    ensures Valid(cmp, r.0)
    ensures ToMap(r.0.root) == ToMap(t.root) - {k}
    ensures r.1 <==> k in ToMap(t.root)
  {
    var (root, removed) := RemoveNode(cmp, t.root, k);
    KeyCount(cmp, t.root);
    KeyCount(cmp, root);
    assert ToMap(root).Keys == ToMap(t.root).Keys - {k};
    (BSTree(root, if removed then t.size - 1 else t.size), removed)
  }

  /** Inserting a new key and removing it again gives back the same map. */
  lemma InsertThenRemove<K(!new), V>(cmp: (K, K) -> bool, t: BSTree<K, V>, k: K, v: V)
    requires StrictTotalOrder(cmp) && Valid(cmp, t)
    requires k !in ToMap(t.root)
    ensures Insert(cmp, t, k, v).1
    ensures var t' := Insert(cmp, t, k, v).0;
            Remove(cmp, t', k).1 && ToMap(Remove(cmp, t', k).0.root) == ToMap(t.root)
  {
    var t' := Insert(cmp, t, k, v).0;
    assert ToMap(t.root)[k := v] - {k} == ToMap(t.root);
  }

  /** After `insert`, `get` finds the inserted value. */
  lemma InsertThenGet<K(!new), V>(cmp: (K, K) -> bool, t: BSTree<K, V>, k: K, v: V, j: K)
    requires StrictTotalOrder(cmp) && Valid(cmp, t)
    ensures var t' := Insert(cmp, t, k, v).0;
            Get(cmp, t'.root, j) == if j == k then Ok(v) else Get(cmp, t.root, j)
  {
  }
}

=== FILE: btree.dfy ===
/** `BTree`: a B-tree of order M over key/value entries.

    A node holds up to M - 1 entries in key order and, unless it is a leaf,
    one more child than entries. As in the C++ arrays, every child slot of
    a leaf is null (`Nil`); `is_leaf` is read off the first slot. The tree
    stands for `Flat(root)`, its entries read in order. The class invariant
    is what `check_properties` checks: entry counts (at least one at the
    root, at least ceil(M/2) - 1 elsewhere, at most M - 1), all leaves at the
    same depth, and keys ascending in the in-order reading. */
module BTree {
  import opened Wrappers
  import opened Ordering
  import opened Entries
  import opened Weaving

  /** The template parameter M. Orders below 3 leave nodes that may hold no
      entry, on which the C++ code indexes out of bounds. */
  type Order = m: nat | 3 <= m witness 3

  datatype BNode<K, V> = Nil | Node(entries: seq<Entry<K, V>>, children: seq<BNode<K, V>>)

  datatype BTree<K, V> = BTree(root: BNode<K, V>, size: nat)

  /** `std::ceil(M / 2.0) - 1`: the fewest entries of a non-root node. */
  function MinKeys(m: Order): (n: nat)
    ensures 1 <= n && 2 * n <= m - 1
  {
    (m + 1) / 2 - 1
  }

  /** The entries of a subtree in order. */
  function Flat<K, V>(t: BNode<K, V>): seq<Entry<K, V>> {
    match t
    case Nil => []
    case Node(es, cs) => if |cs| == |es| + 1 then Weave(Parts(cs), es) else es
  }

  /** The in-order readings of a sequence of children. */
  function Parts<K, V>(cs: seq<BNode<K, V>>): (p: seq<seq<Entry<K, V>>>)
    ensures |p| == |cs| && forall i :: 0 <= i < |cs| ==> p[i] == Flat(cs[i])
  {
    seq(|cs|, i requires 0 <= i < |cs| => Flat(cs[i]))
  }

  /** `is_leaf`: the first child slot is null. */
  predicate IsLeaf<K, V>(t: BNode<K, V>)
    requires t.Node?
  {
    |t.children| == 0 || t.children[0].Nil?
  }

  /** `height(node)`: the number of steps down the first children to a
      null slot, less one; -1 for an empty tree. */
  function Height<K, V>(t: BNode<K, V>): (h: int)
    ensures h >= -1 && (h == -1 <==> t.Nil?)
  {
    match t
    case Nil => -1
    case Node(_, cs) => if |cs| == 0 then 0 else 1 + Height(cs[0])
  }

  /** The node with every value erased: its shape and its keys. */
  function Skeleton<K, V>(t: BNode<K, V>): BNode<K, ()> {
    match t
    case Nil => Nil
    case Node(es, cs) =>
      Node(seq(|es|, i requires 0 <= i < |es| => Entry(es[i].key, ())),
           seq(|cs|, i requires 0 <= i < |cs| => Skeleton(cs[i])))
  }

  /** Nodes with the same skeleton have the same height. */
  lemma {:induction false} SkeletonHeight<K, V>(a: BNode<K, V>, b: BNode<K, V>)
    requires Skeleton(a) == Skeleton(b)
    ensures Height(a) == Height(b)
    decreases a
  {
    match a
    case Nil =>
    case Node(_, cs) =>
      if |cs| > 0 {
        assert Skeleton(a).children[0] == Skeleton(cs[0]);
        assert Skeleton(b).children[0] == Skeleton(b.children[0]);
        SkeletonHeight(cs[0], b.children[0]);
      }
  }

  // ---------------------------------------------------------------------
  // The invariants
  // ---------------------------------------------------------------------

  /** Shape: one more child than entries, and every leaf at depth `h`. */
  ghost predicate Wf<K, V>(t: BNode<K, V>, h: int) {
    match t
    case Nil => h == -1
    case Node(es, cs) => h >= 0 && |cs| == |es| + 1 && forall i :: 0 <= i < |cs| ==> Wf(cs[i], h - 1)
  }

  /** Entry counts: between `lo` and M - 1 here, between `MinKeys` and M - 1
      in every node below. */
  ghost predicate Counts<K, V>(m: Order, t: BNode<K, V>, lo: nat) {
    match t
    case Nil => true
    case Node(es, cs) => lo <= |es| <= m - 1 && forall i :: 0 <= i < |cs| ==> Counts(m, cs[i], MinKeys(m))
  }

  /** A subtree whose leaves are level, whose nodes hold between `lo` (at
      its top) or `MinKeys` (below) and M - 1 entries, and whose keys ascend. */
  ghost predicate ValidNode<K, V>(m: Order, cmp: (K, K) -> bool, t: BNode<K, V>, lo: nat) {
    Wf(t, Height(t)) && Counts(m, t, lo) && Ascending(cmp, Flat(t))
  }

  /** The class invariant of a tree with `m_size` counting its entries. */
  ghost predicate Valid<K, V>(m: Order, cmp: (K, K) -> bool, t: BTree<K, V>) {
    ValidNode(m, cmp, t.root, 1) && t.size == |Flat(t.root)|
  }

  /** The abstract map of a tree. */
  ghost function Contents<K, V>(t: BTree<K, V>): map<K, V> {
    ToMap(Flat(t.root))
  }

  lemma {:induction false} WfHeight<K, V>(t: BNode<K, V>, h: int)
    requires Wf(t, h)
    ensures Height(t) == h
    decreases t
  {
    if t.Node? {
      WfHeight(t.children[0], h - 1);
    }
  }

  /** A child of a well-shaped node is well-shaped one level lower. */
  lemma WfChild<K, V>(t: BNode<K, V>, i: int)
    requires t.Node? && Wf(t, Height(t)) && 0 <= i < |t.children|
    ensures Wf(t.children[i], Height(t.children[i])) && Height(t.children[i]) == Height(t) - 1
    ensures t.children[i].Nil? <==> IsLeaf(t)
  {
    WfHeight(t.children[i], Height(t) - 1);
    WfHeight(t.children[0], Height(t) - 1);
  }

  /** Lowering the bound at the top keeps the counts. */
  lemma {:induction false} CountsWeaken<K, V>(m: Order, t: BNode<K, V>, lo: nat, lo': nat)
    requires Counts(m, t, lo) && lo' <= lo
    ensures Counts(m, t, lo')
  {
  }

  // ---------------------------------------------------------------------
  // Reading a node around one child
  // ---------------------------------------------------------------------

  /** A node with one more child than entries. */
  predicate Shaped<K, V>(t: BNode<K, V>) {
    t.Node? && |t.children| == |t.entries| + 1
  }

  /** The entries before child `i`. */
  ghost function Left<K, V>(t: BNode<K, V>, i: int): (r: seq<Entry<K, V>>)
    requires Shaped(t) && 0 <= i < |t.children|
    ensures i == 0 ==> r == []
    ensures i > 0 ==> |r| > 0 && r[|r| - 1] == t.entries[i - 1]
  {
    Pre(Parts(t.children[..i]), t.entries[..i])
  }

  /** The entries after child `i`. */
  ghost function Right<K, V>(t: BNode<K, V>, i: int): (r: seq<Entry<K, V>>)
    requires Shaped(t) && 0 <= i < |t.children|
    ensures i == |t.entries| ==> r == []
    ensures i < |t.entries| ==> |r| > 0 && r[0] == t.entries[i]
  {
    Post(Parts(t.children[i + 1..]), t.entries[i..])
  }

  lemma PartsCat<K, V>(a: seq<BNode<K, V>>, b: seq<BNode<K, V>>)
    ensures Parts(a + b) == Parts(a) + Parts(b)
  {
    var l, r := Parts(a + b), Parts(a) + Parts(b);
    forall j | 0 <= j < |l|
      ensures l[j] == r[j]
    {
      if j >= |a| {
        assert (a + b)[j] == b[j - |a|];
      }
    }
  }

  lemma Around<K, V>(t: BNode<K, V>, i: int)
    requires Shaped(t) && 0 <= i < |t.children|
    ensures Flat(t) == Left(t, i) + Flat(t.children[i]) + Right(t, i)
  {
    var es, cs := t.entries, t.children;
    assert cs == cs[..i] + [cs[i]] + cs[i + 1..];
    PartsCat(cs[..i] + [cs[i]], cs[i + 1..]);
    PartsCat(cs[..i], [cs[i]]);
    assert Parts([cs[i]]) == [Flat(cs[i])];
    assert Parts(cs) == Parts(cs[..i]) + [Flat(cs[i])] + Parts(cs[i + 1..]);
    assert es == es[..i] + es[i..];
    WeaveMid(Parts(cs[..i]), es[..i], Flat(cs[i]), Parts(cs[i + 1..]), es[i..]);
  }

  lemma Around2<K, V>(t: BNode<K, V>, i: int)
    requires Shaped(t) && 0 <= i < |t.entries|
    ensures Flat(t) == Left(t, i) + Flat(t.children[i]) + [t.entries[i]] + Flat(t.children[i + 1]) + Right(t, i + 1)
  {
    var es, cs := t.entries, t.children;
    assert cs == cs[..i] + [cs[i], cs[i + 1]] + cs[i + 2..];
    PartsCat(cs[..i] + [cs[i], cs[i + 1]], cs[i + 2..]);
    PartsCat(cs[..i], [cs[i], cs[i + 1]]);
    assert Parts([cs[i], cs[i + 1]]) == [Flat(cs[i]), Flat(cs[i + 1])];
    assert Parts(cs) == Parts(cs[..i]) + [Flat(cs[i]), Flat(cs[i + 1])] + Parts(cs[i + 2..]);
    assert es == es[..i] + [es[i]] + es[i + 1..];
    WeaveMid2(Parts(cs[..i]), es[..i], Flat(cs[i]), es[i], Flat(cs[i + 1]), Parts(cs[i + 2..]), es[i + 1..]);
  }

  /** The reading from child `i` on. */
  ghost function Tail<K, V>(t: BNode<K, V>, i: int): seq<Entry<K, V>>
    requires Shaped(t) && 0 <= i <= |t.entries|
  {
    Weave(Parts(t.children[i..]), t.entries[i..])
  }

  lemma TailStep<K, V>(t: BNode<K, V>, i: int)
    requires Shaped(t) && 0 <= i <= |t.entries|
    ensures i == 0 ==> Tail(t, i) == Flat(t)
    ensures i == |t.entries| ==> Tail(t, i) == Flat(t.children[i])
    ensures i < |t.entries| ==> Tail(t, i) == Flat(t.children[i]) + [t.entries[i]] + Tail(t, i + 1)
  {
    var es, cs := t.entries, t.children;
    assert cs[0..] == cs && es[0..] == es;
    if i < |es| {
      assert Parts(cs[i..])[1..] == Parts(cs[i + 1..]);
      assert es[i..][1..] == es[i + 1..];
    }
  }

  /** The reading from child `i` on is the end of the node's reading. */
  lemma {:induction false} TailAscending<K, V>(cmp: (K, K) -> bool, t: BNode<K, V>, i: int)
    requires Shaped(t) && 0 <= i <= |t.entries| && Ascending(cmp, Flat(t))
    ensures Ascending(cmp, Tail(t, i))
    decreases i
  {
    TailStep(t, i);
    if i > 0 {
      TailAscending(cmp, t, i - 1);
      TailStep(t, i - 1);
      AscendingParts(cmp, Flat(t.children[i - 1]) + [t.entries[i - 1]], Tail(t, i), []);
      assert Tail(t, i) + [] == Tail(t, i);
    }
  }

  // ---------------------------------------------------------------------
  // Search
  // ---------------------------------------------------------------------

  /** The scan every descent starts with: skip the entries whose keys are
      before `k`. */
  function Scan<K, V>(cmp: (K, K) -> bool, es: seq<Entry<K, V>>, k: K): (i: nat)
    ensures i <= |es|
    ensures forall j :: 0 <= j < i ==> cmp(es[j].key, k)
    ensures i < |es| ==> !cmp(es[i].key, k)
  {
    if |es| == 0 || !cmp(es[0].key, k) then 0 else 1 + Scan(cmp, es[1..], k)
  }

  /** When the scan stops short of `k`, the entries before the child it
      stops at are smaller than `k` and those after are greater. */
  lemma Bracket<K(!new), V>(cmp: (K, K) -> bool, t: BNode<K, V>, k: K)
    requires StrictTotalOrder(cmp) && Shaped(t) && Ascending(cmp, Flat(t))
    requires var i := Scan(cmp, t.entries, k); !(i < |t.entries| && t.entries[i].key == k)
    ensures var i := Scan(cmp, t.entries, k);
            Below(cmp, Left(t, i), k) && Above(cmp, Right(t, i), k) && Ascending(cmp, Flat(t.children[i]))
  {
    var i := Scan(cmp, t.entries, k);
    Around(t, i);
    AscendingParts(cmp, Left(t, i), Flat(t.children[i]), Right(t, i));
    BelowFromLast(cmp, Left(t, i), k);
    AboveFromFirst(cmp, Right(t, i), k);
  }

  /** The entry the scan stops at, when it holds `k`, is the tree's. */
  lemma FoundAt<K(!new), V>(cmp: (K, K) -> bool, t: BNode<K, V>, i: int)
    requires Irreflexive(cmp) && Shaped(t) && 0 <= i < |t.entries| && Ascending(cmp, Flat(t))
    ensures var e := t.entries[i];
            e.key in ToMap(Flat(t)) && ToMap(Flat(t))[e.key] == e.value
  {
    var e := t.entries[i];
    Around2(t, i);
    var a, c := Left(t, i) + Flat(t.children[i]), Flat(t.children[i + 1]) + Right(t, i + 1);
    assert Flat(t) == a + [e] + c;
    AscendingParts(cmp, a, [e], c);
    assert [e][0] == e;
    MapMiddle(cmp, a, [e], c, e.key);
  }

  /** The private `get`: descend from `t`; `runtime_error` when absent. */
  function Find<K(==, !new), V>(cmp: (K, K) -> bool, t: BNode<K, V>, k: K): (r: Result<V>)
    requires StrictTotalOrder(cmp) && Wf(t, Height(t)) && Ascending(cmp, Flat(t))
    ensures r.Ok? <==> k in ToMap(Flat(t))
    ensures r.Ok? ==> r.value == ToMap(Flat(t))[k]
    ensures r.Err? ==> r.error == RuntimeError
    decreases t
  {
    match t
    case Nil => Err(RuntimeError)
    case Node(es, cs) =>
      var i := Scan(cmp, es, k);
      if i < |es| && es[i].key == k then
        FoundAt(cmp, t, i);
        Ok(es[i].value)
      else
        Bracket(cmp, t, k);
        Around(t, i);
        MapMiddle(cmp, Left(t, i), Flat(cs[i]), Right(t, i), k);
        WfChild(t, i);
        if IsLeaf(t) then Err(RuntimeError) else Find(cmp, cs[i], k)
  }

  /** `get`. */
  function Get<K(==, !new), V>(m: Order, cmp: (K, K) -> bool, t: BTree<K, V>, k: K): (r: Result<V>)
    requires StrictTotalOrder(cmp) && Valid(m, cmp, t)
    ensures r.Ok? <==> k in Contents(t)
    ensures r.Ok? ==> r.value == Contents(t)[k]
    ensures r.Err? ==> r.error == RuntimeError
  {
    Find(cmp, t.root, k)
  }

  /** `contains_key`: the same descent, answering whether it succeeds. */
  function ContainsKey<K(==, !new), V>(m: Order, cmp: (K, K) -> bool, t: BTree<K, V>, k: K): (b: bool)
    requires StrictTotalOrder(cmp) && Valid(m, cmp, t)
    ensures b <==> k in Contents(t)
  {
    Find(cmp, t.root, k).Ok?
  }

  // ---------------------------------------------------------------------
  // Extremes
  // ---------------------------------------------------------------------

  /** No node of the subtree is empty. */
  ghost predicate NonEmpty<K, V>(t: BNode<K, V>) {
    match t
    case Nil => true
    case Node(es, cs) => |es| >= 1 && forall i :: 0 <= i < |cs| ==> NonEmpty(cs[i])
  }

  lemma {:induction false} CountsNonEmpty<K, V>(m: Order, t: BNode<K, V>, lo: nat)
    requires Counts(m, t, lo) && lo >= 1
    ensures NonEmpty(t)
    decreases t
  {
    if t.Node? {
      forall i | 0 <= i < |t.children| ensures NonEmpty(t.children[i]) {
        CountsNonEmpty(m, t.children[i], MinKeys(m));
      }
    }
  }

  /** `min_entry_by_key` / `min_key(node)`: down the first children to a
      leaf, then its first entry. */
  function FirstEntry<K, V>(t: BNode<K, V>): (r: Option<Entry<K, V>>)
    ensures t.Node? && Wf(t, Height(t)) && NonEmpty(t) ==> |Flat(t)| > 0 && r == Some(Flat(t)[0])
  {
    match t
    case Nil => None
    case Node(es, cs) =>
      if !IsLeaf(t) then
        var r := FirstEntry(cs[0]);
        assert Wf(t, Height(t)) && NonEmpty(t) ==> |Flat(t)| > 0 && r == Some(Flat(t)[0]) by {
          if Wf(t, Height(t)) && NonEmpty(t) {
            Around(t, 0);
            WfChild(t, 0);
          }
        }
        r
      else if |es| > 0 then
        assert Wf(t, Height(t)) ==> Flat(t)[0] == es[0] by {
          if Wf(t, Height(t)) {
            Around(t, 0);
            WfChild(t, 0);
          }
        }
        Some(es[0])
      else None
  }

  /** `max_key(node)`: down the last children to a leaf, then its last
      entry. */
  function LastEntry<K, V>(t: BNode<K, V>): (r: Option<Entry<K, V>>)
    ensures t.Node? && Wf(t, Height(t)) && NonEmpty(t) ==> |Flat(t)| > 0 && r == Some(Flat(t)[|Flat(t)| - 1])
  {
    match t
    case Nil => None
    case Node(es, cs) =>
      if !IsLeaf(t) then
        if |es| < |cs| then
          var r := LastEntry(cs[|es|]);
          assert Wf(t, Height(t)) && NonEmpty(t) ==> |Flat(t)| > 0 && r == Some(Flat(t)[|Flat(t)| - 1]) by {
            if Wf(t, Height(t)) && NonEmpty(t) {
              Around(t, |es|);
              WfChild(t, |es|);
            }
          }
          r
        else None
      else if |es| > 0 then
        assert Wf(t, Height(t)) ==> Flat(t)[|Flat(t)| - 1] == es[|es| - 1] by {
          if Wf(t, Height(t)) {
            Around(t, |es|);
            WfChild(t, |es|);
          }
        }
        Some(es[|es| - 1])
      else None
  }

  /** `min_key()`: the least key; `runtime_error` on an empty tree. */
  function MinKey<K(!new), V>(m: Order, cmp: (K, K) -> bool, t: BTree<K, V>): (r: Result<K>)
    requires Valid(m, cmp, t)
    ensures r.Ok? <==> |Contents(t)| > 0
    ensures r.Ok? ==> r.value in Contents(t) && forall k :: k in Contents(t) && k != r.value ==> cmp(r.value, k)
    ensures r.Err? ==> r.error == RuntimeError
  {
    if t.root.Nil? then Err(RuntimeError)
    else
      CountsNonEmpty(m, t.root, 1);
      var s := Flat(t.root);
      ExtremesOf(cmp, s);
      match FirstEntry(t.root)
      case Some(e) => Ok(e.key)
      case None => Err(RuntimeError)
  }

  /** `max_key()`: the greatest key; `runtime_error` on an empty tree. */
  function MaxKey<K(!new), V>(m: Order, cmp: (K, K) -> bool, t: BTree<K, V>): (r: Result<K>)
    requires Valid(m, cmp, t)
    ensures r.Ok? <==> |Contents(t)| > 0
    ensures r.Ok? ==> r.value in Contents(t) && forall k :: k in Contents(t) && k != r.value ==> cmp(k, r.value)
    ensures r.Err? ==> r.error == RuntimeError
  {
    if t.root.Nil? then Err(RuntimeError)
    else
      CountsNonEmpty(m, t.root, 1);
      var s := Flat(t.root);
      ExtremesOf(cmp, s);
      match LastEntry(t.root)
      case Some(e) => Ok(e.key)
      case None => Err(RuntimeError)
  }

  /** The first and last keys of an ascending sequence are its least and
      greatest. */
  lemma ExtremesOf<K, V>(cmp: (K, K) -> bool, s: seq<Entry<K, V>>)
    requires Ascending(cmp, s)
    ensures |ToMap(s)| > 0 <==> |s| > 0
    ensures |s| > 0 ==> s[0].key in ToMap(s) && s[|s| - 1].key in ToMap(s)
    ensures |s| > 0 ==> forall k :: k in ToMap(s) && k != s[0].key ==> cmp(s[0].key, k)
    ensures |s| > 0 ==> forall k :: k in ToMap(s) && k != s[|s| - 1].key ==> cmp(k, s[|s| - 1].key)
  {
    if |s| > 0 {
      MapKeys(s, s[0].key);
      MapKeys(s, s[|s| - 1].key);
      assert s[0].key in ToMap(s);
      forall k | k in ToMap(s)
        ensures k != s[0].key ==> cmp(s[0].key, k)
        ensures k != s[|s| - 1].key ==> cmp(k, s[|s| - 1].key)
      {
        MapKeys(s, k);
        var j :| 0 <= j < |s| && KeysOf(s)[j] == k;
      }
    } else {
      assert ToMap(s) == map[];
    }
  }

  // ---------------------------------------------------------------------
  // to_string and range_search
  // ---------------------------------------------------------------------

  /** The private `to_string`, with each key standing for its text and the
      separators dropped: for each entry, the keys of the child before it
      (unless a leaf), then its key; then the keys of the last child. */
  function KeyList<K, V>(t: BNode<K, V>): seq<K>
    decreases t, 1
  {
    match t
    case Nil => []
    case Node(es, cs) => KeysFrom(t, 0)
  }

  function KeysFrom<K, V>(t: BNode<K, V>, i: nat): seq<K>
    requires t.Node? && i <= |t.entries|
    decreases t, 0, |t.entries| - i
  {
    var es, cs := t.entries, t.children;
    if i == |es| then
      (if !IsLeaf(t) && i < |cs| then KeyList(cs[i]) else [])
    else
      (if !IsLeaf(t) && i < |cs| then KeyList(cs[i]) else []) + [es[i].key] + KeysFrom(t, i + 1)
  }

  lemma KeysOfAppend<K, V>(a: seq<Entry<K, V>>, b: seq<Entry<K, V>>)
    ensures KeysOf(a + b) == KeysOf(a) + KeysOf(b)
  {
  }

  lemma {:induction false} KeyListFlat<K, V>(t: BNode<K, V>)
    requires Wf(t, Height(t))
    ensures KeyList(t) == KeysOf(Flat(t))
    decreases t, 1
  {
    if t.Node? {
      KeysFromTail(t, 0);
      TailStep(t, 0);
    }
  }

  lemma {:induction false} KeysFromTail<K, V>(t: BNode<K, V>, i: nat)
    requires t.Node? && Wf(t, Height(t)) && i <= |t.entries|
    ensures KeysFrom(t, i) == KeysOf(Tail(t, i))
    decreases t, 0, |t.entries| - i
  {
    TailStep(t, i);
    var c := t.children[i];
    WfChild(t, i);
    assert (if !IsLeaf(t) then KeyList(c) else []) == KeysOf(Flat(c)) by {
      if !IsLeaf(t) { KeyListFlat(c); }
    }
    if i < |t.entries| {
      KeysFromTail(t, i + 1);
      KeysOfAppend(Flat(c) + [t.entries[i]], Tail(t, i + 1));
      KeysOfAppend(Flat(c), [t.entries[i]]);
    }
  }

  /** `to_string()`: the keys in ascending order, each once. */
  function ToString<K, V>(m: Order, cmp: (K, K) -> bool, t: BTree<K, V>): (r: seq<K>)
    requires Valid(m, cmp, t)
    ensures r == KeysOf(Flat(t.root))
    ensures StrictlySorted(cmp, r) && |r| == t.size
  {
    KeyListFlat(t.root);
    KeyList(t.root)
  }

  /** The private `range_search`: for each entry, search the child before
      it when `begin` is before the entry's key, and report the entry when
      `begin <= key <= end`; then search the last child. */
  function Range<K, V>(cmp: (K, K) -> bool, t: BNode<K, V>, lo: K, hi: K): seq<Entry<K, V>>
    decreases t, 1
  {
    match t
    case Nil => []
    case Node(es, cs) => RangeFrom(cmp, t, 0, lo, hi)
  }

  function RangeFrom<K, V>(cmp: (K, K) -> bool, t: BNode<K, V>, i: nat, lo: K, hi: K): seq<Entry<K, V>>
    requires t.Node? && i <= |t.entries|
    decreases t, 0, |t.entries| - i
  {
    var es, cs := t.entries, t.children;
    if i == |es| then
      (if i < |cs| then Range(cmp, cs[i], lo, hi) else [])
    else
      (if cmp(lo, es[i].key) && i < |cs| then Range(cmp, cs[i], lo, hi) else []) +
      (if InRange(cmp, lo, hi, es[i].key) then [es[i]] else []) +
      RangeFrom(cmp, t, i + 1, lo, hi)
  }

  lemma {:induction false} RangeWithin<K(!new), V>(cmp: (K, K) -> bool, t: BNode<K, V>, lo: K, hi: K)
    requires StrictTotalOrder(cmp) && Wf(t, Height(t)) && Ascending(cmp, Flat(t))
    ensures Range(cmp, t, lo, hi) == Within(cmp, Flat(t), lo, hi)
    decreases t, 1
  {
    if t.Node? {
      TailStep(t, 0);
      RangeFromTail(cmp, t, 0, lo, hi);
    }
  }

  lemma {:induction false} RangeFromTail<K(!new), V>(cmp: (K, K) -> bool, t: BNode<K, V>, i: nat, lo: K, hi: K)
    requires StrictTotalOrder(cmp) && t.Node? && Wf(t, Height(t)) && Ascending(cmp, Flat(t)) && i <= |t.entries|
    ensures RangeFrom(cmp, t, i, lo, hi) == Within(cmp, Tail(t, i), lo, hi)
    decreases t, 0, |t.entries| - i
  {
    var es, c := t.entries, t.children[i];
    TailStep(t, i);
    TailAscending(cmp, t, i);
    WfChild(t, i);
    if i < |es| {
      var e := es[i];
      AscendingParts(cmp, Flat(c), [e], Tail(t, i + 1));
      assert Ascending(cmp, Flat(t)) by {}
      assert Ascending(cmp, Flat(c));
      assert (if cmp(lo, e.key) then Range(cmp, c, lo, hi) else []) == Within(cmp, Flat(c), lo, hi) by {
        if cmp(lo, e.key) {
          RangeWithin(cmp, c, lo, hi);
        } else {
          assert Below(cmp, Flat(c), lo) by {
            forall j | 0 <= j < |Flat(c)| ensures cmp(Flat(c)[j].key, lo) {
              assert [e][0] == e;
              assert cmp(Flat(c)[j].key, e.key);
            }
          }
          WithinNone(cmp, Flat(c), lo, hi);
        }
      }
      RangeFromTail(cmp, t, i + 1, lo, hi);
      WithinAppend(cmp, Flat(c) + [e], Tail(t, i + 1), lo, hi);
      WithinAppend(cmp, Flat(c), [e], lo, hi);
      assert Within(cmp, [e], lo, hi) == if InRange(cmp, lo, hi, e.key) then [e] else [];
    } else {
      RangeWithin(cmp, c, lo, hi);
    }
  }

  /** `range_search(begin, end)`: exactly the entries with
      `begin <= key <= end`, in ascending key order. */
  function RangeSearch<K(!new), V(!new)>(m: Order, cmp: (K, K) -> bool, t: BTree<K, V>, lo: K, hi: K): (r: seq<Entry<K, V>>)
    requires StrictTotalOrder(cmp) && Valid(m, cmp, t)
    ensures forall e :: e in r <==> e in Flat(t.root) && InRange(cmp, lo, hi, e.key)
    ensures Ascending(cmp, r)
  {
    var s := Flat(t.root);
    RangeWithin(cmp, t.root, lo, hi);
    WithinMeans(cmp, s, lo, hi);
    WithinAscending(cmp, s, lo, hi);
    var r := Range(cmp, t.root, lo, hi);
    assert r == Within(cmp, s, lo, hi);
    r
  }

  lemma {:induction false} WithinAscending<K(!new), V>(cmp: (K, K) -> bool, s: seq<Entry<K, V>>, lo: K, hi: K)
    requires Ascending(cmp, s)
    ensures Ascending(cmp, Within(cmp, s, lo, hi))
    decreases |s|
  {
    if |s| > 0 {
      var r := Within(cmp, s[1..], lo, hi);
      WithinAscending(cmp, s[1..], lo, hi);
      assert Above(cmp, s[1..], s[0].key) by {
        forall j | 0 <= j < |s| - 1 ensures cmp(s[0].key, s[1..][j].key) {
          assert s[1..][j] == s[j + 1];
        }
      }
      WithinAbove(cmp, s[1..], lo, hi, s[0].key);
      if InRange(cmp, lo, hi, s[0].key) {
        AscendingJoin(cmp, [s[0]], r);
      } else {
        assert [] + r == r;
      }
    }
  }

  lemma {:induction false} WithinAbove<K, V>(cmp: (K, K) -> bool, s: seq<Entry<K, V>>, lo: K, hi: K, k: K)
    requires Above(cmp, s, k)
    ensures Above(cmp, Within(cmp, s, lo, hi), k)
    decreases |s|
  {
    if |s| > 0 {
      WithinAbove(cmp, s[1..], lo, hi, k);
      var h: seq<Entry<K, V>> := if InRange(cmp, lo, hi, s[0].key) then [s[0]] else [];
      PrependAbove(cmp, h, Within(cmp, s[1..], lo, hi), k, s[0]);
    }
  }

  lemma PrependAbove<K, V>(cmp: (K, K) -> bool, h: seq<Entry<K, V>>, r: seq<Entry<K, V>>, k: K, e: Entry<K, V>)
    requires h == [] || h == [e]
    requires cmp(k, e.key) && Above(cmp, r, k)
    ensures Above(cmp, h + r, k)
  {
  }

  // ---------------------------------------------------------------------
  // Size and height
  // ---------------------------------------------------------------------

  function Empty<K, V>(): BTree<K, V> {
    BTree(Nil, 0)
  }

  /** An empty tree is valid for any order and comparison. */
  lemma EmptyValid<K, V>(m: Order, cmp: (K, K) -> bool, t: BTree<K, V>)
    requires t == Empty()
    ensures Valid(m, cmp, t)
    ensures Contents(t) == map[]
  {
  }

  /** `size()`: the number of keys. */
  function Count<K(!new), V>(m: Order, cmp: (K, K) -> bool, t: BTree<K, V>): (n: nat)
    requires StrictTotalOrder(cmp) && Valid(m, cmp, t)
    ensures n == |Contents(t)|
  {
    DistinctCount(cmp, Flat(t.root));
    t.size
  }

  /** `is_empty()`. */
  function IsEmpty<K(!new), V>(m: Order, cmp: (K, K) -> bool, t: BTree<K, V>): (b: bool)
    requires Valid(m, cmp, t)
    ensures b <==> Contents(t) == map[]
  {
    ExtremesOf(cmp, Flat(t.root));
    t.size == 0
  }

  /** An ascending sequence holds as many keys as entries. */
  lemma {:induction false} DistinctCount<K(!new), V>(cmp: (K, K) -> bool, s: seq<Entry<K, V>>)
    requires StrictTotalOrder(cmp) && Ascending(cmp, s)
    ensures |ToMap(s)| == |s|
    decreases |s|
  {
    if |s| > 0 {
      DistinctCount(cmp, s[1..]);
      AboveFromFirst(cmp, s[1..], s[0].key);
      NotBelow(cmp, s[1..], s[0].key);
    }
  }

  /** `height()`: every leaf lies this many levels below the root. */
  function TreeHeight<K, V>(m: Order, cmp: (K, K) -> bool, t: BTree<K, V>): (h: int)
    requires Valid(m, cmp, t)
    ensures Wf(t.root, h)
    ensures h == -1 <==> t.size == 0
  {
    ExtremesOf(cmp, Flat(t.root));
    assert t.root.Node? ==> |Flat(t.root)| > 0 by {
      if t.root.Node? {
        CountsNonEmpty(m, t.root, 1);
        var _ := FirstEntry(t.root);
      }
    }
    Height(t.root)
  }
}

=== FILE: btree_check.dfy ===
/** `check_properties` of `BTree`, and its agreement with the class
    invariant. */
module BTreeCheck {
  import opened Wrappers
  import opened Ordering
  import opened Entries
  import opened Weaving
  import opened BTree

  /** The C++ nodes have M child slots, of which those past `size + 1` are
      always null; the model keeps exactly the `size + 1` that matter. */
  ghost predicate Slots<K, V>(t: BNode<K, V>) {
    match t
    case Nil => true
    case Node(es, cs) => |cs| == |es| + 1 && forall i :: 0 <= i < |cs| ==> Slots(cs[i])
  }

  lemma {:induction false} WfSlots<K, V>(t: BNode<K, V>, h: int)
    requires Wf(t, h)
    ensures Slots(t)
    decreases t
  {
    if t.Node? {
      forall i | 0 <= i < |t.children| ensures Slots(t.children[i]) {
        WfSlots(t.children[i], h - 1);
      }
    }
  }

  /** The separator test: the greatest key of `l` (found by `max_key`) is
      before `k`, and `k` is before the least key of `r` (`min_key`). */
  function Separates<K, V>(cmp: (K, K) -> bool, l: BNode<K, V>, k: K, r: BNode<K, V>): bool {
    match (LastEntry(l), FirstEntry(r))
    case (Some(a), Some(b)) => cmp(a.key, k) && cmp(k, b.key)
    case _ => false
  }

  /** The private `check_properties(node)`; `atRoot` is `node == m_root`. */
  function Check<K, V>(m: Order, cmp: (K, K) -> bool, t: BNode<K, V>, atRoot: bool): bool
    requires Slots(t)
    decreases t
  {
    match t
    case Nil => true
    case Node(es, cs) =>
      && (if atRoot then 1 else MinKeys(m)) <= |es| <= m - 1
      && (forall i :: 0 <= i < |es| - 1 ==> cmp(es[i].key, es[i + 1].key))
      && if IsLeaf(t) then
           forall i :: 0 <= i < |cs| ==> cs[i].Nil?
         else
           && (forall i :: 0 <= i < |cs| ==> cs[i].Node?)
           && (forall i :: 0 <= i < |cs| ==> Check(m, cmp, cs[i], false))
           && (forall i :: 1 <= i < |cs| ==> Height(cs[i]) == Height(cs[0]))
           && (forall i :: 0 <= i < |es| ==> Separates(cmp, cs[i], es[i].key, cs[i + 1]))
  }

  /** `check_properties()`: true exactly when the tree meets its invariant
      (the counter `m_size` is not checked). */
  function CheckProperties<K(!new), V>(m: Order, cmp: (K, K) -> bool, t: BTree<K, V>): (b: bool)
    requires StrictTotalOrder(cmp) && Slots(t.root)
    ensures b <==> ValidNode(m, cmp, t.root, 1)
  {
    CheckMeans(m, cmp, t.root, true);
    Check(m, cmp, t.root, true)
  }

  lemma {:induction false} CheckMeans<K(!new), V>(m: Order, cmp: (K, K) -> bool, t: BNode<K, V>, atRoot: bool)
    requires StrictTotalOrder(cmp) && Slots(t)
    ensures Check(m, cmp, t, atRoot) <==> ValidNode(m, cmp, t, if atRoot then 1 else MinKeys(m))
    decreases t
  {
    if t.Node? {
      var cs := t.children;
      forall i | 0 <= i < |cs|
        ensures Check(m, cmp, cs[i], false) <==> ValidNode(m, cmp, cs[i], MinKeys(m))
      {
        CheckMeans(m, cmp, cs[i], false);
      }
      if Check(m, cmp, t, atRoot) {
        NodeSound(m, cmp, t, atRoot);
      }
      if ValidNode(m, cmp, t, if atRoot then 1 else MinKeys(m)) {
        NodeComplete(m, cmp, t, atRoot);
      }
    }
  }

  /** Keys rising from each entry to the next rise throughout. */
  lemma {:induction false} ChainAscending<K(!new), V>(cmp: (K, K) -> bool, s: seq<Entry<K, V>>)
    requires Transitive(cmp)
    requires forall i :: 0 <= i < |s| - 1 ==> cmp(s[i].key, s[i + 1].key)
    ensures Ascending(cmp, s)
    decreases |s|
  {
    if |s| > 1 {
      ChainAscending(cmp, s[1..]);
      assert s == [s[0]] + s[1..];
      AscendingAdjacent(cmp, [s[0]], s[1..]);
    }
  }

  /** A node whose children ascend, each separated from its neighbouring
      entries, ascends from child `i` on. */
  lemma {:induction false} TailUp<K(!new), V>(cmp: (K, K) -> bool, t: BNode<K, V>, i: nat)
    requires Transitive(cmp) && Shaped(t) && i <= |t.entries|
    requires forall j :: 0 <= j < |t.children| ==> Ascending(cmp, Flat(t.children[j])) && |Flat(t.children[j])| > 0
    requires forall j :: 0 <= j < |t.entries| ==>
      cmp(Last(Flat(t.children[j])).key, t.entries[j].key) && cmp(t.entries[j].key, Flat(t.children[j + 1])[0].key)
    ensures Ascending(cmp, Tail(t, i)) && |Tail(t, i)| > 0 && Tail(t, i)[0] == Flat(t.children[i])[0]
    decreases |t.entries| - i
  {
    TailStep(t, i);
    if i < |t.entries| {
      var c, e := Flat(t.children[i]), t.entries[i];
      TailUp(cmp, t, i + 1);
      AscendingAdjacent(cmp, c, [e]);
      AscendingAdjacent(cmp, c + [e], Tail(t, i + 1));
    }
  }

  function Last<E>(s: seq<E>): E
    requires |s| > 0
  {
    s[|s| - 1]
  }

  /** What `check_properties` accepts meets the invariant. */
  lemma NodeSound<K(!new), V>(m: Order, cmp: (K, K) -> bool, t: BNode<K, V>, atRoot: bool)
    requires StrictTotalOrder(cmp) && Slots(t) && t.Node? && Check(m, cmp, t, atRoot)
    requires forall i :: 0 <= i < |t.children| ==>
      (Check(m, cmp, t.children[i], false) ==> ValidNode(m, cmp, t.children[i], MinKeys(m)))
    ensures ValidNode(m, cmp, t, if atRoot then 1 else MinKeys(m))
  {
    var es, cs := t.entries, t.children;
    if IsLeaf(t) {
      assert Wf(t, 0);
      WeaveEmpty(Parts(cs), es);
      ChainAscending(cmp, es);
    } else {
      var h := Height(cs[0]);
      forall i | 0 <= i < |cs| ensures Wf(cs[i], h) && NonEmpty(cs[i]) {
        CountsNonEmpty(m, cs[i], MinKeys(m));
      }
      assert Wf(t, Height(t));
      forall j | 0 <= j < |cs| ensures Ascending(cmp, Flat(cs[j])) && |Flat(cs[j])| > 0 {
        var _ := FirstEntry(cs[j]);
      }
      forall j | 0 <= j < |es|
        ensures cmp(Last(Flat(cs[j])).key, es[j].key) && cmp(es[j].key, Flat(cs[j + 1])[0].key)
      {
        assert Separates(cmp, cs[j], es[j].key, cs[j + 1]);
        var _ := LastEntry(cs[j]);
        var _ := FirstEntry(cs[j + 1]);
      }
      TailUp(cmp, t, 0);
      TailStep(t, 0);
    }
  }

  /** What meets the invariant `check_properties` accepts. */
  lemma NodeComplete<K(!new), V>(m: Order, cmp: (K, K) -> bool, t: BNode<K, V>, atRoot: bool)
    requires StrictTotalOrder(cmp) && Slots(t) && t.Node?
    requires ValidNode(m, cmp, t, if atRoot then 1 else MinKeys(m))
    requires forall i :: 0 <= i < |t.children| ==>
      (ValidNode(m, cmp, t.children[i], MinKeys(m)) ==> Check(m, cmp, t.children[i], false))
    ensures Check(m, cmp, t, atRoot)
  {
    var es, cs := t.entries, t.children;
    forall i | 0 <= i < |es| - 1 ensures cmp(es[i].key, es[i + 1].key) {
      NeighboursAscend(cmp, t, i);
    }
    forall i | 0 <= i < |cs|
      ensures ValidNode(m, cmp, cs[i], MinKeys(m)) && (cs[i].Nil? <==> IsLeaf(t)) && Height(cs[i]) == Height(t) - 1
    {
      ChildValid(m, cmp, t, i);
    }
    if !IsLeaf(t) {
      forall i | 0 <= i < |es| ensures Separates(cmp, cs[i], es[i].key, cs[i + 1]) {
        SeparatorHolds(m, cmp, t, i);
      }
    }
  }

  lemma NeighboursAscend<K, V>(cmp: (K, K) -> bool, t: BNode<K, V>, i: nat)
    requires Shaped(t) && Ascending(cmp, Flat(t)) && i + 1 < |t.entries|
    ensures cmp(t.entries[i].key, t.entries[i + 1].key)
  {
    var es, cs := t.entries, t.children;
    TailAscending(cmp, t, i);
    TailStep(t, i);
    TailStep(t, i + 1);
    var a, b := Flat(cs[i]) + [es[i]], Flat(cs[i + 1]) + [es[i + 1]];
    assert Tail(t, i) == a + b + Tail(t, i + 2);
    AscendingParts(cmp, a, b, Tail(t, i + 2));
    assert a[|a| - 1] == es[i] && b[|b| - 1] == es[i + 1];
  }

  lemma ChildValid<K, V>(m: Order, cmp: (K, K) -> bool, t: BNode<K, V>, i: nat)
    requires t.Node? && ValidNode(m, cmp, t, 0) && i < |t.children|
    ensures ValidNode(m, cmp, t.children[i], MinKeys(m))
    ensures (t.children[i].Nil? <==> IsLeaf(t)) && Height(t.children[i]) == Height(t) - 1
  {
    WfChild(t, i);
    Around(t, i);
    AscendingParts(cmp, Left(t, i), Flat(t.children[i]), Right(t, i));
  }

  lemma SeparatorHolds<K(!new), V>(m: Order, cmp: (K, K) -> bool, t: BNode<K, V>, i: nat)
    requires t.Node? && ValidNode(m, cmp, t, 0) && !IsLeaf(t) && i < |t.entries|
    ensures Separates(cmp, t.children[i], t.entries[i].key, t.children[i + 1])
  {
    var cs := t.children;
    WfChild(t, i);
    WfChild(t, i + 1);
    CountsNonEmpty(m, cs[i], MinKeys(m));
    CountsNonEmpty(m, cs[i + 1], MinKeys(m));
    SeparatorOrder(cmp, t, i);
  }

  /** In an ascending node the entry between two children lies between
      them. */
  lemma SeparatorOrder<K, V>(cmp: (K, K) -> bool, t: BNode<K, V>, i: nat)
    requires Shaped(t) && Ascending(cmp, Flat(t)) && i < |t.entries|
    ensures var x, y := Flat(t.children[i]), Flat(t.children[i + 1]);
            (|x| > 0 ==> cmp(x[|x| - 1].key, t.entries[i].key)) && (|y| > 0 ==> cmp(t.entries[i].key, y[0].key))
  {
    var e, x, y := t.entries[i], Flat(t.children[i]), Flat(t.children[i + 1]);
    Around2(t, i);
    var a, c := Left(t, i) + x, y + Right(t, i + 1);
    assert Flat(t) == a + [e] + c;
    AscendingParts(cmp, a, [e], c);
    assert [e][0] == e;
    if |x| > 0 {
      assert a[|a| - 1] == x[|x| - 1];
      assert cmp(a[|a| - 1].key, [e][0].key);
    }
    if |y| > 0 {
      assert c[0] == y[0];
      assert cmp([e][0].key, c[0].key);
    }
  }
}

=== FILE: btree_insert.dfy ===
/** `insert` of `BTree`: descend to a leaf, put the entry there, and on the
    way back up widen each parent by the entry a full child lifts, splitting
    full parents in turn; a lift out of the root makes a new root. */
module BTreeInsert {
  import opened Ordering
  import opened Entries
  import opened Weaving
  import opened BTree

  /** The result of the private `insert`: either `bool` (whether the key
      was new) or the pair of a lifted entry and the new left sibling. */
  datatype Lift<K, V> = Done(added: bool) | Lifted(entry: Entry<K, V>, left: BNode<K, V>)

  /** A node with entry `e` put before entry `p` and child `l` put before
      child `p` (the shifting loop of a node with room). */
  function Widen<K, V>(t: BNode<K, V>, p: nat, e: Entry<K, V>, l: BNode<K, V>): (g: BNode<K, V>)
    requires t.Node? && p <= |t.entries| && p <= |t.children|
    ensures g.Node? && |g.entries| == |t.entries| + 1 && |g.children| == |t.children| + 1
  {
    Node(t.entries[..p] + [e] + t.entries[p..], t.children[..p] + [l] + t.children[p..])
  }

  /** The merge loop of a full node: the first entry whose key is after
      `k`, or the end. */
  function MergeAt<K, V>(cmp: (K, K) -> bool, es: seq<Entry<K, V>>, k: K): (p: nat)
    ensures p <= |es|
    ensures forall j :: 0 <= j < p ==> !cmp(k, es[j].key)
    ensures p < |es| ==> cmp(k, es[p].key)
  {
    if |es| == 0 || cmp(k, es[0].key) then 0 else 1 + MergeAt(cmp, es[1..], k)
  }

  /** The split of an over-full node around `mid = (M - 1) / 2`: the new left
      sibling, the lifted entry, and what stays in the node. */
  function Split<K, V>(m: Order, g: BNode<K, V>): (r: (BNode<K, V>, Entry<K, V>, BNode<K, V>))
    requires Shaped(g) && |g.entries| == m
    ensures Shaped(r.0) && Shaped(r.2)
    ensures |r.0.entries| == MinKeys(m) && MinKeys(m) <= |r.2.entries| <= m - 1
    ensures Flat(g) == Flat(r.0) + [r.1] + Flat(r.2)
  {
    var mid := (m - 1) / 2;
    var es, cs := g.entries, g.children;
    assert Parts(cs) == Parts(cs[..mid + 1]) + Parts(cs[mid + 1..]);
    assert es == es[..mid] + [es[mid]] + es[mid + 1..];
    WeaveCat(Parts(cs[..mid + 1]), es[..mid], es[mid], Parts(cs[mid + 1..]), es[mid + 1..]);
    (Node(es[..mid], cs[..mid + 1]), es[mid], Node(es[mid + 1..], cs[mid + 1..]))
  }

  /** The private `insert(node, key, value)`. The subtree `t` holds between
      `lo` and M - 1 entries at its top. `Done(added)` leaves one subtree in
      place of `t`; `Lifted(e, l)` leaves `l`, `e`, and the returned node
      in place of `t`, each of the two nodes at least half full. */
  function InsertRec<K(==, !new), V>(m: Order, cmp: (K, K) -> bool, t: BNode<K, V>, k: K, v: V, lo: nat): (r: (BNode<K, V>, Lift<K, V>))
    requires StrictTotalOrder(cmp) && Wf(t, Height(t)) && Counts(m, t, lo) && Ascending(cmp, Flat(t))
    ensures var s := InsertSorted(cmp, Flat(t), Entry(k, v));
            r.1.Done? ==>
              && Wf(r.0, Height(t)) && Counts(m, r.0, lo) && Flat(r.0) == s
              && (r.1.added <==> k !in ToMap(Flat(t)))
    ensures var s := InsertSorted(cmp, Flat(t), Entry(k, v));
            r.1.Lifted? ==>
              && Wf(r.0, Height(t)) && Wf(r.1.left, Height(t))
              && Counts(m, r.0, MinKeys(m)) && Counts(m, r.1.left, MinKeys(m))
              && Flat(r.1.left) + [r.1.entry] + Flat(r.0) == s
              && k !in ToMap(Flat(t))
    ensures r.1 == Done(false) ==> Skeleton(r.0) == Skeleton(t)
    decreases t
  {
    match t
    case Nil =>
      assert InsertSorted(cmp, [], Entry(k, v)) == [Entry(k, v)];
      (Nil, Lifted(Entry(k, v), Nil))
    case Node(es, cs) =>
      var i := Scan(cmp, es, k);
      if i < |es| && es[i].key == k then
        FoundAt(cmp, t, i);
        OverwriteOk(cmp, t, i, v);
        SameChildren(m, t, es[i := Entry(es[i].key, v)], lo);
        SkeletonOverwrite(t, i, v);
        (Node(es[i := Entry(es[i].key, v)], cs), Done(false))
      else
        Bracket(cmp, t, k);
        Around(t, i);
        MapMiddle(cmp, Left(t, i), Flat(cs[i]), Right(t, i), k);
        WfChild(t, i);
        var (c, lift) := InsertRec(m, cmp, cs[i], k, v, MinKeys(m));
        Climb(m, cmp, t, lo, i, c, lift, Entry(k, v))
  }

  /** The way back up from child `i`: a child that is done is put back in
      place; a child that lifted an entry is absorbed by its parent. */
  function Climb<K(!new), V>(m: Order, cmp: (K, K) -> bool, t: BNode<K, V>, lo: nat, i: nat,
                             c: BNode<K, V>, lift: Lift<K, V>, e: Entry<K, V>): (r: (BNode<K, V>, Lift<K, V>))
    requires StrictTotalOrder(cmp) && t.Node? && Wf(t, Height(t)) && Counts(m, t, lo) && Ascending(cmp, Flat(t))
    requires i < |t.children| && Below(cmp, Left(t, i), e.key) && Above(cmp, Right(t, i), e.key)
    requires Height(t.children[i]) == Height(t) - 1
    requires var s := InsertSorted(cmp, Flat(t.children[i]), e);
             lift.Done? ==>
               && Wf(c, Height(t.children[i])) && Counts(m, c, MinKeys(m)) && Flat(c) == s
               && (lift.added <==> e.key !in ToMap(Flat(t)))
    requires var s := InsertSorted(cmp, Flat(t.children[i]), e);
             lift.Lifted? ==>
               && Wf(c, Height(t.children[i])) && Wf(lift.left, Height(t.children[i]))
               && Counts(m, c, MinKeys(m)) && Counts(m, lift.left, MinKeys(m))
               && Flat(lift.left) + [lift.entry] + Flat(c) == s
               && e.key !in ToMap(Flat(t))
    requires lift == Done(false) ==> Skeleton(c) == Skeleton(t.children[i])
    ensures var s := InsertSorted(cmp, Flat(t), e);
            r.1.Done? ==>
              && Wf(r.0, Height(t)) && Counts(m, r.0, lo) && Flat(r.0) == s
              && (r.1.added <==> e.key !in ToMap(Flat(t)))
    ensures r.1 == Done(false) ==> Skeleton(r.0) == Skeleton(t)
    ensures var s := InsertSorted(cmp, Flat(t), e);
            r.1.Lifted? ==>
              && Wf(r.0, Height(t)) && Wf(r.1.left, Height(t))
              && Counts(m, r.0, MinKeys(m)) && Counts(m, r.1.left, MinKeys(m))
              && Flat(r.1.left) + [r.1.entry] + Flat(r.0) == s
              && e.key !in ToMap(Flat(t))
  {
    match lift
    case Done(added) =>
      ChildDone(m, cmp, t, lo, i, c, e);
      if added then (Node(t.entries, t.children[i := c]), Done(added))
      else
        SkeletonReplace(t, i, c);
        (Node(t.entries, t.children[i := c]), Done(added))
    case Lifted(x, l) =>
      Absorb(m, cmp, t, lo, i, c, x, l, e)
  }

  /** A child's lift taken in by its parent: a parent with room widens and
      is done; a full parent widens past M - 1 entries and splits in turn. */
  function Absorb<K(!new), V>(m: Order, cmp: (K, K) -> bool, t: BNode<K, V>, lo: nat, i: nat,
                              c: BNode<K, V>, x: Entry<K, V>, l: BNode<K, V>, e: Entry<K, V>): (r: (BNode<K, V>, Lift<K, V>))
    requires StrictTotalOrder(cmp) && t.Node? && Wf(t, Height(t)) && Counts(m, t, lo) && Ascending(cmp, Flat(t))
    requires i < |t.children| && Below(cmp, Left(t, i), e.key) && Above(cmp, Right(t, i), e.key)
    requires Wf(c, Height(t) - 1) && Wf(l, Height(t) - 1) && Counts(m, c, MinKeys(m)) && Counts(m, l, MinKeys(m))
    requires Flat(l) + [x] + Flat(c) == InsertSorted(cmp, Flat(t.children[i]), e)
    ensures var s := InsertSorted(cmp, Flat(t), e);
            r.1.Done? ==> r.1.added && Wf(r.0, Height(t)) && Counts(m, r.0, lo) && Flat(r.0) == s
    ensures var s := InsertSorted(cmp, Flat(t), e);
            r.1.Lifted? ==>
              && Wf(r.0, Height(t)) && Wf(r.1.left, Height(t))
              && Counts(m, r.0, MinKeys(m)) && Counts(m, r.1.left, MinKeys(m))
              && Flat(r.1.left) + [r.1.entry] + Flat(r.0) == s
  {
    var es, cs := t.entries, t.children;
    var g := Widen(Node(es, cs[i := c]), i, x, l);
    WidenOk(cmp, t, i, c, x, l, e);
    WidenKeeps(m, t, Height(t), lo, i, c, x, l);
    if |es| < m - 1 then
      (g, Done(true))
    else
      LiftedBetween(cmp, t, i, c, x, l, e);
      var (left, up, right) := Split(m, g);
      SplitKeeps(m, g, Height(t));
      (right, Lifted(up, left))
  }

  /** The widened parent keeps its height; its children keep their counts. */
  lemma WidenKeeps<K, V>(m: Order, t: BNode<K, V>, h: int, lo: nat, i: nat, c: BNode<K, V>, x: Entry<K, V>, l: BNode<K, V>)
    requires t.Node? && Wf(t, h) && Counts(m, t, lo) && i < |t.children|
    requires Wf(c, h - 1) && Wf(l, h - 1) && Counts(m, c, MinKeys(m)) && Counts(m, l, MinKeys(m))
    ensures var g := Widen(Node(t.entries, t.children[i := c]), i, x, l);
            Wf(g, h) && lo <= |g.entries| && forall j :: 0 <= j < |g.children| ==> Counts(m, g.children[j], MinKeys(m))
  {
    WidenAll(t.children, i, c, l, n => Wf(n, h - 1) && Counts(m, n, MinKeys(m)));
  }

  /** A property of every old child, the replaced child and the new child
      holds of every child of the widened node. */
  lemma WidenAll<T>(cs: seq<T>, i: nat, c: T, l: T, P: T -> bool)
    requires i < |cs| && P(c) && P(l) && forall j :: 0 <= j < |cs| ==> P(cs[j])
    ensures var s := cs[i := c][..i] + [l] + cs[i := c][i..];
            forall j :: 0 <= j < |s| ==> P(s[j])
  {
    var s := cs[i := c][..i] + [l] + cs[i := c][i..];
    forall j | 0 <= j < |s| ensures P(s[j]) {
      if j < i {
        assert s[j] == cs[j];
      } else if j == i + 1 {
        assert s[j] == c;
      } else if j > i + 1 {
        assert s[j] == cs[j - 1];
      }
    }
  }

  /** Both halves of a split keep the height and meet the counts. */
  lemma SplitKeeps<K, V>(m: Order, g: BNode<K, V>, h: int)
    requires Shaped(g) && |g.entries| == m && Wf(g, h)
    requires forall j :: 0 <= j < |g.children| ==> Counts(m, g.children[j], MinKeys(m))
    ensures var r := Split(m, g);
            Wf(r.0, h) && Wf(r.2, h) && Counts(m, r.0, MinKeys(m)) && Counts(m, r.2, MinKeys(m))
  {
    var r := Split(m, g);
    var mid := (m - 1) / 2;
    assert r.0.children == g.children[..mid + 1] && r.2.children == g.children[mid + 1..];
    forall j | 0 <= j < |r.0.children| ensures Wf(r.0.children[j], h - 1) && Counts(m, r.0.children[j], MinKeys(m)) {
      assert r.0.children[j] == g.children[j];
    }
    forall j | 0 <= j < |r.2.children| ensures Wf(r.2.children[j], h - 1) && Counts(m, r.2.children[j], MinKeys(m)) {
      assert r.2.children[j] == g.children[mid + 1 + j];
    }
  }

  /** New entries over the same children keep the shape and, when as
      many, the counts. */
  lemma SameChildren<K, V>(m: Order, t: BNode<K, V>, es: seq<Entry<K, V>>, lo: nat)
    requires t.Node? && Wf(t, Height(t)) && Counts(m, t, lo) && |es| == |t.entries|
    ensures Wf(Node(es, t.children), Height(t)) && Counts(m, Node(es, t.children), lo)
  {
  }

  /** One child replaced by a subtree of the same height and counts. */
  lemma ReplaceKeeps<K, V>(m: Order, t: BNode<K, V>, lo: nat, i: nat, c: BNode<K, V>)
    requires t.Node? && Wf(t, Height(t)) && Counts(m, t, lo) && i < |t.children|
    requires Wf(c, Height(t) - 1) && Counts(m, c, MinKeys(m))
    ensures Wf(Node(t.entries, t.children[i := c]), Height(t)) && Counts(m, Node(t.entries, t.children[i := c]), lo)
  {
  }

  /** A child that took the entry without a lift, put back in its parent. */
  lemma ChildDone<K(!new), V>(m: Order, cmp: (K, K) -> bool, t: BNode<K, V>, lo: nat, i: nat, c: BNode<K, V>, e: Entry<K, V>)
    requires StrictTotalOrder(cmp) && t.Node? && Wf(t, Height(t)) && Counts(m, t, lo) && i < |t.children|
    requires Below(cmp, Left(t, i), e.key) && Above(cmp, Right(t, i), e.key)
    requires Height(t.children[i]) == Height(t) - 1 && Wf(c, Height(t.children[i])) && Counts(m, c, MinKeys(m))
    requires Flat(c) == InsertSorted(cmp, Flat(t.children[i]), e)
    ensures var u := Node(t.entries, t.children[i := c]);
            Wf(u, Height(t)) && Counts(m, u, lo) && Flat(u) == InsertSorted(cmp, Flat(t), e)
  {
    ReplaceOk(cmp, t, i, c, e);
    ReplaceKeeps(m, t, lo, i, c);
  }

  /** Overwriting the value of the entry holding the key. */
  lemma OverwriteOk<K(!new), V>(cmp: (K, K) -> bool, t: BNode<K, V>, i: nat, v: V)
    requires StrictTotalOrder(cmp) && Shaped(t) && i < |t.entries| && Ascending(cmp, Flat(t))
    ensures var e := t.entries[i];
            Flat(Node(t.entries[i := Entry(e.key, v)], t.children)) == InsertSorted(cmp, Flat(t), Entry(e.key, v))
  {
    var e := t.entries[i];
    var t' := Node(t.entries[i := Entry(e.key, v)], t.children);
    Around2(t, i);
    Around2(t', i);
    assert t'.entries[..i] == t.entries[..i] && t'.entries[i + 1..] == t.entries[i + 1..];
    var a, c := Left(t, i) + Flat(t.children[i]), Flat(t.children[i + 1]) + Right(t, i + 1);
    assert Flat(t) == a + [e] + c;
    assert Flat(t') == a + [Entry(e.key, v)] + c;
    InsertOverwrites(cmp, a, e, c, Entry(e.key, v));
  }

  /** A child that took the entry without lifting, put back in place. */
  lemma ReplaceOk<K(!new), V>(cmp: (K, K) -> bool, t: BNode<K, V>, i: nat, c: BNode<K, V>, e: Entry<K, V>)
    requires StrictTotalOrder(cmp) && Shaped(t) && i < |t.children|
    requires Below(cmp, Left(t, i), e.key) && Above(cmp, Right(t, i), e.key)
    requires Flat(c) == InsertSorted(cmp, Flat(t.children[i]), e)
    ensures Flat(Node(t.entries, t.children[i := c])) == InsertSorted(cmp, Flat(t), e)
  {
    var u := Node(t.entries, t.children[i := c]);
    Around(t, i);
    Around(u, i);
    assert u.children[..i] == t.children[..i] && u.children[i + 1..] == t.children[i + 1..];
    InsertMiddle(cmp, Left(t, i), Flat(t.children[i]), Right(t, i), e);
  }

  /** A child that lifted an entry, with the parent widened at the same
      place. */
  lemma WidenOk<K(!new), V>(cmp: (K, K) -> bool, t: BNode<K, V>, i: nat, c: BNode<K, V>, x: Entry<K, V>, l: BNode<K, V>, e: Entry<K, V>)
    requires StrictTotalOrder(cmp) && Shaped(t) && i < |t.children|
    requires Below(cmp, Left(t, i), e.key) && Above(cmp, Right(t, i), e.key)
    requires Flat(l) + [x] + Flat(c) == InsertSorted(cmp, Flat(t.children[i]), e)
    ensures var g := Widen(Node(t.entries, t.children[i := c]), i, x, l);
            Shaped(g) && Flat(g) == InsertSorted(cmp, Flat(t), e)
  {
    WidenReads(t, i, c, x, l);
    Around(t, i);
    InsertMiddle(cmp, Left(t, i), Flat(t.children[i]), Right(t, i), e);
  }

  lemma WidenReads<K, V>(t: BNode<K, V>, i: nat, c: BNode<K, V>, x: Entry<K, V>, l: BNode<K, V>)
    requires Shaped(t) && i < |t.children|
    ensures var g := Widen(Node(t.entries, t.children[i := c]), i, x, l);
            Shaped(g) && Flat(g) == Left(t, i) + (Flat(l) + [x] + Flat(c)) + Right(t, i)
  {
    var es, cs := t.entries, t.children;
    var g := Widen(Node(es, cs[i := c]), i, x, l);
    assert g.children == cs[..i] + [l, c] + cs[i + 1..];
    Around2(g, i);
    assert g.children[..i] == cs[..i] && g.entries[..i] == es[..i];
    assert g.children[i + 2..] == cs[i + 1..] && g.entries[i + 1..] == es[i..];
  }

  /** The entry a child lifts lies between the parent's entries around that
      child, so the merge loop of a full parent puts it where the shifting
      loop would. */
  lemma LiftedBetween<K(!new), V>(cmp: (K, K) -> bool, t: BNode<K, V>, i: nat, c: BNode<K, V>, x: Entry<K, V>, l: BNode<K, V>, e: Entry<K, V>)
    requires StrictTotalOrder(cmp) && Shaped(t) && i < |t.children| && Ascending(cmp, Flat(t))
    requires Below(cmp, Left(t, i), e.key) && Above(cmp, Right(t, i), e.key)
    requires Flat(l) + [x] + Flat(c) == InsertSorted(cmp, Flat(t.children[i]), e)
    ensures MergeAt(cmp, t.entries, x.key) == i
  {
    var es, cs := t.entries, t.children;
    var s := Flat(cs[i]);
    InsertSortedFrom(cmp, s, e);
    assert x in InsertSorted(cmp, s, e) by {
      assert (Flat(l) + [x] + Flat(c))[|Flat(l)|] == x;
    }
    Around(t, i);
    AscendingParts(cmp, Left(t, i), s, Right(t, i));
    if i > 0 {
      var w := Left(t, i)[|Left(t, i)| - 1];
      assert cmp(es[i - 1].key, x.key) by {
        if x != e {
          var j :| 0 <= j < |s| && s[j] == x;
          assert cmp(w.key, s[j].key);
        }
      }
      forall j | 0 <= j < i ensures !cmp(x.key, es[j].key) {
        EntryInLeft(t, j, i);
        var p :| 0 <= p < |Left(t, i)| && Left(t, i)[p] == es[j];
        assert cmp(es[j].key, x.key) by {
          if x != e {
            var q :| 0 <= q < |s| && s[q] == x;
            assert cmp(Left(t, i)[p].key, s[q].key);
          }
        }
        Ordering.Asymmetric(cmp, es[j].key, x.key);
      }
    }
    if i < |es| {
      var w := Right(t, i)[0];
      assert cmp(x.key, es[i].key) by {
        if x != e {
          var j :| 0 <= j < |s| && s[j] == x;
          assert cmp(s[j].key, w.key);
        }
      }
    }
    MergeAtIs(cmp, es, x.key, i);
  }

  lemma {:induction false} MergeAtIs<K, V>(cmp: (K, K) -> bool, es: seq<Entry<K, V>>, k: K, i: nat)
    requires i <= |es|
    requires forall j :: 0 <= j < i ==> !cmp(k, es[j].key)
    requires i < |es| ==> cmp(k, es[i].key)
    ensures MergeAt(cmp, es, k) == i
    decreases i
  {
    if i > 0 {
      MergeAtIs(cmp, es[1..], k, i - 1);
    }
  }

  /** Every entry before child `b` appears in the reading before it. */
  lemma EntryInLeft<K, V>(t: BNode<K, V>, a: nat, b: nat)
    requires Shaped(t) && a < b <= |t.entries|
    ensures t.entries[a] in Left(t, b)
  {
    assert t.entries[..b][a] == t.entries[a];
    PreHas(Parts(t.children[..b]), t.entries[..b], a);
  }

  /** `insert(key, value)`: returns whether the key was new; a lift out of
      the root makes a new root of one entry. */
  function Insert<K(==, !new), V>(m: Order, cmp: (K, K) -> bool, t: BTree<K, V>, k: K, v: V): (r: (BTree<K, V>, bool))
    requires StrictTotalOrder(cmp) && Valid(m, cmp, t)
    ensures Valid(m, cmp, r.0)
    ensures Contents(r.0) == Contents(t)[k := v]
    ensures r.1 <==> k !in Contents(t)
    ensures Height(r.0.root) == Height(t.root) || (Height(r.0.root) == Height(t.root) + 1 && |r.0.root.entries| == 1)
    ensures !r.1 ==> Skeleton(r.0.root) == Skeleton(t.root) && Height(r.0.root) == Height(t.root) && r.0.size == t.size
  {
    var s := InsertSorted(cmp, Flat(t.root), Entry(k, v));
    InsertSortedOk(cmp, Flat(t.root), Entry(k, v));
    var (root, lift) := InsertRec(m, cmp, t.root, k, v, 1);
    match lift
    case Done(added) =>
      WfHeight(root, Height(t.root));
      if added then (BTree(root, t.size + 1), added)
      else
        SkeletonHeight(root, t.root);
        (BTree(root, t.size), added)
    case Lifted(e, l) =>
      var top := Node([e], [l, root]);
      NewRootOk(m, l, e, root, Height(t.root));
      (BTree(top, t.size + 1), true)
  }

  /** Overwriting the value of entry `i` keeps the skeleton. */
  lemma SkeletonOverwrite<K, V>(t: BNode<K, V>, i: nat, v: V)
    requires t.Node? && i < |t.entries|
    ensures Skeleton(Node(t.entries[i := Entry(t.entries[i].key, v)], t.children)) == Skeleton(t)
  {
    var es' := t.entries[i := Entry(t.entries[i].key, v)];
    assert Skeleton(Node(es', t.children)).entries == Skeleton(t).entries;
  }

  /** Putting back a child with the same skeleton keeps the skeleton. */
  lemma SkeletonReplace<K, V>(t: BNode<K, V>, i: nat, c: BNode<K, V>)
    requires t.Node? && i < |t.children| && Skeleton(c) == Skeleton(t.children[i])
    ensures Skeleton(Node(t.entries, t.children[i := c])) == Skeleton(t)
  {
    var cs' := t.children[i := c];
    assert Skeleton(Node(t.entries, cs')).children == Skeleton(t).children;
  }

  /** The new root of one entry over the two halves of the old root. */
  lemma NewRootOk<K, V>(m: Order, l: BNode<K, V>, e: Entry<K, V>, r: BNode<K, V>, h: int)
    requires h >= -1 && Wf(l, h) && Wf(r, h) && Counts(m, l, MinKeys(m)) && Counts(m, r, MinKeys(m))
    ensures var top := Node([e], [l, r]);
            Wf(top, h + 1) && Height(top) == h + 1 && Counts(m, top, 1) && Flat(top) == Flat(l) + [e] + Flat(r)
  {
    var top := Node([e], [l, r]);
    assert Parts([l, r]) == [Flat(l), Flat(r)];
    assert [Flat(l), Flat(r)][1..] == [Flat(r)] && [e][1..] == [];
    assert Weave([Flat(r)], []) == Flat(r);
    assert Wf(top, h + 1);
    WfHeight(top, h + 1);
  }

  /** After `insert`, `get` finds the inserted value and every other key
      as before. */
  lemma InsertThenGet<K(!new), V>(m: Order, cmp: (K, K) -> bool, t: BTree<K, V>, k: K, v: V, j: K)
    requires StrictTotalOrder(cmp) && Valid(m, cmp, t)
    ensures var t' := Insert(m, cmp, t, k, v).0;
            Get(m, cmp, t', j) == if j == k then Wrappers.Ok(v) else Get(m, cmp, t, j)
  {
  }

  /** `build_from_ordered_vector`: insert the pairs one after another. */
  function BuildFrom<K(==, !new), V>(m: Order, cmp: (K, K) -> bool, t: BTree<K, V>, xs: seq<(K, V)>): (r: BTree<K, V>)
    requires StrictTotalOrder(cmp) && Valid(m, cmp, t)
    ensures Valid(m, cmp, r)
    ensures forall k :: k in Contents(r) <==> k in Contents(t) || exists j :: 0 <= j < |xs| && xs[j].0 == k
    ensures forall j :: 0 <= j < |xs| && LastOf(xs, j) ==> Contents(r)[xs[j].0] == xs[j].1
    ensures forall k :: k in Contents(t) && (forall j :: 0 <= j < |xs| ==> xs[j].0 != k) ==> Contents(r)[k] == Contents(t)[k]
    decreases |xs|
  {
    if |xs| == 0 then t
    else
      var t1 := Insert(m, cmp, t, xs[0].0, xs[0].1).0;
      var r := BuildFrom(m, cmp, t1, xs[1..]);
      FoldStep(Contents(t), Contents(t1), Contents(r), xs);
      r
  }

  /** One step of `BuildFrom`: inserting `xs[0]` and then the rest keeps the
      three promises about key sets and latest values. */
  lemma FoldStep<K, V>(c0: map<K, V>, c1: map<K, V>, cr: map<K, V>, xs: seq<(K, V)>)
    requires |xs| > 0 && c1 == c0[xs[0].0 := xs[0].1]
    requires forall k :: k in cr <==> k in c1 || exists j :: 0 <= j < |xs[1..]| && xs[1..][j].0 == k
    requires forall j :: 0 <= j < |xs[1..]| && LastOf(xs[1..], j) ==> cr[xs[1..][j].0] == xs[1..][j].1
    requires forall k :: k in c1 && (forall j :: 0 <= j < |xs[1..]| ==> xs[1..][j].0 != k) ==> cr[k] == c1[k]
    ensures forall k :: k in cr <==> k in c0 || exists j :: 0 <= j < |xs| && xs[j].0 == k
    ensures forall j :: 0 <= j < |xs| && LastOf(xs, j) ==> cr[xs[j].0] == xs[j].1
    ensures forall k :: k in c0 && (forall j :: 0 <= j < |xs| ==> xs[j].0 != k) ==> cr[k] == c0[k]
  {
    assert forall j :: 1 <= j < |xs| ==> xs[1..][j - 1] == xs[j];
    forall k | k in cr
      ensures k in c0 || exists j :: 0 <= j < |xs| && xs[j].0 == k
    {
      if k !in c1 {
        var j :| 0 <= j < |xs[1..]| && xs[1..][j].0 == k;
        assert xs[j + 1].0 == k;
      }
    }
    forall k | k in c0 || exists j :: 0 <= j < |xs| && xs[j].0 == k
      ensures k in cr
    {
      if k !in c0 && k != xs[0].0 {
        var j :| 0 <= j < |xs| && xs[j].0 == k;
        assert xs[1..][j - 1].0 == k;
      }
    }
    forall j | 0 <= j < |xs| && LastOf(xs, j)
      ensures cr[xs[j].0] == xs[j].1
    {
      if j > 0 {
        assert LastOf(xs[1..], j - 1);
      } else {
        assert forall i :: 0 <= i < |xs[1..]| ==> xs[1..][i].0 != xs[0].0;
      }
    }
    forall k | k in c0 && (forall j :: 0 <= j < |xs| ==> xs[j].0 != k)
      ensures cr[k] == c0[k]
    {
      assert forall i :: 0 <= i < |xs[1..]| ==> xs[1..][i].0 != k;
    }
  }

  /** Entry `j` is the last one with its key. */
  ghost predicate LastOf<K, V>(xs: seq<(K, V)>, j: int)
    requires 0 <= j < |xs|
  {
    forall j' :: j < j' < |xs| ==> xs[j'].0 != xs[j].0
  }

  function BuildFromOrdered<K(==, !new), V>(m: Order, cmp: (K, K) -> bool, xs: seq<(K, V)>): (r: BTree<K, V>)
    requires StrictTotalOrder(cmp)
    ensures Valid(m, cmp, r)
    ensures forall k :: k in Contents(r) <==> exists j :: 0 <= j < |xs| && xs[j].0 == k
    ensures forall j :: 0 <= j < |xs| && LastOf(xs, j) ==> Contents(r)[xs[j].0] == xs[j].1
  {
    var e: BTree<K, V> := Empty();
    EmptyValid(m, cmp, e);
    BuildFrom(m, cmp, e, xs)
  }
}

=== FILE: btree_remove.dfy ===
/** `remove` of `BTree`: delete from a leaf, or replace an inner entry by
    its in-order successor and delete that from the right subtree; on the
    way back up, a child left with too few entries borrows from a sibling
    or merges with one, and a root left empty gives way to its only child. */
module BTreeRemove {
  import opened Wrappers
  import opened Ordering
  import opened Entries
  import opened Weaving
  import opened BTree
  import BTreeInsert

  /** What the private `remove` reports: the key was absent; it was
      deleted and the node may now hold too few entries; it was deleted and
      the node is settled. */
  datatype DeleteResult = NotDeleted | JustDeleted | Deleted

  // ---------------------------------------------------------------------
  // Facts about removal from entry sequences
  // ---------------------------------------------------------------------

  /** Removing a key that lies between two pieces touches only the middle. */
  lemma RemoveAround<K(!new), V>(cmp: (K, K) -> bool, a: seq<Entry<K, V>>, b: seq<Entry<K, V>>, c: seq<Entry<K, V>>, k: K)
    requires Irreflexive(cmp) && Below(cmp, a, k) && Above(cmp, c, k)
    ensures RemoveKey(a + b + c, k) == a + RemoveKey(b, k) + c
  {
    RemoveAppend(a + b, c, k);
    RemoveAppend(a, b, k);
    assert forall i :: 0 <= i < |a| ==> a[i].key != k;
    assert forall i :: 0 <= i < |c| ==> c[i].key != k;
    RemoveAbsent(a, k);
    RemoveAbsent(c, k);
  }

  /** Removing the key of an entry of an ascending sequence drops just that
      entry. */
  lemma RemoveAt<K(!new), V>(cmp: (K, K) -> bool, a: seq<Entry<K, V>>, x: Entry<K, V>, c: seq<Entry<K, V>>)
    requires Irreflexive(cmp) && Ascending(cmp, a + [x] + c)
    ensures RemoveKey(a + [x] + c, x.key) == a + c
  {
    AscendingParts(cmp, a, [x], c);
    assert [x][0] == x;
    assert Below(cmp, a, x.key) by {
      forall i | 0 <= i < |a| ensures cmp(a[i].key, x.key) {
        assert cmp(a[i].key, [x][0].key);
      }
    }
    assert Above(cmp, c, x.key) by {
      forall i | 0 <= i < |c| ensures cmp(x.key, c[i].key) {
        assert cmp([x][0].key, c[i].key);
      }
    }
    RemoveAround(cmp, a, [x], c, x.key);
    assert RemoveKey([x], x.key) == [];
  }

  // ---------------------------------------------------------------------
  // Reading a node at its ends
  // ---------------------------------------------------------------------

  /** A node reads as all but its last child and entry, that entry, and the
      last child. */
  lemma SplitLast<K, V>(t: BNode<K, V>)
    requires Shaped(t) && |t.entries| > 0
    ensures var n := |t.entries|;
            Flat(t) == Flat(Node(t.entries[..n - 1], t.children[..n])) + [t.entries[n - 1]] + Flat(t.children[n])
  {
    var es, cs, n := t.entries, t.children, |t.entries|;
    assert Parts(cs) == Parts(cs[..n]) + [Flat(cs[n])];
    assert es == es[..n - 1] + [es[n - 1]] + [];
    WeaveCat(Parts(cs[..n]), es[..n - 1], es[n - 1], [Flat(cs[n])], []);
  }

  /** A node reads as its first child, its first entry, and the rest. */
  lemma SplitFirst<K, V>(t: BNode<K, V>)
    requires Shaped(t) && |t.entries| > 0
    ensures Flat(t) == Flat(t.children[0]) + [t.entries[0]] + Flat(Node(t.entries[1..], t.children[1..]))
  {
    var es, cs := t.entries, t.children;
    assert Parts(cs) == [Flat(cs[0])] + Parts(cs[1..]);
    assert es == [] + [es[0]] + es[1..];
    WeaveCat([Flat(cs[0])], [], es[0], Parts(cs[1..]), es[1..]);
  }

  /** In a node of height `h` with a non-empty child, every child is a node
      with one more child than entries, one level lower. */
  lemma ChildShaped<K, V>(u: BNode<K, V>, h: int, k: nat)
    requires Wf(u, h) && u.Node? && k < |u.children| && u.children[k].Node?
    ensures h >= 1
    ensures forall j :: 0 <= j < |u.children| ==> Shaped(u.children[j]) && Wf(u.children[j], h - 1)
  {
  }

  /** Two nodes that agree before child `j` read the same there. */
  lemma LeftSame<K, V>(u: BNode<K, V>, r: BNode<K, V>, j: nat)
    requires Shaped(u) && Shaped(r) && j < |u.children| && j < |r.children|
    requires u.children[..j] == r.children[..j] && u.entries[..j] == r.entries[..j]
    ensures Left(u, j) == Left(r, j)
  {
  }

  /** Two nodes that agree after child `i` and child `i'` read the same
      there. */
  lemma RightSame<K, V>(u: BNode<K, V>, i: nat, r: BNode<K, V>, i': nat)
    requires Shaped(u) && Shaped(r) && i < |u.children| && i' < |r.children|
    requires u.children[i + 1..] == r.children[i' + 1..] && u.entries[i..] == r.entries[i'..]
    ensures Right(u, i) == Right(r, i')
  {
  }

  // ---------------------------------------------------------------------
  // The three repairs
  // ---------------------------------------------------------------------

  /** Borrowing from the left sibling: the separator moves down to the
      front of child `ci`, the sibling's last entry moves up in its place,
      and the sibling's last child moves across. */
  function BorrowLeft<K, V>(u: BNode<K, V>, ci: nat): (r: BNode<K, V>)
    requires Shaped(u) && 0 < ci < |u.children|
    requires Shaped(u.children[ci - 1]) && |u.children[ci - 1].entries| > 0 && Shaped(u.children[ci])
    ensures Shaped(r) && Flat(r) == Flat(u) && |r.entries| == |u.entries|
  {
    var left, mid, e := u.children[ci - 1], u.children[ci], u.entries[ci - 1];
    var n := |left.entries|;
    var left' := Node(left.entries[..n - 1], left.children[..n]);
    var mid' := Node([e] + mid.entries, [left.children[n]] + mid.children);
    var r := Node(u.entries[ci - 1 := left.entries[n - 1]], u.children[ci - 1 := left'][ci := mid']);
    BorrowLeftReads(u, ci, r, left', mid');
    r
  }

  /** A node that differs from `u` only in children `j`, `j + 1` and the
      entry between them reads as `u` does around them. */
  lemma ReplaceTwo<K, V>(u: BNode<K, V>, r: BNode<K, V>, j: nat)
    requires Shaped(u) && Shaped(r) && j < |u.entries| && |r.entries| == |u.entries|
    requires r.children[..j] == u.children[..j] && r.entries[..j] == u.entries[..j]
    requires r.children[j + 2..] == u.children[j + 2..] && r.entries[j + 1..] == u.entries[j + 1..]
    ensures Flat(r) == Left(u, j) + Flat(r.children[j]) + [r.entries[j]] + Flat(r.children[j + 1]) + Right(u, j + 1)
  {
    Around2(r, j);
    LeftSame(u, r, j);
    RightSame(u, j + 1, r, j + 1);
  }

  lemma Regroup<E>(l: seq<E>, a: seq<E>, x: E, c: seq<E>, e: E, b: seq<E>, r: seq<E>)
    ensures l + (a + [x] + c) + [e] + b + r == l + a + [x] + (c + [e] + b) + r
  {
  }

  lemma BorrowLeftReads<K, V>(u: BNode<K, V>, ci: nat, r: BNode<K, V>, left': BNode<K, V>, mid': BNode<K, V>)
    requires Shaped(u) && 0 < ci < |u.children|
    requires Shaped(u.children[ci - 1]) && |u.children[ci - 1].entries| > 0 && Shaped(u.children[ci])
    requires var left, mid, n := u.children[ci - 1], u.children[ci], |u.children[ci - 1].entries|;
             && left' == Node(left.entries[..n - 1], left.children[..n])
             && mid' == Node([u.entries[ci - 1]] + mid.entries, [left.children[n]] + mid.children)
             && r == Node(u.entries[ci - 1 := left.entries[n - 1]], u.children[ci - 1 := left'][ci := mid'])
    ensures Shaped(r) && Flat(r) == Flat(u)
  {
    var j, left, mid := ci - 1, u.children[ci - 1], u.children[ci];
    var n := |left.entries|;
    var e, x, c := u.entries[j], left.entries[n - 1], left.children[n];
    assert r.children[..j] == u.children[..j] && r.entries[..j] == u.entries[..j];
    assert r.children[j + 2..] == u.children[j + 2..] && r.entries[j + 1..] == u.entries[j + 1..];
    ReplaceTwo(u, r, j);
    Around2(u, j);
    SplitLast(left);
    assert Flat(mid') == Flat(c) + [e] + Flat(mid) by {
      SplitFirst(mid');
      assert Node(mid'.entries[1..], mid'.children[1..]) == mid;
    }
    Regroup(Left(u, j), Flat(left'), x, Flat(c), e, Flat(mid), Right(u, j + 1));
  }

  /** Borrowing from the right sibling: the separator moves down to the end
      of child `ci`, the sibling's first entry moves up in its place, and
      the sibling's first child moves across. */
  function BorrowRight<K, V>(u: BNode<K, V>, ci: nat): (r: BNode<K, V>)
    requires Shaped(u) && ci < |u.entries|
    requires Shaped(u.children[ci]) && Shaped(u.children[ci + 1]) && |u.children[ci + 1].entries| > 0
    ensures Shaped(r) && Flat(r) == Flat(u) && |r.entries| == |u.entries|
  {
    var mid, right, e := u.children[ci], u.children[ci + 1], u.entries[ci];
    var mid' := Node(mid.entries + [e], mid.children + [right.children[0]]);
    var right' := Node(right.entries[1..], right.children[1..]);
    var r := Node(u.entries[ci := right.entries[0]], u.children[ci := mid'][ci + 1 := right']);
    BorrowRightReads(u, ci, r, mid', right');
    r
  }

  lemma BorrowRightReads<K, V>(u: BNode<K, V>, ci: nat, r: BNode<K, V>, mid': BNode<K, V>, right': BNode<K, V>)
    requires Shaped(u) && ci < |u.entries|
    requires Shaped(u.children[ci]) && Shaped(u.children[ci + 1]) && |u.children[ci + 1].entries| > 0
    requires var mid, right := u.children[ci], u.children[ci + 1];
             && mid' == Node(mid.entries + [u.entries[ci]], mid.children + [right.children[0]])
             && right' == Node(right.entries[1..], right.children[1..])
             && r == Node(u.entries[ci := right.entries[0]], u.children[ci := mid'][ci + 1 := right'])
    ensures Shaped(r) && Flat(r) == Flat(u)
  {
    var mid, right := u.children[ci], u.children[ci + 1];
    var n := |mid'.entries|;
    var e, x, c := u.entries[ci], right.entries[0], right.children[0];
    assert r.children[..ci] == u.children[..ci] && r.entries[..ci] == u.entries[..ci];
    assert r.children[ci + 2..] == u.children[ci + 2..] && r.entries[ci + 1..] == u.entries[ci + 1..];
    ReplaceTwo(u, r, ci);
    Around2(u, ci);
    SplitFirst(right);
    assert Flat(mid') == Flat(mid) + [e] + Flat(c) by {
      SplitLast(mid');
      assert Node(mid'.entries[..n - 1], mid'.children[..n]) == mid;
    }
    Regroup(Left(u, ci), Flat(mid), e, Flat(c), x, Flat(right'), Right(u, ci + 1));
  }

  /** `merge_children(node, j)`: children `j` and `j + 1` and the entry
      between them become one child. */
  function MergeChildren<K, V>(u: BNode<K, V>, j: nat): (r: BNode<K, V>)
    requires Shaped(u) && j < |u.entries| && Shaped(u.children[j]) && Shaped(u.children[j + 1])
    ensures Shaped(r) && Flat(r) == Flat(u) && |r.entries| == |u.entries| - 1
  {
    var left, right := u.children[j], u.children[j + 1];
    var merged := Node(left.entries + [u.entries[j]] + right.entries, left.children + right.children);
    var r := Node(u.entries[..j] + u.entries[j + 1..], u.children[..j] + [merged] + u.children[j + 2..]);
    MergeReads(u, j, r, merged);
    r
  }

  lemma MergeReads<K, V>(u: BNode<K, V>, j: nat, r: BNode<K, V>, merged: BNode<K, V>)
    requires Shaped(u) && j < |u.entries| && Shaped(u.children[j]) && Shaped(u.children[j + 1])
    requires var left, right := u.children[j], u.children[j + 1];
             && merged == Node(left.entries + [u.entries[j]] + right.entries, left.children + right.children)
             && r == Node(u.entries[..j] + u.entries[j + 1..], u.children[..j] + [merged] + u.children[j + 2..])
    ensures Shaped(r) && Flat(r) == Flat(u)
  {
    var left, right, e := u.children[j], u.children[j + 1], u.entries[j];
    MergedReads(left, e, right, merged);
    assert r.children[..j] == u.children[..j] && r.entries[..j] == u.entries[..j];
    assert r.children[j + 1..] == u.children[j + 2..] && r.entries[j..] == u.entries[j + 1..];
    assert r.children[j] == merged;
    Around(r, j);
    LeftSame(u, r, j);
    RightSame(u, j + 1, r, j);
    Around2(u, j);
    Regroup2(Left(u, j), Flat(left), e, Flat(right), Right(u, j + 1));
  }

  /** Two siblings and their separator, joined into one node. */
  lemma MergedReads<K, V>(left: BNode<K, V>, e: Entry<K, V>, right: BNode<K, V>, merged: BNode<K, V>)
    requires Shaped(left) && Shaped(right)
    requires merged == Node(left.entries + [e] + right.entries, left.children + right.children)
    ensures Shaped(merged) && Flat(merged) == Flat(left) + [e] + Flat(right)
  {
    assert Parts(merged.children) == Parts(left.children) + Parts(right.children);
    WeaveCat(Parts(left.children), left.entries, e, Parts(right.children), right.entries);
  }

  lemma Regroup2<E>(l: seq<E>, a: seq<E>, e: E, b: seq<E>, r: seq<E>)
    ensures l + (a + [e] + b) + r == l + a + [e] + b + r
  {
  }

  // ---------------------------------------------------------------------
  // The repair step
  // ---------------------------------------------------------------------

  /** A node of height `h` whose child `ci` has just lost an entry: every
      count holds, except that child's own, which may be one short. */
  ghost predicate Short<K, V>(m: Order, u: BNode<K, V>, h: int, lo: nat, ci: nat) {
    && u.Node? && ci < |u.children| && Wf(u, h) && lo <= |u.entries| <= m - 1
    && u.children[ci].Node?
    && (forall j :: 0 <= j < |u.children| && j != ci ==> Counts(m, u.children[j], MinKeys(m)))
    && Counts(m, u.children[ci], MinKeys(m) - 1)
  }

  /** The tail of the private `remove`: if child `ci` holds too few
      entries, borrow from the left sibling, else from the right one, else
      merge it with the right sibling (or the left one, if it is the last
      child). */
  function Fix<K, V>(m: Order, u: BNode<K, V>, h: int, lo: nat, ci: nat): (r: (BNode<K, V>, DeleteResult))
    requires Short(m, u, h, lo, ci) && lo >= 1
    ensures Wf(r.0, h) && Flat(r.0) == Flat(u) && r.0.Node?
    ensures r.1.Deleted? || r.1.JustDeleted?
    ensures r.1.Deleted? ==> Counts(m, r.0, lo)
    ensures r.1.JustDeleted? ==> Counts(m, r.0, lo - 1)
    ensures |r.0.entries| >= |u.entries| - 1
  {
    var cs, es := u.children, u.entries;
    var mid := cs[ci];
    ChildShaped(u, h, ci);
    if |mid.entries| >= MinKeys(m) then
      assert Counts(m, u, lo);
      (u, JustDeleted)
    else if ci > 0 && |cs[ci - 1].entries| > MinKeys(m) then
      BorrowLeftOk(m, u, h, lo, ci);
      (BorrowLeft(u, ci), Deleted)
    else if ci < |es| && |cs[ci + 1].entries| > MinKeys(m) then
      BorrowRightOk(m, u, h, lo, ci);
      (BorrowRight(u, ci), Deleted)
    else if ci < |es| then
      MergeOk(m, u, h, lo, ci, ci);
      (MergeChildren(u, ci), JustDeleted)
    else
      MergeOk(m, u, h, lo, ci, ci - 1);
      (MergeChildren(u, ci - 1), JustDeleted)
  }

  lemma BorrowLeftOk<K, V>(m: Order, u: BNode<K, V>, h: int, lo: nat, ci: nat)
    requires Short(m, u, h, lo, ci) && 0 < ci && |u.children[ci].entries| < MinKeys(m)
    requires Shaped(u.children[ci - 1]) && |u.children[ci - 1].entries| > MinKeys(m)
    ensures Shaped(u.children[ci])
    ensures Wf(BorrowLeft(u, ci), h) && Counts(m, BorrowLeft(u, ci), lo)
  {
    ChildShaped(u, h, ci);
    var left, mid := u.children[ci - 1], u.children[ci];
    var n := |left.entries|;
    var left' := Node(left.entries[..n - 1], left.children[..n]);
    var mid' := Node([u.entries[ci - 1]] + mid.entries, [left.children[n]] + mid.children);
    var r := BorrowLeft(u, ci);
    assert r.children == u.children[ci - 1 := left'][ci := mid'];
    assert Wf(left', h - 1) && Counts(m, left', MinKeys(m));
    assert Wf(mid', h - 1) && Counts(m, mid', MinKeys(m)) by {
      forall j | 0 <= j < |mid'.children| ensures Wf(mid'.children[j], h - 2) && Counts(m, mid'.children[j], MinKeys(m)) {
        if j > 0 {
          assert mid'.children[j] == mid.children[j - 1];
        }
      }
    }
    forall j | 0 <= j < |r.children| ensures Wf(r.children[j], h - 1) && Counts(m, r.children[j], MinKeys(m)) {
    }
  }

  lemma BorrowRightOk<K, V>(m: Order, u: BNode<K, V>, h: int, lo: nat, ci: nat)
    requires Short(m, u, h, lo, ci) && ci < |u.entries| && |u.children[ci].entries| < MinKeys(m)
    requires Shaped(u.children[ci + 1]) && |u.children[ci + 1].entries| > MinKeys(m)
    ensures Shaped(u.children[ci])
    ensures Wf(BorrowRight(u, ci), h) && Counts(m, BorrowRight(u, ci), lo)
  {
    ChildShaped(u, h, ci);
    var mid, right := u.children[ci], u.children[ci + 1];
    var mid' := Node(mid.entries + [u.entries[ci]], mid.children + [right.children[0]]);
    var right' := Node(right.entries[1..], right.children[1..]);
    var r := BorrowRight(u, ci);
    assert r.children == u.children[ci := mid'][ci + 1 := right'];
    assert Wf(right', h - 1) && Counts(m, right', MinKeys(m)) by {
      forall j | 0 <= j < |right'.children| ensures Wf(right'.children[j], h - 2) && Counts(m, right'.children[j], MinKeys(m)) {
        assert right'.children[j] == right.children[j + 1];
      }
    }
    assert Wf(mid', h - 1) && Counts(m, mid', MinKeys(m)) by {
      forall j | 0 <= j < |mid'.children| ensures Wf(mid'.children[j], h - 2) && Counts(m, mid'.children[j], MinKeys(m)) {
        if j < |mid.children| {
          assert mid'.children[j] == mid.children[j];
        }
      }
    }
    forall j | 0 <= j < |r.children| ensures Wf(r.children[j], h - 1) && Counts(m, r.children[j], MinKeys(m)) {
    }
  }

  /** Merging the short child with a sibling that could not lend. */
  lemma MergeOk<K, V>(m: Order, u: BNode<K, V>, h: int, lo: nat, ci: nat, j: nat)
    requires Short(m, u, h, lo, ci) && lo >= 1 && |u.children[ci].entries| < MinKeys(m)
    requires j < |u.entries| && (j == ci || j + 1 == ci)
    requires Shaped(u.children[j]) && Shaped(u.children[j + 1])
    requires |u.children[if j == ci then j + 1 else j].entries| <= MinKeys(m)
    ensures Wf(MergeChildren(u, j), h) && Counts(m, MergeChildren(u, j), lo - 1)
  {
    ChildShaped(u, h, ci);
    var left, right := u.children[j], u.children[j + 1];
    var merged := Node(left.entries + [u.entries[j]] + right.entries, left.children + right.children);
    var r := MergeChildren(u, j);
    assert r.children == u.children[..j] + [merged] + u.children[j + 2..];
    assert Wf(merged, h - 1) && Counts(m, merged, MinKeys(m)) by {
      forall q | 0 <= q < |merged.children| ensures Wf(merged.children[q], h - 2) && Counts(m, merged.children[q], MinKeys(m)) {
        assert Wf(left, h - 1) && Wf(right, h - 1);
        assert Counts(m, left, MinKeys(m) - 1) && Counts(m, right, MinKeys(m) - 1);
        if q < |left.children| {
          assert merged.children[q] == left.children[q];
        } else {
          assert merged.children[q] == right.children[q - |left.children|];
        }
      }
    }
    forall q | 0 <= q < |r.children| ensures Wf(r.children[q], h - 1) && Counts(m, r.children[q], MinKeys(m)) {
      if q < j {
        assert r.children[q] == u.children[q];
      } else if q > j {
        assert r.children[q] == u.children[q + 1];
      }
    }
  }

  // ---------------------------------------------------------------------
  // The private remove
  // ---------------------------------------------------------------------

  /** The private `remove(node, key)` with its repair step applied to the
      child the deletion went into. The subtree `t` holds between `lo` and
      M - 1 entries at its top; `JustDeleted` may leave one entry fewer at
      the top, `NotDeleted` means the key was absent and nothing changed. */
  function RemoveRec<K(==, !new), V>(m: Order, cmp: (K, K) -> bool, t: BNode<K, V>, k: K, lo: nat): (r: (BNode<K, V>, DeleteResult))
    requires StrictTotalOrder(cmp) && lo >= 1 && Wf(t, Height(t)) && Counts(m, t, lo) && Ascending(cmp, Flat(t))
    ensures Wf(r.0, Height(t)) && Flat(r.0) == RemoveKey(Flat(t), k)
    ensures r.1.NotDeleted? <==> k !in ToMap(Flat(t))
    ensures !r.1.JustDeleted? ==> Counts(m, r.0, lo)
    ensures r.1.JustDeleted? ==> r.0.Node? && Counts(m, r.0, lo - 1)
    ensures t.Node? ==> r.0.Node? && |r.0.entries| >= |t.entries| - 1
    decreases t, 1
  {
    match t
    case Nil => (Nil, NotDeleted)
    case Node(es, cs) =>
      var i := Scan(cmp, es, k);
      if i < |es| && es[i].key == k && IsLeaf(t) then
        FoundAt(cmp, t, i);
        LeafRemoveOk(m, cmp, t, i, lo);
        (Node(es[..i] + es[i + 1..], cs[1..]), JustDeleted)
      else if i < |es| && es[i].key == k then
        RemoveInner(m, cmp, t, i, lo)
      else
        RemoveBelow(m, cmp, t, k, i, lo)
  }

  /** The key sits at entry `i` of an inner node: put the successor there
      and delete it from child `i + 1`, then repair that child. */
  function RemoveInner<K(==, !new), V>(m: Order, cmp: (K, K) -> bool, t: BNode<K, V>, i: nat, lo: nat): (r: (BNode<K, V>, DeleteResult))
    requires StrictTotalOrder(cmp) && lo >= 1 && t.Node? && Wf(t, Height(t)) && Counts(m, t, lo) && Ascending(cmp, Flat(t))
    requires i < |t.entries| && !IsLeaf(t)
    ensures var k := t.entries[i].key;
            && Wf(r.0, Height(t)) && Flat(r.0) == RemoveKey(Flat(t), k)
            && k in ToMap(Flat(t)) && !r.1.NotDeleted?
            && (r.1.Deleted? ==> Counts(m, r.0, lo))
            && (r.1.JustDeleted? ==> r.0.Node? && Counts(m, r.0, lo - 1))
            && r.0.Node? && |r.0.entries| >= |t.entries| - 1
    decreases t, 0
  {
    var es, cs := t.entries, t.children;
    FoundAt(cmp, t, i);
    WfChild(t, i + 1);
    ChildAscending(cmp, t, i + 1);
    CountsNonEmpty(m, cs[i + 1], MinKeys(m));
    var succ := FirstEntry(cs[i + 1]).value;
    MapKeys(Flat(cs[i + 1]), succ.key);
    assert KeysOf(Flat(cs[i + 1]))[0] == succ.key;
    var (c, res) := RemoveRec(m, cmp, cs[i + 1], succ.key, MinKeys(m));
    var u := Node(es[i := succ], cs[i + 1 := c]);
    SuccessorOk(cmp, t, i, c);
    UpdateChild(m, t, lo, es[i := succ], i + 1, c);
    if res.JustDeleted? then Fix(m, u, Height(t), lo, i + 1) else (u, res)
  }

  /** The key is not in the node: delete it from child `i`, where the scan
      stopped, then repair that child. */
  function RemoveBelow<K(==, !new), V>(m: Order, cmp: (K, K) -> bool, t: BNode<K, V>, k: K, i: nat, lo: nat): (r: (BNode<K, V>, DeleteResult))
    requires StrictTotalOrder(cmp) && lo >= 1 && t.Node? && Wf(t, Height(t)) && Counts(m, t, lo) && Ascending(cmp, Flat(t))
    requires i == Scan(cmp, t.entries, k) && !(i < |t.entries| && t.entries[i].key == k)
    ensures Wf(r.0, Height(t)) && Flat(r.0) == RemoveKey(Flat(t), k)
    ensures r.1.NotDeleted? <==> k !in ToMap(Flat(t))
    ensures !r.1.JustDeleted? ==> Counts(m, r.0, lo)
    ensures r.1.JustDeleted? ==> r.0.Node? && Counts(m, r.0, lo - 1)
    ensures r.0.Node? && |r.0.entries| >= |t.entries| - 1
    decreases t, 0
  {
    var es, cs := t.entries, t.children;
    Bracket(cmp, t, k);
    Around(t, i);
    MapMiddle(cmp, Left(t, i), Flat(cs[i]), Right(t, i), k);
    WfChild(t, i);
    var (c, res) := RemoveRec(m, cmp, cs[i], k, MinKeys(m));
    var u := Node(es, cs[i := c]);
    DescendOk(cmp, t, i, c, k);
    UpdateChild(m, t, lo, es, i, c);
    if res.JustDeleted? then Fix(m, u, Height(t), lo, i) else (u, res)
  }

  /** The reading of a child of an ascending node ascends. */
  lemma ChildAscending<K, V>(cmp: (K, K) -> bool, t: BNode<K, V>, j: nat)
    requires Shaped(t) && j < |t.children| && Ascending(cmp, Flat(t))
    ensures Ascending(cmp, Flat(t.children[j]))
  {
    Around(t, j);
    AscendingParts(cmp, Left(t, j), Flat(t.children[j]), Right(t, j));
  }

  /** Deleting entry `i` of a leaf. */
  lemma LeafRemoveOk<K(!new), V>(m: Order, cmp: (K, K) -> bool, t: BNode<K, V>, i: nat, lo: nat)
    requires StrictTotalOrder(cmp) && t.Node? && IsLeaf(t) && Wf(t, Height(t)) && Counts(m, t, lo) && lo >= 1
    requires i < |t.entries| && Ascending(cmp, Flat(t))
    ensures var l := Node(t.entries[..i] + t.entries[i + 1..], t.children[1..]);
            Wf(l, Height(t)) && Counts(m, l, lo - 1) && Flat(l) == RemoveKey(Flat(t), t.entries[i].key)
  {
    var es, cs := t.entries, t.children;
    var l := Node(es[..i] + es[i + 1..], cs[1..]);
    LeafChildren(t);
    LeafFlat(es, cs);
    LeafFlat(l.entries, l.children);
    assert es == es[..i] + [es[i]] + es[i + 1..];
    RemoveAt(cmp, es[..i], es[i], es[i + 1..]);
  }

  /** The children of a well-formed leaf are all empty. */
  lemma LeafChildren<K, V>(t: BNode<K, V>)
    requires t.Node? && IsLeaf(t) && Wf(t, Height(t))
    ensures Height(t) == 0 && forall j :: 0 <= j < |t.children| ==> t.children[j] == Nil
  {
    WfChild(t, 0);
  }

  /** A node over empty children reads as its entries. */
  lemma LeafFlat<K, V>(es: seq<Entry<K, V>>, cs: seq<BNode<K, V>>)
    requires |cs| == |es| + 1 && forall j :: 0 <= j < |cs| ==> cs[j] == Nil
    ensures Flat(Node(es, cs)) == es
  {
    WeaveEmpty(Parts(cs), es);
  }

  /** Replacing entry `i` by the first entry of child `i + 1` and deleting
      that entry from the child deletes entry `i`'s key from the node. */
  lemma SuccessorOk<K(!new), V>(cmp: (K, K) -> bool, t: BNode<K, V>, i: nat, c: BNode<K, V>)
    requires StrictTotalOrder(cmp) && Shaped(t) && i < |t.entries| && Ascending(cmp, Flat(t))
    requires |Flat(t.children[i + 1])| > 0
    requires Flat(c) == RemoveKey(Flat(t.children[i + 1]), Flat(t.children[i + 1])[0].key)
    ensures var u := Node(t.entries[i := Flat(t.children[i + 1])[0]], t.children[i + 1 := c]);
            Flat(u) == RemoveKey(Flat(t), t.entries[i].key)
  {
    var es, cs := t.entries, t.children;
    var s := Flat(cs[i + 1]);
    var u := Node(es[i := s[0]], cs[i + 1 := c]);
    var L, R := Left(t, i), Right(t, i + 1);
    ChildAscending(cmp, t, i + 1);
    RemoveFirst(cmp, s);
    assert u.children[..i] == cs[..i] && u.entries[..i] == es[..i];
    assert u.children[i + 2..] == cs[i + 2..] && u.entries[i + 1..] == es[i + 1..];
    ReplaceTwo(t, u, i);
    SuccessorCut(cmp, t, i);
    Regroup3(L, Flat(cs[i]), s, R);
  }

  /** Deleting entry `i` leaves the reading with a gap between child `i`
      and child `i + 1`. */
  lemma SuccessorCut<K(!new), V>(cmp: (K, K) -> bool, t: BNode<K, V>, i: nat)
    requires StrictTotalOrder(cmp) && Shaped(t) && i < |t.entries| && Ascending(cmp, Flat(t))
    ensures RemoveKey(Flat(t), t.entries[i].key) == (Left(t, i) + Flat(t.children[i])) + (Flat(t.children[i + 1]) + Right(t, i + 1))
  {
    Around2(t, i);
    CutAt(cmp, Flat(t), Left(t, i), Flat(t.children[i]), t.entries[i], Flat(t.children[i + 1]), Right(t, i + 1));
  }

  /** `RemoveAt` for a sequence read as five pieces around the entry. */
  lemma CutAt<K(!new), V>(cmp: (K, K) -> bool, s: seq<Entry<K, V>>, l: seq<Entry<K, V>>, a: seq<Entry<K, V>>,
                          x: Entry<K, V>, c: seq<Entry<K, V>>, r: seq<Entry<K, V>>)
    requires Irreflexive(cmp) && Ascending(cmp, s) && s == l + a + [x] + c + r
    ensures RemoveKey(s, x.key) == (l + a) + (c + r)
  {
    assert s == (l + a) + [x] + (c + r);
    RemoveAt(cmp, l + a, x, c + r);
  }

  lemma Regroup3<E>(l: seq<E>, b: seq<E>, s: seq<E>, r: seq<E>)
    requires |s| > 0
    ensures (l + b) + (s + r) == l + b + [s[0]] + s[1..] + r
  {
    assert s == [s[0]] + s[1..];
  }

  /** Deleting the key from the child the scan stopped at deletes it from
      the node. */
  lemma DescendOk<K(!new), V>(cmp: (K, K) -> bool, t: BNode<K, V>, i: nat, c: BNode<K, V>, k: K)
    requires Irreflexive(cmp) && Shaped(t) && i < |t.children|
    requires Below(cmp, Left(t, i), k) && Above(cmp, Right(t, i), k)
    requires Flat(c) == RemoveKey(Flat(t.children[i]), k)
    ensures Flat(Node(t.entries, t.children[i := c])) == RemoveKey(Flat(t), k)
  {
    var u := Node(t.entries, t.children[i := c]);
    Around(t, i);
    Around(u, i);
    assert u.children[..i] == t.children[..i] && u.children[i + 1..] == t.children[i + 1..];
    LeftSame(t, u, i);
    RightSame(t, i, u, i);
    RemoveAround(cmp, Left(t, i), Flat(t.children[i]), Right(t, i), k);
  }

  /** A child put back after a deletion: the node keeps its shape, and its
      counts or, for a child left one short, the premise of the repair. */
  lemma UpdateChild<K, V>(m: Order, t: BNode<K, V>, lo: nat, es: seq<Entry<K, V>>, ci: nat, c: BNode<K, V>)
    requires t.Node? && Wf(t, Height(t)) && Counts(m, t, lo) && |es| == |t.entries| && ci < |t.children|
    requires Wf(c, Height(t) - 1)
    ensures var u := Node(es, t.children[ci := c]);
            && Wf(u, Height(t))
            && (Counts(m, c, MinKeys(m)) ==> Counts(m, u, lo))
            && (c.Node? && Counts(m, c, MinKeys(m) - 1) ==> Short(m, u, Height(t), lo, ci))
  {
  }

  // ---------------------------------------------------------------------
  // The public remove
  // ---------------------------------------------------------------------

  /** `remove(key)`: returns whether the key was there; a root left
      without entries gives way to its only child. */
  function Remove<K(==, !new), V>(m: Order, cmp: (K, K) -> bool, t: BTree<K, V>, k: K): (r: (BTree<K, V>, bool))
    requires StrictTotalOrder(cmp) && Valid(m, cmp, t)
    ensures Valid(m, cmp, r.0)
    ensures Contents(r.0) == Contents(t) - {k}
    ensures r.1 <==> k in Contents(t)
    ensures Height(r.0.root) == Height(t.root) || (Height(r.0.root) == Height(t.root) - 1 && |t.root.entries| == 1)
  {
    var (root, res) := RemoveRec(m, cmp, t.root, k, 1);
    RootRemoved(m, cmp, t, k, root, res);
    var deleted := !res.NotDeleted?;
    var size := if deleted then t.size - 1 else t.size;
    if res.JustDeleted? && |root.entries| == 0 then
      RootGone(m, root, Height(t.root));
      (BTree(root.children[0], size), deleted)
    else
      RootStays(m, root, Height(t.root), res.JustDeleted?);
      (BTree(root, size), deleted)
  }

  /** The reading left by the deletion from the root ascends, stands for
      the old map without the key, and is one entry shorter exactly when the key
      was there. */
  lemma RootRemoved<K(!new), V>(m: Order, cmp: (K, K) -> bool, t: BTree<K, V>, k: K, root: BNode<K, V>, res: DeleteResult)
    requires StrictTotalOrder(cmp) && Valid(m, cmp, t)
    requires Flat(root) == RemoveKey(Flat(t.root), k)
    requires res.NotDeleted? <==> k !in Contents(t)
    ensures Ascending(cmp, Flat(root)) && ToMap(Flat(root)) == Contents(t) - {k}
    ensures |Flat(root)| == if res.NotDeleted? then t.size else t.size - 1
  {
    RemoveKeyOk(cmp, Flat(t.root), k);
  }

  /** A root without entries reads as its only child, which is a valid root
      one level lower. */
  lemma RootGone<K, V>(m: Order, root: BNode<K, V>, h: int)
    requires root.Node? && |root.entries| == 0 && Wf(root, h) && Counts(m, root, 0)
    ensures var c := root.children[0];
            Wf(c, h - 1) && Height(c) == h - 1 && Counts(m, c, 1) && Flat(c) == Flat(root)
  {
    var c := root.children[0];
    WfHeight(c, h - 1);
    CountsWeaken(m, c, MinKeys(m), 1);
    assert Parts(root.children) == [Flat(c)];
  }

  /** A root that kept an entry keeps its height and its counts. */
  lemma RootStays<K, V>(m: Order, root: BNode<K, V>, h: int, short: bool)
    requires Wf(root, h)
    requires short ==> root.Node? && |root.entries| > 0 && Counts(m, root, 0)
    requires !short ==> Counts(m, root, 1)
    ensures Height(root) == h && Counts(m, root, 1)
  {
    WfHeight(root, h);
  }

  /** After `remove`, `get` no longer finds the key and finds every other
      key as before. */
  lemma RemoveThenGet<K(!new), V>(m: Order, cmp: (K, K) -> bool, t: BTree<K, V>, k: K, j: K)
    requires StrictTotalOrder(cmp) && Valid(m, cmp, t)
    ensures var t' := Remove(m, cmp, t, k).0;
            Get(m, cmp, t', j) == if j == k then Err(RuntimeError) else Get(m, cmp, t, j)
  {
  }

  /** Removing a key just inserted gives back the map from before. */
  lemma InsertThenRemove<K(!new), V>(m: Order, cmp: (K, K) -> bool, t: BTree<K, V>, k: K, v: V)
    requires StrictTotalOrder(cmp) && Valid(m, cmp, t) && k !in Contents(t)
    ensures var t1 := BTreeInsert.Insert(m, cmp, t, k, v).0;
            var t2 := Remove(m, cmp, t1, k);
            t2.1 && Contents(t2.0) == Contents(t) && t2.0.size == t.size
  {
  }
}

=== FILE: btree_remove_as_written.dfy ===
/** `remove` of `BTree` as the source writes it, next to the corrected
    model in `BTreeRemove`. Two places differ:

    - after a deletion that went through the successor (the key sat in an
      inner node, the deletion went into child `i + 1`), the repair step
      still inspects child `i`, so a child `i + 1` left with too few
      entries stays that way;
    - the shifting loop of the borrow-from-left repair counts its index up
      from `mid->size` while testing `k > 0`, so whenever the short child
      still holds an entry the loop writes past the end of its arrays.

    Undefined behaviour ends the model with `Err(Undefined)`. */
module BTreeRemoveAsWritten {
  import opened Wrappers
  import opened Ordering
  import opened Entries
  import opened Weaving
  import opened BTree
  import opened BTreeRemove

  /** The repair step as written, for child `ci` of a node `u` of height
      `h`. */
  function FixAsWritten<K, V>(m: Order, u: BNode<K, V>, h: int, ci: nat): (r: Result<(BNode<K, V>, DeleteResult)>)
    requires u.Node? && Wf(u, h) && ci < |u.children|
    ensures r.Ok? ==> Wf(r.value.0, h) && Flat(r.value.0) == Flat(u) && r.value.0.Node?
    ensures r.Ok? ==> !r.value.1.NotDeleted?
    ensures r.Err? ==> r.error == Undefined
  {
    var es, cs := u.entries, u.children;
    if cs[ci].Nil? then Err(Undefined)
    else
      ChildrenShaped(u, h, ci);
      var mid := cs[ci];
      if |mid.entries| >= MinKeys(m) then Ok((u, JustDeleted))
      else if ci > 0 && |cs[ci - 1].entries| > MinKeys(m) then
        // `for (k = mid->size; k > 0; ++k)` never ends once it starts.
        if |mid.entries| > 0 then Err(Undefined)
        else
          BorrowLeftShape(u, h, ci);
          Ok((BorrowLeft(u, ci), Deleted))
      else if ci < |es| && |cs[ci + 1].entries| > MinKeys(m) then
        BorrowRightShape(u, h, ci);
        Ok((BorrowRight(u, ci), Deleted))
      else if ci < |es| then
        MergeShape(u, h, ci);
        Ok((MergeChildren(u, ci), JustDeleted))
      else if ci == 0 then Err(Undefined)
      else
        MergeShape(u, h, ci - 1);
        Ok((MergeChildren(u, ci - 1), JustDeleted))
  }

  /** The private `remove(node, key)` as written, for a subtree of height
      `h`. */
  function RemoveRecAsWritten<K(==), V>(m: Order, cmp: (K, K) -> bool, t: BNode<K, V>, h: int, k: K): (r: Result<(BNode<K, V>, DeleteResult)>)
    requires Wf(t, h)
    ensures r.Ok? ==> Wf(r.value.0, h) && (t.Node? ==> r.value.0.Node?)
    ensures r.Ok? && t.Nil? ==> r.value.1.NotDeleted?
    ensures r.Err? ==> r.error == Undefined
    decreases t, 1
  {
    match t
    case Nil => Ok((Nil, NotDeleted))
    case Node(es, cs) =>
      var i := Scan(cmp, es, k);
      if i < |es| && es[i].key == k && IsLeaf(t) then
        LeafShape(t, h, i);
        Ok((Node(es[..i] + es[i + 1..], cs[1..]), JustDeleted))
      else if i < |es| && es[i].key == k then
        InnerAsWritten(m, cmp, t, h, i)
      else
        BelowAsWritten(m, cmp, t, h, k, i)
  }

  /** The key at entry `i` of an inner node: the successor replaces it and
      is deleted from child `i + 1`, but child `i` is the one repaired. */
  function InnerAsWritten<K(==), V>(m: Order, cmp: (K, K) -> bool, t: BNode<K, V>, h: int, i: nat): (r: Result<(BNode<K, V>, DeleteResult)>)
    requires t.Node? && Wf(t, h) && i < |t.entries|
    ensures r.Ok? ==> Wf(r.value.0, h) && r.value.0.Node?
    ensures r.Err? ==> r.error == Undefined
    decreases t, 0
  {
    var es, cs := t.entries, t.children;
    match FirstEntry(cs[i + 1])
    case None => Err(Undefined)
    case Some(succ) =>
      match RemoveRecAsWritten(m, cmp, cs[i + 1], h - 1, succ.key)
      case Err(e) => Err(e)
      case Ok((c, res)) =>
        var u := Node(es[i := succ], cs[i + 1 := c]);
        PutBack(t, h, es[i := succ], i + 1, c);
        if res.JustDeleted? then FixAsWritten(m, u, h, i) else Ok((u, res))
  }

  /** The key not in the node: delete it from child `i` and repair that
      child. */
  function BelowAsWritten<K(==), V>(m: Order, cmp: (K, K) -> bool, t: BNode<K, V>, h: int, k: K, i: nat): (r: Result<(BNode<K, V>, DeleteResult)>)
    requires t.Node? && Wf(t, h) && i < |t.children|
    ensures r.Ok? ==> Wf(r.value.0, h) && r.value.0.Node?
    ensures r.Err? ==> r.error == Undefined
    decreases t, 0
  {
    var es, cs := t.entries, t.children;
    match RemoveRecAsWritten(m, cmp, cs[i], h - 1, k)
    case Err(e) => Err(e)
    case Ok((c, res)) =>
      var u := Node(es, cs[i := c]);
      PutBack(t, h, es, i, c);
      if res.JustDeleted? then FixAsWritten(m, u, h, i) else Ok((u, res))
  }

  /** The public `remove(key)` as written. */
  function RemoveAsWritten<K(==), V>(m: Order, cmp: (K, K) -> bool, t: BTree<K, V>, k: K): (r: Result<(BTree<K, V>, bool)>)
    requires Wf(t.root, Height(t.root))
    ensures r.Ok? ==> Wf(r.value.0.root, Height(r.value.0.root))
    ensures r.Err? ==> r.error == Undefined
  {
    var h := Height(t.root);
    match RemoveRecAsWritten(m, cmp, t.root, h, k)
    case Err(e) => Err(e)
    case Ok((root, res)) =>
      var deleted := !res.NotDeleted?;
      // `--m_size` on a `std::size_t`.
      var size := if !deleted then t.size else if t.size == 0 then 0xFFFF_FFFF_FFFF_FFFF else t.size - 1;
      if res.JustDeleted? && root.Node? && |root.entries| == 0 then
        NewRootShape(root, h);
        Ok((BTree(root.children[0], size), deleted))
      else
        WfHeight(root, h);
        Ok((BTree(root, size), deleted))
  }

  // ---------------------------------------------------------------------
  // Shape facts the guards above rely on
  // ---------------------------------------------------------------------

  lemma ChildrenShaped<K, V>(u: BNode<K, V>, h: int, ci: nat)
    requires u.Node? && Wf(u, h) && ci < |u.children| && u.children[ci].Node?
    ensures h >= 1 && Shaped(u)
    ensures forall j :: 0 <= j < |u.children| ==> Shaped(u.children[j]) && Wf(u.children[j], h - 1)
  {
  }

  lemma PutBack<K, V>(t: BNode<K, V>, h: int, es: seq<Entry<K, V>>, ci: nat, c: BNode<K, V>)
    requires t.Node? && Wf(t, h) && |es| == |t.entries| && ci < |t.children| && Wf(c, h - 1)
    ensures Wf(Node(es, t.children[ci := c]), h)
  {
  }

  lemma NewRootShape<K, V>(root: BNode<K, V>, h: int)
    requires root.Node? && Wf(root, h)
    ensures Wf(root.children[0], Height(root.children[0]))
  {
    WfHeight(root.children[0], h - 1);
  }

  lemma LeafShape<K, V>(t: BNode<K, V>, h: int, i: nat)
    requires t.Node? && Wf(t, h) && IsLeaf(t) && i < |t.entries|
    ensures Wf(Node(t.entries[..i] + t.entries[i + 1..], t.children[1..]), h)
  {
    assert h == 0;
  }

  lemma BorrowLeftShape<K, V>(u: BNode<K, V>, h: int, ci: nat)
    requires u.Node? && Wf(u, h) && 0 < ci < |u.children| && h >= 1
    requires Shaped(u.children[ci - 1]) && |u.children[ci - 1].entries| > 0 && Shaped(u.children[ci])
    ensures Shaped(u) && Wf(BorrowLeft(u, ci), h)
  {
    var left, mid := u.children[ci - 1], u.children[ci];
    var n := |left.entries|;
    var left' := Node(left.entries[..n - 1], left.children[..n]);
    var mid' := Node([u.entries[ci - 1]] + mid.entries, [left.children[n]] + mid.children);
    var r := BorrowLeft(u, ci);
    assert r.children == u.children[ci - 1 := left'][ci := mid'];
    assert Wf(left, h - 1) && Wf(mid, h - 1);
    assert Wf(left', h - 1);
    assert Wf(mid', h - 1) by {
      forall j | 0 <= j < |mid'.children| ensures Wf(mid'.children[j], h - 2) {
        if j > 0 {
          assert mid'.children[j] == mid.children[j - 1];
        }
      }
    }
  }

  lemma BorrowRightShape<K, V>(u: BNode<K, V>, h: int, ci: nat)
    requires u.Node? && Wf(u, h) && ci < |u.entries| && h >= 1
    requires Shaped(u.children[ci]) && Shaped(u.children[ci + 1]) && |u.children[ci + 1].entries| > 0
    ensures Shaped(u) && Wf(BorrowRight(u, ci), h)
  {
    var mid, right := u.children[ci], u.children[ci + 1];
    var mid' := Node(mid.entries + [u.entries[ci]], mid.children + [right.children[0]]);
    var right' := Node(right.entries[1..], right.children[1..]);
    var r := BorrowRight(u, ci);
    assert r.children == u.children[ci := mid'][ci + 1 := right'];
    assert Wf(mid, h - 1) && Wf(right, h - 1);
    assert Wf(right', h - 1) by {
      forall j | 0 <= j < |right'.children| ensures Wf(right'.children[j], h - 2) {
        assert right'.children[j] == right.children[j + 1];
      }
    }
    assert Wf(mid', h - 1) by {
      forall j | 0 <= j < |mid'.children| ensures Wf(mid'.children[j], h - 2) {
        if j < |mid.children| {
          assert mid'.children[j] == mid.children[j];
        }
      }
    }
  }

  lemma MergeShape<K, V>(u: BNode<K, V>, h: int, j: nat)
    requires u.Node? && Wf(u, h) && j < |u.entries| && h >= 1
    requires Shaped(u.children[j]) && Shaped(u.children[j + 1])
    ensures Shaped(u) && Wf(MergeChildren(u, j), h)
  {
    var left, right := u.children[j], u.children[j + 1];
    assert Wf(left, h - 1) && Wf(right, h - 1);
    var merged := Node(left.entries + [u.entries[j]] + right.entries, left.children + right.children);
    var r := MergeChildren(u, j);
    assert r.children == u.children[..j] + [merged] + u.children[j + 2..];
    assert Wf(merged, h - 1) by {
      forall q | 0 <= q < |merged.children| ensures Wf(merged.children[q], h - 2) {
        if q < |left.children| {
          assert merged.children[q] == left.children[q];
        } else {
          assert merged.children[q] == right.children[q - |left.children|];
        }
      }
    }
    forall q | 0 <= q < |r.children| ensures Wf(r.children[q], h - 1) {
      if q < j {
        assert r.children[q] == u.children[q];
      } else if q > j {
        assert r.children[q] == u.children[q + 1];
      }
    }
  }

  // ---------------------------------------------------------------------
  // The two inputs that show the difference, for M = 5 and int keys
  // ---------------------------------------------------------------------

  function Less(a: int, b: int): bool {
    a < b
  }

  function E(k: int): Entry<int, int> {
    Entry(k, k)
  }

  /** The leaves of the two inputs. */
  function Leaf1(a: int): BNode<int, int> {
    Node([E(a)], [Nil, Nil])
  }

  function Leaf2(a: int, b: int): BNode<int, int> {
    Node([E(a), E(b)], [Nil, Nil, Nil])
  }

  function Leaf3(a: int, b: int, c: int): BNode<int, int> {
    Node([E(a), E(b), E(c)], [Nil, Nil, Nil, Nil])
  }

  /** Root [30] over leaves [10, 20] and [40, 50]. */
  function SuccessorInput(): BTree<int, int> {
    BTree(Node([E(30)], [Leaf2(10, 20), Leaf2(40, 50)]), 5)
  }

  /** Root [30] over leaves [10, 20, 25] and [40, 50]. */
  function BorrowLeftInput(): BTree<int, int> {
    BTree(Node([E(30)], [Leaf3(10, 20, 25), Leaf2(40, 50)]), 6)
  }

  /** Removing 30 as written replaces it by 40 and leaves the leaf [50]
      with one entry, below the two a node of order 5 must hold; the
      corrected `Remove` keeps the tree valid. */
  lemma SuccessorRepairMissed()
    ensures Valid(5, Less, SuccessorInput())
    ensures RemoveAsWritten(5, Less, SuccessorInput(), 30)
            == Ok((BTree(Node([E(40)], [Leaf2(10, 20), Leaf1(50)]), 4), true))
    ensures !Valid(5, Less, BTree(Node([E(40)], [Leaf2(10, 20), Leaf1(50)]), 4))
    ensures Valid(5, Less, BTreeRemove.Remove(5, Less, SuccessorInput(), 30).0)
  {
    SuccessorValid();
    SuccessorDescent();
    SuccessorLeavesShortLeaf();
    StrictLess();
  }

  lemma SuccessorValid()
    ensures Valid(5, Less, SuccessorInput()) && Height(SuccessorInput().root) == 1
  {
    var t := SuccessorInput();
    var l, r := Leaf2(10, 20), Leaf2(40, 50);
    LeafReads(l);
    LeafReads(r);
    InputValid(t, l, r);
  }

  /** The recursive removal of 30 from the root, as written. */
  lemma SuccessorDescent()
    ensures RemoveRecAsWritten(5, Less, SuccessorInput().root, 1, 30)
            == Ok((Node([E(40)], [Leaf2(10, 20), Leaf1(50)]), JustDeleted))
  {
    var t := SuccessorInput();
    SuccessorInner();
    assert Scan(Less, t.root.entries, 30) == 0;
  }

  /** Entry 0 of the root is replaced by 40, taken out of the right leaf,
      and the left child, still full, is the one inspected. */
  lemma SuccessorInner()
    ensures InnerAsWritten(5, Less, SuccessorInput().root, 1, 0)
            == Ok((Node([E(40)], [Leaf2(10, 20), Leaf1(50)]), JustDeleted))
  {
    var t := SuccessorInput();
    var l, r := Leaf2(10, 20), Leaf2(40, 50);
    SuccessorLeaf();
    assert FirstEntry(r) == Some(E(40));
    var u := Node([E(40)], [l, Leaf1(50)]);
    assert t.root.entries[0 := E(40)] == [E(40)];
    assert t.root.children[1 := Leaf1(50)] == [l, Leaf1(50)];
    assert FixAsWritten(5, u, 1, 0) == Ok((u, JustDeleted));
  }

  /** Deleting 40 from the leaf [40, 50] leaves [50]. */
  lemma SuccessorLeaf()
    ensures RemoveRecAsWritten(5, Less, Leaf2(40, 50), 0, 40) == Ok((Leaf1(50), JustDeleted))
  {
    var r := Leaf2(40, 50);
    assert Scan(Less, r.entries, 40) == 0;
    assert r.entries[..0] + r.entries[1..] == [E(50)] && r.children[1..] == [Nil, Nil];
  }

  /** The leaf [50] left behind holds fewer keys than order 5 allows. */
  lemma SuccessorLeavesShortLeaf()
    ensures !Valid(5, Less, BTree(Node([E(40)], [Leaf2(10, 20), Leaf1(50)]), 4))
  {
    var u := Node([E(40)], [Leaf2(10, 20), Leaf1(50)]);
    assert !Counts(5, u, 1) by {
      assert !Counts(5, u.children[1], MinKeys(5));
    }
  }

  /** Removing 50 as written reaches the borrow-from-left repair with a
      short child that still holds 40, and the shifting loop runs off the
      end of its arrays. */
  lemma BorrowLeftRunsAway()
    ensures Valid(5, Less, BorrowLeftInput())
    ensures RemoveAsWritten(5, Less, BorrowLeftInput(), 50) == Err(Undefined)
  {
    BorrowLeftValid();
    BorrowLeftRoot();
  }

  /** The input is a valid tree of order 5 and height 1. */
  lemma BorrowLeftValid()
    ensures Valid(5, Less, BorrowLeftInput()) && Height(BorrowLeftInput().root) == 1
  {
    var t := BorrowLeftInput();
    var l, r := Leaf3(10, 20, 25), Leaf2(40, 50);
    LeafReads(l);
    LeafReads(r);
    InputValid(t, l, r);
  }

  /** The descent from the root into the right leaf ends in the repair. */
  lemma BorrowLeftRoot()
    requires Height(BorrowLeftInput().root) == 1
    ensures BelowAsWritten(5, Less, BorrowLeftInput().root, 1, 50, 1) == Err(Undefined)
  {
    var t := BorrowLeftInput();
    var l := Leaf3(10, 20, 25);
    BorrowLeftLeaf();
    assert t.root.children[1 := Leaf1(40)] == [l, Leaf1(40)];
    BorrowLeftFix();
  }

  /** Deleting 50 from the leaf holding 40 and 50 leaves it one short. */
  lemma BorrowLeftLeaf()
    ensures RemoveRecAsWritten(5, Less, Leaf2(40, 50), 0, 50) == Ok((Leaf1(40), JustDeleted))
  {
    var r := Leaf2(40, 50);
    assert Scan(Less, r.entries, 50) == 1;
    assert r.entries[..1] + r.entries[2..] == [E(40)] && r.children[1..] == [Nil, Nil];
  }

  /** The borrow-from-left repair of the short right child runs off the end
      of its arrays. */
  lemma BorrowLeftFix()
    ensures FixAsWritten(5, Node([E(30)], [Leaf3(10, 20, 25), Leaf1(40)]), 1, 1) == Err(Undefined)
  {
  }

  lemma StrictLess()
    ensures StrictTotalOrder(Less)
  {
  }

  /** A node whose children are all empty is a leaf that reads as its
      entries. */
  lemma LeafReads(t: BNode<int, int>)
    requires t.Node? && |t.children| == |t.entries| + 1
    requires forall j :: 0 <= j < |t.children| ==> t.children[j] == Nil
    ensures Wf(t, 0) && Flat(t) == t.entries
  {
    WeaveEmpty(Parts(t.children), t.entries);
  }

  /** A root of one entry over two leaves whose keys ascend around it. */
  lemma InputValid(t: BTree<int, int>, l: BNode<int, int>, r: BNode<int, int>)
    requires l.Node? && r.Node? && t.root == Node([E(30)], [l, r])
    requires 2 <= |l.entries| <= 4 && 2 <= |r.entries| <= 4
    requires Wf(l, 0) && Wf(r, 0) && Flat(l) == l.entries && Flat(r) == r.entries
    requires Ascending(Less, l.entries) && Ascending(Less, r.entries)
    requires forall j :: 0 <= j < |l.entries| ==> l.entries[j].key < 30
    requires forall j :: 0 <= j < |r.entries| ==> 30 < r.entries[j].key
    requires t.size == |l.entries| + 1 + |r.entries|
    ensures Valid(5, Less, t)
  {
    var root := t.root;
    assert Parts(root.children) == [Flat(l), Flat(r)];
    assert [Flat(l), Flat(r)][1..] == [Flat(r)] && [E(30)][1..] == [];
    assert Weave([Flat(r)], []) == Flat(r);
    var s := l.entries + [E(30)] + r.entries;
    assert Flat(root) == s;
    WfHeight(root, 1);
    assert Ascending(Less, s) by {
      forall a, b | 0 <= a < b < |s| ensures Less(s[a].key, s[b].key) {
        if b < |l.entries| {
        } else if a < |l.entries| {
        } else if a == |l.entries| {
        } else {
          assert s[a] == r.entries[a - |l.entries| - 1];
        }
      }
    }
  }
}

=== FILE: chain.dfy ===
/** A chain of singly linked nodes: the `Node { data, next }` shape shared by
    `Stack`, both `LinkedList`s and the hash map's buckets. A chain is
    finite and acyclic by construction; `Items` reads it front to back. */
module Chains {
  import opened Wrappers
  import opened SeqUtil

  datatype Chain<T> = Null | Link(data: T, next: Chain<T>)

  /** The elements met by following `next` from this node. */
  function Items<T>(c: Chain<T>): seq<T> {
    match c
    case Null => []
    case Link(d, n) => [d] + Items(n)
  }

  /** The chain holding exactly `s`, in order. */
  function FromItems<T>(s: seq<T>): (c: Chain<T>)
    ensures Items(c) == s
  {
    if s == [] then Null else Link(s[0], FromItems(s[1..]))
  }

  /** A chain is determined by its items. */
  lemma {:induction false} FromItemsOfItems<T>(c: Chain<T>)
    ensures FromItems(Items(c)) == c
  {
    match c
    case Null =>
    case Link(d, n) =>
      assert Items(c)[1..] == Items(n);
      FromItemsOfItems(n);
  }

  /** Follows `next` i times from `c` and reads the node reached. Walking
      off the end dereferences a null pointer, which is `Undefined`. */
  function Walk<T>(c: Chain<T>, i: nat): (r: Result<T>)
    ensures i < |Items(c)| ==> r == Ok(Items(c)[i])
    ensures i >= |Items(c)| ==> r == Err(Undefined)
  {
    match c
    case Null => Err(Undefined)
    case Link(d, n) => if i == 0 then Ok(d) else Walk(n, i - 1)
  }

  /** The data of the node whose `next` is null. */
  function LastData<T>(c: Chain<T>): (r: T)
    requires c.Link?
    ensures r == Items(c)[|Items(c)| - 1]
  {
    if c.next.Null? then c.data else LastData(c.next)
  }

  /** Walks to the null `next` pointer and links a new node there. */
  function Append<T>(c: Chain<T>, x: T): (r: Chain<T>)
    ensures Items(r) == Items(c) + [x]
  {
    match c
    case Null => Link(x, Null)
    case Link(d, n) => Link(d, Append(n, x))
  }

  /** Walks to the last node, unlinks it and returns its data. */
  function DropLast<T>(c: Chain<T>): (r: (Chain<T>, T))
    requires c.Link?
    ensures Items(r.0) + [r.1] == Items(c)
  {
    if c.next.Null? then (Null, c.data)
    else
      var (rest, x) := DropLast(c.next);
      (Link(c.data, rest), x)
  }

  /** The in-place reversal with two cursors: `done` is the already
      reversed prefix and `rest` the part still to be relinked. */
  method Reverse<T>(c: Chain<T>) returns (r: Chain<T>)
    ensures Items(r) == Rev(Items(c))
  {
    var done: Chain<T> := Null;
    var rest := c;
    ghost var k := 0;
    while rest.Link?
      invariant 0 <= k <= |Items(c)|
      invariant Items(done) == Rev(Items(c)[..k])
      invariant Items(rest) == Items(c)[k..]
      decreases |Items(rest)|
    {
      var s := Items(c);
      assert Items(rest) == [rest.data] + Items(rest.next);
      assert k < |s| && s[k] == rest.data && Items(rest.next) == s[k + 1..];
      assert s[..k + 1] == s[..k] + [rest.data];
      RevAppend(s[..k], [rest.data]);
      assert Rev([rest.data]) == [rest.data];
      done, rest := Link(rest.data, done), rest.next;
      k := k + 1;
    }
    assert |Items(c)[k..]| == 0;
    assert Items(c)[..k] == Items(c);
    r := done;
  }
}

=== FILE: circular_list.dfy ===
/** The `CircularList<T>` of include/circular_list.h: a ring of doubly
    linked nodes closed by a sentinel. The ring read from the sentinel's
    `next` back to the sentinel is `items`. */
module CircularList {
  import opened Wrappers
  import opened SeqUtil

  datatype List<T> = List(items: seq<T>)

  /** The constructor: the sentinel linked to itself. */
  function Empty<T>(): List<T> {
    List([])
  }

  /** The empty value holds nothing. */
  lemma EmptyHolds<T>(e: List<T>)
    requires e == Empty()
    ensures e.items == []
  {
  }

  function Size<T>(l: List<T>): nat {
    |l.items|
  }

  function IsEmpty<T>(l: List<T>): bool {
    |l.items| == 0
  }

  function Front<T>(l: List<T>): (r: Result<T>)
    ensures r.Ok? <==> l.items != []
    ensures r.Err? ==> r.error == RuntimeError
    ensures r.Ok? ==> r.value == l.items[0]
  {
    if |l.items| == 0 then Err(RuntimeError) else Ok(l.items[0])
  }

  /** `back` is the sentinel's `prev`. */
  function Back<T>(l: List<T>): (r: Result<T>)
    ensures r.Ok? <==> l.items != []
    ensures r.Err? ==> r.error == RuntimeError
    ensures r.Ok? ==> r.value == l.items[|l.items| - 1]
  {
    if |l.items| == 0 then Err(RuntimeError) else Ok(l.items[|l.items| - 1])
  }

  function PushFront<T>(l: List<T>, x: T): (r: List<T>)
    ensures r.items == [x] + l.items
  {
    List([x] + l.items)
  }

  function PushBack<T>(l: List<T>, x: T): (r: List<T>)
    ensures r.items == l.items + [x]
  {
    List(l.items + [x])
  }

  function PopFront<T>(l: List<T>): (r: Result<(List<T>, T)>)
    ensures r.Ok? <==> l.items != []
    ensures r.Err? ==> r.error == RuntimeError
    ensures r.Ok? ==> [r.value.1] + r.value.0.items == l.items
  {
    if |l.items| == 0 then Err(RuntimeError) else Ok((List(l.items[1..]), l.items[0]))
  }

  function PopBack<T>(l: List<T>): (r: Result<(List<T>, T)>)
    ensures r.Ok? <==> l.items != []
    ensures r.Err? ==> r.error == RuntimeError
    ensures r.Ok? ==> r.value.0.items + [r.value.1] == l.items
  {
    var n := |l.items|;
    if n == 0 then Err(RuntimeError) else Ok((List(l.items[..n - 1]), l.items[n - 1]))
  }

  /** `remove(index)`: the neighbours are linked to each other; thanks to
      the sentinel no end needs a special case. */
  function Remove<T>(l: List<T>, i: nat): (r: Result<List<T>>)
    ensures r.Ok? <==> i < |l.items|
    ensures r.Err? ==> r.error == OutOfRange
    ensures r.Ok? ==> r.value.items == RemoveAt(l.items, i)
  {
    if i >= |l.items| then Err(OutOfRange) else Ok(List(RemoveAt(l.items, i)))
  }

  function At<T>(l: List<T>, i: nat): (r: Result<T>)
    ensures r.Ok? <==> i < |l.items|
    ensures r.Ok? ==> r.value == l.items[i]
    ensures r.Err? ==> r.error == OutOfRange
  {
    if i >= |l.items| then Err(OutOfRange) else Ok(l.items[i])
  }

  function Clear<T>(l: List<T>): (r: List<T>)
    ensures r.items == []
  {
    List([])
  }

  /** The copy constructor: `push_back` of every element of `other`, in
      iteration order, onto a fresh ring. */
  method Copy<T>(other: List<T>) returns (r: List<T>)
    ensures r == other
  {
    r := Empty();
    var i := 0;
    while i < |other.items|
      invariant 0 <= i <= |other.items|
      invariant r.items == other.items[..i]
    {
      r := PushBack(r, other.items[i]);
      i := i + 1;
    }
    assert other.items[..i] == other.items;
  }

  /** `reverse`: two cursors walk the ring until the second reaches the
      sentinel, turning each `next` link backwards; then head and tail are
      swapped. `done` is the relinked prefix, read from its newest node. */
  method Reverse<T>(l: List<T>) returns (r: List<T>)
    ensures r.items == Rev(l.items)
  {
    var done: seq<T> := [];
    var i := 0;
    while i < |l.items|
      invariant 0 <= i <= |l.items|
      invariant done == Rev(l.items[..i])
    {
      assert l.items[..i + 1] == l.items[..i] + [l.items[i]];
      RevAppend(l.items[..i], [l.items[i]]);
      done := [l.items[i]] + done;
      i := i + 1;
    }
    assert l.items[..i] == l.items;
    r := List(done);
  }

  /** Removing index 0 or the last index is the matching pop. */
  lemma RemoveEnds<T>(l: List<T>)
    requires l.items != []
    ensures Remove(l, 0).value == PopFront(l).value.0
    ensures Remove(l, |l.items| - 1).value == PopBack(l).value.0
  {
  }

  lemma PushPopFront<T>(l: List<T>, x: T)
    ensures PopFront(PushFront(l, x)) == Ok((l, x))
  {
    assert ([x] + l.items)[1..] == l.items;
  }

  lemma PushPopBack<T>(l: List<T>, x: T)
    ensures PopBack(PushBack(l, x)) == Ok((l, x))
  {
    assert (l.items + [x])[..|l.items|] == l.items;
  }

  /** Front and back trade places under reversal. */
  lemma ReverseSwapsEnds<T>(l: List<T>, r: List<T>)
    requires r.items == Rev(l.items)
    ensures Front(r) == Back(l) && Back(r) == Front(l)
  {
  }

  /** `front` and `back` read the first and last indices. */
  lemma EndsAreIndices<T>(l: List<T>)
    ensures Front(l).Ok? <==> At(l, 0).Ok?
    ensures Back(l).Ok? <==> At(l, 0).Ok?
    ensures Front(l).Ok? ==> Front(l) == At(l, 0) && Back(l) == At(l, |l.items| - 1)
  {
  }

  /** Indexing after `push_front`: index 0 holds the new element and every
      old index moves up by one, in range or not. */
  lemma AtAfterPushFront<T>(l: List<T>, x: T, i: nat)
    ensures At(PushFront(l, x), 0) == Ok(x)
    ensures At(PushFront(l, x), i + 1) == At(l, i)
  {
  }

  /** `clear` leaves the list as a freshly constructed one. */
  lemma ClearIsEmpty<T>(l: List<T>)
    ensures Clear(l) == Empty()
    ensures IsEmpty(Clear(l)) && Front(Clear(l)).Err?
  {
  }
}

=== FILE: doubly_linked_list.dfy ===
/** The `DoublyLinkedList<T>` of include/doubly_linked_list.h.

    The node sequence reached from `m_head` is `items`; the `prev` links
    are its mirror image and are not modelled separately. What is modelled
    is where `m_tail` points: nowhere, at the last node, or at a node that
    has been deleted. */
module DoublyLinkedList {
  import opened Wrappers
  import opened SeqUtil

  datatype TailLink = NoTail | AtLast | Dangling

  datatype List<T> = List(items: seq<T>, tail: TailLink)

  /** What every operation keeps: `m_tail` is null only when no node is
      reachable, and points at a live last node only when one is. */
  ghost predicate Valid<T>(l: List<T>) {
    (l.items == [] ==> l.tail != AtLast) && (l.items != [] ==> l.tail != NoTail)
  }

  /** The intended state: `m_tail` is null for the empty list and otherwise
      the last node. */
  ghost predicate Healthy<T>(l: List<T>) {
    l.tail == if l.items == [] then NoTail else AtLast
  }

  function Empty<T>(): List<T> {
    List([], NoTail)
  }

  /** The empty value holds nothing. */
  lemma EmptyHolds<T>(e: List<T>)
    requires e == Empty()
    ensures Healthy(e) && e.items == []
  {
  }

  function Size<T>(l: List<T>): nat {
    |l.items|
  }

  function IsEmpty<T>(l: List<T>): bool {
    |l.items| == 0
  }

  function Front<T>(l: List<T>): (r: Result<T>)
    ensures r.Ok? <==> l.items != []
    ensures r.Err? ==> r.error == RuntimeError
    ensures r.Ok? ==> r.value == l.items[0]
  {
    if l.items == [] then Err(RuntimeError) else Ok(l.items[0])
  }

  /** `back` reads through `m_tail`. */
  function Back<T>(l: List<T>): (r: Result<T>)
    requires Valid(l)
    ensures l.tail == NoTail <==> r == Err(RuntimeError)
    ensures l.tail == Dangling <==> r == Err(Undefined)
    ensures l.tail == AtLast ==> r == Ok(l.items[|l.items| - 1])
  {
    match l.tail
    case NoTail => Err(RuntimeError)
    case Dangling => Err(Undefined)
    case AtLast => Ok(l.items[|l.items| - 1])
  }

  /** `push_front` tests `m_head`, so it repairs a dangling tail exactly
      when the list had become empty. */
  function PushFront<T>(l: List<T>, x: T): (r: List<T>)
    requires Valid(l)
    ensures Valid(r)
    ensures r.items == [x] + l.items
    ensures Healthy(l) ==> Healthy(r)
  {
    if l.items == [] then List([x], AtLast) else List([x] + l.items, l.tail)
  }

  /** `push_back` tests `m_tail` and writes through it. */
  function PushBack<T>(l: List<T>, x: T): (r: Result<List<T>>)
    requires Valid(l)
    ensures r.Err? <==> l.tail == Dangling
    ensures r.Err? ==> r.error == Undefined
    ensures r.Ok? ==> Healthy(r.value) && r.value.items == l.items + [x]
  {
    match l.tail
    case NoTail => Ok(List([x], AtLast))
    case AtLast => Ok(List(l.items + [x], AtLast))
    case Dangling => Err(Undefined)
  }

  function PopFront<T>(l: List<T>): (r: Result<(List<T>, T)>)
    requires Valid(l)
    ensures r.Ok? <==> l.items != []
    ensures r.Err? ==> r.error == RuntimeError
    ensures r.Ok? ==> Valid(r.value.0) && [r.value.1] + r.value.0.items == l.items
    ensures r.Ok? && Healthy(l) ==> Healthy(r.value.0)
  {
    if l.items == [] then Err(RuntimeError)
    else if |l.items| == 1 then Ok((List([], NoTail), l.items[0]))
    else Ok((List(l.items[1..], l.tail), l.items[0]))
  }

  function PopBack<T>(l: List<T>): (r: Result<(List<T>, T)>)
    requires Valid(l)
    ensures l.tail == NoTail <==> r == Err(RuntimeError)
    ensures l.tail == Dangling <==> r == Err(Undefined)
    ensures r.Ok? ==> Healthy(r.value.0) && r.value.0.items + [r.value.1] == l.items
  {
    match l.tail
    case NoTail => Err(RuntimeError)
    case Dangling => Err(Undefined)
    case AtLast =>
      var n := |l.items|;
      Ok((List(l.items[..n - 1], if n == 1 then NoTail else AtLast), l.items[n - 1]))
  }

  /** `remove(index)` as written: the node is unlinked through the `next`
      pointer that reaches it, but `m_tail` is never updated, so removing
      the last node leaves `m_tail` pointing at freed memory. */
  function RemoveAsWritten<T>(l: List<T>, i: nat): (r: Result<List<T>>)
    requires Valid(l)
    ensures r.Ok? <==> i < |l.items|
    ensures r.Err? ==> r.error == OutOfRange
    ensures r.Ok? ==> Valid(r.value) && r.value.items == RemoveAt(l.items, i)
    ensures r.Ok? && i == |l.items| - 1 ==> r.value.tail == Dangling
  {
    if i >= |l.items| then Err(OutOfRange)
    else Ok(List(RemoveAt(l.items, i), if i == |l.items| - 1 then Dangling else l.tail))
  }

  /** Removing the last of two elements and then asking for the back reads
      a deleted node instead of returning the remaining element. */
  lemma RemoveLastThenBack<T>(a: T, b: T)
    ensures RemoveAsWritten(List([a, b], AtLast), 1).Ok?
    ensures Back(RemoveAsWritten(List([a, b], AtLast), 1).value) == Err(Undefined)
    ensures Back(Remove(List([a, b], AtLast), 1).value) == Ok(a)
  {
  }

  /** `remove(index)` with the tail moved back when the last node goes. */
  function Remove<T>(l: List<T>, i: nat): (r: Result<List<T>>)
    requires Valid(l)
    ensures r.Ok? <==> i < |l.items|
    ensures r.Err? ==> r.error == OutOfRange
    ensures r.Ok? ==> Valid(r.value) && r.value.items == RemoveAt(l.items, i)
    ensures r.Ok? && Healthy(l) ==> Healthy(r.value)
  {
    if i >= |l.items| then Err(OutOfRange)
    else
      var rest := RemoveAt(l.items, i);
      Ok(List(rest, if rest == [] then NoTail else if i == |l.items| - 1 then AtLast else l.tail))
  }

  /** The two agree on the node sequence and differ only in `m_tail`. */
  lemma RemoveAgreesOnItems<T>(l: List<T>, i: nat)
    requires Valid(l) && i < |l.items|
    ensures RemoveAsWritten(l, i).value.items == Remove(l, i).value.items
    ensures i < |l.items| - 1 ==> RemoveAsWritten(l, i) == Remove(l, i)
  {
  }

  function At<T>(l: List<T>, i: nat): (r: Result<T>)
    ensures r.Ok? <==> i < |l.items|
    ensures r.Ok? ==> r.value == l.items[i]
    ensures r.Err? ==> r.error == OutOfRange
  {
    if i >= |l.items| then Err(OutOfRange) else Ok(l.items[i])
  }

  /** `clear` resets `m_tail` too, so it also repairs a dangling tail. */
  function Clear<T>(l: List<T>): (r: List<T>)
    ensures Healthy(r) && r.items == []
  {
    List([], NoTail)
  }

  /** `reverse` swaps head and tail after relinking; it writes through
      `m_tail`, so a dangling tail on a non-empty list is undefined. */
  function Reverse<T>(l: List<T>): (r: Result<List<T>>)
    requires Valid(l)
    ensures r.Err? <==> l.items != [] && l.tail == Dangling
    ensures r.Err? ==> r.error == Undefined
    ensures r.Ok? ==> r.value.items == Rev(l.items) && r.value.tail == l.tail
  {
    if l.items == [] then Ok(l)
    else if l.tail == Dangling then Err(Undefined)
    else Ok(List(Rev(l.items), AtLast))
  }

  /** On a healthy list reversal is an involution. */
  lemma ReverseTwice<T>(l: List<T>)
    requires Healthy(l)
    ensures Reverse(l).Ok? && Reverse(Reverse(l).value) == Ok(l)
  {
    RevRev(l.items);
  }

  /** On a healthy list `back` is the element at the last index. */
  lemma HealthyBack<T>(l: List<T>)
    requires Healthy(l)
    ensures Back(l).Ok? <==> l.items != []
    ensures Back(l).Ok? ==> Back(l) == At(l, |l.items| - 1)
  {
  }

  lemma PushPopBack<T>(l: List<T>, x: T)
    requires Healthy(l)
    ensures PushBack(l, x).Ok?
    ensures PopBack(PushBack(l, x).value) == Ok((l, x))
  {
    var n := |l.items|;
    assert (l.items + [x])[..n] == l.items;
  }

  /** `front` reads index 0. */
  lemma FrontIsFirst<T>(l: List<T>)
    ensures Front(l).Ok? <==> At(l, 0).Ok?
    ensures Front(l).Ok? ==> Front(l) == At(l, 0)
  {
  }

  lemma PushPopFront<T>(l: List<T>, x: T)
    requires Healthy(l)
    ensures PopFront(PushFront(l, x)) == Ok((l, x))
  {
    assert ([x] + l.items)[1..] == l.items;
  }
}

=== FILE: entries.dfy ===
/** Key/value entries in key order: the abstract view of a B-tree.

    A B-tree stands for the sequence of its entries read in order. The
    operations are specified against reference functions on such sequences:
    `InsertSorted` (overwrite the entry with the same key, or insert before
    the first greater key), `RemoveKey` (drop the entry with the key) and
    `Within` (keep the entries whose keys lie in a closed interval). */
module Entries {
  import opened Ordering

  datatype Entry<K, V> = Entry(key: K, value: V)

  /** Keys strictly ascending under `cmp`. */
  ghost predicate Ascending<K, V>(cmp: (K, K) -> bool, s: seq<Entry<K, V>>) {
    forall i, j :: 0 <= i < j < |s| ==> cmp(s[i].key, s[j].key)
  }

  /** Every key of `s` is ordered before `k`. */
  ghost predicate Below<K, V>(cmp: (K, K) -> bool, s: seq<Entry<K, V>>, k: K) {
    forall i :: 0 <= i < |s| ==> cmp(s[i].key, k)
  }

  /** Every key of `s` is ordered after `k`. */
  ghost predicate Above<K, V>(cmp: (K, K) -> bool, s: seq<Entry<K, V>>, k: K) {
    forall i :: 0 <= i < |s| ==> cmp(k, s[i].key)
  }

  function KeysOf<K, V>(s: seq<Entry<K, V>>): (r: seq<K>)
    ensures |r| == |s| && forall i :: 0 <= i < |s| ==> r[i] == s[i].key
  {
    seq(|s|, i requires 0 <= i < |s| => s[i].key)
  }

  /** The map the entries stand for (the first entry of a key wins, which
      only matters for sequences that are not ascending). */
  ghost function ToMap<K, V>(s: seq<Entry<K, V>>): map<K, V>
    decreases |s|
  {
    if |s| == 0 then map[] else ToMap(s[1..])[s[0].key := s[0].value]
  }

  lemma {:induction false} MapKeys<K, V>(s: seq<Entry<K, V>>, k: K)
    ensures k in ToMap(s) <==> k in KeysOf(s)
    decreases |s|
  {
    if |s| > 0 {
      MapKeys(s[1..], k);
      assert KeysOf(s) == [s[0].key] + KeysOf(s[1..]);
    }
  }

  lemma {:induction false} MapAppend<K, V>(a: seq<Entry<K, V>>, b: seq<Entry<K, V>>)
    ensures ToMap(a + b) == ToMap(b) + ToMap(a)
    decreases |a|
  {
    if |a| == 0 {
      assert a + b == b;
    } else {
      assert (a + b)[1..] == a[1..] + b;
      MapAppend(a[1..], b);
    }
  }

  lemma NotBelow<K(!new), V>(cmp: (K, K) -> bool, s: seq<Entry<K, V>>, k: K)
    requires Irreflexive(cmp) && (Below(cmp, s, k) || Above(cmp, s, k))
    ensures k !in ToMap(s)
  {
    MapKeys(s, k);
    assert forall i :: 0 <= i < |s| ==> s[i].key != k;
  }

  /** Looking a key up in a middle piece whose neighbours hold only smaller
      and only greater keys. */
  lemma MapMiddle<K(!new), V>(cmp: (K, K) -> bool, a: seq<Entry<K, V>>, b: seq<Entry<K, V>>, c: seq<Entry<K, V>>, k: K)
    requires Irreflexive(cmp) && Below(cmp, a, k) && Above(cmp, c, k)
    ensures k in ToMap(a + b + c) <==> k in ToMap(b)
    ensures k in ToMap(b) ==> ToMap(a + b + c)[k] == ToMap(b)[k]
  {
    MapAppend(a + b, c);
    MapAppend(a, b);
    NotBelow(cmp, a, k);
    NotBelow(cmp, c, k);
  }

  /** The pieces of an ascending sequence are ascending and ordered. */
  lemma AscendingParts<K, V>(cmp: (K, K) -> bool, a: seq<Entry<K, V>>, b: seq<Entry<K, V>>, c: seq<Entry<K, V>>)
    requires Ascending(cmp, a + b + c)
    ensures Ascending(cmp, a) && Ascending(cmp, b) && Ascending(cmp, c)
    ensures forall i, j :: 0 <= i < |a| && 0 <= j < |b| ==> cmp(a[i].key, b[j].key)
    ensures forall i, j :: 0 <= i < |b| && 0 <= j < |c| ==> cmp(b[i].key, c[j].key)
    ensures forall i, j :: 0 <= i < |a| && 0 <= j < |c| ==> cmp(a[i].key, c[j].key)
  {
    var s := a + b + c;
    assert forall i :: 0 <= i < |a| ==> s[i] == a[i];
    assert forall i :: 0 <= i < |b| ==> s[|a| + i] == b[i];
    assert forall i :: 0 <= i < |c| ==> s[|a| + |b| + i] == c[i];
  }

  /** Two ascending pieces, every key of the first before every key of the
      second, make an ascending whole. */
  lemma AscendingJoin<K, V>(cmp: (K, K) -> bool, a: seq<Entry<K, V>>, b: seq<Entry<K, V>>)
    requires Ascending(cmp, a) && Ascending(cmp, b)
    requires forall i, j :: 0 <= i < |a| && 0 <= j < |b| ==> cmp(a[i].key, b[j].key)
    ensures Ascending(cmp, a + b)
  {
    var s := a + b;
    forall i, j | 0 <= i < j < |s| ensures cmp(s[i].key, s[j].key) {
      if j < |a| {
        assert s[i] == a[i] && s[j] == a[j];
      } else if i < |a| {
        assert s[i] == a[i] && s[j] == b[j - |a|];
      } else {
        assert s[i] == b[i - |a|] && s[j] == b[j - |a|];
      }
    }
  }

  /** Two ascending pieces joined where the last key of the first precedes
      the first key of the second. */
  lemma AscendingAdjacent<K(!new), V>(cmp: (K, K) -> bool, a: seq<Entry<K, V>>, b: seq<Entry<K, V>>)
    requires Transitive(cmp) && Ascending(cmp, a) && Ascending(cmp, b)
    requires |a| > 0 && |b| > 0 ==> cmp(a[|a| - 1].key, b[0].key)
    ensures Ascending(cmp, a + b)
  {
    forall i, j | 0 <= i < |a| && 0 <= j < |b| ensures cmp(a[i].key, b[j].key) {
      var x, y := a[|a| - 1].key, b[0].key;
      if i < |a| - 1 { assert cmp(a[i].key, x); }
      if j > 0 { assert cmp(y, b[j].key); }
    }
    AscendingJoin(cmp, a, b);
  }

  /** In an ascending sequence every key up to the last is before `k` once
      the last one is. */
  lemma BelowFromLast<K(!new), V>(cmp: (K, K) -> bool, s: seq<Entry<K, V>>, k: K)
    requires Transitive(cmp) && Ascending(cmp, s) && (|s| > 0 ==> cmp(s[|s| - 1].key, k))
    ensures Below(cmp, s, k)
  {
    forall i | 0 <= i < |s| ensures cmp(s[i].key, k) {
      if i < |s| - 1 { assert cmp(s[i].key, s[|s| - 1].key); }
    }
  }

  lemma AboveFromFirst<K(!new), V>(cmp: (K, K) -> bool, s: seq<Entry<K, V>>, k: K)
    requires Transitive(cmp) && Ascending(cmp, s) && (|s| > 0 ==> cmp(k, s[0].key))
    ensures Above(cmp, s, k)
  {
    forall i | 0 <= i < |s| ensures cmp(k, s[i].key) {
      if i > 0 { assert cmp(s[0].key, s[i].key); }
    }
  }

  // ---------------------------------------------------------------------
  // Insertion
  // ---------------------------------------------------------------------

  /** Reference insertion: skip the smaller keys, then overwrite an equal
      key or insert in front of the greater one. */
  ghost function InsertSorted<K, V>(cmp: (K, K) -> bool, s: seq<Entry<K, V>>, e: Entry<K, V>): seq<Entry<K, V>>
    decreases |s|
  {
    if |s| == 0 then [e]
    else if cmp(s[0].key, e.key) then [s[0]] + InsertSorted(cmp, s[1..], e)
    else if s[0].key == e.key then [e] + s[1..]
    else [e] + s
  }

  /** Every entry of the result is the new one or an old one. */
  lemma {:induction false} InsertSortedFrom<K, V>(cmp: (K, K) -> bool, s: seq<Entry<K, V>>, e: Entry<K, V>)
    ensures forall x :: x in InsertSorted(cmp, s, e) ==> x == e || x in s
    decreases |s|
  {
    if |s| > 0 && cmp(s[0].key, e.key) {
      InsertSortedFrom(cmp, s[1..], e);
    }
  }

  /** Keys that bound a sequence and the new key bound the insertion. */
  lemma InsertSortedBounds<K, V>(cmp: (K, K) -> bool, s: seq<Entry<K, V>>, e: Entry<K, V>, lo: K, hi: K)
    requires Above(cmp, s, lo) && Below(cmp, s, hi) && cmp(lo, e.key) && cmp(e.key, hi)
    ensures Above(cmp, InsertSorted(cmp, s, e), lo) && Below(cmp, InsertSorted(cmp, s, e), hi)
  {
    var r := InsertSorted(cmp, s, e);
    InsertSortedFrom(cmp, s, e);
    forall i | 0 <= i < |r| ensures cmp(lo, r[i].key) && cmp(r[i].key, hi) {
      assert r[i] in r;
      if r[i] != e {
        var j :| 0 <= j < |s| && s[j] == r[i];
      }
    }
  }

  /** Insertion keeps the keys ascending, updates the map at the key, and
      grows the sequence exactly when the key is new. */
  lemma {:induction false} InsertSortedOk<K(!new), V>(cmp: (K, K) -> bool, s: seq<Entry<K, V>>, e: Entry<K, V>)
    requires StrictTotalOrder(cmp) && Ascending(cmp, s)
    ensures Ascending(cmp, InsertSorted(cmp, s, e))
    ensures ToMap(InsertSorted(cmp, s, e)) == ToMap(s)[e.key := e.value]
    ensures |InsertSorted(cmp, s, e)| == if e.key in ToMap(s) then |s| else |s| + 1
    decreases |s|
  {
    if |s| == 0 {
    } else if cmp(s[0].key, e.key) {
      assert Ascending(cmp, s[1..]);
      InsertSortedOk(cmp, s[1..], e);
      assert s == [s[0]] + s[1..];
      InsertPastFirst(cmp, s, e);
    } else if s[0].key == e.key {
      InsertAtFirst(cmp, s, e);
    } else {
      InsertBeforeFirst(cmp, s, e);
    }
  }

  /** The step of `InsertSortedOk` that keeps the first entry. */
  lemma InsertPastFirst<K(!new), V>(cmp: (K, K) -> bool, s: seq<Entry<K, V>>, e: Entry<K, V>)
    requires StrictTotalOrder(cmp) && Ascending(cmp, s) && |s| > 0 && cmp(s[0].key, e.key)
    requires Ascending(cmp, InsertSorted(cmp, s[1..], e))
    requires ToMap(InsertSorted(cmp, s[1..], e)) == ToMap(s[1..])[e.key := e.value]
    requires |InsertSorted(cmp, s[1..], e)| == if e.key in ToMap(s[1..]) then |s| - 1 else |s|
    ensures Ascending(cmp, InsertSorted(cmp, s, e))
    ensures ToMap(InsertSorted(cmp, s, e)) == ToMap(s)[e.key := e.value]
    ensures |InsertSorted(cmp, s, e)| == if e.key in ToMap(s) then |s| else |s| + 1
  {
    var t, r := s[1..], InsertSorted(cmp, s[1..], e);
    assert s == [s[0]] + t;
    assert InsertSorted(cmp, s, e) == [s[0]] + r;
    PastFirstAscending(cmp, s[0], t, e);
    PastFirstMap(s[0], t, r, e);
  }

  lemma PastFirstMap<K, V>(x: Entry<K, V>, t: seq<Entry<K, V>>, r: seq<Entry<K, V>>, e: Entry<K, V>)
    requires x.key != e.key && ToMap(r) == ToMap(t)[e.key := e.value]
    requires |r| == if e.key in ToMap(t) then |t| else |t| + 1
    ensures ToMap([x] + r) == ToMap([x] + t)[e.key := e.value]
    ensures |[x] + r| == if e.key in ToMap([x] + t) then |[x] + t| else |[x] + t| + 1
  {
    assert ([x] + r)[1..] == r && ([x] + t)[1..] == t;
    assert ToMap([x] + r) == ToMap(r)[x.key := x.value];
    assert ToMap([x] + t) == ToMap(t)[x.key := x.value];
    UpdateCommute(ToMap(t), e.key, e.value, x.key, x.value);
  }

  lemma UpdateCommute<K, V>(m: map<K, V>, a: K, va: V, b: K, vb: V)
    requires a != b
    ensures m[a := va][b := vb] == m[b := vb][a := va]
  {
    var l, r := m[a := va][b := vb], m[b := vb][a := va];
    assert l.Keys == r.Keys;
    forall k | k in l.Keys
      ensures l[k] == r[k]
    {
    }
  }

  lemma PastFirstAscending<K(!new), V>(cmp: (K, K) -> bool, x: Entry<K, V>, t: seq<Entry<K, V>>, e: Entry<K, V>)
    requires StrictTotalOrder(cmp) && Ascending(cmp, [x] + t) && cmp(x.key, e.key)
    requires Ascending(cmp, InsertSorted(cmp, t, e))
    ensures Ascending(cmp, [x] + InsertSorted(cmp, t, e))
  {
    var r := InsertSorted(cmp, t, e);
    assert Ascending(cmp, t) by {
      assert forall i :: 0 <= i < |t| ==> t[i] == ([x] + t)[i + 1];
    }
    if |t| > 0 {
      assert ([x] + t)[0] == x && ([x] + t)[1] == t[0];
    }
    AboveFromFirst(cmp, t, x.key);
    InsertSortedFrom(cmp, t, e);
    assert Above(cmp, r, x.key) by {
      forall i | 0 <= i < |r| ensures cmp(x.key, r[i].key) {
        assert r[i] in r;
        if r[i] != e { var j :| 0 <= j < |t| && t[j] == r[i]; }
      }
    }
    AscendingJoin(cmp, [x], r);
  }

  /** The step of `InsertSortedOk` that overwrites the first entry. */
  lemma InsertAtFirst<K(!new), V>(cmp: (K, K) -> bool, s: seq<Entry<K, V>>, e: Entry<K, V>)
    requires StrictTotalOrder(cmp) && Ascending(cmp, s) && |s| > 0 && s[0].key == e.key
    ensures Ascending(cmp, InsertSorted(cmp, s, e))
    ensures ToMap(InsertSorted(cmp, s, e)) == ToMap(s)[e.key := e.value]
    ensures |InsertSorted(cmp, s, e)| == if e.key in ToMap(s) then |s| else |s| + 1
  {
    assert s == [s[0]] + s[1..];
    AscendingParts(cmp, [s[0]], s[1..], []);
    assert s[1..] + [] == s[1..];
    AboveFromFirst(cmp, s[1..], e.key);
    NotBelow(cmp, s[1..], e.key);
    AscendingJoin(cmp, [e], s[1..]);
    assert ([e] + s[1..])[1..] == s[1..];
  }

  /** The step of `InsertSortedOk` that puts the new entry first. */
  lemma InsertBeforeFirst<K(!new), V>(cmp: (K, K) -> bool, s: seq<Entry<K, V>>, e: Entry<K, V>)
    requires StrictTotalOrder(cmp) && Ascending(cmp, s) && |s| > 0
    requires !cmp(s[0].key, e.key) && s[0].key != e.key
    ensures Ascending(cmp, InsertSorted(cmp, s, e))
    ensures ToMap(InsertSorted(cmp, s, e)) == ToMap(s)[e.key := e.value]
    ensures |InsertSorted(cmp, s, e)| == if e.key in ToMap(s) then |s| else |s| + 1
  {
    assert cmp(e.key, s[0].key);
    AboveFromFirst(cmp, s, e.key);
    NotBelow(cmp, s, e.key);
    AscendingJoin(cmp, [e], s);
    assert ([e] + s)[1..] == s;
  }

  /** Inserting into the middle piece of a sequence whose outer pieces are
      on the right sides of the key. */
  lemma InsertMiddle<K(!new), V>(cmp: (K, K) -> bool, a: seq<Entry<K, V>>, b: seq<Entry<K, V>>, c: seq<Entry<K, V>>, e: Entry<K, V>)
    requires Irreflexive(cmp) && Transitive(cmp) && Below(cmp, a, e.key) && Above(cmp, c, e.key)
    ensures InsertSorted(cmp, a + b + c, e) == a + InsertSorted(cmp, b, e) + c
  {
    if |c| > 0 {
      Asymmetric(cmp, e.key, c[0].key);
    }
    InsertSkip(cmp, a, b + c, e);
    InsertBefore(cmp, b, c, e);
    assert a + b + c == a + (b + c);
  }

  /** Smaller keys in front are skipped. */
  lemma {:induction false} InsertSkip<K, V>(cmp: (K, K) -> bool, a: seq<Entry<K, V>>, s: seq<Entry<K, V>>, e: Entry<K, V>)
    requires Below(cmp, a, e.key)
    ensures InsertSorted(cmp, a + s, e) == a + InsertSorted(cmp, s, e)
    decreases |a|
  {
    if |a| > 0 {
      assert (a + s)[0] == a[0] && (a + s)[1..] == a[1..] + s;
      InsertSkip(cmp, a[1..], s, e);
      assert a == [a[0]] + a[1..];
    } else {
      assert a + s == s;
    }
  }

  /** Greater keys behind are untouched. */
  lemma {:induction false} InsertBefore<K(!new), V>(cmp: (K, K) -> bool, b: seq<Entry<K, V>>, c: seq<Entry<K, V>>, e: Entry<K, V>)
    requires Irreflexive(cmp) && Above(cmp, c, e.key)
    requires |c| > 0 ==> !cmp(c[0].key, e.key)
    ensures InsertSorted(cmp, b + c, e) == InsertSorted(cmp, b, e) + c
    decreases |b|
  {
    if |b| > 0 {
      assert (b + c)[0] == b[0] && (b + c)[1..] == b[1..] + c;
      if cmp(b[0].key, e.key) {
        InsertBefore(cmp, b[1..], c, e);
      }
    } else {
      assert b + c == c;
      if |c| > 0 {
        assert cmp(e.key, c[0].key) && c[0].key != e.key;
      }
    }
  }

  /** Inserting a key already held by entry `x` replaces `x`. */
  lemma InsertOverwrites<K(!new), V>(cmp: (K, K) -> bool, a: seq<Entry<K, V>>, x: Entry<K, V>, c: seq<Entry<K, V>>, e: Entry<K, V>)
    requires StrictTotalOrder(cmp) && Ascending(cmp, a + [x] + c) && x.key == e.key
    ensures InsertSorted(cmp, a + [x] + c, e) == a + [e] + c
  {
    AscendingParts(cmp, a, [x], c);
    assert [x][0] == x;
    InsertMiddle(cmp, a, [x], c, e);
  }

  // ---------------------------------------------------------------------
  // Removal
  // ---------------------------------------------------------------------

  /** Reference removal: drop every entry with key `k`. */
  ghost function RemoveKey<K, V>(s: seq<Entry<K, V>>, k: K): seq<Entry<K, V>>
    decreases |s|
  {
    if |s| == 0 then [] else (if s[0].key == k then [] else [s[0]]) + RemoveKey(s[1..], k)
  }

  lemma {:induction false} RemoveAppend<K, V>(a: seq<Entry<K, V>>, b: seq<Entry<K, V>>, k: K)
    ensures RemoveKey(a + b, k) == RemoveKey(a, k) + RemoveKey(b, k)
    decreases |a|
  {
    if |a| == 0 {
      assert a + b == b;
    } else {
      assert (a + b)[0] == a[0] && (a + b)[1..] == a[1..] + b;
      RemoveAppend(a[1..], b, k);
    }
  }

  /** Nothing to drop. */
  lemma {:induction false} RemoveAbsent<K, V>(s: seq<Entry<K, V>>, k: K)
    requires forall i :: 0 <= i < |s| ==> s[i].key != k
    ensures RemoveKey(s, k) == s
    decreases |s|
  {
    if |s| > 0 {
      RemoveAbsent(s[1..], k);
    }
  }

  /** Every entry of the result is an old one with another key. */
  lemma {:induction false} RemoveFrom<K, V>(s: seq<Entry<K, V>>, k: K)
    ensures forall x :: x in RemoveKey(s, k) ==> x in s && x.key != k
    decreases |s|
  {
    if |s| > 0 {
      RemoveFrom(s[1..], k);
    }
  }

  /** Removal keeps the keys ascending, removes the key from the map, and
      shrinks the sequence exactly when the key was there. */
  lemma {:induction false} RemoveKeyOk<K(!new), V>(cmp: (K, K) -> bool, s: seq<Entry<K, V>>, k: K)
    requires StrictTotalOrder(cmp) && Ascending(cmp, s)
    ensures Ascending(cmp, RemoveKey(s, k))
    ensures ToMap(RemoveKey(s, k)) == ToMap(s) - {k}
    ensures |RemoveKey(s, k)| == if k in ToMap(s) then |s| - 1 else |s|
    decreases |s|
  {
    if |s| > 0 {
      var t := s[1..];
      assert Ascending(cmp, t);
      RemoveKeyOk(cmp, t, k);
      if s[0].key == k {
        RemoveAtFirst(cmp, s);
      } else {
        RemovePastFirst(cmp, s, k);
      }
    }
  }

  /** The case of `RemoveKeyOk` where the first entry holds the key. */
  lemma RemoveAtFirst<K(!new), V>(cmp: (K, K) -> bool, s: seq<Entry<K, V>>)
    requires StrictTotalOrder(cmp) && Ascending(cmp, s) && |s| > 0
    ensures Ascending(cmp, RemoveKey(s, s[0].key))
    ensures ToMap(RemoveKey(s, s[0].key)) == ToMap(s) - {s[0].key}
    ensures |RemoveKey(s, s[0].key)| == |s| - 1
  {
    var t := s[1..];
    RemoveFirst(cmp, s);
    AboveFromFirst(cmp, t, s[0].key);
    NotBelow(cmp, t, s[0].key);
    assert ToMap(s) == ToMap(t)[s[0].key := s[0].value];
    assert ToMap(t) == ToMap(s) - {s[0].key};
  }

  /** The case of `RemoveKeyOk` where the first entry keeps its place,
      given what removal from the rest does. */
  lemma RemovePastFirst<K(!new), V>(cmp: (K, K) -> bool, s: seq<Entry<K, V>>, k: K)
    requires StrictTotalOrder(cmp) && Ascending(cmp, s) && |s| > 0 && s[0].key != k
    requires Ascending(cmp, RemoveKey(s[1..], k))
    requires ToMap(RemoveKey(s[1..], k)) == ToMap(s[1..]) - {k}
    requires |RemoveKey(s[1..], k)| == if k in ToMap(s[1..]) then |s| - 2 else |s| - 1
    ensures Ascending(cmp, RemoveKey(s, k))
    ensures ToMap(RemoveKey(s, k)) == ToMap(s) - {k}
    ensures |RemoveKey(s, k)| == if k in ToMap(s) then |s| - 1 else |s|
  {
    var t := s[1..];
    var r := RemoveKey(t, k);
    assert RemoveKey(s, k) == [s[0]] + r;
    assert Above(cmp, r, s[0].key) by {
      AboveFromFirst(cmp, t, s[0].key);
      RemoveFrom(t, k);
      forall i | 0 <= i < |r| ensures cmp(s[0].key, r[i].key) {
        assert r[i] in r;
        var j :| 0 <= j < |t| && t[j] == r[i];
      }
    }
    AscendingJoin(cmp, [s[0]], r);
    assert ([s[0]] + r)[1..] == r;
    assert ToMap([s[0]] + r) == ToMap(r)[s[0].key := s[0].value];
    UpdateRemove(ToMap(t), s[0].key, s[0].value, k);
    assert k in ToMap(s) <==> k in ToMap(t);
  }

  /** Updating one key and dropping another commute. */
  lemma UpdateRemove<K, V>(m: map<K, V>, a: K, va: V, k: K)
    requires a != k
    ensures (m - {k})[a := va] == m[a := va] - {k}
  {
  }

  /** Dropping the first entry of an ascending sequence that holds the key. */
  lemma RemoveFirst<K(!new), V>(cmp: (K, K) -> bool, s: seq<Entry<K, V>>)
    requires StrictTotalOrder(cmp) && Ascending(cmp, s) && |s| > 0
    ensures RemoveKey(s, s[0].key) == s[1..]
  {
    AboveFromFirst(cmp, s[1..], s[0].key);
    assert forall i :: 0 <= i < |s[1..]| ==> s[1..][i].key != s[0].key;
    RemoveAbsent(s[1..], s[0].key);
  }

  // ---------------------------------------------------------------------
  // Range queries
  // ---------------------------------------------------------------------

  /** `lo <= k <= hi` under `cmp`. */
  predicate InRange<K>(cmp: (K, K) -> bool, lo: K, hi: K, k: K) {
    !cmp(k, lo) && !cmp(hi, k)
  }

  /** Reference range query: the entries whose keys lie in `[lo, hi]`. */
  ghost function Within<K, V>(cmp: (K, K) -> bool, s: seq<Entry<K, V>>, lo: K, hi: K): seq<Entry<K, V>>
    decreases |s|
  {
    if |s| == 0 then []
    else (if InRange(cmp, lo, hi, s[0].key) then [s[0]] else []) + Within(cmp, s[1..], lo, hi)
  }

  lemma {:induction false} WithinAppend<K, V>(cmp: (K, K) -> bool, a: seq<Entry<K, V>>, b: seq<Entry<K, V>>, lo: K, hi: K)
    ensures Within(cmp, a + b, lo, hi) == Within(cmp, a, lo, hi) + Within(cmp, b, lo, hi)
    decreases |a|
  {
    if |a| == 0 {
      assert a + b == b;
    } else {
      assert (a + b)[0] == a[0] && (a + b)[1..] == a[1..] + b;
      WithinAppend(cmp, a[1..], b, lo, hi);
    }
  }

  /** Keys all before `lo` contribute nothing. */
  lemma {:induction false} WithinNone<K, V>(cmp: (K, K) -> bool, s: seq<Entry<K, V>>, lo: K, hi: K)
    requires Below(cmp, s, lo)
    ensures Within(cmp, s, lo, hi) == []
    decreases |s|
  {
    if |s| > 0 {
      WithinNone(cmp, s[1..], lo, hi);
    }
  }

  /** The range query keeps exactly the entries in range, in order. */
  lemma {:induction false} WithinMeans<K(!new), V(!new)>(cmp: (K, K) -> bool, s: seq<Entry<K, V>>, lo: K, hi: K)
    ensures forall x :: x in Within(cmp, s, lo, hi) <==> x in s && InRange(cmp, lo, hi, x.key)
    decreases |s|
  {
    if |s| > 0 {
      WithinMeans(cmp, s[1..], lo, hi);
      assert forall x :: x in s <==> x == s[0] || x in s[1..];
    }
  }
}

=== FILE: hash_map.dfy ===
/** The separate-chaining `HashMap<K, T>` of include/hash_map.h.

    Each bucket is a `LinkedList<Entry>` read front to back; an entry
    remembers the hash of its key. `std::hash<K>` is the parameter `hash`.
    `size` and `used` are the `size` and `used_buckets` counters exactly as
    the code maintains them; the map's meaning is `Lookup`. */
module HashMap {
  import opened Wrappers

  /** A bucket holding more entries than this triggers a rehash. */
  const MaxCollisions: nat := 3

  datatype Entry<K, V> = Entry(key: K, hash: nat, value: V)

  datatype HashMap<K, V> = HashMap(buckets: seq<seq<Entry<K, V>>>, size: nat, used: nat)

  /** All entries, bucket 0 first, each bucket front to back: the order in
      which `rehash` visits them. */
  function Flatten<K, V>(bs: seq<seq<Entry<K, V>>>): seq<Entry<K, V>> {
    if bs == [] then [] else Flatten(bs[..|bs| - 1]) + bs[|bs| - 1]
  }

  lemma {:induction false} FlattenMember<K, V>(bs: seq<seq<Entry<K, V>>>, x: Entry<K, V>)
    ensures x in Flatten(bs) <==> exists j :: 0 <= j < |bs| && x in bs[j]
  {
    if bs != [] {
      var pre := bs[..|bs| - 1];
      FlattenMember(pre, x);
      if x in Flatten(bs) && x !in bs[|bs| - 1] {
        var j :| 0 <= j < |pre| && x in pre[j];
        assert x in bs[j];
      }
      if exists j :: 0 <= j < |bs| && x in bs[j] {
        var j :| 0 <= j < |bs| && x in bs[j];
        if j < |bs| - 1 {
          assert x in pre[j];
        }
      }
    }
  }

  /** Prepending to one bucket adds that entry to the whole. */
  lemma {:induction false} FlattenPrepend<K, V>(bs: seq<seq<Entry<K, V>>>, j: nat, x: Entry<K, V>)
    requires j < |bs|
    ensures multiset(Flatten(bs[j := [x] + bs[j]])) == multiset(Flatten(bs)) + multiset{x}
  {
    var n := |bs|;
    var bs' := bs[j := [x] + bs[j]];
    if j == n - 1 {
      assert bs'[..n - 1] == bs[..n - 1];
    } else {
      assert bs'[..n - 1] == bs[..n - 1][j := [x] + bs[j]];
      FlattenPrepend(bs[..n - 1], j, x);
    }
  }

  ghost predicate KeysDistinct<K, V>(s: seq<Entry<K, V>>) {
    forall a, b :: 0 <= a < b < |s| ==> s[a].key != s[b].key
  }

  /** Bucket j of n: every entry's stored hash is its key's and selects
      bucket j, and no key occurs twice. */
  ghost predicate BucketOk<K, V>(hash: K -> nat, n: nat, j: nat, b: seq<Entry<K, V>>)
    requires n > 0
  {
    (forall x :: x in b ==> x.hash == hash(x.key) && x.hash % n == j) && KeysDistinct(b)
  }

  ghost predicate BucketsOk<K, V>(hash: K -> nat, bs: seq<seq<Entry<K, V>>>, n: nat)
    requires n > 0
  {
    forall j :: 0 <= j < |bs| ==> BucketOk(hash, n, j, bs[j])
  }

  ghost predicate Valid<K, V>(hash: K -> nat, m: HashMap<K, V>) {
    |m.buckets| > 0 && BucketsOk(hash, m.buckets, |m.buckets|)
  }

  lemma UpdateBucket<K, V>(hash: K -> nat, bs: seq<seq<Entry<K, V>>>, n: nat, j: nat, b: seq<Entry<K, V>>)
    requires n > 0 && j < |bs| && BucketsOk(hash, bs, n) && BucketOk(hash, n, j, b)
    ensures BucketsOk(hash, bs[j := b], n)
  {
    var bs' := bs[j := b];
    forall i | 0 <= i < |bs'|
      ensures BucketOk(hash, n, i, bs'[i])
    {
      if i != j {
        assert BucketOk(hash, n, i, bs[i]);
      }
    }
  }

  lemma PrependOk<K, V>(hash: K -> nat, n: nat, j: nat, b: seq<Entry<K, V>>, e: Entry<K, V>)
    requires n > 0 && BucketOk(hash, n, j, b)
    requires e.hash == hash(e.key) && e.hash % n == j
    requires forall x :: x in b ==> x.key != e.key
    ensures BucketOk(hash, n, j, [e] + b)
  {
    var b' := [e] + b;
    assert forall x :: x in b' ==> x in b || x == e;
    forall a, c | 0 <= a < c < |b'|
      ensures b'[a].key != b'[c].key
    {
      if a == 0 {
        assert b'[c] in b;
      } else {
        assert b'[a] == b[a - 1] && b'[c] == b[c - 1];
      }
    }
  }

  /** Under the bucket invariant no key occurs twice in the whole map. */
  lemma {:induction false} FlattenDistinct<K, V>(hash: K -> nat, bs: seq<seq<Entry<K, V>>>, n: nat)
    requires n > 0 && BucketsOk(hash, bs, n)
    ensures KeysDistinct(Flatten(bs))
    ensures forall x :: x in Flatten(bs) ==> x.hash == hash(x.key) && x.hash % n < |bs|
  {
    if bs != [] {
      var pre, last := bs[..|bs| - 1], bs[|bs| - 1];
      assert BucketsOk(hash, pre, n) by {
        forall j | 0 <= j < |pre|
          ensures BucketOk(hash, n, j, pre[j])
        {
          assert pre[j] == bs[j];
        }
      }
      FlattenDistinct(hash, pre, n);
      assert BucketOk(hash, n, |bs| - 1, last);
      var f := Flatten(bs);
      var fp := Flatten(pre);
      assert f == fp + last;
      forall a, b | 0 <= a < b < |f|
        ensures f[a].key != f[b].key
      {
        if a < |fp| <= b {
          assert f[a] in fp;
          assert f[b] == last[b - |fp|];
          assert f[b] in last;
        } else if |fp| <= a {
          assert f[a] == last[a - |fp|] && f[b] == last[b - |fp|];
        }
      }
      forall x | x in f
        ensures x.hash == hash(x.key) && x.hash % n < |bs|
      {
        if x !in fp {
          assert x in last;
        }
      }
    }
  }

  /** `HashMap(initial_capacity)`: that many empty buckets. */
  function Create<K, V>(capacity: nat): HashMap<K, V> {
    HashMap(seq(capacity, _ => []), 0, 0)
  }

  /** The first value stored under k in a bucket, as the range-for loops
      find it. */
  function FindIn<K(==), V>(b: seq<Entry<K, V>>, k: K): (r: Option<V>)
    ensures r.Some? ==> exists x :: x in b && x.key == k && x.value == r.value
    ensures r.None? ==> forall x :: x in b ==> x.key != k
  {
    if b == [] then None
    else if b[0].key == k then Some(b[0].value)
    else
      var r := FindIn(b[1..], k);
      assert forall x :: x in b[1..] ==> x in b;
      r
  }

  lemma {:induction false} FindInDistinct<K, V>(b: seq<Entry<K, V>>, x: Entry<K, V>)
    requires KeysDistinct(b) && x in b
    ensures FindIn(b, x.key) == Some(x.value)
  {
    if b[0] != x {
      var i :| 0 <= i < |b| && b[i] == x;
      assert b[0].key != b[i].key;
      assert x in b[1..];
      FindInDistinct(b[1..], x);
    }
  }

  /** Two duplicate-free buckets holding the same entries for k agree on k. */
  lemma FindInSame<K, V>(b1: seq<Entry<K, V>>, b2: seq<Entry<K, V>>, k: K)
    requires KeysDistinct(b1) && KeysDistinct(b2)
    requires forall x: Entry<K, V> :: x.key == k ==> (x in b1 <==> x in b2)
    ensures FindIn(b1, k) == FindIn(b2, k)
  {
    if FindIn(b1, k).Some? {
      var x :| x in b1 && x.key == k && x.value == FindIn(b1, k).value;
      FindInDistinct(b2, x);
    }
  }

  /** The index of the first entry with key k. */
  function FindIndex<K(==), V>(b: seq<Entry<K, V>>, k: K): (r: Option<nat>)
    ensures r.Some? ==> r.value < |b| && b[r.value].key == k
    ensures r.None? ==> forall x :: x in b ==> x.key != k
  {
    if b == [] then None
    else if b[0].key == k then Some(0)
    else
      match FindIndex(b[1..], k)
      case None => assert forall x :: x in b ==> x == b[0] || x in b[1..]; None
      case Some(i) => Some(i + 1)
  }

  /** The map's meaning: the value `get` would return for k. */
  function Lookup<K(==), V>(hash: K -> nat, m: HashMap<K, V>, k: K): Option<V>
    requires |m.buckets| > 0
  {
    FindIn(m.buckets[hash(k) % |m.buckets|], k)
  }

  /** Under the invariant, `Lookup` finds exactly the entries of the map. */
  lemma LookupEntries<K, V>(hash: K -> nat, m: HashMap<K, V>, k: K, v: V)
    requires Valid(hash, m)
    ensures Lookup(hash, m, k) == Some(v) <==> exists x :: x in Flatten(m.buckets) && x.key == k && x.value == v
  {
    var n := |m.buckets|;
    var i := hash(k) % n;
    var b := m.buckets[i];
    if x :| x in Flatten(m.buckets) && x.key == k && x.value == v {
      FlattenMember(m.buckets, x);
      var j :| 0 <= j < n && x in m.buckets[j];
      assert BucketOk(hash, n, j, m.buckets[j]);
      assert BucketOk(hash, n, i, b);
      FindInDistinct(b, x);
    }
    if Lookup(hash, m, k) == Some(v) {
      var x :| x in b && x.key == k && x.value == v;
      FlattenMember(m.buckets, x);
    }
  }

  /** Two valid maps with the same entries answer every lookup alike. */
  lemma SameEntriesSameLookup<K, V>(hash: K -> nat, m1: HashMap<K, V>, m2: HashMap<K, V>, k: K)
    requires Valid(hash, m1) && Valid(hash, m2)
    requires multiset(Flatten(m1.buckets)) == multiset(Flatten(m2.buckets))
    ensures Lookup(hash, m1, k) == Lookup(hash, m2, k)
  {
    var o1, o2 := Lookup(hash, m1, k), Lookup(hash, m2, k);
    if o1.Some? {
      LookupEntries(hash, m1, k, o1.value);
      var x :| x in Flatten(m1.buckets) && x.key == k && x.value == o1.value;
      assert x in multiset(Flatten(m2.buckets));
      LookupEntries(hash, m2, k, o1.value);
    } else if o2.Some? {
      LookupEntries(hash, m2, k, o2.value);
      var x :| x in Flatten(m2.buckets) && x.key == k && x.value == o2.value;
      assert x in multiset(Flatten(m1.buckets));
      LookupEntries(hash, m1, k, o2.value);
    }
  }

  /** `rehash`'s inner step: push an entry onto the front of its bucket. */
  function Insert<K, V>(bs: seq<seq<Entry<K, V>>>, x: Entry<K, V>): (r: seq<seq<Entry<K, V>>>)
    requires |bs| > 0
    ensures |r| == |bs|
  {
    bs[x.hash % |bs| := [x] + bs[x.hash % |bs|]]
  }

  function Distribute<K, V>(es: seq<Entry<K, V>>, bs: seq<seq<Entry<K, V>>>): (r: seq<seq<Entry<K, V>>>)
    requires |bs| > 0
    ensures |r| == |bs|
    decreases |es|
  {
    if es == [] then bs else Distribute(es[1..], Insert(bs, es[0]))
  }

  /** `rehash`: twice the buckets, every entry pushed to the front of the
      bucket its stored hash now selects. `used_buckets` is not recounted. */
  function Rehash<K, V>(m: HashMap<K, V>): (r: HashMap<K, V>)
    requires |m.buckets| > 0
    ensures |r.buckets| == 2 * |m.buckets| && r.size == m.size && r.used == m.used
  {
    HashMap(Distribute(Flatten(m.buckets), seq(2 * |m.buckets|, _ => [])), m.size, m.used)
  }

  ghost predicate KeyAbsent<K, V>(bs: seq<seq<Entry<K, V>>>, k: K) {
    forall j :: 0 <= j < |bs| ==> forall y :: y in bs[j] ==> y.key != k
  }

  lemma InsertOk<K, V>(hash: K -> nat, bs: seq<seq<Entry<K, V>>>, x: Entry<K, V>)
    requires |bs| > 0 && BucketsOk(hash, bs, |bs|)
    requires x.hash == hash(x.key) && KeyAbsent(bs, x.key)
    ensures BucketsOk(hash, Insert(bs, x), |bs|)
  {
    var i := x.hash % |bs|;
    assert BucketOk(hash, |bs|, i, bs[i]);
    PrependOk(hash, |bs|, i, bs[i], x);
    UpdateBucket(hash, bs, |bs|, i, [x] + bs[i]);
  }

  lemma InsertKeyAbsent<K, V>(bs: seq<seq<Entry<K, V>>>, x: Entry<K, V>, k: K)
    requires |bs| > 0 && KeyAbsent(bs, k) && x.key != k
    ensures KeyAbsent(Insert(bs, x), k)
  {
    var bs' := Insert(bs, x);
    forall j | 0 <= j < |bs'|
      ensures forall y: Entry<K, V> :: y in bs'[j] ==> y.key != k
    {
      assert forall y :: y in bs'[j] ==> y in bs[j] || y == x;
    }
  }

  lemma {:induction false} DistributeOk<K, V>(hash: K -> nat, es: seq<Entry<K, V>>, bs: seq<seq<Entry<K, V>>>)
    requires |bs| > 0 && BucketsOk(hash, bs, |bs|)
    requires KeysDistinct(es)
    requires forall x :: x in es ==> x.hash == hash(x.key) && KeyAbsent(bs, x.key)
    ensures BucketsOk(hash, Distribute(es, bs), |bs|)
    ensures multiset(Flatten(Distribute(es, bs))) == multiset(Flatten(bs)) + multiset(es)
    decreases |es|
  {
    if es != [] {
      var x := es[0];
      var bs' := Insert(bs, x);
      InsertOk(hash, bs, x);
      forall y | y in es[1..]
        ensures y.hash == hash(y.key) && KeyAbsent(bs', y.key)
      {
        var p :| 1 <= p < |es| && es[p] == y;
        assert es[0].key != es[p].key;
        InsertKeyAbsent(bs, x, y.key);
      }
      assert KeysDistinct(es[1..]);
      DistributeOk(hash, es[1..], bs');
      FlattenPrepend(bs, x.hash % |bs|, x);
      assert es == [x] + es[1..];
    }
  }

  lemma {:induction false} EmptyFlatten<K, V>(bs: seq<seq<Entry<K, V>>>)
    requires forall j :: 0 <= j < |bs| ==> bs[j] == []
    ensures Flatten(bs) == []
  {
    if bs != [] {
      EmptyFlatten(bs[..|bs| - 1]);
    }
  }

  /** Rehashing keeps the invariant, the entries, and every lookup. */
  lemma RehashCorrect<K, V>(hash: K -> nat, m: HashMap<K, V>)
    requires Valid(hash, m)
    ensures Valid(hash, Rehash(m))
    ensures multiset(Flatten(Rehash(m).buckets)) == multiset(Flatten(m.buckets))
    ensures forall k :: Lookup(hash, Rehash(m), k) == Lookup(hash, m, k)
  {
    var n := |m.buckets|;
    var es := Flatten(m.buckets);
    var empty: seq<seq<Entry<K, V>>> := seq(2 * n, _ => []);
    FlattenDistinct(hash, m.buckets, n);
    EmptyFlatten(empty);
    assert BucketsOk(hash, empty, 2 * n) by {
      forall j | 0 <= j < 2 * n
        ensures BucketOk(hash, 2 * n, j, empty[j])
      {
      }
    }
    DistributeOk(hash, es, empty);
    forall k
      ensures Lookup(hash, Rehash(m), k) == Lookup(hash, m, k)
    {
      SameEntriesSameLookup(hash, Rehash(m), m, k);
    }
  }

  /** `fill_factor() > MAX_FILL_FACTOR`, i.e. used/capacity > 0.8, compared
      exactly. */
  predicate OverFilled(used: nat, capacity: nat) {
    5 * used > 4 * capacity
  }

  /** `set`: overwrite the value of an existing key in place; otherwise push
      a new entry onto the front of its bucket, count it, count the bucket
      if it was empty, and rehash once if the bucket now holds more than
      MAX_COLLISIONS entries or the fill factor exceeds 0.8. */
  function Set<K(==, !new), V>(hash: K -> nat, m: HashMap<K, V>, k: K, v: V): (r: HashMap<K, V>)
    requires Valid(hash, m)
    ensures Valid(hash, r)
    ensures Lookup(hash, r, k) == Some(v)
    ensures forall k' :: k' != k ==> Lookup(hash, r, k') == Lookup(hash, m, k')
    ensures |r.buckets| == |m.buckets| || |r.buckets| == 2 * |m.buckets|
    ensures r.size == if Lookup(hash, m, k).Some? then m.size else m.size + 1
    ensures |Flatten(r.buckets)| == |Flatten(m.buckets)| + if Lookup(hash, m, k).Some? then 0 else 1
    ensures var n := |m.buckets|; var b := m.buckets[hash(k) % n];
            var used' := if b == [] then m.used + 1 else m.used;
            (|r.buckets| == 2 * n <==> Lookup(hash, m, k).None? && (|b| + 1 > MaxCollisions || OverFilled(used', n))) &&
            r.used == (if Lookup(hash, m, k).None? then used' else m.used)
  {
    var n := |m.buckets|;
    var h := hash(k);
    var i := h % n;
    var b := m.buckets[i];
    match FindIndex(b, k)
    case Some(p) =>
      var r := HashMap(m.buckets[i := b[p := Entry(b[p].key, b[p].hash, v)]], m.size, m.used);
      SetExisting(hash, m, k, v, p, r);
      r
    case None =>
      var b' := [Entry(k, h, v)] + b;
      var used' := if |b'| == 1 then m.used + 1 else m.used;
      var r := HashMap(m.buckets[i := b'], m.size + 1, used');
      SetNew(hash, m, k, v, r);
      if |b'| > MaxCollisions || OverFilled(used', n) then
        RehashCorrect(hash, r);
        assert |Flatten(Rehash(r).buckets)| == |multiset(Flatten(Rehash(r).buckets))|;
        Rehash(r)
      else r
  }

  /** Overwriting the value of entry p changes only that key's answer. */
  lemma ReplaceValue<K, V>(hash: K -> nat, n: nat, i: nat, b: seq<Entry<K, V>>, p: nat, v: V)
    requires n > 0 && BucketOk(hash, n, i, b) && p < |b|
    ensures BucketOk(hash, n, i, b[p := Entry(b[p].key, b[p].hash, v)])
    ensures FindIn(b[p := Entry(b[p].key, b[p].hash, v)], b[p].key) == Some(v)
    ensures forall k' :: k' != b[p].key ==> FindIn(b[p := Entry(b[p].key, b[p].hash, v)], k') == FindIn(b, k')
  {
    var e := Entry(b[p].key, b[p].hash, v);
    var b' := b[p := e];
    assert b[p] in b;
    assert forall x :: x in b' ==> x in b || x == e;
    assert BucketOk(hash, n, i, b');
    assert b'[p] == e;
    FindInDistinct(b', e);
    forall k' | k' != b[p].key
      ensures FindIn(b', k') == FindIn(b, k')
    {
      forall x: Entry<K, V> | x.key == k'
        ensures x in b <==> x in b'
      {
        if x in b {
          var q :| 0 <= q < |b| && b[q] == x;
          assert b'[q] == x;
        }
      }
      FindInSame(b, b', k');
    }
  }

  lemma SetExisting<K, V>(hash: K -> nat, m: HashMap<K, V>, k: K, v: V, p: nat, r: HashMap<K, V>)
    requires Valid(hash, m)
    requires FindIndex(m.buckets[hash(k) % |m.buckets|], k) == Some(p)
    requires var i := hash(k) % |m.buckets|; var b := m.buckets[i];
             r == HashMap(m.buckets[i := b[p := Entry(b[p].key, b[p].hash, v)]], m.size, m.used)
    ensures Valid(hash, r)
    ensures Lookup(hash, r, k) == Some(v)
    ensures forall k' :: k' != k ==> Lookup(hash, r, k') == Lookup(hash, m, k')
    ensures Lookup(hash, m, k).Some?
    ensures |Flatten(r.buckets)| == |Flatten(m.buckets)|
  {
    var n := |m.buckets|;
    var i := hash(k) % n;
    var b := m.buckets[i];
    var b' := b[p := Entry(b[p].key, b[p].hash, v)];
    assert BucketOk(hash, n, i, b);
    ReplaceValue(hash, n, i, b, p, v);
    assert b[p] in b;
    FindInDistinct(b, b[p]);
    UpdateBucket(hash, m.buckets, n, i, b');
    FlattenLength(m.buckets, i, b');
  }

  lemma {:induction false} FlattenLength<K, V>(bs: seq<seq<Entry<K, V>>>, j: nat, b: seq<Entry<K, V>>)
    requires j < |bs| && |b| == |bs[j]|
    ensures |Flatten(bs[j := b])| == |Flatten(bs)|
  {
    var n := |bs|;
    if j < n - 1 {
      assert bs[j := b][..n - 1] == bs[..n - 1][j := b];
      FlattenLength(bs[..n - 1], j, b);
    } else {
      assert bs[j := b][..n - 1] == bs[..n - 1];
    }
  }

  lemma SetNew<K, V>(hash: K -> nat, m: HashMap<K, V>, k: K, v: V, r: HashMap<K, V>)
    requires Valid(hash, m)
    requires FindIndex(m.buckets[hash(k) % |m.buckets|], k).None?
    requires var i := hash(k) % |m.buckets|;
             r.buckets == m.buckets[i := [Entry(k, hash(k), v)] + m.buckets[i]]
    ensures Valid(hash, r)
    ensures Lookup(hash, r, k) == Some(v)
    ensures forall k' :: k' != k ==> Lookup(hash, r, k') == Lookup(hash, m, k')
    ensures Lookup(hash, m, k).None?
    ensures |Flatten(r.buckets)| == |Flatten(m.buckets)| + 1
  {
    var n := |m.buckets|;
    var i := hash(k) % n;
    var b := m.buckets[i];
    var e := Entry(k, hash(k), v);
    assert BucketOk(hash, n, i, b);
    PrependOk(hash, n, i, b, e);
    UpdateBucket(hash, m.buckets, n, i, [e] + b);
    forall k' | k' != k
      ensures Lookup(hash, r, k') == Lookup(hash, m, k')
    {
      if hash(k') % n == i {
        assert ([e] + b)[1..] == b;
      }
    }
    FlattenPrepend(m.buckets, i, e);
    assert |multiset(Flatten(r.buckets))| == |multiset(Flatten(m.buckets))| + 1;
  }

  /** `get`: "Key not found" when the key's bucket has no such entry. */
  function Get<K(==), V>(hash: K -> nat, m: HashMap<K, V>, k: K): (r: Result<V>)
    requires Valid(hash, m)
    ensures r.Ok? <==> Lookup(hash, m, k).Some?
    ensures r.Ok? ==> Some(r.value) == Lookup(hash, m, k)
    ensures r.Err? ==> r.error == OutOfRange
  {
    match FindIn(m.buckets[hash(k) % |m.buckets|], k)
    case Some(v) => Ok(v)
    case None => Err(OutOfRange)
  }

  function Contains<K(==), V>(hash: K -> nat, m: HashMap<K, V>, k: K): (r: bool)
    requires Valid(hash, m)
    ensures r <==> Lookup(hash, m, k).Some?
  {
    FindIndex(m.buckets[hash(k) % |m.buckets|], k).Some?
  }

  /** `remove`: unlinks the first entry with key k from its bucket and
      reports whether there was one. The entry and bucket counters are left
      as they were. */
  function Remove<K(==, !new), V>(hash: K -> nat, m: HashMap<K, V>, k: K): (r: (HashMap<K, V>, bool))
    requires Valid(hash, m)
    ensures Valid(hash, r.0)
    ensures r.1 <==> Lookup(hash, m, k).Some?
    ensures Lookup(hash, r.0, k) == None
    ensures forall k' :: k' != k ==> Lookup(hash, r.0, k') == Lookup(hash, m, k')
    ensures |r.0.buckets| == |m.buckets| && r.0.size == m.size && r.0.used == m.used
  {
    var n := |m.buckets|;
    var i := hash(k) % n;
    var b := m.buckets[i];
    match FindIndex(b, k)
    case None => (m, false)
    case Some(p) =>
      var b' := b[..p] + b[p + 1..];
      var r := HashMap(m.buckets[i := b'], m.size, m.used);
      RemoveFound(hash, m, k, p, r);
      (r, true)
  }

  /** Unlinking entry p forgets its key and changes no other answer. */
  lemma RemoveEntry<K, V>(hash: K -> nat, n: nat, i: nat, b: seq<Entry<K, V>>, p: nat)
    requires n > 0 && BucketOk(hash, n, i, b) && p < |b|
    ensures BucketOk(hash, n, i, b[..p] + b[p + 1..])
    ensures FindIn(b[..p] + b[p + 1..], b[p].key) == None
    ensures forall k' :: k' != b[p].key ==> FindIn(b[..p] + b[p + 1..], k') == FindIn(b, k')
  {
    var b' := b[..p] + b[p + 1..];
    CutIndex(b, p);
    assert forall x :: x in b' ==> x in b;
    assert BucketOk(hash, n, i, b');
    CutForgets(b, p);
    forall k' | k' != b[p].key
      ensures FindIn(b', k') == FindIn(b, k')
    {
      CutKeeps(b, p, k');
      FindInSame(b, b', k');
    }
  }

  /** Where the entries of a bucket with entry p cut out come from. */
  lemma CutIndex<K, V>(b: seq<Entry<K, V>>, p: nat)
    requires p < |b|
    ensures var b' := b[..p] + b[p + 1..];
            |b'| == |b| - 1 && forall q :: 0 <= q < |b'| ==> b'[q] == if q < p then b[q] else b[q + 1]
  {
  }

  /** The cut-out key is no longer in a bucket with distinct keys. */
  lemma CutForgets<K, V>(b: seq<Entry<K, V>>, p: nat)
    requires KeysDistinct(b) && p < |b|
    ensures forall x :: x in b[..p] + b[p + 1..] ==> x.key != b[p].key
  {
    var b' := b[..p] + b[p + 1..];
    CutIndex(b, p);
    forall x | x in b'
      ensures x.key != b[p].key
    {
      var q :| 0 <= q < |b'| && b'[q] == x;
      if q < p {
        assert b[q].key != b[p].key;
      } else {
        assert b[q + 1].key != b[p].key;
      }
    }
  }

  /** Entries of any other key stay in the bucket. */
  lemma CutKeeps<K, V>(b: seq<Entry<K, V>>, p: nat, k': K)
    requires p < |b| && k' != b[p].key
    ensures forall x: Entry<K, V> :: x.key == k' ==> (x in b <==> x in b[..p] + b[p + 1..])
  {
    var b' := b[..p] + b[p + 1..];
    CutIndex(b, p);
    forall x: Entry<K, V> | x.key == k'
      ensures x in b <==> x in b'
    {
      if x in b {
        var q :| 0 <= q < |b| && b[q] == x;
        if q < p {
          assert b'[q] == x;
        } else {
          assert b'[q - 1] == x;
        }
      }
    }
  }

  lemma RemoveFound<K, V>(hash: K -> nat, m: HashMap<K, V>, k: K, p: nat, r: HashMap<K, V>)
    requires Valid(hash, m)
    requires FindIndex(m.buckets[hash(k) % |m.buckets|], k) == Some(p)
    requires var i := hash(k) % |m.buckets|; var b := m.buckets[i];
             r == HashMap(m.buckets[i := b[..p] + b[p + 1..]], m.size, m.used)
    ensures Valid(hash, r)
    ensures Lookup(hash, m, k).Some?
    ensures Lookup(hash, r, k) == None
    ensures forall k' :: k' != k ==> Lookup(hash, r, k') == Lookup(hash, m, k')
  {
    var n := |m.buckets|;
    var i := hash(k) % n;
    var b := m.buckets[i];
    var b' := b[..p] + b[p + 1..];
    assert BucketOk(hash, n, i, b);
    RemoveEntry(hash, n, i, b, p);
    assert b[p] in b;
    FindInDistinct(b, b[p]);
    UpdateBucket(hash, m.buckets, n, i, b');
  }

  function BucketCount<K, V>(m: HashMap<K, V>): nat {
    |m.buckets|
  }

  /** `bucket_size(index)` indexes the bucket array unchecked. */
  function BucketSize<K, V>(m: HashMap<K, V>, index: nat): (r: Result<nat>)
    ensures index < |m.buckets| ==> r == Ok(|m.buckets[index]|)
    ensures index >= |m.buckets| ==> r == Err(Undefined)
  {
    if index < |m.buckets| then Ok(|m.buckets[index]|) else Err(Undefined)
  }

  /** `begin(index)`/`end(index)`: the entries of one bucket, bounds-checked. */
  function Bucket<K, V>(m: HashMap<K, V>, index: nat): (r: Result<seq<Entry<K, V>>>)
    ensures index < |m.buckets| ==> r == Ok(m.buckets[index])
    ensures index >= |m.buckets| ==> r == Err(OutOfRange)
  {
    if index < |m.buckets| then Ok(m.buckets[index]) else Err(OutOfRange)
  }

  /** A fresh map is valid and empty. */
  lemma CreateEmpty<K, V>(hash: K -> nat, capacity: nat, m: HashMap<K, V>, k: K)
    requires capacity > 0 && m == Create(capacity)
    ensures Valid(hash, m)
    ensures Lookup(hash, m, k) == None
  {
  }

  /** Map laws: a set key reads back, and removing it forgets it. */
  lemma SetThenRemove<K(!new), V>(hash: K -> nat, m: HashMap<K, V>, k: K, v: V)
    requires Valid(hash, m)
    ensures Get(hash, Set(hash, m, k, v), k) == Ok(v)
    ensures Remove(hash, Set(hash, m, k, v), k).1
    ensures !Contains(hash, Remove(hash, Set(hash, m, k, v), k).0, k)
  {
  }

  /** The bucket interface of a valid map: `bucket_count` buckets can be
      walked, `bucket_size` is the length of the walk, each entry walked sits
      in the bucket its key's hash selects, and reading its key back through
      the map gives its value. */
  lemma BucketContents<K, V>(hash: K -> nat, m: HashMap<K, V>, i: nat)
    requires Valid(hash, m)
    ensures Bucket(m, i).Ok? <==> i < BucketCount(m)
    ensures Bucket(m, i).Ok? ==> BucketSize(m, i) == Ok(|Bucket(m, i).value|)
    ensures Bucket(m, i).Ok? ==> forall x :: x in Bucket(m, i).value ==> hash(x.key) % BucketCount(m) == i
    ensures Bucket(m, i).Ok? ==> forall x :: x in Bucket(m, i).value ==> Lookup(hash, m, x.key) == Some(x.value)
  {
    if i < |m.buckets| {
      var b := m.buckets[i];
      assert BucketOk(hash, |m.buckets|, i, b);
      forall x | x in b
        ensures Lookup(hash, m, x.key) == Some(x.value)
      {
        FindInDistinct(b, x);
      }
    }
  }
}

=== FILE: linked_list.dfy ===
/** The singly linked `LinkedList<T>` of include/linked_list.h: a head
    pointer and a separately kept size. */
module LinkedList {
  import opened Wrappers
  import opened SeqUtil
  import opened Chains

  datatype LinkedList<T> = LinkedList(head: Chain<T>, size: nat)

  function Contents<T>(l: LinkedList<T>): seq<T> {
    Items(l.head)
  }

  /** The class invariant: `m_size` counts the nodes. */
  ghost predicate Valid<T>(l: LinkedList<T>) {
    l.size == |Items(l.head)|
  }

  function Empty<T>(): LinkedList<T> {
    LinkedList(Null, 0)
  }

  /** The empty value holds nothing. */
  lemma EmptyHolds<T>(e: LinkedList<T>)
    requires e == Empty()
    ensures Valid(e) && Contents(e) == []
  {
  }

  function Size<T>(l: LinkedList<T>): (r: nat)
    requires Valid(l)
    ensures r == |Contents(l)|
  {
    l.size
  }

  function IsEmpty<T>(l: LinkedList<T>): (r: bool)
    requires Valid(l)
    ensures r <==> Contents(l) == []
  {
    l.size == 0
  }

  function Front<T>(l: LinkedList<T>): (r: Result<T>)
    ensures r.Ok? <==> Contents(l) != []
    ensures r.Err? ==> r.error == RuntimeError
    ensures r.Ok? ==> r.value == Contents(l)[0]
  {
    match l.head
    case Null => Err(RuntimeError)
    case Link(d, _) => Ok(d)
  }

  /** `back`: walks to the node whose `next` is null. */
  function Back<T>(l: LinkedList<T>): (r: Result<T>)
    ensures r.Ok? <==> Contents(l) != []
    ensures r.Err? ==> r.error == RuntimeError
    ensures r.Ok? ==> r.value == Contents(l)[|Contents(l)| - 1]
  {
    if l.head.Null? then Err(RuntimeError) else Ok(LastData(l.head))
  }

  function PushFront<T>(l: LinkedList<T>, x: T): (r: LinkedList<T>)
    requires Valid(l)
    ensures Valid(r)
    ensures Contents(r) == [x] + Contents(l)
  {
    LinkedList(Link(x, l.head), l.size + 1)
  }

  function PushBack<T>(l: LinkedList<T>, x: T): (r: LinkedList<T>)
    requires Valid(l)
    ensures Valid(r)
    ensures Contents(r) == Contents(l) + [x]
  {
    LinkedList(Append(l.head, x), l.size + 1)
  }

  function PopFront<T>(l: LinkedList<T>): (r: Result<(LinkedList<T>, T)>)
    requires Valid(l)
    ensures r.Ok? <==> Contents(l) != []
    ensures r.Err? ==> r.error == RuntimeError
    ensures r.Ok? ==> Valid(r.value.0) && [r.value.1] + Contents(r.value.0) == Contents(l)
  {
    match l.head
    case Null => Err(RuntimeError)
    case Link(d, n) => Ok((LinkedList(n, l.size - 1), d))
  }

  function PopBack<T>(l: LinkedList<T>): (r: Result<(LinkedList<T>, T)>)
    requires Valid(l)
    ensures r.Ok? <==> Contents(l) != []
    ensures r.Err? ==> r.error == RuntimeError
    ensures r.Ok? ==> Valid(r.value.0) && Contents(r.value.0) + [r.value.1] == Contents(l)
  {
    if l.head.Null? then Err(RuntimeError)
    else
      var (rest, x) := DropLast(l.head);
      Ok((LinkedList(rest, l.size - 1), x))
  }

  /** `operator[]`: checked against `m_size`, then walks `index` links. */
  function At<T>(l: LinkedList<T>, i: nat): (r: Result<T>)
    requires Valid(l)
    ensures r.Ok? <==> i < |Contents(l)|
    ensures r.Ok? ==> r.value == Contents(l)[i]
    ensures r.Err? ==> r.error == OutOfRange
  {
    if i >= l.size then Err(OutOfRange) else Walk(l.head, i)
  }

  function Clear<T>(l: LinkedList<T>): (r: LinkedList<T>)
    ensures Valid(r) && Contents(r) == []
  {
    LinkedList(Null, 0)
  }

  /** The copy constructor walks the other list once, appending a node with
      the same data for each of its nodes; the copy is an equal, separate
      list of the same size. */
  method Copy<T>(other: LinkedList<T>) returns (r: LinkedList<T>)
    requires Valid(other)
    ensures Valid(r)
    ensures Contents(r) == Contents(other) && r.size == other.size
  {
    var cur := other.head;
    var copied: seq<T> := [];
    while cur != Null
      invariant copied + Items(cur) == Items(other.head)
      decreases cur
    {
      copied := copied + [cur.data];
      cur := cur.next;
    }
    r := LinkedList(FromItems(copied), other.size);
  }

  /** The move constructor swaps with a fresh empty list. */
  function Move<T>(l: LinkedList<T>): (r: (LinkedList<T>, LinkedList<T>))
    requires Valid(l)
    ensures Valid(r.0) && Valid(r.1)
    ensures Contents(r.0) == Contents(l) && Contents(r.1) == []
  {
    (l, Empty())
  }

  /** `reverse`: lists of at most one element are left alone. */
  method Reverse<T>(l: LinkedList<T>) returns (r: LinkedList<T>)
    requires Valid(l)
    ensures Valid(r)
    ensures Contents(r) == Rev(Contents(l))
  {
    if l.size <= 1 {
      assert Contents(l) == [] || Contents(l) == [Contents(l)[0]];
      return l;
    }
    var h := Chains.Reverse(l.head);
    r := LinkedList(h, l.size);
  }

  /** Push and pop at the same end are inverse. */
  lemma PushPopBack<T>(l: LinkedList<T>, x: T)
    requires Valid(l)
    ensures PopBack(PushBack(l, x)).Ok?
    ensures Contents(PopBack(PushBack(l, x)).value.0) == Contents(l)
    ensures PopBack(PushBack(l, x)).value.1 == x
  {
    var (m, y) := PopBack(PushBack(l, x)).value;
    var s := Contents(m) + [y];
    assert s == Contents(l) + [x];
    assert Contents(m) == s[..|s| - 1] == Contents(l);
  }

  lemma PushPopFront<T>(l: LinkedList<T>, x: T)
    requires Valid(l)
    ensures PopFront(PushFront(l, x)) == Ok((l, x))
  {
  }

  /** Indexing after `push_front` shifts every position by one. */
  lemma AtAfterPushFront<T>(l: LinkedList<T>, x: T, i: nat)
    requires Valid(l)
    ensures At(PushFront(l, x), 0) == Ok(x)
    ensures At(PushFront(l, x), i + 1) == At(l, i)
  {
  }

  /** `front` and `back` agree with the first and last index. */
  lemma EndsAreIndices<T>(l: LinkedList<T>)
    requires Valid(l) && l.size > 0
    ensures Front(l) == At(l, 0)
    ensures Back(l) == At(l, l.size - 1)
  {
  }
}

=== FILE: ordering.dfy ===
/** The comparator contracts the containers rely on.

    Every container takes a binary predicate `cmp(a, b)` meaning "a is
    ordered before b" (`std::less` by default). The ordered maps also test
    keys with `==`, so they need `cmp` to be a strict total order, under
    which `a == b` exactly when neither `cmp(a, b)` nor `cmp(b, a)`. The
    binary heap only needs a strict weak order, so that elements that tie
    under `cmp` may still differ. */
module Ordering {

  ghost predicate Irreflexive<T(!new)>(cmp: (T, T) -> bool) {
    forall a :: !cmp(a, a)
  }

  ghost predicate Transitive<T(!new)>(cmp: (T, T) -> bool) {
    forall a, b, c :: cmp(a, b) && cmp(b, c) ==> cmp(a, c)
  }

  /** Incomparability is transitive: "not after" composes. */
  ghost predicate NegativelyTransitive<T(!new)>(cmp: (T, T) -> bool) {
    forall a, b, c :: !cmp(a, b) && !cmp(b, c) ==> !cmp(a, c)
  }

  ghost predicate Trichotomous<T(!new)>(cmp: (T, T) -> bool) {
    forall a, b :: a != b ==> cmp(a, b) || cmp(b, a)
  }

  ghost predicate StrictWeakOrder<T(!new)>(cmp: (T, T) -> bool) {
    Irreflexive(cmp) && Transitive(cmp) && NegativelyTransitive(cmp)
  }

  ghost predicate StrictTotalOrder<T(!new)>(cmp: (T, T) -> bool) {
    Irreflexive(cmp) && Transitive(cmp) && Trichotomous(cmp)
  }

  /** Each element is ordered strictly before every later one. */
  ghost predicate StrictlySorted<T>(cmp: (T, T) -> bool, s: seq<T>) {
    forall i, j :: 0 <= i < j < |s| ==> cmp(s[i], s[j])
  }

  lemma TotalIsWeak<T(!new)>(cmp: (T, T) -> bool)
    requires StrictTotalOrder(cmp)
    ensures StrictWeakOrder(cmp)
  {
    forall a, b, c | cmp(a, c)
      ensures cmp(a, b) || cmp(b, c)
    {
      if a != b && b != c && !cmp(a, b) {
        assert cmp(b, a);
      }
    }
  }

  /** A strict order never relates two elements both ways. */
  lemma Asymmetric<T(!new)>(cmp: (T, T) -> bool, a: T, b: T)
    requires Irreflexive(cmp) && Transitive(cmp) && cmp(a, b)
    ensures !cmp(b, a)
  {
  }

  /** Sortedness only needs to be checked between neighbours. */
  lemma {:induction false} SortedFromAdjacent<T(!new)>(cmp: (T, T) -> bool, s: seq<T>)
    requires Transitive(cmp)
    requires forall i :: 0 <= i < |s| - 1 ==> cmp(s[i], s[i + 1])
    ensures StrictlySorted(cmp, s)
  {
    if |s| > 1 {
      SortedFromAdjacent(cmp, s[1..]);
      forall j | 1 <= j < |s|
        ensures cmp(s[0], s[j])
      {
        if j > 1 {
          assert s[1..][0] == s[1] && s[1..][j - 1] == s[j];
        }
      }
    }
  }

  lemma SortedDistinct<T(!new)>(cmp: (T, T) -> bool, s: seq<T>, i: int, j: int)
    requires Irreflexive(cmp)
    requires StrictlySorted(cmp, s)
    requires 0 <= i < |s| && 0 <= j < |s| && i != j
    ensures s[i] != s[j]
  {
    if i < j { assert cmp(s[i], s[j]); } else { assert cmp(s[j], s[i]); }
  }
}

=== FILE: queue.dfy ===
/** The ring-buffer `Queue<T>` of include/queue.h.

    `data` is the backing `Vec` read as a fixed-length sequence of slots:
    the queue constructs it with `initial_capacity` value-initialised
    elements, and `blank` stands for that value-initialised `T`. The live
    elements run from `head` up to, not including, `tail`, wrapping around
    the end; one slot always stays free so that `head == tail` means
    empty. A queue built with capacity 0 has no slots at all: it is
    empty, and every operation that divides by `data.size()` is undefined
    on it. */
module Queue {
  import opened Wrappers

  datatype Queue<T> = Queue(data: seq<T>, head: nat, tail: nat, blank: T)

  /** The capacity used by `Queue()`. */
  const DefaultCapacity: nat := 8

  /** What the index arithmetic needs to stay in range. */
  predicate Bounded<T>(q: Queue<T>) {
    q.head <= |q.data| && q.tail <= |q.data|
  }

  /** The intended invariant: both cursors on a slot of the ring, or no
      slots at all and both cursors at 0. */
  ghost predicate Valid<T>(q: Queue<T>) {
    (q.head < |q.data| && q.tail < |q.data|) || (q.data == [] && q.head == 0 && q.tail == 0)
  }

  function Create<T>(capacity: nat, blank: T): (r: Queue<T>)
    ensures Valid(r) && Bounded(r) && |r.data| == capacity && r.head == r.tail == 0
  {
    Queue(seq(capacity, _ => blank), 0, 0, blank)
  }

  /** x mod n for 0 <= x < 2n, without division. */
  lemma ModBelowTwice(x: int, n: int)
    requires n > 0 && 0 <= x < 2 * n
    ensures x % n == if x < n then x else x - n
  {
    if x < n {
      assert x == 0 * n + x;
    } else {
      assert x == 1 * n + (x - n);
    }
  }

  /** `size()`: the distance from head to tail around the ring. A ring of
      length 0 would divide by zero. */
  function Size<T>(q: Queue<T>): (r: nat)
    requires Bounded(q) && |q.data| > 0
    ensures r < |q.data|
  {
    (q.tail + |q.data| - q.head) % |q.data|
  }

  lemma SizeUnwrapped<T>(q: Queue<T>)
    requires Valid(q) && |q.data| > 0
    ensures Size(q) == if q.tail >= q.head then q.tail - q.head else q.tail + |q.data| - q.head
  {
    ModBelowTwice(q.tail + |q.data| - q.head, |q.data|);
  }

  /** The slot holding the i-th element counted from the head. */
  function Slot<T>(q: Queue<T>, i: nat): (r: nat)
    requires Valid(q) && i < |q.data|
    ensures r < |q.data|
    ensures r == if q.head + i < |q.data| then q.head + i else q.head + i - |q.data|
  {
    ModBelowTwice(q.head + i, |q.data|);
    (q.head + i) % |q.data|
  }

  /** The queued elements, front first; a ring without slots holds none. */
  function Contents<T>(q: Queue<T>): seq<T>
    requires Valid(q)
  {
    if |q.data| == 0 then []
    else seq(Size(q), i requires 0 <= i < Size(q) => q.data[Slot(q, i)])
  }

  function IsEmpty<T>(q: Queue<T>): bool {
    q.head == q.tail
  }

  lemma IsEmptyIffNoContents<T>(q: Queue<T>)
    requires Valid(q)
    ensures IsEmpty(q) <==> Contents(q) == []
    ensures |q.data| > 0 ==> |Contents(q)| == Size(q) < |q.data|
  {
    if |q.data| > 0 {
      SizeUnwrapped(q);
    }
  }

  /** `enqueue` exactly as written, returning the queue as the call leaves
      it together with whether it threw. When the slot after `tail` is
      `head` the ring is replaced by one of twice the current SIZE (not
      twice its length), and head and tail are reset, before the store
      into `data[tail]` goes through the bounds-checked
      `Vec::operator[]`; a caller that catches that `out_of_range` holds
      the replaced ring. */
  function EnqueueAsWritten<T>(q: Queue<T>, v: T): (r: (Queue<T>, Outcome))
    requires Bounded(q)
    ensures |q.data| == 0 ==> r == (q, Fail(Undefined))
    ensures r.1.Fail? ==> r.1.error in {Undefined, OutOfRange}
    ensures Bounded(r.0)
    ensures r.1 == Fail(OutOfRange) ==> r.0 == q || (r.0.data == [] && r.0.head == r.0.tail == 0)
    ensures r.1 == Pass ==> |r.0.data| > 0
  {
    var n := |q.data|;
    if n == 0 then (q, Fail(Undefined))
    else
      var newTail := (q.tail + 1) % n;
      if newTail == q.head then
        var s := Size(q);
        var grown := seq(2 * s, i => if i < s then q.data[(q.head + i) % n] else q.blank);
        if s >= 2 * s then (Queue(grown, 0, s, q.blank), Fail(OutOfRange))
        else (Queue(grown[s := v], 0, s + 1, q.blank), Pass)
      else if q.tail >= n then (q, Fail(OutOfRange))
      else (Queue(q.data[q.tail := v], q.head, newTail, q.blank), Pass)
  }

  /** Capacity 0 divides by zero. Capacity 1 first swaps in an empty ring
      and then stores into its slot 0, which throws and leaves the queue
      with no slots, so the next enqueue divides by zero. With capacity 2
      the growth leaves `tail` one past the end, so the third element is
      stored out of bounds and the queue stays as it was. */
  lemma SmallCapacities<T>(b: T, x: T, y: T, z: T)
    ensures EnqueueAsWritten(Create(0, b), x) == (Create(0, b), Fail(Undefined))
    ensures EnqueueAsWritten(Create(1, b), x) == (Create(0, b), Fail(OutOfRange))
    ensures EnqueueAsWritten(Create(0, b), y).1 == Fail(Undefined)
    ensures EnqueueAsWritten(Create(2, b), x).1 == Pass
    ensures EnqueueAsWritten(EnqueueAsWritten(Create(2, b), x).0, y).1 == Pass
    ensures var q2 := EnqueueAsWritten(EnqueueAsWritten(Create(2, b), x).0, y).0;
            EnqueueAsWritten(q2, z) == (q2, Fail(OutOfRange))
  {
    var q1 := EnqueueAsWritten(Create(2, b), x).0;
    assert q1.tail == 1 && q1.head == 0;
    var q2 := EnqueueAsWritten(q1, y).0;
    assert |q2.data| == 2 && q2.tail == 2;
  }

  /** `enqueue` with the evident intent: a full ring doubles its length,
      and a ring without slots grows to two. */
  function Enqueue<T>(q: Queue<T>, v: T): (r: Queue<T>)
    requires Valid(q)
    ensures Valid(r)
    ensures Contents(r) == Contents(q) + [v]
  {
    var n := |q.data|;
    if n == 0 then
      var r := Queue([v, q.blank], 0, 1, q.blank);
      assert Size(r) == 1 && Slot(r, 0) == 0;
      r
    else
    var newTail := (q.tail + 1) % n;
    SizeUnwrapped(q);
    ModBelowTwice(q.tail + 1, n);
    if newTail == q.head then
      var s := Size(q);
      var grown := seq(2 * n, i requires 0 <= i < 2 * n => if i < s then q.data[Slot(q, i)] else q.blank);
      var r := Queue(grown[s := v], 0, s + 1, q.blank);
      EnqueueGrownContents(q, v, r);
      r
    else
      var r := Queue(q.data[q.tail := v], q.head, newTail, q.blank);
      EnqueueInPlaceContents(q, v, r);
      r
  }

  lemma EnqueueInPlaceContents<T>(q: Queue<T>, v: T, r: Queue<T>)
    requires Valid(q) && |q.data| > 0 && (q.tail + 1) % |q.data| != q.head
    requires r == Queue(q.data[q.tail := v], q.head, (q.tail + 1) % |q.data|, q.blank)
    ensures Valid(r)
    ensures Contents(r) == Contents(q) + [v]
  {
    var n := |q.data|;
    SizeUnwrapped(q);
    ModBelowTwice(q.tail + 1, n);
    SizeUnwrapped(r);
    assert Size(r) == Size(q) + 1;
    forall i | 0 <= i < Size(r)
      ensures Contents(r)[i] == (Contents(q) + [v])[i]
    {
      if i < Size(q) {
        assert Slot(r, i) == Slot(q, i) != q.tail;
      } else {
        assert Slot(r, i) == q.tail;
      }
    }
  }

  lemma EnqueueGrownContents<T>(q: Queue<T>, v: T, r: Queue<T>)
    requires Valid(q) && |q.data| > 0 && (q.tail + 1) % |q.data| == q.head
    requires |r.data| == 2 * |q.data| && r.head == 0 && r.tail == Size(q) + 1
    requires forall i :: 0 <= i < Size(q) ==> r.data[i] == q.data[Slot(q, i)]
    requires r.data[Size(q)] == v
    ensures Valid(r)
    ensures Contents(r) == Contents(q) + [v]
  {
    SizeUnwrapped(q);
    SizeUnwrapped(r);
    forall i | 0 <= i < Size(r)
      ensures Contents(r)[i] == (Contents(q) + [v])[i]
    {
      assert Slot(r, i) == i;
    }
  }

  /** For capacities of at least three the code as written is correct:
      the grown ring of length 2(n-1) still has room past the new tail. */
  lemma EnqueueAsWrittenFromThree<T>(q: Queue<T>, v: T)
    requires Valid(q) && |q.data| >= 3
    ensures EnqueueAsWritten(q, v).1 == Pass
    ensures Valid(EnqueueAsWritten(q, v).0) && |EnqueueAsWritten(q, v).0.data| >= 3
    ensures Contents(EnqueueAsWritten(q, v).0) == Contents(q) + [v]
  {
    var n := |q.data|;
    SizeUnwrapped(q);
    ModBelowTwice(q.tail + 1, n);
    var r := EnqueueAsWritten(q, v).0;
    if (q.tail + 1) % n == q.head {
      var s := Size(q);
      assert s == n - 1;
      forall i | 0 <= i < s
        ensures r.data[i] == q.data[Slot(q, i)]
      {
      }
      SizeUnwrapped(r);
      forall i | 0 <= i < Size(r)
        ensures Contents(r)[i] == (Contents(q) + [v])[i]
      {
        assert Slot(r, i) == i;
      }
    } else {
      EnqueueInPlaceContents(q, v, r);
    }
  }

  /** `dequeue`: "queue is empty" when head meets tail. */
  function Dequeue<T>(q: Queue<T>): (r: Result<(Queue<T>, T)>)
    requires Valid(q)
    ensures r.Ok? <==> Contents(q) != []
    ensures r.Err? ==> r.error == OutOfRange
    ensures r.Ok? ==> Valid(r.value.0) && [r.value.1] + Contents(r.value.0) == Contents(q)
  {
    IsEmptyIffNoContents(q);
    if q.head == q.tail then Err(OutOfRange)
    else
      var r := Queue(q.data, (q.head + 1) % |q.data|, q.tail, q.blank);
      DequeueContents(q, r);
      Ok((r, q.data[q.head]))
  }

  lemma DequeueContents<T>(q: Queue<T>, r: Queue<T>)
    requires Valid(q) && |q.data| > 0 && q.head != q.tail
    requires r == Queue(q.data, (q.head + 1) % |q.data|, q.tail, q.blank)
    ensures Valid(r)
    ensures Contents(q) == [q.data[q.head]] + Contents(r)
  {
    DequeueSize(q, r);
    var cq, cr := Contents(q), Contents(r);
    assert |cq| == Size(q) && |cr| == Size(r);
    assert Slot(q, 0) == q.head;
    forall i | 0 < i < |cq|
      ensures cq[i] == cr[i - 1]
    {
      DequeueSlot(q, r, i);
    }
  }

  /** Advancing head keeps the ring well formed and drops one element. */
  lemma DequeueSize<T>(q: Queue<T>, r: Queue<T>)
    requires Valid(q) && |q.data| > 0 && q.head != q.tail
    requires r == Queue(q.data, (q.head + 1) % |q.data|, q.tail, q.blank)
    ensures Valid(r) && |r.data| > 0
    ensures Size(q) == Size(r) + 1
  {
    ModBelowTwice(q.head + 1, |q.data|);
    SizeUnwrapped(q);
    SizeUnwrapped(r);
  }

  /** Element i of the old queue sits where element i - 1 of the new one
      does. */
  lemma DequeueSlot<T>(q: Queue<T>, r: Queue<T>, i: nat)
    requires Valid(q) && |q.data| > 0 && q.head != q.tail
    requires r == Queue(q.data, (q.head + 1) % |q.data|, q.tail, q.blank)
    requires Valid(r) && 0 < i < |q.data|
    ensures Slot(q, i) == Slot(r, i - 1)
  {
    ModBelowTwice(q.head + 1, |q.data|);
  }

  function Peek<T>(q: Queue<T>): (r: Result<T>)
    requires Valid(q)
    ensures r.Ok? <==> Contents(q) != []
    ensures r.Err? ==> r.error == OutOfRange
    ensures r.Ok? ==> r.value == Contents(q)[0]
  {
    IsEmptyIffNoContents(q);
    if q.head == q.tail then Err(OutOfRange)
    else
      assert Slot(q, 0) == q.head;
      Ok(q.data[q.head])
  }

  /** A queue built with capacity 0 is empty: dequeue and peek throw
      `out_of_range` without dividing, and enqueue as corrected grows it. */
  lemma ZeroCapacityIsEmpty<T>(b: T, v: T)
    ensures Contents(Create(0, b)) == []
    ensures Dequeue(Create(0, b)) == Err(OutOfRange)
    ensures Peek(Create(0, b)) == Err(OutOfRange)
    ensures Contents(Enqueue(Create(0, b), v)) == [v]
  {
  }

  /** First in, first out: an element enqueued onto an empty queue is the
      next one out, and dequeuing leaves the queue empty again. */
  lemma EnqueueThenDequeue<T>(q: Queue<T>, v: T)
    requires Valid(q) && IsEmpty(q)
    ensures Dequeue(Enqueue(q, v)).Ok?
    ensures Dequeue(Enqueue(q, v)).value.1 == v
    ensures IsEmpty(Dequeue(Enqueue(q, v)).value.0)
  {
    IsEmptyIffNoContents(q);
    var r := Dequeue(Enqueue(q, v)).value.0;
    IsEmptyIffNoContents(r);
  }
}

=== FILE: rb_concrete.dfy ===
module RbConcrete {
  import opened Ordering
  import opened BinaryTree
  import opened RedBlackTree

  function Less(a: int, b: int): bool { a < b }

  lemma LessOrder()
    ensures StrictTotalOrder(Less)
  {
  }

  lemma SkewedThree()
    ensures StrictTotalOrder(Less)
    ensures var t0 := Empty<int, int>();
            var t1 := Insert(Less, t0, 1, 10).0;
            var t2 := Insert(Less, t1, 2, 20).0;
            var t3 := Insert(Less, t2, 3, 30).0;
            TreeHeight(Less, t3) == 1
  {
    LessOrder();
    var t0 := Empty<int, int>();
    var t1 := Insert(Less, t0, 1, 10).0;
    assert t1.root == Node(Nil, 1, 10, RbTag(Black, 0), Nil);
    var fr1 := Frame(false, 1, 10, Black, Nil);
    assert [fr1] + [] == [fr1];
    assert Descend(Less, Nil, 2, [fr1]) == (Nil, [fr1]);
    assert Descend(Less, t1.root, 2, []) == (Nil, [fr1]);
    var n2 := MkNode(Nil, 2, 20, Red, Nil);
    assert Plug(n2, [fr1]) == Attach(n2, fr1);
    var t2 := Insert(Less, t1, 2, 20).0;
    assert t2.root == Node(Nil, 1, 10, RbTag(Black, 1), Node(Nil, 2, 20, RbTag(Red, 0), Nil));
    var t3 := Insert(Less, t2, 3, 30).0;
    var p, g := Frame(false, 2, 20, Red, Nil), Frame(false, 1, 10, Black, Nil);
    assert [g] + [] == [g] && [p] + [g] == [p, g];
    assert Descend(Less, Nil, 3, [p, g]) == (Nil, [p, g]);
    assert Descend(Less, t2.root.right, 3, [g]) == (Nil, [p, g]);
    assert Descend(Less, t2.root, 3, []) == (Nil, [p, g]);
    var n3 := MkNode(Nil, 3, 30, Red, Nil);
    var s := Rotate(n3, p, g);
    assert s == MkNode(MkNode(Nil, 1, 10, Red, Nil), 2, 20, Black, n3);
    assert Fixup(n3, [p, g]) == Blacken(Plug(s, []));
    assert t3.root == s;
  }

  /** A node holding key k with the tests' value 10 * k. */
  function N(l: RbNode<int, int>, k: int, c: Color, h: nat, r: RbNode<int, int>): RbNode<int, int> {
    Node(l, k, 10 * k, RbTag(c, h), r)
  }

  /** Inserting a new key whose descent ends at a null slot under `path`
      hangs a red leaf there and runs the fix-up. */
  lemma {:induction false} InsertNew(t: RedBlackTree<int, int>, k: int, path: seq<Frame<int, int>>)
    requires StrictTotalOrder(Less) && Valid(Less, t)
    requires Descend(Less, t.root, k, []) == (Nil, path)
    ensures Insert(Less, t, k, 10 * k).0 == RedBlackTree(Fixup(MkNode(Nil, k, 10 * k, Red, Nil), path), t.size + 1)
  {
  }

  /** Inserting 1 then 2: the second key hangs red under a black root
      (the black-parent case), so the height is 1. */
  lemma TwoNodes()
    ensures StrictTotalOrder(Less)
    ensures var t1 := Insert(Less, Empty<int, int>(), 1, 10).0;
            TreeHeight(Less, Insert(Less, t1, 2, 20).0) == 1
  {
    LessOrder();
    var t1 := Insert(Less, Empty<int, int>(), 1, 10).0;
    assert t1.root == N(Nil, 1, Black, 0, Nil);
    var fr := Frame(false, 1, 10, Black, Nil);
    assert Descend(Less, Nil, 2, [fr]) == (Nil, [fr]);
    assert [fr] + [] == [fr];
    assert Descend(Less, t1.root, 2, []) == (Nil, [fr]);
    InsertNew(t1, 2, [fr]);
    var n2 := MkNode(Nil, 2, 20, Red, Nil);
    assert Plug(n2, [fr]) == Attach(n2, fr);
    assert Insert(Less, t1, 2, 20).0.root == N(Nil, 1, Black, 1, N(Nil, 2, Red, 0, Nil));
  }

  function Red1(k: int): RbNode<int, int> {
    N(Nil, k, Red, 0, Nil)
  }

  /** 4, then 2 and 6 under the black root. */
  lemma SevenFirstThree(t0: RedBlackTree<int, int>)
    requires StrictTotalOrder(Less) && t0 == Empty()
    ensures var t1 := Insert(Less, t0, 4, 40).0;
            var t2 := Insert(Less, t1, 2, 20).0;
            Insert(Less, t2, 6, 60).0.root == N(Red1(2), 4, Black, 1, Red1(6))
  {
    EmptyValid(Less, t0);
    assert Descend(Less, t0.root, 4, []) == (Nil, []);
    InsertNew(t0, 4, []);
    var t1 := Insert(Less, t0, 4, 40).0;
    assert t1.root == N(Nil, 4, Black, 0, Nil);
    var f2 := Frame(true, 4, 40, Black, Nil);
    assert [f2] + [] == [f2];
    assert Descend(Less, Nil, 2, [f2]) == (Nil, [f2]);
    assert Descend(Less, t1.root, 2, []) == (Nil, [f2]);
    InsertNew(t1, 2, [f2]);
    assert Plug(MkNode(Nil, 2, 20, Red, Nil), [f2]) == Attach(MkNode(Nil, 2, 20, Red, Nil), f2);
    var t2 := Insert(Less, t1, 2, 20).0;
    assert t2.root == N(Red1(2), 4, Black, 1, Nil);
    var f6 := Frame(false, 4, 40, Black, Red1(2));
    assert [f6] + [] == [f6];
    assert Descend(Less, Nil, 6, [f6]) == (Nil, [f6]);
    assert Descend(Less, t2.root, 6, []) == (Nil, [f6]);
    InsertNew(t2, 6, [f6]);
    assert Plug(MkNode(Nil, 6, 60, Red, Nil), [f6]) == Attach(MkNode(Nil, 6, 60, Red, Nil), f6);
  }

  /** Inserting 1 under the red 2 with the red uncle 6: the recolour pushes
      red to the root, which is painted black again. */
  lemma SevenRecolor(t: RedBlackTree<int, int>)
    requires StrictTotalOrder(Less) && Valid(Less, t)
    requires t.root == N(Red1(2), 4, Black, 1, Red1(6))
    ensures Insert(Less, t, 1, 10).0.root == N(N(Red1(1), 2, Black, 1, Nil), 4, Black, 2, N(Nil, 6, Black, 0, Nil))
  {
    var g := Frame(true, 4, 40, Black, Red1(6));
    var p := Frame(true, 2, 20, Red, Nil);
    assert [g] + [] == [g] && [p] + [g] == [p, g];
    assert Descend(Less, Nil, 1, [p, g]) == (Nil, [p, g]);
    assert Descend(Less, Red1(2), 1, [g]) == (Nil, [p, g]);
    assert Descend(Less, t.root, 1, []) == (Nil, [p, g]);
    InsertNew(t, 1, [p, g]);
    var n1 := MkNode(Nil, 1, 10, Red, Nil);
    var gr := Recolor(n1, p, g);
    assert gr == N(N(Red1(1), 2, Black, 1, Nil), 4, Red, 2, N(Nil, 6, Black, 0, Nil));
    assert Fixup(n1, [p, g]) == Fixup(gr, [p, g][2..]);
    assert [p, g][2..] == [];
  }

  /** A key whose new leaf hangs under a black parent `p` below the root's
      frame `g`: the fix-up only paints the root black. */
  lemma BlackParentInsert(t: RedBlackTree<int, int>, k: int, p: Frame<int, int>, g: Frame<int, int>)
    requires StrictTotalOrder(Less) && Valid(Less, t) && p.color == Black && g.color == Black
    requires Descend(Less, t.root, k, []) == (Nil, [p, g])
    ensures Insert(Less, t, k, 10 * k).0.root == Attach(Attach(MkNode(Nil, k, 10 * k, Red, Nil), p), g)
  {
    InsertNew(t, k, [p, g]);
    var n := MkNode(Nil, k, 10 * k, Red, Nil);
    assert [p, g][1..] == [g];
    assert Plug(Attach(n, p), [g]) == Attach(Attach(n, p), g);
  }

  lemma SevenThree(t: RedBlackTree<int, int>)
    requires StrictTotalOrder(Less) && Valid(Less, t)
    requires t.root == N(N(Red1(1), 2, Black, 1, Nil), 4, Black, 2, N(Nil, 6, Black, 0, Nil))
    ensures Insert(Less, t, 3, 30).0.root == N(N(Red1(1), 2, Black, 1, Red1(3)), 4, Black, 2, N(Nil, 6, Black, 0, Nil))
  {
    var g := Frame(true, 4, 40, Black, N(Nil, 6, Black, 0, Nil));
    var p := Frame(false, 2, 20, Black, Red1(1));
    assert [g] + [] == [g] && [p] + [g] == [p, g];
    assert Descend(Less, Nil, 3, [p, g]) == (Nil, [p, g]);
    assert Descend(Less, t.root.left, 3, [g]) == (Nil, [p, g]);
    assert Descend(Less, t.root, 3, []) == (Nil, [p, g]);
    BlackParentInsert(t, 3, p, g);
  }

  lemma SevenFive(t: RedBlackTree<int, int>)
    requires StrictTotalOrder(Less) && Valid(Less, t)
    requires t.root == N(N(Red1(1), 2, Black, 1, Red1(3)), 4, Black, 2, N(Nil, 6, Black, 0, Nil))
    ensures Insert(Less, t, 5, 50).0.root == N(N(Red1(1), 2, Black, 1, Red1(3)), 4, Black, 2, N(Red1(5), 6, Black, 1, Nil))
  {
    var g := Frame(false, 4, 40, Black, t.root.left);
    var p := Frame(true, 6, 60, Black, Nil);
    assert [g] + [] == [g] && [p] + [g] == [p, g];
    assert Descend(Less, Nil, 5, [p, g]) == (Nil, [p, g]);
    assert Descend(Less, t.root.right, 5, [g]) == (Nil, [p, g]);
    assert Descend(Less, t.root, 5, []) == (Nil, [p, g]);
    BlackParentInsert(t, 5, p, g);
  }

  lemma SevenSeven(t: RedBlackTree<int, int>)
    requires StrictTotalOrder(Less) && Valid(Less, t)
    requires t.root == N(N(Red1(1), 2, Black, 1, Red1(3)), 4, Black, 2, N(Red1(5), 6, Black, 1, Nil))
    ensures Insert(Less, t, 7, 70).0.root == N(N(Red1(1), 2, Black, 1, Red1(3)), 4, Black, 2, N(Red1(5), 6, Black, 1, Red1(7)))
  {
    var g := Frame(false, 4, 40, Black, t.root.left);
    var p := Frame(false, 6, 60, Black, Red1(5));
    assert [g] + [] == [g] && [p] + [g] == [p, g];
    assert Descend(Less, Nil, 7, [p, g]) == (Nil, [p, g]);
    assert Descend(Less, t.root.right, 7, [g]) == (Nil, [p, g]);
    assert Descend(Less, t.root, 7, []) == (Nil, [p, g]);
    BlackParentInsert(t, 7, p, g);
  }

  /** Inserting 4, 2, 6, 1, 3, 5, 7 builds the perfect tree of height 2. */
  lemma PerfectSeven()
    ensures StrictTotalOrder(Less)
    ensures var t1 := Insert(Less, Empty<int, int>(), 4, 40).0;
            var t2 := Insert(Less, t1, 2, 20).0;
            var t3 := Insert(Less, t2, 6, 60).0;
            var t4 := Insert(Less, t3, 1, 10).0;
            var t5 := Insert(Less, t4, 3, 30).0;
            var t6 := Insert(Less, t5, 5, 50).0;
            var t7 := Insert(Less, t6, 7, 70).0;
            TreeHeight(Less, t7) == 2
  {
    LessOrder();
    var t0 := Empty<int, int>();
    SevenFirstThree(t0);
    var t1 := Insert(Less, t0, 4, 40).0;
    var t2 := Insert(Less, t1, 2, 20).0;
    var t3 := Insert(Less, t2, 6, 60).0;
    SevenRecolor(t3);
    var t4 := Insert(Less, t3, 1, 10).0;
    SevenThree(t4);
    var t5 := Insert(Less, t4, 3, 30).0;
    SevenFive(t5);
    var t6 := Insert(Less, t5, 5, 50).0;
    SevenSeven(t6);
  }
}

=== FILE: red_black_tree.dfy ===
/** `RedBlackTree`: a binary search tree whose nodes carry a colour, a
    cached height and a parent pointer, rebalanced after each insertion by
    the classic bottom-up recolouring and rotation cases.

    The parent pointers are modelled by a zipper: the focus subtree plus the
    path of frames from its parent up to the root. Each frame records the
    ancestor's key, value and colour, its other child, and on which side the
    focus hangs; `Plug` rebuilds the whole tree. Every node is built with
    `MkNode`, which computes the cached height from the children, as
    `update_heights_upward` does after every rotation and insertion. */
module RedBlackTree {
  import opened Wrappers
  import opened Ordering
  import opened BinaryTree

  datatype Color = Red | Black

  datatype RbTag = RbTag(color: Color, height: nat)

  type RbNode<K, V> = Tree<K, V, RbTag>

  datatype RedBlackTree<K, V> = RedBlackTree(root: RbNode<K, V>, size: nat)

  /** `color(node)`: an empty subtree counts as black. */
  function Col<K, V>(t: RbNode<K, V>): Color {
    if t.Nil? then Black else t.tag.color
  }

  /** `height(node)`: the cached height, -1 for an empty subtree. */
  function Ht<K, V>(t: RbNode<K, V>): (h: int)
    ensures h >= -1 && (h == -1 <==> t.Nil?)
  {
    if t.Nil? then -1 else t.tag.height
  }

  /** A node whose cached height is computed from its children's. */
  function MkNode<K, V>(l: RbNode<K, V>, k: K, v: V, c: Color, r: RbNode<K, V>): (t: RbNode<K, V>)
    ensures t.Node? && t.left == l && t.key == k && t.value == v && t.right == r && Col(t) == c
    ensures Ht(t) == 1 + Max(Ht(l), Ht(r))
  {
    Node(l, k, v, RbTag(c, (1 + Max(Ht(l), Ht(r))) as nat), r)
  }

  /** The node with its colour replaced and everything else kept. */
  function Paint<K, V>(t: RbNode<K, V>, c: Color): (r: RbNode<K, V>)
    requires t.Node?
    ensures r.Node? && r.left == t.left && r.key == t.key && r.value == t.value && r.right == t.right
    ensures Col(r) == c && Ht(r) == Ht(t)
  {
    Node(t.left, t.key, t.value, RbTag(c, t.tag.height), t.right)
  }

  /** The final `m_root->color = Color::Black`, when there is a root. */
  function Blacken<K, V>(t: RbNode<K, V>): (r: RbNode<K, V>)
    ensures Keys(r) == Keys(t) && ToMap(r) == ToMap(t)
    ensures t.Nil? ==> r.Nil?
    ensures t.Node? ==> r == Paint(t, Black)
  {
    if t.Nil? then t else Paint(t, Black)
  }

  // ---------------------------------------------------------------------
  // The red-black invariants
  // ---------------------------------------------------------------------

  ghost predicate HeightsOk<K, V>(t: RbNode<K, V>) {
    match t
    case Nil => true
    case Node(l, _, _, tag, r) => HeightsOk(l) && HeightsOk(r) && tag.height == 1 + Max(Ht(l), Ht(r))
  }

  /** The number of black nodes on the leftmost path. */
  ghost function BH<K, V>(t: RbNode<K, V>): nat {
    match t
    case Nil => 0
    case Node(l, _, _, tag, _) => BH(l) + if tag.color == Black then 1 else 0
  }

  /** Every root-to-leaf path has the same number of black nodes. */
  ghost predicate BlackBal<K, V>(t: RbNode<K, V>) {
    match t
    case Nil => true
    case Node(l, _, _, _, r) => BlackBal(l) && BlackBal(r) && BH(l) == BH(r)
  }

  /** No red node has a red child. */
  ghost predicate RedOk<K, V>(t: RbNode<K, V>) {
    match t
    case Nil => true
    case Node(l, _, _, tag, r) =>
      RedOk(l) && RedOk(r) && (tag.color == Red ==> Col(l) == Black && Col(r) == Black)
  }

  /** A red-black search tree with correct height caches and a black root. */
  ghost predicate Rb<K, V>(cmp: (K, K) -> bool, t: RbNode<K, V>) {
    SearchTree(cmp, t) && HeightsOk(t) && BlackBal(t) && RedOk(t) && Col(t) == Black
  }

  /** The class invariant. */
  ghost predicate Valid<K, V>(cmp: (K, K) -> bool, t: RedBlackTree<K, V>) {
    Rb(cmp, t.root) && t.size == Size(t.root)
  }

  // ---------------------------------------------------------------------
  // The zipper
  // ---------------------------------------------------------------------

  /** An ancestor of the focus: the focus is its left child when `toLeft`,
      and `other` is its other child. */
  datatype Frame<K, V> = Frame(toLeft: bool, key: K, value: V, color: Color, other: RbNode<K, V>)

  /** The ancestor's node, with `f` hung back on its side. */
  function Attach<K, V>(f: RbNode<K, V>, fr: Frame<K, V>): RbNode<K, V> {
    if fr.toLeft then MkNode(f, fr.key, fr.value, fr.color, fr.other)
    else MkNode(fr.other, fr.key, fr.value, fr.color, f)
  }

  /** The whole tree: the focus hung back into every ancestor in turn. */
  function Plug<K, V>(f: RbNode<K, V>, path: seq<Frame<K, V>>): RbNode<K, V>
    decreases |path|
  {
    if |path| == 0 then f else Plug(Attach(f, path[0]), path[1..])
  }

  /** The frames' other subtrees have correct height caches. */
  ghost predicate OthersOk<K, V>(path: seq<Frame<K, V>>) {
    forall i :: 0 <= i < |path| ==> HeightsOk(path[i].other)
  }

  /** The black-height condition along a path, given the focus's. */
  ghost predicate PathBal<K, V>(h: nat, path: seq<Frame<K, V>>)
    decreases |path|
  {
    |path| == 0 ||
    (BlackBal(path[0].other) && BH(path[0].other) == h &&
     PathBal(h + if path[0].color == Black then 1 else 0, path[1..]))
  }

  /** The red condition along a path, apart from the focus's own link. */
  ghost predicate RedFrames<K, V>(path: seq<Frame<K, V>>)
    decreases |path|
  {
    |path| == 0 ||
    (RedOk(path[0].other) &&
     (path[0].color == Red ==> Col(path[0].other) == Black && (|path| > 1 ==> path[1].color == Black)) &&
     RedFrames(path[1..]))
  }

  lemma {:induction false} PlugHeights<K, V>(f: RbNode<K, V>, path: seq<Frame<K, V>>)
    ensures HeightsOk(Plug(f, path)) <==> HeightsOk(f) && OthersOk(path)
    decreases |path|
  {
    if |path| > 0 {
      PlugHeights(Attach(f, path[0]), path[1..]);
      assert forall i :: 0 <= i < |path| - 1 ==> path[1..][i] == path[i + 1];
    }
  }

  lemma {:induction false} PlugBlack<K, V>(f: RbNode<K, V>, path: seq<Frame<K, V>>)
    ensures BlackBal(Plug(f, path)) <==> BlackBal(f) && PathBal(BH(f), path)
    decreases |path|
  {
    if |path| > 0 {
      var a := Attach(f, path[0]);
      PlugBlack(a, path[1..]);
      if BlackBal(a) {
        assert BH(a) == BH(f) + if path[0].color == Black then 1 else 0;
      }
    }
  }

  lemma {:induction false} PlugRed<K, V>(f: RbNode<K, V>, path: seq<Frame<K, V>>)
    ensures RedOk(Plug(f, path)) <==>
              RedOk(f) && RedFrames(path) && (|path| > 0 && path[0].color == Red ==> Col(f) == Black)
    decreases |path|
  {
    if |path| > 0 {
      PlugRed(Attach(f, path[0]), path[1..]);
    }
  }

  /** Subtrees that agree on keys and map give whole trees that agree. */
  lemma {:induction false} PlugCongruent<K, V>(a: RbNode<K, V>, b: RbNode<K, V>, path: seq<Frame<K, V>>)
    requires Keys(a) == Keys(b) && ToMap(a) == ToMap(b)
    ensures Keys(Plug(a, path)) == Keys(Plug(b, path)) && ToMap(Plug(a, path)) == ToMap(Plug(b, path))
    decreases |path|
  {
    if |path| > 0 {
      PlugCongruent(Attach(a, path[0]), Attach(b, path[0]), path[1..]);
    }
  }

  /** The keys of the ancestors (and their other subtrees) that lie before
      the focus, in order. */
  ghost function PathLeft<K, V>(path: seq<Frame<K, V>>): seq<K>
    decreases |path|
  {
    if |path| == 0 then []
    else PathLeft(path[1..]) + (if path[0].toLeft then [] else Keys(path[0].other) + [path[0].key])
  }

  /** The keys of the ancestors that lie after the focus, in order. */
  ghost function PathRight<K, V>(path: seq<Frame<K, V>>): seq<K>
    decreases |path|
  {
    if |path| == 0 then []
    else (if path[0].toLeft then [path[0].key] + Keys(path[0].other) else []) + PathRight(path[1..])
  }

  lemma {:induction false} PlugKeys<K, V>(f: RbNode<K, V>, path: seq<Frame<K, V>>)
    ensures Keys(Plug(f, path)) == PathLeft(path) + Keys(f) + PathRight(path)
    decreases |path|
  {
    if |path| > 0 {
      PlugKeys(Attach(f, path[0]), path[1..]);
    }
  }

  /** `k` lies strictly between the keys before and after the focus. */
  ghost predicate Bounded<K, V>(cmp: (K, K) -> bool, path: seq<Frame<K, V>>, k: K)
    decreases |path|
  {
    |path| == 0 ||
    ((if path[0].toLeft then cmp(k, path[0].key) && AllAbove(cmp, path[0].other, k)
      else cmp(path[0].key, k) && AllBelow(cmp, path[0].other, k)) &&
     Bounded(cmp, path[1..], k))
  }

  lemma {:induction false} BoundedSides<K, V>(cmp: (K, K) -> bool, path: seq<Frame<K, V>>, k: K)
    requires Bounded(cmp, path, k)
    ensures forall x :: x in PathLeft(path) ==> cmp(x, k)
    ensures forall x :: x in PathRight(path) ==> cmp(k, x)
    decreases |path|
  {
    if |path| > 0 {
      BoundedSides(cmp, path[1..], k);
    }
  }

  /** Replacing the focus by one whose map is updated at `k` updates the
      whole map at `k`, when `k` belongs at the focus. */
  lemma {:induction false} PlugUpdate<K(!new), V>(cmp: (K, K) -> bool, f: RbNode<K, V>, f': RbNode<K, V>, path: seq<Frame<K, V>>, k: K, v: V)
    requires Irreflexive(cmp) && Bounded(cmp, path, k)
    requires ToMap(f') == ToMap(f)[k := v]
    ensures ToMap(Plug(f', path)) == ToMap(Plug(f, path))[k := v]
    ensures k in ToMap(Plug(f, path)) <==> k in ToMap(f)
    decreases |path|
  {
    if |path| > 0 {
      var fr := path[0];
      KeysOfMap(fr.other, k);
      if fr.toLeft {
        AllAboveMap(cmp, fr.other, k);
        UpdateLeft(ToMap(f), map[fr.key := fr.value], ToMap(fr.other), k, v);
      } else {
        AllBelowMap(cmp, fr.other, k);
        UpdateRight(ToMap(fr.other), map[fr.key := fr.value], ToMap(f), k, v);
      }
      PlugUpdate(cmp, Attach(f, fr), Attach(f', fr), path[1..], k, v);
    }
  }

  // ---------------------------------------------------------------------
  // rebalance_from
  // ---------------------------------------------------------------------

  /** 1 when the focus, its parent and its grandparent zig-zag. */
  function Zig<K, V>(path: seq<Frame<K, V>>): nat {
    if |path| >= 2 && path[0].toLeft != path[1].toLeft then 1 else 0
  }

  /** Case 2: parent and uncle `u` turn black, the grandparent red, and the
      grandparent's subtree becomes the new focus. */
  function Recolor<K, V>(f: RbNode<K, V>, p: Frame<K, V>, g: Frame<K, V>): (r: RbNode<K, V>)
    requires g.other.Node?
    ensures Keys(r) == Keys(Attach(Attach(f, p), g)) && ToMap(r) == ToMap(Attach(Attach(f, p), g))
  {
    var pb := Attach(f, p.(color := Black));
    var ub := Paint(g.other, Black);
    if g.toLeft then MkNode(pb, g.key, g.value, Red, ub) else MkNode(ub, g.key, g.value, Red, pb)
  }

  /** Case 5: the focus hangs on the inner side of its parent; rotate at
      the parent so that the old parent becomes the focus, now on the outer
      side of the old focus. */
  function Straighten<K, V>(f: RbNode<K, V>, path: seq<Frame<K, V>>): (r: (RbNode<K, V>, seq<Frame<K, V>>))
    requires f.Node? && |path| >= 2 && path[0].toLeft != path[1].toLeft
    ensures r.0.Node? && |r.1| == |path| && r.1[1..] == path[1..] && r.1[0].toLeft == path[1].toLeft
    ensures Keys(Plug(r.0, r.1)) == Keys(Plug(f, path)) && ToMap(Plug(r.0, r.1)) == ToMap(Plug(f, path))
  {
    var p := path[0];
    if !p.toLeft then
      var f' := MkNode(p.other, p.key, p.value, p.color, f.left);
      var p' := Frame(true, f.key, f.value, f.tag.color, f.right);
      MapOfRotation(p.other, p.key, p.value, f.key, f.value, f.right, f.left, f'.tag, Attach(f', p').tag, Attach(f, p).tag, f.tag);
      PlugCongruent(Attach(f', p'), Attach(f, p), path[1..]);
      assert ([p'] + path[1..])[1..] == path[1..];
      (f', [p'] + path[1..])
    else
      var f' := MkNode(f.right, p.key, p.value, p.color, p.other);
      var p' := Frame(false, f.key, f.value, f.tag.color, f.left);
      MapOfRotation(f.left, f.key, f.value, p.key, p.value, p.other, f.right, f.tag, Attach(f, p).tag, Attach(f', p').tag, f'.tag);
      PlugCongruent(Attach(f', p'), Attach(f, p), path[1..]);
      assert ([p'] + path[1..])[1..] == path[1..];
      (f', [p'] + path[1..])
  }

  /** Case 6: focus, parent and grandparent in a line; rotate at the
      grandparent, which turns red under the now black parent. */
  function Rotate<K, V>(f: RbNode<K, V>, p: Frame<K, V>, g: Frame<K, V>): (r: RbNode<K, V>)
    requires p.toLeft == g.toLeft
    ensures Keys(r) == Keys(Attach(Attach(f, p), g)) && ToMap(r) == ToMap(Attach(Attach(f, p), g))
  {
    if p.toLeft then
      var s := MkNode(f, p.key, p.value, Black, MkNode(p.other, g.key, g.value, Red, g.other));
      MapOfRotation(f, p.key, p.value, g.key, g.value, g.other, p.other, Attach(f, p).tag, Attach(Attach(f, p), g).tag, s.tag, s.right.tag);
      s
    else
      var s := MkNode(MkNode(g.other, g.key, g.value, Red, p.other), p.key, p.value, Black, f);
      MapOfRotation(g.other, g.key, g.value, p.key, p.value, f, p.other, s.left.tag, s.tag, Attach(Attach(f, p), g).tag, Attach(f, p).tag);
      s
  }

  /** The loop of `rebalance_from` from the focus `f` (the current `node`),
      followed by blackening the root. The cases, in the order the loop
      tries them: no parent (3), black parent (1), no grandparent (4), red
      uncle (2, recolour and move up to the grandparent), zig-zag (5, rotate
      at the parent and move down to it), straight line (6, rotate at the
      grandparent and recolour). */
  function Fixup<K, V>(f: RbNode<K, V>, path: seq<Frame<K, V>>): (r: RbNode<K, V>)
    requires f.Node?
    ensures Keys(r) == Keys(Plug(f, path)) && ToMap(r) == ToMap(Plug(f, path))
    decreases |path|, Zig(path)
  {
    if |path| == 0 then
      Blacken(f)
    else if path[0].color == Black then
      Blacken(Plug(f, path))
    else if |path| == 1 then
      var p := path[0];
      assert Plug(f, [p.(color := Black)]) == Attach(f, p.(color := Black));
      Blacken(Plug(f, [p.(color := Black)]))
    else
      var p, g := path[0], path[1];
      assert Plug(f, path) == Plug(Attach(Attach(f, p), g), path[2..]);
      if Col(g.other) == Red then
        var gr := Recolor(f, p, g);
        PlugCongruent(gr, Attach(Attach(f, p), g), path[2..]);
        Fixup(gr, path[2..])
      else if p.toLeft != g.toLeft then
        var (f', path') := Straighten(f, path);
        Fixup(f', path')
      else
        var s := Rotate(f, p, g);
        PlugCongruent(s, Attach(Attach(f, p), g), path[2..]);
        Blacken(Plug(s, path[2..]))
  }

  /** The loop invariant of `rebalance_from`: the focus is a red node with
      black children, the only possible violation is between the focus and
      its parent, and black heights agree everywhere. */
  ghost predicate FixInv<K, V>(f: RbNode<K, V>, path: seq<Frame<K, V>>) {
    f.Node? && Col(f) == Red && Col(f.left) == Black && Col(f.right) == Black &&
    RedOk(f.left) && RedOk(f.right) && BlackBal(f) && HeightsOk(f) &&
    OthersOk(path) && PathBal(BH(f), path) && RedFrames(path)
  }

  /** Painting the root black keeps a tree red-black. */
  lemma BlackenOk<K, V>(t: RbNode<K, V>)
    requires HeightsOk(t) && BlackBal(t) && (t.Node? ==> RedOk(t.left) && RedOk(t.right))
    ensures HeightsOk(Blacken(t)) && BlackBal(Blacken(t)) && RedOk(Blacken(t)) && Col(Blacken(t)) == Black
  {
  }

  /** Ending the loop: the whole tree is red-black once the root is black. */
  lemma PlugDone<K, V>(s: RbNode<K, V>, path: seq<Frame<K, V>>)
    requires HeightsOk(s) && BlackBal(s) && RedOk(s) && OthersOk(path) && PathBal(BH(s), path) && RedFrames(path)
    requires |path| > 0 && path[0].color == Red ==> Col(s) == Black
    ensures var r := Blacken(Plug(s, path));
            HeightsOk(r) && BlackBal(r) && RedOk(r) && Col(r) == Black
  {
    PlugHeights(s, path);
    PlugBlack(s, path);
    PlugRed(s, path);
    BlackenOk(Plug(s, path));
  }

  /** What the invariant says two levels up from a focus with a red parent. */
  lemma TwoLevels<K, V>(f: RbNode<K, V>, path: seq<Frame<K, V>>)
    requires FixInv(f, path) && |path| >= 2 && path[0].color == Red
    ensures var p, g, h := path[0], path[1], BH(f);
            BH(p.other) == h && BlackBal(p.other) && RedOk(p.other) && Col(p.other) == Black &&
            HeightsOk(p.other) &&
            BH(g.other) == h && BlackBal(g.other) && RedOk(g.other) && HeightsOk(g.other) &&
            g.color == Black &&
            PathBal(h + 1, path[2..]) && RedFrames(path[2..]) && OthersOk(path[2..])
  {
    assert path[1..][0] == path[1] && path[1..][1..] == path[2..];
    assert PathBal(BH(f), path[1..]) && RedFrames(path[1..]);
    assert OthersOk(path[2..]) by {
      forall i | 0 <= i < |path[2..]|
        ensures HeightsOk(path[2..][i].other)
      {
        assert path[2..][i] == path[i + 2];
      }
    }
  }

  lemma RecolorOk<K, V>(f: RbNode<K, V>, path: seq<Frame<K, V>>)
    requires FixInv(f, path) && |path| >= 2 && path[0].color == Red && Col(path[1].other) == Red
    ensures FixInv(Recolor(f, path[0], path[1]), path[2..])
  {
    TwoLevels(f, path);
    var p, g, h := path[0], path[1], BH(f);
    var pb := Attach(f, p.(color := Black));
    var ub := Paint(g.other, Black);
    assert BH(pb) == h + 1 && BH(ub) == h + 1;
    assert HeightsOk(pb) && HeightsOk(ub);
    assert BlackBal(pb) && BlackBal(ub);
  }

  /** The rotation at the parent keeps a red focus with black children of
      the same black height, and a red parent frame whose other child is a
      black red-black tree of that height. */
  lemma StraightenLocal<K, V>(f: RbNode<K, V>, path: seq<Frame<K, V>>)
    requires FixInv(f, path) && |path| >= 2 && path[0].color == Red && path[0].toLeft != path[1].toLeft
    ensures var (f', path') := Straighten(f, path); var h := BH(f);
            f'.Node? && Col(f') == Red && Col(f'.left) == Black && Col(f'.right) == Black &&
            RedOk(f'.left) && RedOk(f'.right) && BlackBal(f') && HeightsOk(f') && BH(f') == h &&
            path'[0].color == Red && BlackBal(path'[0].other) && BH(path'[0].other) == h &&
            RedOk(path'[0].other) && Col(path'[0].other) == Black && HeightsOk(path'[0].other)
  {
    TwoLevels(f, path);
  }

  lemma StraightenOk<K, V>(f: RbNode<K, V>, path: seq<Frame<K, V>>)
    requires FixInv(f, path) && |path| >= 2 && path[0].color == Red && path[0].toLeft != path[1].toLeft
    ensures var (f', path') := Straighten(f, path);
            FixInv(f', path') && Zig(path') == 0
  {
    TwoLevels(f, path);
    StraightenLocal(f, path);
    var (f', path') := Straighten(f, path);
    var h := BH(f);
    assert path'[1..] == path[1..];
    assert PathBal(h, path[1..]) && RedFrames(path[1..]) by {
      assert path[1..][0] == path[1];
    }
    assert OthersOk(path') by {
      forall i | 0 <= i < |path'|
        ensures HeightsOk(path'[i].other)
      {
        if i > 0 { assert path'[i] == path'[1..][i - 1] == path[i]; }
      }
    }
    assert PathBal(h, path');
    assert RedFrames(path');
  }

  lemma RotateOk<K, V>(f: RbNode<K, V>, path: seq<Frame<K, V>>)
    requires FixInv(f, path) && |path| >= 2 && path[0].color == Red
    requires Col(path[1].other) == Black && path[0].toLeft == path[1].toLeft
    ensures var s := Rotate(f, path[0], path[1]);
            HeightsOk(s) && BlackBal(s) && RedOk(s) && Col(s) == Black && BH(s) == BH(f) + 1
  {
    TwoLevels(f, path);
  }

  lemma {:induction false} FixupOk<K, V>(f: RbNode<K, V>, path: seq<Frame<K, V>>)
    requires FixInv(f, path)
    ensures var r := Fixup(f, path);
            HeightsOk(r) && BlackBal(r) && RedOk(r) && Col(r) == Black
    decreases |path|, Zig(path)
  {
    if |path| == 0 {
      BlackenOk(f);
    } else if path[0].color == Black {
      PlugDone(f, path);
    } else if |path| == 1 {
      var p := path[0].(color := Black);
      assert [p][1..] == [];
      PlugDone(f, [p]);
    } else {
      var p, g := path[0], path[1];
      if Col(g.other) == Red {
        RecolorOk(f, path);
        FixupOk(Recolor(f, p, g), path[2..]);
      } else if p.toLeft != g.toLeft {
        StraightenOk(f, path);
        var (f', path') := Straighten(f, path);
        FixupOk(f', path');
      } else {
        RotateOk(f, path);
        TwoLevels(f, path);
        PlugDone(Rotate(f, p, g), path[2..]);
      }
    }
  }

  // ---------------------------------------------------------------------
  // insert
  // ---------------------------------------------------------------------

  /** The descent of `insert`: walk down from the focus `f` towards `k`,
      pushing a frame per step, until an empty link or a node holding `k`. */
  function Descend<K(==, !new), V>(cmp: (K, K) -> bool, f: RbNode<K, V>, k: K, path: seq<Frame<K, V>>): (r: (RbNode<K, V>, seq<Frame<K, V>>))
    requires StrictTotalOrder(cmp) && SearchTree(cmp, f) && HeightsOk(f) && Bounded(cmp, path, k)
    ensures Plug(r.0, r.1) == Plug(f, path)
    ensures SearchTree(cmp, r.0) && HeightsOk(r.0) && Bounded(cmp, r.1, k)
    ensures r.0.Nil? || r.0.key == k
  {
    if f.Nil? || f.key == k then (f, path)
    else
      SearchTreeNode(cmp, f.left, f.key, f.value, f.tag, f.right);
      if cmp(k, f.key) then
        var fr := Frame(true, f.key, f.value, f.tag.color, f.right);
        assert Attach(f.left, fr) == f;
        assert ([fr] + path)[1..] == path;
        assert AllAbove(cmp, f.right, k) by {
          forall i | 0 <= i < |Keys(f.right)| ensures cmp(k, Keys(f.right)[i]) {
            assert cmp(f.key, Keys(f.right)[i]);
          }
        }
        Descend(cmp, f.left, k, [fr] + path)
      else
        var fr := Frame(false, f.key, f.value, f.tag.color, f.left);
        assert Attach(f.right, fr) == f;
        assert ([fr] + path)[1..] == path;
        assert cmp(f.key, k);
        assert AllBelow(cmp, f.left, k) by {
          forall i | 0 <= i < |Keys(f.left)| ensures cmp(Keys(f.left)[i], k) {
            assert cmp(Keys(f.left)[i], f.key);
          }
        }
        Descend(cmp, f.right, k, [fr] + path)
  }

  /** Placing `k` between the keys ordered before it and those after it
      keeps a sequence sorted. */
  lemma SortedInsert<K>(cmp: (K, K) -> bool, a: seq<K>, k: K, b: seq<K>)
    requires StrictlySorted(cmp, a + b)
    requires forall x :: x in a ==> cmp(x, k)
    requires forall y :: y in b ==> cmp(k, y)
    ensures StrictlySorted(cmp, a + [k] + b)
  {
    var s, t := a + [k] + b, a + b;
    forall i, j | 0 <= i < j < |s| ensures cmp(s[i], s[j]) {
      if j < |a| {
        assert s[i] == t[i] && s[j] == t[j];
      } else if j == |a| {
        assert s[i] == a[i];
      } else if i == |a| {
        assert s[j] == b[j - |a| - 1];
      } else if i < |a| {
        assert s[i] == t[i] && s[j] == t[j - 1];
      } else {
        assert s[i] == t[i - 1] && s[j] == t[j - 1];
      }
    }
  }

  /** The root colour of a plugged tree comes from the topmost frame. */
  lemma {:induction false} PlugColor<K, V>(f: RbNode<K, V>, path: seq<Frame<K, V>>)
    ensures Col(Plug(f, path)) == if |path| == 0 then Col(f) else path[|path| - 1].color
    decreases |path|
  {
    if |path| > 0 {
      PlugColor(Attach(f, path[0]), path[1..]);
    }
  }

  /** The path of the descent satisfies the invariants the whole tree did. */
  lemma PathOk<K, V>(f: RbNode<K, V>, path: seq<Frame<K, V>>)
    requires HeightsOk(Plug(f, path)) && BlackBal(Plug(f, path)) && RedOk(Plug(f, path))
    ensures HeightsOk(f) && BlackBal(f) && RedOk(f)
    ensures OthersOk(path) && PathBal(BH(f), path) && RedFrames(path)
    ensures |path| > 0 && path[0].color == Red ==> Col(f) == Black
  {
    PlugHeights(f, path);
    PlugBlack(f, path);
    PlugRed(f, path);
  }

  /** The found branch of `insert`: the value is overwritten in place and
      the shape and colours are untouched. */
  lemma OverwriteOk<K(!new), V>(cmp: (K, K) -> bool, f: RbNode<K, V>, path: seq<Frame<K, V>>, v: V)
    requires StrictTotalOrder(cmp) && Rb(cmp, Plug(f, path)) && f.Node? && SearchTree(cmp, f)
    requires Bounded(cmp, path, f.key)
    ensures var f' := Node(f.left, f.key, v, f.tag, f.right);
            Rb(cmp, Plug(f', path)) && Size(Plug(f', path)) == Size(Plug(f, path)) &&
            ToMap(Plug(f', path)) == ToMap(Plug(f, path))[f.key := v] &&
            f.key in ToMap(Plug(f, path))
  {
    var f' := Node(f.left, f.key, v, f.tag, f.right);
    OverwriteRootStep(cmp, f, v, f.tag);
    PlugUpdate(cmp, f, f', path, f.key, v);
    PlugKeys(f, path);
    PlugKeys(f', path);
    PathOk(f, path);
    PlugHeights(f', path);
    PlugBlack(f', path);
    PlugRed(f', path);
    PlugColor(f, path);
    PlugColor(f', path);
  }

  /** A key that belongs at an empty link can be hung there in order. */
  lemma LeafSorted<K(!new), V>(cmp: (K, K) -> bool, n: RbNode<K, V>, path: seq<Frame<K, V>>)
    requires SearchTree(cmp, Plug(Nil, path)) && n.Node? && n.left.Nil? && n.right.Nil?
    requires Bounded(cmp, path, n.key)
    ensures SearchTree(cmp, Plug(n, path))
    ensures Size(Plug(n, path)) == Size(Plug(Nil, path)) + 1
  {
    PlugKeys(Nil, path);
    PlugKeys(n, path);
    BoundedSides(cmp, path, n.key);
    assert Keys(Plug(Nil, path)) == PathLeft(path) + PathRight(path);
    SortedInsert(cmp, PathLeft(path), n.key, PathRight(path));
    assert Keys(Plug(n, path)) == PathLeft(path) + [n.key] + PathRight(path);
  }

  /** A red leaf at the end of the descent satisfies the loop invariant. */
  lemma LeafInv<K, V>(n: RbNode<K, V>, path: seq<Frame<K, V>>)
    requires HeightsOk(Plug(Nil, path)) && BlackBal(Plug(Nil, path)) && RedOk(Plug(Nil, path))
    requires n.Node? && n == MkNode(Nil, n.key, n.value, Red, Nil)
    ensures FixInv(n, path)
  {
    PathOk(Nil, path);
  }

  /** The new-key branch of `insert`: a red leaf hung on the empty link,
      then the rebalancing loop. */
  lemma NewLeafOk<K(!new), V>(cmp: (K, K) -> bool, path: seq<Frame<K, V>>, k: K, v: V)
    requires StrictTotalOrder(cmp) && Rb(cmp, Plug(Nil, path)) && Bounded(cmp, path, k)
    ensures var r := Fixup(MkNode(Nil, k, v, Red, Nil), path);
            Rb(cmp, r) && Size(r) == Size(Plug(Nil, path)) + 1 &&
            ToMap(r) == ToMap(Plug(Nil, path))[k := v] &&
            k !in ToMap(Plug(Nil, path))
  {
    var n := MkNode(Nil, k, v, Red, Nil);
    assert ToMap(n) == ToMap(n.left)[k := v];
    PlugUpdate(cmp, Nil, n, path, k, v);
    LeafSorted(cmp, n, path);
    LeafInv(n, path);
    FixupOk(n, path);
  }

  /** `insert`: returns whether the key was new. */
  function Insert<K(==, !new), V>(cmp: (K, K) -> bool, t: RedBlackTree<K, V>, k: K, v: V): (r: (RedBlackTree<K, V>, bool))
    requires StrictTotalOrder(cmp) && Valid(cmp, t)
    ensures Valid(cmp, r.0)
    ensures ToMap(r.0.root) == ToMap(t.root)[k := v]
    ensures r.1 <==> k !in ToMap(t.root)
  {
    var (f, path) := Descend(cmp, t.root, k, []);
    if f.Node? then
      OverwriteOk(cmp, f, path, v);
      (RedBlackTree(Plug(Node(f.left, f.key, v, f.tag, f.right), path), t.size), false)
    else
      NewLeafOk(cmp, path, k, v);
      (RedBlackTree(Fixup(MkNode(Nil, k, v, Red, Nil), path), t.size + 1), true)
  }

  // ---------------------------------------------------------------------
  // Queries
  // ---------------------------------------------------------------------

  function Empty<K, V>(): RedBlackTree<K, V> {
    RedBlackTree(Nil, 0)
  }

  /** A new tree is valid under any order. */
  lemma EmptyValid<K, V>(cmp: (K, K) -> bool, t: RedBlackTree<K, V>)
    requires t == Empty()
    ensures Valid(cmp, t)
    ensures ToMap(t.root) == map[]
  {
  }

  /** `size`: the number of keys. */
  function Count<K(!new), V>(cmp: (K, K) -> bool, t: RedBlackTree<K, V>): (n: nat)
    requires StrictTotalOrder(cmp) && Valid(cmp, t)
    ensures n == |ToMap(t.root).Keys|
  {
    KeyCount(cmp, t.root);
    t.size
  }

  function IsEmpty<K(!new), V>(cmp: (K, K) -> bool, t: RedBlackTree<K, V>): (b: bool)
    requires StrictTotalOrder(cmp) && Valid(cmp, t)
    ensures b <==> ToMap(t.root) == map[]
  {
    assert t.root.Node? ==> t.root.key in ToMap(t.root) by {
      if t.root.Node? { LookupRoot(cmp, t.root); }
    }
    t.size == 0
  }

  /** `get`: the value stored under `k`, or `out_of_range`. */
  function Lookup<K(==, !new), V>(cmp: (K, K) -> bool, t: RedBlackTree<K, V>, k: K): (r: Result<V>)
    requires StrictTotalOrder(cmp) && Valid(cmp, t)
    ensures r.Ok? <==> k in ToMap(t.root)
    ensures r.Ok? ==> r.value == ToMap(t.root)[k]
    ensures r.Err? ==> r.error == OutOfRange
  {
    Get(cmp, t.root, k)
  }

  /** A red-black subtree is at most twice as tall as its black height
      (plus one for a red root). */
  lemma {:induction false} HeightByBlack<K, V>(t: RbNode<K, V>)
    requires BlackBal(t) && RedOk(t)
    ensures Height(t) + 1 <= 2 * BH(t) + (if Col(t) == Red then 1 else 0)
  {
    match t
    case Nil =>
    case Node(l, _, _, _, r) =>
      HeightByBlack(l);
      HeightByBlack(r);
  }

  /** A black-balanced subtree has at least 2^BH - 1 nodes. */
  lemma {:induction false} SizeByBlack<K, V>(t: RbNode<K, V>)
    requires BlackBal(t)
    ensures Size(t) + 1 >= Pow2(BH(t))
  {
    match t
    case Nil =>
    case Node(l, _, _, _, r) =>
      SizeByBlack(l);
      SizeByBlack(r);
  }

  /** The cached height of a node equals its real height. */
  lemma {:induction false} CachedHeight<K, V>(t: RbNode<K, V>)
    requires HeightsOk(t)
    ensures Ht(t) == Height(t)
  {
    match t
    case Nil =>
    case Node(l, _, _, _, r) =>
      CachedHeight(l);
      CachedHeight(r);
  }

  /** `height`: -1 when empty; at most twice the black height, and the tree
      holds at least 2^(black height) - 1 keys, so the height is logarithmic
      in the size. */
  function TreeHeight<K, V>(cmp: (K, K) -> bool, t: RedBlackTree<K, V>): (h: int)
    requires Valid(cmp, t)
    ensures h == Height(t.root)
    ensures h + 1 <= 2 * BH(t.root)
    ensures Pow2(BH(t.root)) <= t.size + 1
  {
    CachedHeight(t.root);
    HeightByBlack(t.root);
    SizeByBlack(t.root);
    Ht(t.root)
  }
}

=== FILE: seq_util.dfy ===
/** Sequence helpers used by the list and vector models. */
module SeqUtil {

  /** The reverse of a sequence, as a reference definition. */
  function Rev<T>(s: seq<T>): (r: seq<T>)
    ensures |r| == |s|
    ensures forall i :: 0 <= i < |s| ==> r[i] == s[|s| - 1 - i]
  {
    if s == [] then [] else Rev(s[1..]) + [s[0]]
  }

  lemma {:induction false} RevAppend<T>(a: seq<T>, b: seq<T>)
    ensures Rev(a + b) == Rev(b) + Rev(a)
  {
    var l, r := Rev(a + b), Rev(b) + Rev(a);
    assert |l| == |r|;
    forall i | 0 <= i < |l|
      ensures l[i] == r[i]
    {
      if i < |b| {
        assert r[i] == Rev(b)[i] == b[|b| - 1 - i];
      } else {
        assert r[i] == Rev(a)[i - |b|];
      }
    }
  }

  lemma {:induction false} RevRev<T>(s: seq<T>)
    ensures Rev(Rev(s)) == s
  {
    assert forall i :: 0 <= i < |s| ==> Rev(Rev(s))[i] == s[i];
  }

  /** `s` with the element at `i` removed, the others kept in order. */
  function RemoveAt<T>(s: seq<T>, i: nat): (r: seq<T>)
    requires i < |s|
    ensures |r| == |s| - 1
    ensures forall j :: 0 <= j < i ==> r[j] == s[j]
    ensures forall j :: i <= j < |r| ==> r[j] == s[j + 1]
  {
    s[..i] + s[i + 1..]
  }
}

=== FILE: src_linked_list.dfy ===
/** The earlier `LinkedList<T>` of src/linked_list.h: head pointer and
    size, with `front`, `push_front`, `size`, `empty` and `operator[]`. */
module SrcLinkedList {
  import opened Wrappers
  import opened Chains

  datatype LinkedList<T> = LinkedList(head: Chain<T>, size: nat)

  function Contents<T>(l: LinkedList<T>): seq<T> {
    Items(l.head)
  }

  ghost predicate Valid<T>(l: LinkedList<T>) {
    l.size == |Items(l.head)|
  }

  function Empty<T>(): LinkedList<T> {
    LinkedList(Null, 0)
  }

  /** The empty value holds nothing. */
  lemma EmptyHolds<T>(e: LinkedList<T>)
    requires e == Empty()
    ensures Valid(e) && Contents(e) == []
  {
  }

  function Size<T>(l: LinkedList<T>): (r: nat)
    requires Valid(l)
    ensures r == |Contents(l)|
  {
    l.size
  }

  function IsEmpty<T>(l: LinkedList<T>): (r: bool)
    requires Valid(l)
    ensures r <==> Contents(l) == []
  {
    l.size == 0
  }

  function Front<T>(l: LinkedList<T>): (r: Result<T>)
    ensures r.Ok? <==> Contents(l) != []
    ensures r.Err? ==> r.error == RuntimeError
    ensures r.Ok? ==> r.value == Contents(l)[0]
  {
    match l.head
    case Null => Err(RuntimeError)
    case Link(d, _) => Ok(d)
  }

  function PushFront<T>(l: LinkedList<T>, x: T): (r: LinkedList<T>)
    requires Valid(l)
    ensures Valid(r)
    ensures Contents(r) == [x] + Contents(l)
  {
    LinkedList(Link(x, l.head), l.size + 1)
  }

  function At<T>(l: LinkedList<T>, i: nat): (r: Result<T>)
    requires Valid(l)
    ensures r.Ok? <==> i < |Contents(l)|
    ensures r.Ok? ==> r.value == Contents(l)[i]
    ensures r.Err? ==> r.error == OutOfRange
  {
    if i >= l.size then Err(OutOfRange) else Walk(l.head, i)
  }

  /** Indexing after `push_front` shifts every position by one, and the
      front is index 0. */
  lemma AtAfterPushFront<T>(l: LinkedList<T>, x: T, i: nat)
    requires Valid(l)
    ensures At(PushFront(l, x), 0) == Ok(x) == Front(PushFront(l, x))
    ensures At(PushFront(l, x), i + 1) == At(l, i)
  {
  }

  /** The copy constructor: one fresh node per node of the other list, same
      data, same order, same size. */
  function Copy<T>(other: LinkedList<T>): (r: LinkedList<T>)
    requires Valid(other)
    ensures Valid(r)
    ensures Contents(r) == Contents(other)
  {
    LinkedList(FromItems(Items(other.head)), other.size)
  }

  /** A copy answers every index query as the original does. */
  lemma CopyAt<T>(other: LinkedList<T>, i: nat)
    requires Valid(other)
    ensures At(Copy(other), i) == At(other, i)
    ensures Front(Copy(other)) == Front(other)
  {
  }

  /** The move constructor swaps with a fresh empty list. */
  function Move<T>(l: LinkedList<T>): (r: (LinkedList<T>, LinkedList<T>))
    requires Valid(l)
    ensures Valid(r.0) && Valid(r.1)
    ensures Contents(r.0) == Contents(l) && Contents(r.1) == []
  {
    (l, Empty())
  }
}

=== FILE: src_linked_list_hpp.dfy ===
/** The `LinkedList<T>` of src/linked_list.hpp, with `prepend`, `get_at`,
    `size`, `is_empty` and the copy and move constructors. Errors here are
    thrown string literals. */
module SrcLinkedListHpp {
  import opened Wrappers
  import opened Chains

  datatype LinkedList<T> = LinkedList(head: Chain<T>, size: nat)

  function Contents<T>(l: LinkedList<T>): seq<T> {
    Items(l.head)
  }

  ghost predicate Valid<T>(l: LinkedList<T>) {
    l.size == |Items(l.head)|
  }

  function Empty<T>(): LinkedList<T> {
    LinkedList(Null, 0)
  }

  /** The empty value holds nothing. */
  lemma EmptyHolds<T>(e: LinkedList<T>)
    requires e == Empty()
    ensures Valid(e) && Contents(e) == []
  {
  }

  function Size<T>(l: LinkedList<T>): nat {
    l.size
  }

  /** On a consistent list `size` is the number of elements, and prepending
      adds one; the copy as written reports the original's size with no
      elements behind it. */
  lemma SizeCounts<T>(l: LinkedList<T>, x: T)
    requires Valid(l)
    ensures Size(l) == |Contents(l)|
    ensures Size(Prepend(l, x)) == Size(l) + 1
    ensures Size(CopyAsWritten(l)) == Size(l) && (Size(l) > 0 ==> !Valid(CopyAsWritten(l)))
  {
  }

  function IsEmpty<T>(l: LinkedList<T>): (r: bool)
    requires Valid(l)
    ensures r <==> Contents(l) == []
  {
    l.size == 0
  }

  function Prepend<T>(l: LinkedList<T>, x: T): (r: LinkedList<T>)
    requires Valid(l)
    ensures Valid(r)
    ensures Contents(r) == [x] + Contents(l)
  {
    LinkedList(Link(x, l.head), l.size + 1)
  }

  /** `get_at` on any state, consistent or not: the index is checked against
      `m_size` only, so a size larger than the chain walks into null. */
  function GetAt<T>(l: LinkedList<T>, i: nat): (r: Result<T>)
    ensures i >= l.size ==> r == Err(Thrown)
    ensures i < l.size && i < |Contents(l)| ==> r == Ok(Contents(l)[i])
    ensures i < l.size && i >= |Contents(l)| ==> r == Err(Undefined)
  {
    if i >= l.size then Err(Thrown) else Walk(l.head, i)
  }

  /** On a consistent list `get_at` is exactly indexing. */
  lemma GetAtValid<T>(l: LinkedList<T>, i: nat)
    requires Valid(l)
    ensures GetAt(l, i).Ok? <==> i < |Contents(l)|
    ensures GetAt(l, i).Ok? ==> GetAt(l, i).value == Contents(l)[i]
  {
  }

  /** The copy constructor as written: `this_current` is a reference bound
      to `m_head`, so each new node is stored into `m_head` and then
      overwritten by that node's null `next`. The copy keeps the size but
      no nodes. */
  function CopyAsWritten<T>(other: LinkedList<T>): (r: LinkedList<T>)
    ensures r.size == other.size
    ensures Contents(r) == []
  {
    LinkedList(Null, other.size)
  }

  /** Copying a non-empty list and reading its first element dereferences
      null. */
  lemma CopyAsWrittenLosesElements<T>(x: T)
    ensures Contents(Prepend(Empty(), x)) == [x]
    ensures GetAt(CopyAsWritten(Prepend(Empty(), x)), 0) == Err(Undefined)
  {
  }

  /** The copy the constructor evidently intends: fresh nodes holding the
      same data in the same order. */
  function Copy<T>(other: LinkedList<T>): (r: LinkedList<T>)
    requires Valid(other)
    ensures Valid(r)
    ensures Contents(r) == Contents(other)
  {
    LinkedList(FromItems(Items(other.head)), other.size)
  }

  lemma CopyGetAt<T>(other: LinkedList<T>, i: nat)
    requires Valid(other)
    ensures GetAt(Copy(other), i) == GetAt(other, i)
  {
  }

  function Move<T>(l: LinkedList<T>): (r: (LinkedList<T>, LinkedList<T>))
    requires Valid(l)
    ensures Valid(r.0) && Valid(r.1)
    ensures Contents(r.0) == Contents(l) && Contents(r.1) == []
  {
    (l, Empty())
  }
}

=== FILE: stack.dfy ===
/** The linked `Stack<T>` of include/stack.h: a chain whose head is the top. */
module Stack {
  import opened Wrappers
  import opened SeqUtil
  import opened Chains

  datatype Stack<T> = Stack(head: Chain<T>)

  /** The contents from top to bottom. */
  function Contents<T>(s: Stack<T>): seq<T> {
    Items(s.head)
  }

  function Empty<T>(): Stack<T> {
    Stack(Null)
  }

  /** The empty value holds nothing. */
  lemma EmptyHolds<T>(e: Stack<T>)
    requires e == Empty()
    ensures Contents(e) == []
  {
  }

  function IsEmpty<T>(s: Stack<T>): (r: bool)
    ensures r <==> Contents(s) == []
  {
    s.head.Null?
  }

  function Push<T>(s: Stack<T>, x: T): (r: Stack<T>)
    ensures Contents(r) == [x] + Contents(s)
  {
    Stack(Link(x, s.head))
  }

  /** `pop`: "stack underflow" on an empty stack. */
  function Pop<T>(s: Stack<T>): (r: Result<(Stack<T>, T)>)
    ensures r.Ok? <==> Contents(s) != []
    ensures r.Err? ==> r.error == RuntimeError
    ensures r.Ok? ==> [r.value.1] + Contents(r.value.0) == Contents(s)
  {
    match s.head
    case Null => Err(RuntimeError)
    case Link(d, n) => Ok((Stack(n), d))
  }

  /** `top`: "stack is empty" on an empty stack. */
  function Top<T>(s: Stack<T>): (r: Result<T>)
    ensures r.Ok? <==> Contents(s) != []
    ensures r.Err? ==> r.error == RuntimeError
    ensures r.Ok? ==> r.value == Contents(s)[0]
  {
    match s.head
    case Null => Err(RuntimeError)
    case Link(d, _) => Ok(d)
  }

  /** Popping undoes a push. */
  lemma PopPush<T>(s: Stack<T>, x: T)
    ensures Pop(Push(s, x)) == Ok((s, x))
    ensures Top(Push(s, x)) == Ok(x)
  {
  }

  function PushAll<T>(s: Stack<T>, xs: seq<T>): Stack<T>
    decreases |xs|
  {
    if xs == [] then s else PushAll(Push(s, xs[0]), xs[1..])
  }

  /** Last in, first out: pushing a sequence leaves it reversed on top. */
  lemma {:induction false} PushAllReverses<T>(s: Stack<T>, xs: seq<T>)
    ensures Contents(PushAll(s, xs)) == Rev(xs) + Contents(s)
    decreases |xs|
  {
    if xs != [] {
      PushAllReverses(Push(s, xs[0]), xs[1..]);
      assert xs == [xs[0]] + xs[1..];
      RevAppend([xs[0]], xs[1..]);
    }
  }

  /** The move constructor swaps heads with a fresh empty stack. */
  function Move<T>(s: Stack<T>): (r: (Stack<T>, Stack<T>))
    ensures Contents(r.0) == Contents(s) && Contents(r.1) == []
  {
    (s, Empty())
  }
}

=== FILE: trie.dfy ===
/** The lowercase `Trie` of include/trie.h and src/trie.cpp.

    A node has one child slot per letter 'a'..'z' and an end-of-word mark;
    the trie's root pointer starts null. Characters are Dafny `char`s: any
    character outside 'a'..'z' is what the byte-based source rejects. */
module Trie {
  import opened Wrappers

  /** `Node::SIZE`. */
  const Letters: nat := 26

  datatype Node = Node(children: seq<Option<Node>>, isEnd: bool)

  datatype Trie = Trie(root: Option<Node>)

  predicate IsLower(c: char) {
    'a' <= c <= 'z'
  }

  predicate AllLower(w: string) {
    forall i :: 0 <= i < |w| ==> IsLower(w[i])
  }

  /** `idx`: the child slot of a lowercase letter. */
  function Index(c: char): (r: nat)
    requires IsLower(c)
    ensures r < Letters
  {
    c as int - 'a' as int
  }

  /** Exactly 26 child slots everywhere. */
  ghost predicate Valid(n: Node) {
    |n.children| == Letters
    && forall k :: 0 <= k < |n.children| && n.children[k].Some? ==> Valid(n.children[k].value)
  }

  ghost predicate ValidSlot(s: Option<Node>) {
    s.Some? ==> Valid(s.value)
  }

  /** `new Node()`: no children, not an end of word. */
  function NewNode(): (r: Node)
    ensures Valid(r) && !r.isEnd
    ensures forall k :: 0 <= k < Letters ==> r.children[k].None?
  {
    Node(seq(Letters, _ => None), false)
  }

  /** The node reached from slot s by following the letters of w. */
  function Find(s: Option<Node>, w: string): (r: Option<Node>)
    requires ValidSlot(s) && AllLower(w)
    ensures ValidSlot(r)
    decreases |w|
  {
    if s.None? then None
    else if w == [] then s
    else Find(s.value.children[Index(w[0])], w[1..])
  }

  /** `has_prefix(u)` is meant to hold exactly for these. */
  ghost predicate IsPath(s: Option<Node>, u: string)
    requires ValidSlot(s) && AllLower(u)
  {
    Find(s, u).Some?
  }

  /** `contains(u)` is meant to hold exactly for these. */
  ghost predicate IsWord(s: Option<Node>, u: string)
    requires ValidSlot(s) && AllLower(u)
  {
    Find(s, u).Some? && Find(s, u).value.isEnd
  }

  /** The walk shared by `contains` and `has_prefix`: every character is
      looked up with the bounds-checked `children.at`, so a character
      outside 'a'..'z' reached before the walk falls off the trie throws
      `out_of_range`. */
  function Walk(n: Node, w: string, wantEnd: bool): (r: Result<bool>)
    requires Valid(n)
    ensures AllLower(w) ==> r == Ok(if wantEnd then IsWord(Some(n), w) else IsPath(Some(n), w))
    ensures r.Err? ==> r.error == OutOfRange && !AllLower(w)
    ensures r == Ok(true) ==> AllLower(w)
    decreases |w|
  {
    if w == [] then Ok(if wantEnd then n.isEnd else true)
    else if !IsLower(w[0]) then Err(OutOfRange)
    else
      match n.children[Index(w[0])]
      case None =>
        assert AllLower(w) ==> Find(Some(n), w) == None by {
          if AllLower(w) {
            assert AllLower(w[1..]);
            assert Find(Some(n), w) == Find(n.children[Index(w[0])], w[1..]);
          }
        }
        Ok(false)
      case Some(c) =>
        var r := Walk(c, w[1..], wantEnd);
        assert AllLower(w[1..]) ==> AllLower(w);
        assert AllLower(w) ==> AllLower(w[1..]);
        r
  }

  function Contains(t: Trie, w: string): (r: Result<bool>)
    requires ValidSlot(t.root)
    ensures AllLower(w) ==> r == Ok(IsWord(t.root, w))
    ensures r.Err? ==> r.error == OutOfRange && !AllLower(w)
    ensures r == Ok(true) ==> AllLower(w) && IsWord(t.root, w)
    ensures t.root.None? ==> r == Ok(false)
  {
    if t.root.None? then Ok(false) else Walk(t.root.value, w, true)
  }

  function HasPrefix(t: Trie, w: string): (r: Result<bool>)
    requires ValidSlot(t.root)
    ensures AllLower(w) ==> r == Ok(IsPath(t.root, w))
    ensures r.Err? ==> r.error == OutOfRange && !AllLower(w)
    ensures r == Ok(true) ==> AllLower(w) && IsPath(t.root, w)
    ensures t.root.None? ==> r == Ok(false)
  {
    if t.root.None? then Ok(false) else Walk(t.root.value, w, false)
  }

  /** `insert` on the slot `*cur`, exactly as the loop runs: each character
      is checked BEFORE the node for the current slot is created, so on a
      bad character the nodes made for the earlier characters stay. */
  function InsertSlot(s: Option<Node>, w: string): (r: (Option<Node>, Outcome))
    requires ValidSlot(s)
    ensures ValidSlot(r.0)
    ensures r.1 == Pass <==> AllLower(w)
    ensures r.1.Fail? ==> r.1.error == RuntimeError
    ensures AllLower(w) ==> r.0.Some?
    decreases |w|
  {
    if w == [] then
      var n := if s.None? then NewNode() else s.value;
      (Some(n.(isEnd := true)), Pass)
    else if !IsLower(w[0]) then (s, Fail(RuntimeError))
    else
      var n := if s.None? then NewNode() else s.value;
      var i := Index(w[0]);
      var (c, o) := InsertSlot(n.children[i], w[1..]);
      assert AllLower(w[1..]) ==> AllLower(w);
      (Some(n.(children := n.children[i := c])), o)
  }

  /** Inserting a word already present changes nothing. */
  lemma {:induction false} InsertSlotPresent(s: Option<Node>, w: string)
    requires ValidSlot(s) && AllLower(w) && IsWord(s, w)
    ensures InsertSlot(s, w) == (s, Pass)
    decreases |w|
  {
    if w != [] {
      var n := s.value;
      var i := Index(w[0]);
      assert AllLower(w[1..]);
      assert Find(s, w) == Find(n.children[i], w[1..]);
      InsertSlotPresent(n.children[i], w[1..]);
      assert n.children[i := n.children[i]] == n.children;
    }
  }

  /** `insert` as written: throws "Trie only accepts lowercase ASCII
      characters." but keeps the nodes it made before the bad character. */
  function InsertAsWritten(t: Trie, w: string): (r: (Trie, Outcome))
    requires ValidSlot(t.root)
    ensures ValidSlot(r.0.root)
    ensures r.1 == Pass <==> AllLower(w)
    ensures r.1.Fail? ==> r.1.error == RuntimeError
  {
    var (root, o) := InsertSlot(t.root, w);
    (Trie(root), o)
  }

  /** Inserting "ab1" into an empty trie fails, yet afterwards "a" is
      reported as a prefix although no word has been stored at all. */
  lemma FailedInsertLeavesPrefix()
    ensures InsertAsWritten(Trie(None), "ab1").1 == Fail(RuntimeError)
    ensures HasPrefix(InsertAsWritten(Trie(None), "ab1").0, "a") == Ok(true)
    ensures Contains(InsertAsWritten(Trie(None), "ab1").0, "a") == Ok(false)
    ensures Contains(InsertAsWritten(Trie(None), "ab1").0, "ab") == Ok(false)
    ensures HasPrefix(InsertAsWritten(Trie(None), "ab1").0, "ab") == Ok(false)
  {
    var a := Index('a');
    var b := Index('b');
    assert InsertSlot(None, "1") == (None, Fail(RuntimeError));
    var inner := InsertSlot(None, "b1").0;
    assert inner.value.children[b] == None && !inner.value.isEnd;
    var t := InsertAsWritten(Trie(None), "ab1").0;
    assert t.root.value.children[a] == inner;
  }

  /** `insert` with the word validated before any node is made. */
  function Insert(t: Trie, w: string): (r: (Trie, Outcome))
    requires ValidSlot(t.root)
    ensures ValidSlot(r.0.root)
    ensures r.1 == Pass <==> AllLower(w)
    ensures r.1.Fail? ==> r.1.error == RuntimeError && r.0 == t
    ensures r.1 == Pass ==> r.0 == InsertAsWritten(t, w).0
  {
    if AllLower(w) then InsertAsWritten(t, w) else (t, Fail(RuntimeError))
  }

  ghost predicate IsPrefix(u: string, w: string) {
    |u| <= |w| && u == w[..|u|]
  }

  /** After inserting w the paths are the old ones plus the prefixes of w,
      and the words are the old ones plus w. */
  lemma {:induction false} InsertSlotFind(s: Option<Node>, w: string, u: string)
    requires ValidSlot(s) && AllLower(w) && AllLower(u)
    ensures IsPath(InsertSlot(s, w).0, u) <==> IsPath(s, u) || IsPrefix(u, w)
    ensures IsWord(InsertSlot(s, w).0, u) <==> IsWord(s, u) || u == w
    decreases |w|
  {
    var r := InsertSlot(s, w).0;
    var n := if s.None? then NewNode() else s.value;
    if w == [] {
      if u != [] {
        assert Find(r, u) == Find(n.children[Index(u[0])], u[1..]);
        assert Find(Some(n), u) == Find(n.children[Index(u[0])], u[1..]);
        if s.None? {
          NewNodeFindsNothing(u[1..]);
        }
      }
    } else {
      var i := Index(w[0]);
      assert AllLower(w[1..]);
      if u != [] {
        assert AllLower(u[1..]);
        var j := Index(u[0]);
        if j == i {
          InsertSlotFind(n.children[i], w[1..], u[1..]);
          assert u[0] == w[0];
          assert IsPrefix(u[1..], w[1..]) <==> IsPrefix(u, w);
          assert u[1..] == w[1..] <==> u == w;
          if s.None? {
            NewNodeFindsNothing(u[1..]);
          }
        } else {
          assert u[0] != w[0];
          assert !IsPrefix(u, w);
          if s.None? {
            NewNodeFindsNothing(u[1..]);
          }
        }
      }
    }
  }

  lemma NewNodeFindsNothing(u: string)
    requires AllLower(u)
    ensures Find(None, u) == None
  {
  }

  /** Inserted words are found, and every prefix of them is a prefix. */
  lemma InsertThenContains(t: Trie, w: string, u: string)
    requires ValidSlot(t.root) && AllLower(w) && AllLower(u)
    ensures Contains(Insert(t, w).0, w) == Ok(true)
    ensures Contains(Insert(t, w).0, u) == Ok(IsWord(t.root, u) || u == w)
    ensures IsPrefix(u, w) ==> HasPrefix(Insert(t, w).0, u) == Ok(true)
  {
    InsertSlotFind(t.root, w, w);
    InsertSlotFind(t.root, w, u);
  }

  /** No dead ends: every node ends a word or has a child. */
  ghost predicate Lean(n: Node)
    requires Valid(n)
  {
    (n.isEnd || exists k :: 0 <= k < |n.children| && n.children[k].Some?)
    && forall k :: 0 <= k < |n.children| && n.children[k].Some? ==> Lean(n.children[k].value)
  }

  ghost predicate LeanSlot(s: Option<Node>)
    requires ValidSlot(s)
  {
    s.Some? ==> Lean(s.value)
  }

  /** A successful insert never creates a dead end. */
  lemma {:induction false} InsertSlotLean(s: Option<Node>, w: string)
    requires ValidSlot(s) && LeanSlot(s) && AllLower(w)
    ensures LeanSlot(InsertSlot(s, w).0)
    decreases |w|
  {
    if w != [] {
      var n := if s.None? then NewNode() else s.value;
      var i := Index(w[0]);
      assert AllLower(w[1..]);
      InsertSlotLean(n.children[i], w[1..]);
      var r := InsertSlot(s, w).0.value;
      assert r.children[i].Some?;
    }
  }

  /** In a trie without dead ends some word continues every path. */
  lemma {:induction false} SomeWordBelow(n: Node) returns (w: string)
    requires Valid(n) && Lean(n)
    ensures AllLower(w) && IsWord(Some(n), w)
  {
    if n.isEnd {
      w := [];
    } else {
      var k :| 0 <= k < |n.children| && n.children[k].Some?;
      var c := (('a' as int) + k) as char;
      assert Index(c) == k;
      var w' := SomeWordBelow(n.children[k].value);
      w := [c] + w';
      assert w[1..] == w';
    }
  }

  lemma {:induction false} FindAppend(s: Option<Node>, p: string, w: string)
    requires ValidSlot(s) && AllLower(p) && AllLower(w)
    ensures AllLower(p + w)
    ensures Find(s, p + w) == Find(Find(s, p), w)
    decreases |p|
  {
    assert AllLower(p + w);
    if s.Some? && p != [] {
      assert (p + w)[1..] == p[1..] + w;
      assert (p + w)[0] == p[0];
      FindAppend(s.value.children[Index(p[0])], p[1..], w);
    } else if s.None? {
      assert Find(s, p + w) == None;
      assert Find(s, p) == None;
    } else {
      assert p + w == w;
    }
  }

  /** With the validated insert, `has_prefix(p)` holds exactly when some
      stored word starts with p. */
  lemma HasPrefixMeansWord(t: Trie, p: string)
    requires ValidSlot(t.root) && LeanSlot(t.root) && AllLower(p)
    ensures HasPrefix(t, p) == Ok(true) <==> exists w :: AllLower(w) && IsWord(t.root, p + w) && AllLower(p + w)
  {
    if HasPrefix(t, p) == Ok(true) {
      var n := Find(t.root, p).value;
      LeanBelow(t.root, p);
      var w := SomeWordBelow(n);
      FindAppend(t.root, p, w);
    }
    if w :| AllLower(w) && IsWord(t.root, p + w) && AllLower(p + w) {
      FindAppend(t.root, p, w);
    }
  }

  lemma {:induction false} LeanBelow(s: Option<Node>, p: string)
    requires ValidSlot(s) && LeanSlot(s) && AllLower(p)
    ensures LeanSlot(Find(s, p))
    decreases |p|
  {
    if s.Some? && p != [] {
      LeanBelow(s.value.children[Index(p[0])], p[1..]);
    }
  }

  /** The validated insert keeps the trie free of dead ends. */
  lemma InsertKeepsLean(t: Trie, w: string)
    requires ValidSlot(t.root) && LeanSlot(t.root)
    ensures LeanSlot(Insert(t, w).0.root)
  {
    if AllLower(w) {
      InsertSlotLean(t.root, w);
    }
  }
}

=== FILE: vec.dfy ===
/** The growable array `Vec<T>` of include/vec.h.

    The heap buffer is abstracted to the sequence of its `size` live
    elements plus the number of allocated slots; slots past `size` hold
    nothing observable. Copying and moving are value operations. */
module Vec {
  import opened Wrappers

  datatype Vec<T> = Vec(elems: seq<T>, capacity: nat)

  /** The class invariant: the live elements fit in the allocation. */
  ghost predicate Valid<T>(v: Vec<T>) {
    |v.elems| <= v.capacity
  }

  /** `Vec()`: no allocation at all. */
  function Empty<T>(): Vec<T> {
    Vec([], 0)
  }

  /** The empty value holds nothing. */
  lemma EmptyHolds<T>(e: Vec<T>)
    requires e == Empty()
    ensures Valid(e) && e.elems == [] && e.capacity == 0
  {
  }

  function WithCapacity<T>(n: nat): Vec<T> {
    Vec([], n)
  }

  /** A vector made with room for n holds nothing and has that room. */
  lemma WithCapacityHolds<T>(n: nat, v: Vec<T>)
    requires v == WithCapacity(n)
    ensures Valid(v) && v.elems == [] && v.capacity == n
  {
  }

  function Size<T>(v: Vec<T>): nat {
    |v.elems|
  }

  function IsEmpty<T>(v: Vec<T>): bool {
    |v.elems| == 0
  }

  /** `operator[]`: bounds-checked against `size`, not `capacity`. */
  function At<T>(v: Vec<T>, i: nat): (r: Result<T>)
    ensures r.Ok? <==> i < |v.elems|
    ensures r.Ok? ==> r.value == v.elems[i]
    ensures r.Err? ==> r.error == OutOfRange
  {
    if i >= |v.elems| then Err(OutOfRange) else Ok(v.elems[i])
  }

  function First<T>(v: Vec<T>): (r: Result<T>)
    ensures r.Ok? <==> |v.elems| > 0
    ensures r.Ok? ==> r == At(v, 0)
    ensures r.Err? ==> r.error == OutOfRange
  {
    if |v.elems| == 0 then Err(OutOfRange) else Ok(v.elems[0])
  }

  function Last<T>(v: Vec<T>): (r: Result<T>)
    ensures r.Ok? <==> |v.elems| > 0
    ensures r.Ok? ==> r == At(v, |v.elems| - 1)
    ensures r.Err? ==> r.error == OutOfRange
  {
    if |v.elems| == 0 then Err(OutOfRange) else Ok(v.elems[|v.elems| - 1])
  }

  /** `push` exactly as written: when full the capacity doubles, so a vector
      that never allocated (capacity 0) stays at capacity 0 and the store at
      index `size` lands outside the allocation. */
  function PushAsWritten<T>(v: Vec<T>, x: T): (r: Result<Vec<T>>)
    requires Valid(v)
    ensures r.Ok? <==> v.capacity > 0
    ensures r.Err? ==> r.error == Undefined
    ensures r.Ok? ==> Valid(r.value) && r.value.elems == v.elems + [x]
  {
    var cap := if |v.elems| == v.capacity then 2 * v.capacity else v.capacity;
    if |v.elems| < cap then Ok(Vec(v.elems + [x], cap)) else Err(Undefined)
  }

  /** The smallest counterexample: pushing onto a default-constructed `Vec`. */
  lemma PushOntoDefaultIsUndefined<T>(x: T)
    ensures PushAsWritten(Empty(), x) == Err(Undefined)
  {
  }

  /** `push` with the growth the code evidently intends: a full vector gets
      twice the room, and at least one slot. */
  function Push<T>(v: Vec<T>, x: T): (r: Vec<T>)
    requires Valid(v)
    ensures Valid(r)
    ensures r.elems == v.elems + [x]
    ensures |v.elems| < v.capacity ==> r.capacity == v.capacity
    ensures |v.elems| == v.capacity ==> r.capacity == if v.capacity == 0 then 1 else 2 * v.capacity
  {
    var cap := if |v.elems| < v.capacity then v.capacity
               else if v.capacity == 0 then 1 else 2 * v.capacity;
    Vec(v.elems + [x], cap)
  }

  /** Wherever the code as written is defined, the corrected push agrees. */
  lemma PushAgreesWhereDefined<T>(v: Vec<T>, x: T)
    requires Valid(v) && v.capacity > 0
    ensures PushAsWritten(v, x) == Ok(Push(v, x))
  {
  }

  /** `pop`: returns the last element; capacity is kept. */
  function Pop<T>(v: Vec<T>): (r: Result<(Vec<T>, T)>)
    ensures r.Ok? <==> |v.elems| > 0
    ensures r.Err? ==> r.error == OutOfRange
    ensures r.Ok? ==> r.value.0.elems + [r.value.1] == v.elems
    ensures r.Ok? ==> r.value.0.capacity == v.capacity
  {
    if |v.elems| == 0 then Err(OutOfRange)
    else Ok((Vec(v.elems[..|v.elems| - 1], v.capacity), v.elems[|v.elems| - 1]))
  }

  /** Push then pop gives back the pushed element and the old contents. */
  lemma PushPop<T>(v: Vec<T>, x: T)
    requires Valid(v)
    ensures Pop(Push(v, x)).Ok?
    ensures Pop(Push(v, x)).value.1 == x
    ensures Pop(Push(v, x)).value.0.elems == v.elems
  {
    assert (v.elems + [x])[..|v.elems|] == v.elems;
  }

  /** Indexing after a push: old positions unchanged, the new one holds x. */
  lemma AtAfterPush<T>(v: Vec<T>, x: T, i: nat)
    requires Valid(v)
    ensures i < |v.elems| ==> At(Push(v, x), i) == At(v, i)
    ensures At(Push(v, x), |v.elems|) == Ok(x)
    ensures i > |v.elems| ==> At(Push(v, x), i) == Err(OutOfRange)
  {
  }

  /** The move constructor: the destination takes the buffer, the source is
      left as a default-constructed vector. */
  function Move<T>(v: Vec<T>): (r: (Vec<T>, Vec<T>))
    ensures r.0 == v
    ensures r.1 == Empty()
  {
    (v, Vec([], 0))
  }

  /** `size` counts the elements and `is_empty` tests for none: a push adds
      one, a pop removes one, and only an empty Vec has no first element. */
  lemma SizeCounts<T>(v: Vec<T>, x: T)
    requires Valid(v)
    ensures Size(Push(v, x)) == Size(v) + 1 && !IsEmpty(Push(v, x))
    ensures Pop(v).Ok? ==> Size(Pop(v).value.0) == Size(v) - 1
    ensures IsEmpty(v) <==> Pop(v).Err?
    ensures IsEmpty(v) <==> First(v).Err?
  {
  }
}

=== FILE: vector.dfy ===
/** The growable array `Vector<T>` of src/vector.hpp.

    As for `Vec`, the buffer is abstracted to its live elements and the
    allocated slot count. This class throws string literals (`Thrown`)
    rather than standard exceptions. */
module Vector {
  import opened Wrappers

  datatype Vector<T> = Vector(elems: seq<T>, capacity: nat)

  ghost predicate Valid<T>(v: Vector<T>) {
    |v.elems| <= v.capacity
  }

  function Empty<T>(): Vector<T> {
    Vector([], 0)
  }

  /** The empty value holds nothing. */
  lemma EmptyHolds<T>(e: Vector<T>)
    requires e == Empty()
    ensures Valid(e) && e.elems == [] && e.capacity == 0
  {
  }

  function Size<T>(v: Vector<T>): nat {
    |v.elems|
  }

  function IsEmpty<T>(v: Vector<T>): bool {
    |v.elems| == 0
  }

  /** `with_capacity(n)`: empty, with exactly n slots (none for n == 0). */
  function WithCapacity<T>(n: nat): Vector<T> {
    if n == 0 then Empty() else Vector([], n)
  }

  /** A vector made with room for n holds nothing and has that room. */
  lemma WithCapacityHolds<T>(n: nat, v: Vector<T>)
    requires v == WithCapacity(n)
    ensures Valid(v) && v.elems == [] && v.capacity == n
  {
  }

  /** `reserve(c)`: grows the allocation to c slots, never shrinks it. */
  function Reserve<T>(v: Vector<T>, c: nat): (r: Vector<T>)
    requires Valid(v)
    ensures Valid(r)
    ensures r.elems == v.elems
    ensures r.capacity >= v.capacity && r.capacity >= c
    ensures r.capacity == v.capacity || r.capacity == c
  {
    if v.capacity >= c then v else Vector(v.elems, c)
  }

  /** `push` exactly as written: a full vector reserves twice its capacity,
      which for capacity 0 reserves nothing, and the store then goes through
      the still-null data pointer. */
  function PushAsWritten<T>(v: Vector<T>, x: T): (r: Result<Vector<T>>)
    requires Valid(v)
    ensures r.Ok? <==> v.capacity > 0
    ensures r.Err? ==> r.error == Undefined
    ensures r.Ok? ==> Valid(r.value) && r.value.elems == v.elems + [x]
  {
    var w := if |v.elems| == v.capacity then Reserve(v, 2 * v.capacity) else v;
    if |w.elems| < w.capacity then Ok(Vector(w.elems + [x], w.capacity)) else Err(Undefined)
  }

  lemma PushOntoDefaultIsUndefined<T>(x: T)
    ensures PushAsWritten(Empty(), x) == Err(Undefined)
  {
  }

  /** `push` reserving at least one slot when the vector is full. */
  function Push<T>(v: Vector<T>, x: T): (r: Vector<T>)
    requires Valid(v)
    ensures Valid(r)
    ensures r.elems == v.elems + [x]
    ensures |v.elems| < v.capacity ==> r.capacity == v.capacity
    ensures |v.elems| == v.capacity ==> r.capacity == if v.capacity == 0 then 1 else 2 * v.capacity
  {
    var w := if |v.elems| < v.capacity then v
             else Reserve(v, if v.capacity == 0 then 1 else 2 * v.capacity);
    Vector(w.elems + [x], w.capacity)
  }

  lemma PushAgreesWhereDefined<T>(v: Vector<T>, x: T)
    requires Valid(v) && v.capacity > 0
    ensures PushAsWritten(v, x) == Ok(Push(v, x))
  {
  }

  /** The initializer-list constructor: allocates exactly |xs| slots, then
      pushes the elements one by one, so no push ever has to grow. */
  method FromList<T>(xs: seq<T>) returns (r: Vector<T>)
    ensures Valid(r)
    ensures r.elems == xs
    ensures r.capacity == |xs|
  {
    r := Vector([], |xs|);
    var i := 0;
    while i < |xs|
      invariant 0 <= i <= |xs|
      invariant r.elems == xs[..i]
      invariant r.capacity == |xs|
    {
      var pushed := PushAsWritten(r, xs[i]);
      r := pushed.value;
      i := i + 1;
    }
  }

  /** `pop`: throws "vector underflow" on an empty vector. */
  function Pop<T>(v: Vector<T>): (r: Result<(Vector<T>, T)>)
    ensures r.Ok? <==> |v.elems| > 0
    ensures r.Err? ==> r.error == Thrown
    ensures r.Ok? ==> r.value.0.elems + [r.value.1] == v.elems
    ensures r.Ok? ==> r.value.0.capacity == v.capacity
  {
    if |v.elems| == 0 then Err(Thrown)
    else Ok((Vector(v.elems[..|v.elems| - 1], v.capacity), v.elems[|v.elems| - 1]))
  }

  function At<T>(v: Vector<T>, i: nat): (r: Result<T>)
    ensures r.Ok? <==> i < |v.elems|
    ensures r.Ok? ==> r.value == v.elems[i]
    ensures r.Err? ==> r.error == Thrown
  {
    if i >= |v.elems| then Err(Thrown) else Ok(v.elems[i])
  }

  /** `concat`: appends a copy of `other`, reserving the combined size. */
  function Concat<T>(v: Vector<T>, other: Vector<T>): (r: Vector<T>)
    requires Valid(v) && Valid(other)
    ensures Valid(r)
    ensures r.elems == v.elems + other.elems
    ensures |r.elems| == |v.elems| + |other.elems|
    ensures other.elems == [] ==> r == v
    ensures r.capacity >= v.capacity
  {
    if |other.elems| == 0 then v
    else
      var w := Reserve(v, |v.elems| + |other.elems|);
      Vector(w.elems + other.elems, w.capacity)
  }

  /** `operator==`: compares sizes, then elements pairwise. */
  method Equal<T(==)>(a: Vector<T>, b: Vector<T>) returns (eq: bool)
    ensures eq <==> a.elems == b.elems
  {
    if |a.elems| != |b.elems| {
      return false;
    }
    var i := 0;
    while i < |a.elems|
      invariant 0 <= i <= |a.elems|
      invariant a.elems[..i] == b.elems[..i]
    {
      if a.elems[i] != b.elems[i] {
        return false;
      }
      i := i + 1;
    }
    assert a.elems == a.elems[..i];
    return true;
  }

  /** The move constructor leaves the source with size 0 and capacity 0. */
  function Move<T>(v: Vector<T>): (r: (Vector<T>, Vector<T>))
    ensures r.0 == v
    ensures r.1.elems == [] && r.1.capacity == 0
  {
    (v, Empty())
  }

  /** Push then pop gives back the pushed element and the old contents. */
  lemma PushPop<T>(v: Vector<T>, x: T)
    requires Valid(v)
    ensures Pop(Push(v, x)).Ok?
    ensures Pop(Push(v, x)).value.1 == x
    ensures Pop(Push(v, x)).value.0.elems == v.elems
  {
    assert (v.elems + [x])[..|v.elems|] == v.elems;
  }

  /** Indexing after a push: old positions unchanged, the new one holds x. */
  lemma AtAfterPush<T>(v: Vector<T>, x: T, i: nat)
    requires Valid(v)
    ensures i < |v.elems| ==> At(Push(v, x), i) == At(v, i)
    ensures At(Push(v, x), |v.elems|) == Ok(x)
    ensures i > |v.elems| ==> At(Push(v, x), i) == Err(Thrown)
  {
  }

  /** `size` counts the elements and `is_empty` tests for none: a push adds
      one, a pop removes one, and only an empty Vector throws on pop. */
  lemma SizeCounts<T>(v: Vector<T>, x: T)
    requires Valid(v)
    ensures Size(Push(v, x)) == Size(v) + 1 && !IsEmpty(Push(v, x))
    ensures Pop(v).Ok? ==> Size(Pop(v).value.0) == Size(v) - 1
    ensures IsEmpty(v) <==> Pop(v).Err?
    ensures IsEmpty(v) <==> At(v, 0).Err?
  {
  }
}

=== FILE: weave.dfy ===
/** In-order reading of a multi-way node.

    A node with entries `e0 .. e(n-1)` and children `c0 .. cn` reads
    `c0 e0 c1 e1 .. e(n-1) cn`. `Weave` builds that reading from the
    readings of the children (`parts`) and the entries. `Pre` and `Post`
    are what lies before and after one child: the lemmas below let a proof
    change one child, or two neighbouring children and the entry between
    them, and keep the rest of the reading fixed. */
module Weaving {

  function Weave<E>(parts: seq<seq<E>>, es: seq<E>): seq<E>
    requires |parts| == |es| + 1
  {
    if |es| == 0 then parts[0] else parts[0] + [es[0]] + Weave(parts[1..], es[1..])
  }

  /** What lies before the child that follows `parts` and `es` (which are
      equally long): their reading, ending with the last entry. */
  function Pre<E>(parts: seq<seq<E>>, es: seq<E>): (r: seq<E>)
    requires |parts| == |es|
    ensures |parts| > 0 ==> |r| > 0 && r[|r| - 1] == es[|es| - 1]
    ensures |parts| == 0 ==> r == []
  {
    if |parts| == 0 then [] else Weave(parts, es[..|es| - 1]) + [es[|es| - 1]]
  }

  /** What lies after the child that precedes `parts` and `es` (which are
      equally long): the first entry, then their reading. */
  function Post<E>(parts: seq<seq<E>>, es: seq<E>): (r: seq<E>)
    requires |parts| == |es|
    ensures |parts| > 0 ==> |r| > 0 && r[0] == es[0]
    ensures |parts| == 0 ==> r == []
  {
    if |parts| == 0 then [] else [es[0]] + Weave(parts, es[1..])
  }

  /** Cutting a node's reading at one of its entries. */
  lemma {:induction false} WeaveCat<E>(p1: seq<seq<E>>, e1: seq<E>, e: E, p2: seq<seq<E>>, e2: seq<E>)
    requires |p1| == |e1| + 1 && |p2| == |e2| + 1
    ensures Weave(p1 + p2, e1 + [e] + e2) == Weave(p1, e1) + [e] + Weave(p2, e2)
    decreases |e1|
  {
    var ps, es := p1 + p2, e1 + [e] + e2;
    assert ps[0] == p1[0];
    if |e1| == 0 {
      assert ps[1..] == p2 && es[0] == e && es[1..] == e2;
    } else {
      assert ps[1..] == p1[1..] + p2 && es[0] == e1[0] && es[1..] == e1[1..] + [e] + e2;
      WeaveCat(p1[1..], e1[1..], e, p2, e2);
    }
  }

  lemma {:induction false} WeaveHead<E>(x: seq<E>, b: seq<seq<E>>, eb: seq<E>)
    requires |b| == |eb|
    ensures Weave([x] + b, eb) == x + Post(b, eb)
  {
    if |eb| > 0 {
      assert ([x] + b)[1..] == b;
    }
  }

  /** The reading of a node around its child `x`. */
  lemma {:induction false} WeaveMid<E>(a: seq<seq<E>>, ea: seq<E>, x: seq<E>, b: seq<seq<E>>, eb: seq<E>)
    requires |a| == |ea| && |b| == |eb|
    ensures Weave(a + [x] + b, ea + eb) == Pre(a, ea) + x + Post(b, eb)
  {
    if |a| == 0 {
      assert a + [x] + b == [x] + b && ea + eb == eb;
      WeaveHead(x, b, eb);
    } else {
      var ea', e := ea[..|ea| - 1], ea[|ea| - 1];
      assert Pre(a, ea) == Weave(a, ea') + [e];
      assert ea' + [e] + eb == ea + eb;
      assert a + ([x] + b) == a + [x] + b;
      WeaveCat(a, ea', e, [x] + b, eb);
      WeaveHead(x, b, eb);
    }
  }

  /** The reading of a node around two neighbouring children and the entry
      between them. */
  lemma {:induction false} WeaveMid2<E>(a: seq<seq<E>>, ea: seq<E>, x: seq<E>, e: E, y: seq<E>, b: seq<seq<E>>, eb: seq<E>)
    requires |a| == |ea| && |b| == |eb|
    ensures Weave(a + [x, y] + b, ea + [e] + eb) == Pre(a, ea) + x + [e] + y + Post(b, eb)
  {
    assert a + [x, y] + b == a + [x] + ([y] + b);
    assert ea + [e] + eb == ea + ([e] + eb);
    WeaveMid(a, ea, x, [y] + b, [e] + eb);
    assert ([e] + eb)[1..] == eb;
    WeaveHead(y, b, eb);
  }

  /** A node whose children read as nothing (a leaf) reads as its entries. */
  lemma {:induction false} WeaveEmpty<E>(parts: seq<seq<E>>, es: seq<E>)
    requires |parts| == |es| + 1 && forall i :: 0 <= i < |parts| ==> parts[i] == []
    ensures Weave(parts, es) == es
    decreases |es|
  {
    if |es| > 0 {
      WeaveEmpty(parts[1..], es[1..]);
      assert es == [es[0]] + es[1..];
    }
  }

  /** Every entry appears in the reading. */
  lemma {:induction false} WeaveHas<E>(parts: seq<seq<E>>, es: seq<E>, a: nat)
    requires |parts| == |es| + 1 && a < |es|
    ensures es[a] in Weave(parts, es)
    decreases a
  {
    if a > 0 {
      WeaveHas(parts[1..], es[1..], a - 1);
    }
  }

  lemma PreHas<E>(parts: seq<seq<E>>, es: seq<E>, a: nat)
    requires |parts| == |es| && a < |es|
    ensures es[a] in Pre(parts, es)
  {
    if a < |es| - 1 {
      WeaveHas(parts, es[..|es| - 1], a);
    }
  }
}

=== FILE: wrappers.dfy ===
/** Failure-carrying results shared by every container model.

    The containers report failures by throwing C++ exceptions; here each
    operation that can throw returns a `Result`, whose error names the
    exception class. `Undefined` marks the points where the C++ code has
    undefined behaviour (a read of freed memory, an out-of-bounds write
    through a raw pointer, a division by zero, a loop that runs past the end
    of an array): the model stops there instead of guessing what happens. */
module Wrappers {

  datatype Option<+T> = None | Some(value: T)

  /** The exception classes thrown by the library, plus undefined behaviour. */
  datatype Error =
    | OutOfRange     // std::out_of_range
    | RuntimeError   // std::runtime_error
    | Thrown         // a bare `throw "message"` of a string literal
    | Undefined      // undefined behaviour in the C++ code

  datatype Result<+T> = Ok(value: T) | Err(error: Error)

  /** The outcome of an operation that returns nothing but may throw. */
  datatype Outcome = Pass | Fail(error: Error)
}
